=== FILE: README.md ===
# pmd-designer core, modelled in Dafny

This project models the sequential, UI-free logic of the PMD rule designer and
proves properties of it. It covers four groups.

- **Coordinates** (`PmdCoordinatesSystem`, `pmd_coordinates.dfy`).
  - Covers `TextPos2D` and `TextRange`: their ordering, containment and
    string forms.
  - Covers the mapping between RichTextFX offsets and paragraph/column
    positions and PMD's one-based line/column positions. The mapping counts
    every tab before a column as 8 columns.
  - Covers `clip`, and node lookup by binary search over a tree of nodes
    carrying begin and end positions (`AstNodes`).
  - The worked examples of `CoordinateMappingTest.kt` are lemmas in
    `CoordinateExamples`.
- **Rule-test fixtures.**
  - `TestXmlParser` reads the test-code elements of a rule-test document into
    `TestDescriptors.TestDescriptor`s. The document is an abstract element
    tree (`Xml`) with attributes, text, CDATA and comment children.
  - `LiveTestCases` models `LiveTestCase`: `fromDescriptor`, `deepCopy`,
    `freeze`, `unfreeze` and the persistence properties.
  - `TestXmlDumper` models the emission rules of `appendSingle` and
    `appendTests`. `DumpRoundTrip` proves that parsing a dumped case gives
    back its descriptor.
  - `TestCaseUtil` models `doTest`, on a stable sort (`StableSort`).
  - `TestCaseChanges` models the merge, invert and apply algebra of
    `TestCaseChange`.
- **Autocompletion scoring and selection.**
  - `CamelScan` models the scan of `computeMatchingSegments`, shared by
    `CamelCaseMatcher` (starting at `fromIndex`, no penalty) and
    `ResultSelectionStrategy` (from 0, 5 points off per unmatched query
    character). It carries a revision flag: the code as written, or
    corrected (see Findings). Without the word-start restriction the two
    revisions agree, so the first passes are the code as written.
    `CamelScan.WordStart` is `isWordStart`. `CamelFindings` traces the
    as-written loop on concrete inputs.
  - `MatchSelectors` models the `MatchSelector` and `MatchLimiter` pipelines
    and the refining selectors `onlyWordStarts`, `sparseCamelMatcher` and
    `allQueryStarts`.
  - `ResultSelection` models `filterResults`, `evaluateBestSingle` and
    `StringMatchUtil.filterResults`.
  - Every word-starts-only rescan takes the revision as a parameter: the
    second pass of `filterResults` and `evaluateBestSingle`, and
    `onlyWordStarts`. As written, that rescan can throw, and the exception
    ends the whole stream. The no-throw properties are proved for the
    corrected revision, and for pipelines without `onlyWordStarts`.
  - The rendered `TextFlow` is a list of (text, highlighted) segments.
- **Utilities:**
  - `LimitedSizeStacks`, `DataHolders`, `FakeTailLists`, `HighlightUpdates`;
  - `IteratorUtil` (`DesignerIteratorUtil`);
  - `AstTraversal` (`AstTraversalUtil`);
  - `TreeRenderer` (`TextTreeRenderer`);
  - `Serializers` (the `Serializer` combinators over a dynamic value type);
  - `DesignerUtil` (`or`, `selectFirst`, `setOf`, `stackTraceToXPath`,
    `attrToXpathString` with commons-lang's `escapeJava`).

## Conventions

- **Java library behaviour.** `JavaString` spells out the parts of the Java
  library the code relies on:
  - `String.trim` (strips characters up to U+0020);
  - `String.split` for the separators used, with trailing empty strings
    dropped;
  - `Integer.valueOf`, bounded to 32 bits;
  - `toLowerCase` and `equalsIgnoreCase`.
- **Strings** are Dafny strings: sequences of Unicode code points. Java
  counts `String.length`, `charAt`, `substring` and the RichTextFX offsets in
  UTF-16 units. So lengths, offsets, columns and substring bounds agree with
  Java only for text inside the Basic Multilingual Plane. A character outside
  it is one position here and two in Java, and a lone surrogate cannot be
  represented at all.
- **Exceptions** are the `Failure` side of a `Result`.
- **Null** is `None` of an `Option`.
- **Integers** are unbounded except where the code parses a Java `int`.
- **Mutable objects** (`LiveTestCase`, `DataHolder`, the stack) are immutable
  values; a mutator returns the updated value.
- **Identity.** A syntax-tree node is referred to by the root of its tree and
  its path of child indices. Reference equality between nodes is therefore
  equality of root and path.
- **Hash-map iteration order** (the dumper's properties) is a parameter.

## Where the code differs from its documentation

- `LiveTestCase.fromDescriptor` does not copy the descriptor's language
  version (`LiveTestCase.java:255-278`), so `LiveTestCases.FromDescriptor`
  leaves it empty.
- `MatchLimiter.selectNthDegreeBestTies(1)` does not keep only the best ties.
  Its single threshold is the previous record score, so results that reached
  the previous best stay too. `MatchSelectors.NthDegreeKeepsBestTies` states
  what it does keep: everything at or above the final threshold, which
  includes every best tie.
- An expected line number of zero, or one beyond the last line of the code,
  makes `fromDescriptor` throw: it reads `lines.get(line - 1)` unchecked.
  `LiveTestCases.FromDescriptor` fails on exactly those inputs.
- In exact mode, `findNodeCovering` is documented to return the *outermost*
  node whose range is exactly the given range (`PmdCoordinatesSystem.java:165`).
  Its loop walks up from the innermost node at the range's start and returns
  the first node with that range, which is the *innermost* one; the comment
  at line 175 says the earlier code took the highest node on a single-child
  path. `AstTraversalUtil.mapToMyTree` uses this mode.
  `PmdCoordinatesSystem.FindNodeCovering` follows the code.
  `PmdCoordinatesSystem.FindNodeCoveringOutermost` is the documented
  behaviour. `CoordinateExamples.ExactCoveringIsInnermost` shows a node and
  its only child with the same range: the code answers the child, and the
  documentation the parent.

## Model

| member | source | states |
|---|---|---|
| PmdCoordinatesSystem.Compare | src/main/java/net/sourceforge/pmd/util/fxdesigner/util/codearea/PmdCoordinatesSystem.java:281-282 | TextPos2D.compareTo orders positions by line, then column: the result is negative exactly when the first position comes earlier, and zero exactly when they are equal |
| PmdCoordinatesSystem.CompareTotalOrder | src/main/java/net/sourceforge/pmd/util/fxdesigner/util/codearea/PmdCoordinatesSystem.java:317-320 | compareTo is antisymmetric and transitive, and when a <= b <= c while a and c compare equal, all three are the same position |
| PmdCoordinatesSystem.ContainsInclusive | src/main/java/net/sourceforge/pmd/util/fxdesigner/util/codearea/PmdCoordinatesSystem.java:231-237 | both contains methods include both ends. For an inner range whose start is not after its end, a range contains it exactly when it contains its two ends; every such range contains itself |
| PmdCoordinatesSystem.FullLine | src/main/java/net/sourceforge/pmd/util/fxdesigner/util/codearea/PmdCoordinatesSystem.java:262-264 | fullLine(line, length) contains exactly the positions of that line whose column lies between 0 and length, both ends included |
| PmdCoordinatesSystem.PosFromString | src/main/java/net/sourceforge/pmd/util/fxdesigner/util/codearea/PmdCoordinatesSystem.java:323-326 | fromString drops every character that is not a digit or a comma, splits at commas and parses two ints; it fails when a piece is missing or does not parse, and any position it returns has non-negative coordinates |
| PmdCoordinatesSystem.RangeFromString | src/main/java/net/sourceforge/pmd/util/fxdesigner/util/codearea/PmdCoordinatesSystem.java:267-270 | TextRange.fromString splits at '-' and parses both halves; a range it returns has a non-negative start line and end column |
| PmdCoordinatesSystem.PosStringRoundTrip | src/main/java/net/sourceforge/pmd/util/fxdesigner/util/codearea/PmdCoordinatesSystem.java:313-326 | fromString(toString(p)) gives back p for every position with non-negative 32-bit coordinates |
| PmdCoordinatesSystem.PosFromPaddedString | src/main/java/net/sourceforge/pmd/util/fxdesigner/util/codearea/PmdCoordinatesSystem.java:323-326 | text around a printed position that has no digits or commas is ignored by fromString |
| PmdCoordinatesSystem.PrintedPosHasNoDash | src/main/java/net/sourceforge/pmd/util/fxdesigner/util/codearea/PmdCoordinatesSystem.java:313-315 | a printed non-negative position holds no '-', so a printed range splits only at its separator |
| PmdCoordinatesSystem.RangeStringRoundTrip | src/main/java/net/sourceforge/pmd/util/fxdesigner/util/codearea/PmdCoordinatesSystem.java:257-270 | TextRange.fromString(toString(r)) gives back r for every range with non-negative 32-bit coordinates |
| PmdCoordinatesSystem.OffsetToPosition | src/main/java/net/sourceforge/pmd/util/fxdesigner/util/codearea/PmdCoordinatesSystem.java:53-55 | offsetToPosition with forward bias succeeds exactly for offsets between 0 and the text length; the paragraph start plus the column it returns equals the offset |
| PmdCoordinatesSystem.OffsetToPositionOfParStart | src/main/java/net/sourceforge/pmd/util/fxdesigner/util/codearea/PmdCoordinatesSystem.java:53-55 | offsetToPosition maps the start of paragraph p plus c back to (p, c) for every column up to the paragraph's length |
| PmdCoordinatesSystem.PmdColumnLoopCountsTabs | src/main/java/net/sourceforge/pmd/util/fxdesigner/util/codearea/PmdCoordinatesSystem.java:91-101 | the column loop adds 7 for each tab before the RichTextFX column, clamped to the paragraph |
| PmdCoordinatesSystem.PmdColumnFromRtfxColumn | src/main/java/net/sourceforge/pmd/util/fxdesigner/util/codearea/PmdCoordinatesSystem.java:91-101 | the PMD column is the RichTextFX column, plus 7 per tab before it, plus 1 |
| PmdCoordinatesSystem.RtfxColumnFromPmdColumn | src/main/java/net/sourceforge/pmd/util/fxdesigner/util/codearea/PmdCoordinatesSystem.java:79-89 | columns up to 1 map to column - 1 unchanged; otherwise the result lies between 0 and column - 1; in a paragraph without tabs it is column - 1, and charAt fails exactly when that passes the paragraph's end |
| PmdCoordinatesSystem.RtfxLoopUndoesTabs | src/main/java/net/sourceforge/pmd/util/fxdesigner/util/codearea/PmdCoordinatesSystem.java:79-89 | the RichTextFX column loop removes exactly the 7 columns that each tab before column c added |
| PmdCoordinatesSystem.ColumnRoundTrip | src/main/java/net/sourceforge/pmd/util/fxdesigner/util/codearea/PmdCoordinatesSystem.java:79-101 | converting a RichTextFX column to a PMD column and back gives the original column, for every column within the paragraph |
| PmdCoordinatesSystem.LineParInverse | src/main/java/net/sourceforge/pmd/util/fxdesigner/util/codearea/PmdCoordinatesSystem.java:39-46 | converting a PMD line to a paragraph index and back is the identity, in both directions |
| PmdCoordinatesSystem.Clip | src/main/java/net/sourceforge/pmd/util/fxdesigner/util/codearea/PmdCoordinatesSystem.java:104-106 | clip returns val when it lies in [min, max] and the nearer bound otherwise; when max < min it returns min |
| PmdCoordinatesSystem.GetOffsetFromPmdPosition | src/main/java/net/sourceforge/pmd/util/fxdesigner/util/codearea/PmdCoordinatesSystem.java:72-76 | a successful result lies in [0, max(length - 1, 0)] and names an existing line; any existing line with column 1 or less succeeds |
| PmdCoordinatesSystem.GetPmdLineAndColumnFromOffset | src/main/java/net/sourceforge/pmd/util/fxdesigner/util/codearea/PmdCoordinatesSystem.java:53-59 | succeeds exactly for offsets between 0 and the text length, and returns an existing 1-based line and a column of at least 1 |
| PmdCoordinatesSystem.PmdPositionIn | src/main/java/net/sourceforge/pmd/util/fxdesigner/util/codearea/PmdCoordinatesSystem.java:53-59 | the same over the paragraphs of the text |
| PmdCoordinatesSystem.PmdPositionAt | src/main/java/net/sourceforge/pmd/util/fxdesigner/util/codearea/PmdCoordinatesSystem.java:53-59 | offset (start of paragraph p) + c maps to line p + 1 and the tab-expanded column of c |
| PmdCoordinatesSystem.OffsetToPmdPosition | src/main/java/net/sourceforge/pmd/util/fxdesigner/util/codearea/PmdCoordinatesSystem.java:53-59 | the same, stated for a whole text |
| PmdCoordinatesSystem.PositionToOffset | src/main/java/net/sourceforge/pmd/util/fxdesigner/util/codearea/PmdCoordinatesSystem.java:72-89 | the PMD position of a character maps back to that character's offset |
| PmdCoordinatesSystem.PositionRoundTrip | src/main/java/net/sourceforge/pmd/util/fxdesigner/util/codearea/PmdCoordinatesSystem.java:53-89 | offset and PMD position convert into each other, in both directions, for every character of the text |
| PmdCoordinatesSystem.OffsetRoundTrip | src/main/java/net/sourceforge/pmd/util/fxdesigner/util/codearea/PmdCoordinatesSystem.java:53-89 | every offset inside the text survives conversion to a PMD position and back |
| PmdCoordinatesSystem.EndOffsetClipped | src/main/java/net/sourceforge/pmd/util/fxdesigner/util/codearea/PmdCoordinatesSystem.java:72-76 | the offset just past the text converts to a position that maps back to length - 1, because of the clip |
| PmdCoordinatesSystem.BinarySearchInChildren | src/main/java/net/sourceforge/pmd/util/fxdesigner/util/codearea/PmdCoordinatesSystem.java:132-157 | a child it returns lies within the search bounds and either starts at the target or starts before the target and ends at or after it |
| PmdCoordinatesSystem.BinarySearchComplete | src/main/java/net/sourceforge/pmd/util/fxdesigner/util/codearea/PmdCoordinatesSystem.java:132-157 | among ordered siblings with well-formed ranges, the child that contains the target is the one found |
| PmdCoordinatesSystem.FindNodeRec | src/main/java/net/sourceforge/pmd/util/fxdesigner/util/codearea/PmdCoordinatesSystem.java:125-128 | the descent returns a path inside the tree to a node none of whose children the search finds; unless that node is the root, the target hit it |
| PmdCoordinatesSystem.FindNodeAt | src/main/java/net/sourceforge/pmd/util/fxdesigner/util/codearea/PmdCoordinatesSystem.java:113-115 | a node it returns exists in the tree and contains the target |
| PmdCoordinatesSystem.FindNodeRecInnermost | src/main/java/net/sourceforge/pmd/util/fxdesigner/util/codearea/PmdCoordinatesSystem.java:125-157 | in a tree with ordered, nested ranges that contains the target, the descent ends at a node containing it, and none of that node's children contains it |
| PmdCoordinatesSystem.FindNodeAtInnermost | src/main/java/net/sourceforge/pmd/util/fxdesigner/util/codearea/PmdCoordinatesSystem.java:113-128 | in such a tree findNodeAt always answers, and answers with the innermost node containing the target |
| PmdCoordinatesSystem.ClosestCovering | src/main/java/net/sourceforge/pmd/util/fxdesigner/util/codearea/PmdCoordinatesSystem.java:170-173 | the walk up from the innermost node returns the closest ancestor whose range contains the query range; when there is none, no ancestor contains it |
| PmdCoordinatesSystem.CoveringAncestor | src/main/java/net/sourceforge/pmd/util/fxdesigner/util/codearea/PmdCoordinatesSystem.java:168-185 | not exact: the closest covering ancestor. Exact: that same ancestor if its range equals the query range, else nothing, because the loop stops at the first covering range |
| PmdCoordinatesSystem.FindNodeCovering | src/main/java/net/sourceforge/pmd/util/fxdesigner/util/codearea/PmdCoordinatesSystem.java:168-185 | a result exists in the tree; not exact, its range contains the query range; exact, its range equals it |
| PmdCoordinatesSystem.OutermostExact | src/main/java/net/sourceforge/pmd/util/fxdesigner/util/codearea/PmdCoordinatesSystem.java:161-166 | from an ancestor whose range is the given range, the outermost ancestor above it with that range: every node in between has the range, and its own parent, if any, does not |
| PmdCoordinatesSystem.FindNodeCoveringOutermost | src/main/java/net/sourceforge/pmd/util/fxdesigner/util/codearea/PmdCoordinatesSystem.java:161-166 | the documented exact mode: a node exists exactly when findNodeCovering finds one; it is that node or an ancestor of it, every node between them has the range, and its parent does not |
| CoordinateExamples.NormalText | src/test/kotlin/net/sourceforge/pmd/util/fxdesigner/util/codearea/CoordinateMappingTest.kt:21-31 | on "fof foo" PMD column c is offset c - 1 in both directions |
| CoordinateExamples.ParagraphsOfTwoLines | src/test/kotlin/net/sourceforge/pmd/util/fxdesigner/util/codearea/CoordinateMappingTest.kt:33-48 | "123456\n12345" has the two paragraphs the tests address |
| CoordinateExamples.TwoLinesOffsets | src/test/kotlin/net/sourceforge/pmd/util/fxdesigner/util/codearea/CoordinateMappingTest.kt:33-39 | line 2, columns 1 and 2 are offsets 7 and 8 |
| CoordinateExamples.TwoLinesFeed | src/test/kotlin/net/sourceforge/pmd/util/fxdesigner/util/codearea/CoordinateMappingTest.kt:45 | the line feed at offset 6 is column 7 of line 1 |
| CoordinateExamples.TwoLinesPositions | src/test/kotlin/net/sourceforge/pmd/util/fxdesigner/util/codearea/CoordinateMappingTest.kt:46-47 | offsets 7 and 8 are line 2, columns 1 and 2 |
| CoordinateExamples.LeadingTab | src/test/kotlin/net/sourceforge/pmd/util/fxdesigner/util/codearea/CoordinateMappingTest.kt:50-65 | on "\tfof foo" PMD columns 1 to 8 all map to offset 0, columns 9 and 10 to offsets 1 and 2, and offsets 0, 1, 2 to columns 1, 9, 10 |
| CoordinateExamples.ThreeTabs | src/test/kotlin/net/sourceforge/pmd/util/fxdesigner/util/codearea/CoordinateMappingTest.kt:67-77 | on "\t\t\t" columns 1 and 2 map to offset 0, and offsets 0, 1, 2 to columns 1, 9, 17 |
| CoordinateExamples.EmptyText | src/test/kotlin/net/sourceforge/pmd/util/fxdesigner/util/codearea/CoordinateMappingTest.kt:79-94 | in an empty area (1, 1) is offset 0 and offset 0 is (1, 1); column 2 and offset 2 both fail with an index error |
| CoordinateExamples.ExactCoveringIsInnermost | src/main/java/net/sourceforge/pmd/util/fxdesigner/util/codearea/PmdCoordinatesSystem.java:161-185 | on a node whose only child has the same range, exact findNodeCovering answers the child, while the documented outermost node is the parent |
| TestXmlParser.ReinitializeRule | src/main/java/net/sourceforge/pmd/util/fxdesigner/model/testing/TestXmlParser.java:67-74 | reinitializeRule is false exactly when the attribute is present and equals "false" or "0", ignoring case |
| TestXmlParser.FlagUnlessFalse | src/main/java/net/sourceforge/pmd/util/fxdesigner/model/testing/TestXmlParser.java:76-92 | regressionTest and useAuxClasspath are false exactly when the attribute is present and equals "false", ignoring case |
| TestXmlParser.ReadProperties | src/main/java/net/sourceforge/pmd/util/fxdesigner/model/testing/TestXmlParser.java:94-100 | reading the rule properties succeeds exactly when every rule-property element has a name attribute |
| TestXmlParser.PropertiesBefore | src/main/java/net/sourceforge/pmd/util/fxdesigner/model/testing/TestXmlParser.java:94-100 | the same for the first n rule-property elements |
| TestXmlParser.ReadPropertiesKeys | src/main/java/net/sourceforge/pmd/util/fxdesigner/model/testing/TestXmlParser.java:94-100 | the keys read are exactly the names of the rule-property elements |
| TestXmlParser.ReadPropertiesLastWins | src/main/java/net/sourceforge/pmd/util/fxdesigner/model/testing/TestXmlParser.java:96-99 | for a repeated name, setProperty keeps the trimmed text of the last element with that name |
| TestXmlParser.PropertiesBeforeLastWins | src/main/java/net/sourceforge/pmd/util/fxdesigner/model/testing/TestXmlParser.java:96-99 | the same after the first n elements |
| TestXmlParser.ReadDistinctProperties | src/main/java/net/sourceforge/pmd/util/fxdesigner/model/testing/TestXmlParser.java:94-100 | elements with pairwise distinct names read back as exactly the map of names to trimmed texts |
| TestXmlParser.ReadMessages | src/main/java/net/sourceforge/pmd/util/fxdesigner/model/testing/TestXmlParser.java:102-110 | no expected-messages element gives no messages; every message read is trimmed |
| TestXmlParser.TrimmedTexts | src/main/java/net/sourceforge/pmd/util/fxdesigner/model/testing/TestXmlParser.java:106-109 | one trimmed text per message element, in document order |
| TestXmlParser.ParseInts | src/main/java/net/sourceforge/pmd/util/fxdesigner/model/testing/TestXmlParser.java:117-119 | Integer.valueOf over the pieces succeeds exactly when every piece parses; it then returns their values in order, and otherwise fails on one of the pieces |
| TestXmlParser.ReadLineNumbers | src/main/java/net/sourceforge/pmd/util/fxdesigner/model/testing/TestXmlParser.java:112-120 | no expected-linenumbers element gives the empty list; every line number read fits in an int |
| TestXmlParser.LineNumbersRoundTrip | src/main/java/net/sourceforge/pmd/util/fxdesigner/model/testing/TestXmlParser.java:116-119 | a non-empty list of ints, joined with commas and split at " *, *", parses back to the same list |
| TestXmlParser.GetNodeValue | src/main/java/net/sourceforge/pmd/util/fxdesigner/model/testing/TestXmlParser.java:168-179 | an optional tag is absent exactly when no element has that name; otherwise its value is the trimmed text of the first such element |
| TestXmlParser.RequiredNodeValue | src/main/java/net/sourceforge/pmd/util/fxdesigner/model/testing/TestXmlParser.java:168-179 | a required tag fails exactly when no element has that name, with the tag named in the error |
| TestXmlParser.FindFragment | src/main/java/net/sourceforge/pmd/util/fxdesigner/model/testing/TestXmlParser.java:132-138 | the code-fragment loop fails exactly when a fragment has no id; otherwise it finds nothing exactly when no fragment has the id, and what it finds is trimmed |
| TestXmlParser.FragmentBefore | src/main/java/net/sourceforge/pmd/util/fxdesigner/model/testing/TestXmlParser.java:133-138 | the same over the first n fragments |
| TestXmlParser.FragmentBeforeNone | src/main/java/net/sourceforge/pmd/util/fxdesigner/model/testing/TestXmlParser.java:133-138 | among the first n fragments, nothing is found exactly when none has the id |
| TestXmlParser.FindFragmentLastWins | src/main/java/net/sourceforge/pmd/util/fxdesigner/model/testing/TestXmlParser.java:133-138 | the code found is the text of the last fragment with the id, because the loop does not stop at the first |
| TestXmlParser.FragmentBeforeLastWins | src/main/java/net/sourceforge/pmd/util/fxdesigner/model/testing/TestXmlParser.java:133-138 | the same among the first n fragments |
| TestXmlParser.ReadCode | src/main/java/net/sourceforge/pmd/util/fxdesigner/model/testing/TestXmlParser.java:122-143 | a code element wins; with neither code nor code-ref the case fails with the "Supply either a code or a code-ref" error; any code read is trimmed |
| TestXmlParser.CodeFromLastFragment | src/main/java/net/sourceforge/pmd/util/fxdesigner/model/testing/TestXmlParser.java:124-142 | without a code element, the code read is the text of the last code-fragment whose id matches the first code-ref |
| TestXmlParser.ReadExpectedProblems | src/main/java/net/sourceforge/pmd/util/fxdesigner/model/testing/TestXmlParser.java:146 | expected-problems succeeds exactly when the tag is present and its text parses as an int |
| TestXmlParser.ReadLanguageVersion | src/main/java/net/sourceforge/pmd/util/fxdesigner/model/testing/TestXmlParser.java:150-157 | the case fails exactly when a source-type is given and names no known language version; otherwise the result is the source-type, if any |
| TestXmlParser.ParseSingle | src/main/java/net/sourceforge/pmd/util/fxdesigner/model/testing/TestXmlParser.java:65-166 | parseSingle succeeds exactly when the properties, line numbers, code, description, expected problems and language version all read successfully |
| TestXmlParser.ParseSingleFields | src/main/java/net/sourceforge/pmd/util/fxdesigner/model/testing/TestXmlParser.java:158-165 | a descriptor that parses carries each field as read: code, description, problem count, version, the three flags, messages, line numbers and properties |
| TestXmlParser.RequiredTags | src/main/java/net/sourceforge/pmd/util/fxdesigner/model/testing/TestXmlParser.java:145-146 | a case without a description or without expected-problems fails |
| TestXmlParser.CollectFrom | src/main/java/net/sourceforge/pmd/util/fxdesigner/model/testing/TestXmlParser.java:51-61 | descriptors and failures together account for every case; each descriptor is its case's parse, numbered by its position in the document; each failure is the error of its case; both lists keep document order |
| TestXmlParser.CollectPartition | src/main/java/net/sourceforge/pmd/util/fxdesigner/model/testing/TestXmlParser.java:51-61 | case j is among the descriptors exactly when it parsed, and among the failures exactly when it did not |
| TestXmlParser.ParseTestsPartition | src/main/java/net/sourceforge/pmd/util/fxdesigner/model/testing/TestXmlParser.java:45-63 | the same for the test-code elements of a document: a case that parses is kept under its number, and one that fails is reported once with its index and cause |
| TestXmlParser.ParseXmlTests | src/main/java/net/sourceforge/pmd/util/fxdesigner/model/testing/TestXmlParser.java:224-226 | the failures reported are always those of the parse, even when the load then throws. The live test cases are the parsed descriptors, each converted by fromDescriptor in order. The load throws exactly when some conversion does, with the exception of the first one that does |
| TestXmlDumper.TextElement | src/main/java/net/sourceforge/pmd/util/fxdesigner/model/testing/TestXmlDumper.java:66-68 | an element filled by setTextContent is flat, keeps its tag and attributes, and has exactly the given text as content, which parseTextNode reads back trimmed |
| TestXmlDumper.NonNullProperties | src/main/java/net/sourceforge/pmd/util/fxdesigner/model/testing/TestXmlDumper.java:70-73 | the properties written are exactly those whose value is not null, with their values |
| TestXmlDumper.PropertyElements | src/main/java/net/sourceforge/pmd/util/fxdesigner/model/testing/TestXmlDumper.java:74-82 | one rule-property element per key, in map iteration order, with the key as its name attribute and the trimmed value as its text |
| TestXmlDumper.MessageElements | src/main/java/net/sourceforge/pmd/util/fxdesigner/model/testing/TestXmlDumper.java:92-96 | one message element per violation, in order, each reading back as that violation's trimmed message |
| TestXmlDumper.MessagesGroup | src/main/java/net/sourceforge/pmd/util/fxdesigner/model/testing/TestXmlDumper.java:90-98 | the expected-messages element is written exactly when there are violations and every one has a message, and it holds those message elements |
| TestXmlDumper.StartLines | src/main/java/net/sourceforge/pmd/util/fxdesigner/model/testing/TestXmlDumper.java:103-104 | the start line of each violation's range, in order |
| TestXmlDumper.LinesGroup | src/main/java/net/sourceforge/pmd/util/fxdesigner/model/testing/TestXmlDumper.java:100-108 | the expected-linenumbers element is written exactly when there are violations and every one has a range; its text is the start lines joined by commas |
| TestXmlDumper.CodeElement | src/main/java/net/sourceforge/pmd/util/fxdesigner/model/testing/TestXmlDumper.java:110-112 | the code element reads back as the trimmed source, despite the line feed and the eight spaces around it |
| TestXmlDumper.CodePaddingTrims | src/main/java/net/sourceforge/pmd/util/fxdesigner/model/testing/TestXmlDumper.java:111 | the CDATA text is "\n" + trimmed source + "\n" plus eight spaces, and trimming it gives back the trimmed source |
| TestXmlDumper.VersionGroup | src/main/java/net/sourceforge/pmd/util/fxdesigner/model/testing/TestXmlDumper.java:115-119 | the source-type element is written exactly when there is a language version, and it reads back as the trimmed version name |
| TestXmlDumper.AppendSingle | src/main/java/net/sourceforge/pmd/util/fxdesigner/model/testing/TestXmlDumper.java:64-120 | appendSingle produces a test-code element without attributes |
| TestXmlDumper.AppendTests | src/main/java/net/sourceforge/pmd/util/fxdesigner/model/testing/TestXmlDumper.java:49-62 | every case adds at least one and at most two nodes to the root |
| TestXmlDumper.AppendTestsOnePerCase | src/main/java/net/sourceforge/pmd/util/fxdesigner/model/testing/TestXmlDumper.java:49-62 | the elements under the root are one per case, in order: the adopted original when there is nothing to undo and an original exists, otherwise a fresh dump of the case |
| TestXmlDumper.PartsShaped | src/main/java/net/sourceforge/pmd/util/fxdesigner/model/testing/TestXmlDumper.java:64-120 | every group appendSingle writes is made of flat elements carrying that group's tag |
| TestXmlDumper.FoundDescription | src/main/java/net/sourceforge/pmd/util/fxdesigner/model/testing/TestXmlDumper.java:66-68 | a search for "description" in the dump finds exactly the description element |
| TestXmlDumper.FoundProperties | src/main/java/net/sourceforge/pmd/util/fxdesigner/model/testing/TestXmlDumper.java:74-82 | a search for "rule-property" finds exactly the property elements, in order |
| TestXmlDumper.FoundProblems | src/main/java/net/sourceforge/pmd/util/fxdesigner/model/testing/TestXmlDumper.java:86-88 | a search for "expected-problems" finds exactly one element |
| TestXmlDumper.FoundMessages | src/main/java/net/sourceforge/pmd/util/fxdesigner/model/testing/TestXmlDumper.java:90-98 | a search for "expected-messages" finds the group, if written, and nothing else |
| TestXmlDumper.FoundLines | src/main/java/net/sourceforge/pmd/util/fxdesigner/model/testing/TestXmlDumper.java:100-108 | a search for "expected-linenumbers" finds the group, if written, and nothing else |
| TestXmlDumper.FoundCode | src/main/java/net/sourceforge/pmd/util/fxdesigner/model/testing/TestXmlDumper.java:110-112 | a search for "code" finds exactly the code element |
| TestXmlDumper.FoundVersion | src/main/java/net/sourceforge/pmd/util/fxdesigner/model/testing/TestXmlDumper.java:115-119 | a search for "source-type" finds the group, if written, and nothing else |
| DumpRoundTrip.PropertiesRoundTrip | src/main/java/net/sourceforge/pmd/util/fxdesigner/model/testing/TestXmlDumper.java:74-82 | the parser reads the written rule-property elements back as the property map, each value trimmed, whatever the iteration order |
| DumpRoundTrip.DumpedDescriptor | src/main/java/net/sourceforge/pmd/util/fxdesigner/model/testing/TestXmlParser.java:158-165 | what the parser makes of a dump expects as many problems as the case has violations, and leaves the three flags at true |
| DumpRoundTrip.DumpedDescription | src/main/java/net/sourceforge/pmd/util/fxdesigner/model/testing/TestXmlDumper.java:66-68 | the description reads back trimmed |
| DumpRoundTrip.DumpedProblems | src/main/java/net/sourceforge/pmd/util/fxdesigner/model/testing/TestXmlDumper.java:86-88 | the violation count, printed and read with parseInt, reads back unchanged while it fits in an int |
| DumpRoundTrip.MessagesGroupReads | src/main/java/net/sourceforge/pmd/util/fxdesigner/model/testing/TestXmlDumper.java:90-98 | an element whose expected-messages group is the written one reads back the trimmed messages, or none when the group was left out |
| DumpRoundTrip.DumpedMessages | src/main/java/net/sourceforge/pmd/util/fxdesigner/model/testing/TestXmlDumper.java:90-98 | a dump's messages read back as the trimmed messages when all are present, and as none otherwise |
| DumpRoundTrip.DumpedLines | src/main/java/net/sourceforge/pmd/util/fxdesigner/model/testing/TestXmlDumper.java:100-108 | a dump's line numbers read back as the start lines when every range is present and every start line fits in an int, and as none otherwise |
| DumpRoundTrip.DumpedCode | src/main/java/net/sourceforge/pmd/util/fxdesigner/model/testing/TestXmlDumper.java:110-112 | a dump's code reads back as the trimmed source |
| DumpRoundTrip.DumpedVersion | src/main/java/net/sourceforge/pmd/util/fxdesigner/model/testing/TestXmlDumper.java:115-119 | a dump's source-type reads back as the trimmed language version, when there is one |
| DumpRoundTrip.DumpedProperties | src/main/java/net/sourceforge/pmd/util/fxdesigner/model/testing/TestXmlDumper.java:70-82 | a dump's properties read back as the non-null properties, trimmed |
| DumpRoundTrip.ParseSingleOf | src/main/java/net/sourceforge/pmd/util/fxdesigner/model/testing/TestXmlParser.java:65-166 | parseSingle returns exactly the descriptor whose every field its element reads back as |
| DumpRoundTrip.DumpParseRoundTrip | src/main/java/net/sourceforge/pmd/util/fxdesigner/model/testing/TestXmlDumper.java:64-120 | parsing the element appendSingle writes gives the descriptor of the case. This holds when the violation count and start lines fit in an int and the language version is known |
| LiveTestCases.NewTestCase | src/main/java/net/sourceforge/pmd/util/fxdesigner/model/testing/LiveTestCase.java:41-48 | a new case is frozen and has no violations and no properties |
| LiveTestCases.SetProperties | src/main/java/net/sourceforge/pmd/util/fxdesigner/model/testing/LiveTestCase.java:127-130 | setProperties clears the map and puts all of the new one, so the properties become exactly the new map; nothing else changes |
| LiveTestCases.Freeze | src/main/java/net/sourceforge/pmd/util/fxdesigner/model/testing/LiveTestCase.java:174-177 | freeze sets frozen and changes nothing else |
| LiveTestCases.Unfreeze | src/main/java/net/sourceforge/pmd/util/fxdesigner/model/testing/LiveTestCase.java:179-182 | unfreeze clears frozen and changes nothing else |
| LiveTestCases.FreezeUnfreeze | src/main/java/net/sourceforge/pmd/util/fxdesigner/model/testing/LiveTestCase.java:170-182 | freeze after unfreeze is freeze, unfreeze after freeze is unfreeze, and a frozen case survives unfreeze then freeze unchanged |
| LiveTestCases.DeepCopy | src/main/java/net/sourceforge/pmd/util/fxdesigner/model/testing/LiveTestCase.java:184-193 | the copy has the same description, violations, properties, language version, source and frozen flag; its status is a new case's |
| LiveTestCases.DeepCopyIdempotent | src/main/java/net/sourceforge/pmd/util/fxdesigner/model/testing/LiveTestCase.java:184-193 | copying a copy gives the same copy, and a case whose status is still unknown is its own copy |
| LiveTestCases.GetPersistenceOnlyProps | src/main/java/net/sourceforge/pmd/util/fxdesigner/model/testing/LiveTestCase.java:137-142 | copying the properties into a Properties succeeds exactly when no value is null, because Properties refuses null values, and it keeps the keys |
| LiveTestCases.SetPersistenceOnlyProps | src/main/java/net/sourceforge/pmd/util/fxdesigner/model/testing/LiveTestCase.java:144-146 | the given entries are put over the existing ones: new keys are added, given keys take the given values, other keys keep theirs, and nothing else changes |
| LiveTestCases.PersistenceRoundTrip | src/main/java/net/sourceforge/pmd/util/fxdesigner/model/testing/LiveTestCase.java:137-146 | saving the properties and loading them into a new case gives back the same properties, when no value is null |
| LiveTestCases.ViolationAt | src/main/java/net/sourceforge/pmd/util/fxdesigner/model/testing/LiveTestCase.java:265-273 | violation i fails exactly when its line number is 0 or past the last source line, since lines.get(line - 1) throws; it carries message i, if there is one, and is not exact |
| LiveTestCases.ViolationsUpTo | src/main/java/net/sourceforge/pmd/util/fxdesigner/model/testing/LiveTestCase.java:265-274 | the first n violations succeed exactly when each one does, and are those violations in order |
| LiveTestCases.FromDescriptor | src/main/java/net/sourceforge/pmd/util/fxdesigner/model/testing/LiveTestCase.java:255-278 | fromDescriptor fails exactly when an expected line number is 0 or past the last source line. Otherwise it copies source and description, leaves no language version, is frozen, has one violation per expected problem, and copies the properties |
| LiveTestCases.FromDescriptorViolation | src/main/java/net/sourceforge/pmd/util/fxdesigner/model/testing/LiveTestCase.java:265-273 | violation i has message i, if any. A non-negative line number gives the full range of that source line; a missing or negative one gives no range |
| LiveTestCases.FromDescriptors | src/main/java/net/sourceforge/pmd/util/fxdesigner/model/testing/TestXmlParser.java:225 | mapping fromDescriptor over the descriptors succeeds exactly when each conversion does, and keeps their order; otherwise it throws the exception of the first conversion that fails |
| TestCaseUtil.DoTest | src/main/java/net/sourceforge/pmd/util/fxdesigner/model/testing/TestCaseUtil.java:23-53 | when the counts differ, the result is a failure naming both counts. Otherwise the test passes, with no message, exactly when the sorted expected violations and the sorted nodes agree pairwise. If they do not, the message names the start offset of the first node that disagrees |
| TestCaseUtil.PassPlacesEveryNode | src/main/java/net/sourceforge/pmd/util/fxdesigner/model/testing/TestCaseUtil.java:33-50 | in a passing test, every reported node lies in the region of some expected violation, and on its line when that line is known |
| TestCaseUtil.ComparedInOrder | src/main/java/net/sourceforge/pmd/util/fxdesigner/model/testing/TestCaseUtil.java:33-37 | the nodes are compared sorted by begin line and the expected violations sorted by region, and each sorted list is a permutation of the original |
| StableSort.SortPermutes | src/main/java/net/sourceforge/pmd/util/fxdesigner/model/testing/TestCaseUtil.java:34 | sorting a list gives a permutation of it |
| StableSort.SortSorted | src/main/java/net/sourceforge/pmd/util/fxdesigner/model/testing/TestCaseUtil.java:34 | sorting a list gives a list ordered by the key |
| StableSort.SortStable | src/main/java/net/sourceforge/pmd/util/fxdesigner/model/testing/TestCaseUtil.java:37 | the sort is stable: elements with equal keys keep their relative order, as List.sort promises |
| StableSort.InsertPermutes | src/main/java/net/sourceforge/pmd/util/fxdesigner/model/testing/TestCaseUtil.java:34 | inserting an element into a list adds exactly that element |
| StableSort.InsertSorted | src/main/java/net/sourceforge/pmd/util/fxdesigner/model/testing/TestCaseUtil.java:34 | inserting into a sorted list keeps it sorted |
| StableSort.InsertWithKey | src/main/java/net/sourceforge/pmd/util/fxdesigner/model/testing/TestCaseUtil.java:37 | inserting an element puts it before every element with an equal key, so among elements with its key it comes first |
| TestCaseChanges.KeepLatest | src/main/java/net/sourceforge/pmd/util/fxdesigner/model/testing/TestCaseChange.java:100-108 | a missing change yields to the other one; two changes fuse into the first change's old value and the second change's new value |
| TestCaseChanges.Invert | src/main/java/net/sourceforge/pmd/util/fxdesigner/model/testing/TestCaseChange.java:96-98 | inverting a change swaps its old and new values; a missing change stays missing |
| TestCaseChanges.MergeWith | src/main/java/net/sourceforge/pmd/util/fxdesigner/model/testing/TestCaseChange.java:46-54 | mergeWith applies keepLatest to each of the four fields |
| TestCaseChanges.InvertChange | src/main/java/net/sourceforge/pmd/util/fxdesigner/model/testing/TestCaseChange.java:56-64 | invert inverts each of the four fields |
| TestCaseChanges.ApplyChange | src/main/java/net/sourceforge/pmd/util/fxdesigner/model/testing/TestCaseChange.java:66-82 | applying a change sets each field that has a change to its new value, and leaves the other fields, the violations and the status untouched |
| TestCaseChanges.KeepLatestMonoid | src/main/java/net/sourceforge/pmd/util/fxdesigner/model/testing/TestCaseChange.java:100-108 | keepLatest has the missing change as identity on both sides, and is associative |
| TestCaseChanges.InvertAntiHomomorphism | src/main/java/net/sourceforge/pmd/util/fxdesigner/model/testing/TestCaseChange.java:96-108 | inverting twice gives back the change, and the inverse of a merge is the merge of the inverses in the opposite order |
| TestCaseChanges.InvertChangeInvolutive | src/main/java/net/sourceforge/pmd/util/fxdesigner/model/testing/TestCaseChange.java:56-64 | inverting a test case change twice gives it back |
| TestCaseChanges.MergeAssociative | src/main/java/net/sourceforge/pmd/util/fxdesigner/model/testing/TestCaseChange.java:46-54 | merging changes is associative, as the undo manager's merging of consecutive changes needs |
| TestCaseChanges.ApplyMerged | src/main/java/net/sourceforge/pmd/util/fxdesigner/model/testing/TestCaseChange.java:46-82 | applying a merged change is the same as applying the earlier change and then the later one |
| TestCaseChanges.UndoRestores | src/main/java/net/sourceforge/pmd/util/fxdesigner/model/testing/TestCaseChange.java:56-82 | undo works: for a change recorded against a state, applying it and then its inverse gives the state back |
| CamelScan.Multiplier | src/main/java/net/sourceforge/pmd/util/fxdesigner/util/autocomplete/matchers/CamelCaseMatcher.java:134-136 | a running-on match earns 8, 4 or 2 times its length |
| CamelScan.Step | src/main/java/net/sourceforge/pmd/util/fxdesigner/util/autocomplete/matchers/CamelCaseMatcher.java:77-170 | an iteration of the scan loop that does not throw moves exactly one character along the candidate |
| CamelScan.CloseKeepsInv | src/main/java/net/sourceforge/pmd/util/fxdesigner/util/autocomplete/matchers/CamelCaseMatcher.java:173-188 | closing the open submatch when the loop ends cannot throw, and the rendering then spells the candidate up to the scan position |
| CamelScan.StartKeepsInv | src/main/java/net/sourceforge/pmd/util/fxdesigner/util/autocomplete/matchers/CamelCaseMatcher.java:96-111 | opening a submatch on a matching character keeps the scan invariant: the rendering spells the scanned candidate, and its highlights spell the consumed query ignoring case |
| CamelScan.RunOnKeepsInv | src/main/java/net/sourceforge/pmd/util/fxdesigner/util/autocomplete/matchers/CamelCaseMatcher.java:113-142 | extending the open submatch by a matching character keeps the scan invariant |
| CamelScan.MismatchKeepsInv | src/main/java/net/sourceforge/pmd/util/fxdesigner/util/autocomplete/matchers/CamelCaseMatcher.java:144-170 | on a mismatch, closing the open submatch cannot throw, and the scan invariant holds with no open submatch |
| CamelScan.MatchStartStepKeepsInv | src/main/java/net/sourceforge/pmd/util/fxdesigner/util/autocomplete/matchers/CamelCaseMatcher.java:85-111 | with the corrected length count, a matching character with no open submatch, whether skipped as no word start or opening a submatch, cannot throw and keeps the invariant |
| CamelScan.MatchRunStepKeepsInv | src/main/java/net/sourceforge/pmd/util/fxdesigner/util/autocomplete/matchers/CamelCaseMatcher.java:113-142 | with the corrected length count, a matching character inside an open submatch cannot throw and keeps the invariant |
| CamelScan.MismatchingStepKeepsInv | src/main/java/net/sourceforge/pmd/util/fxdesigner/util/autocomplete/matchers/CamelCaseMatcher.java:144-170 | with the corrected length count, a mismatching character cannot throw and keeps the invariant |
| CamelScan.StepKeepsInv | src/main/java/net/sourceforge/pmd/util/fxdesigner/util/autocomplete/matchers/CamelCaseMatcher.java:77-170 | with the corrected length count, every loop iteration cannot throw and keeps the invariant |
| CamelScan.ScanKeepsInv | src/main/java/net/sourceforge/pmd/util/fxdesigner/util/autocomplete/matchers/CamelCaseMatcher.java:77-171 | with the corrected length count, the whole loop cannot throw; it ends with the invariant and with the candidate or the query used up |
| CamelScan.RestTexts | src/main/java/net/sourceforge/pmd/util/fxdesigner/util/autocomplete/matchers/CamelCaseMatcher.java:190-194 | appending the unread rest of the candidate as plain text makes the rendering spell the whole candidate, with no new highlight |
| CamelScan.FinishCorrect | src/main/java/net/sourceforge/pmd/util/fxdesigner/util/autocomplete/matchers/CamelCaseMatcher.java:173-205 | finishing a scan cannot throw; the rendering spells the candidate, its highlights are as long as the consumed query, and the score is the scan's. ResultSelectionStrategy's copy subtracts 5 per query character left over |
| CamelScan.CorrectedScanSucceeds | src/main/java/net/sourceforge/pmd/util/fxdesigner/util/autocomplete/matchers/CamelCaseMatcher.java:45-206 | with the corrected length count, computeMatchingSegments never throws, renders the candidate, and scores 0 exactly when nothing is highlighted |
| CamelScan.MatchSegments | src/main/java/net/sourceforge/pmd/util/fxdesigner/util/autocomplete/matchers/CamelCaseMatcher.java:45-206 | the corrected matcher: the rendering spells the candidate, the highlighted characters spell a prefix of the query ignoring case, and an equal-ignoring-case candidate scores PERFECT_SCORE. The camel-case score is non-negative and positive exactly when something is highlighted; the selection-strategy score loses at most 5 per unmatched query character |
| CamelScan.ScanFromIgnoresRevision | src/main/java/net/sourceforge/pmd/util/fxdesigner/util/autocomplete/matchers/CamelCaseMatcher.java:85-94 | without the word-start restriction no character is skipped, so the scan loop as written and the corrected loop take the same steps from any state |
| CamelScan.UnrestrictedScanAsWritten | src/main/java/net/sourceforge/pmd/util/fxdesigner/util/autocomplete/matchers/CamelCaseMatcher.java:45-206 | matching any character, computeMatchingSegments as written never throws and equals the corrected scan |
| CamelFindings.AsWrittenPrefix | src/main/java/net/sourceforge/pmd/util/fxdesigner/util/autocomplete/matchers/CamelCaseMatcher.java:85-94 | as written, a skipped non-word-start character still counts toward the next submatch: on "xbaaAb" against "xab", the scan reaches a submatch of length 4 that covers only 2 characters |
| CamelFindings.AsWrittenOverrunsCandidate | src/main/java/net/sourceforge/pmd/util/fxdesigner/util/autocomplete/matchers/CamelCaseMatcher.java:85-94 | as written, with only word starts, candidate "xbaaAbc" and query "xabz" throw StringIndexOutOfBoundsException for substring(4, 8) on a string of length 7 |
| CamelFindings.AsWrittenCloseOverruns | src/main/java/net/sourceforge/pmd/util/fxdesigner/util/autocomplete/matchers/CamelCaseMatcher.java:147-152 | as written, the mismatch that closes the inflated submatch asks for substring(4, 8) of a 7-character candidate |
| CamelFindings.AsWrittenInflatesScore | src/main/java/net/sourceforge/pmd/util/fxdesigner/util/autocomplete/ResultSelectionStrategy.java:138-146 | as written, ResultSelectionStrategy scores "xbaaAb" against "xab", with only word starts, at 36 |
| CamelFindings.CorrectedPrefix | src/main/java/net/sourceforge/pmd/util/fxdesigner/util/autocomplete/ResultSelectionStrategy.java:138-146 | with the corrected length count, the same scan reaches a submatch of length 2 and a score of 28 |
| CamelFindings.CorrectedScoresMatchedOnly | src/main/java/net/sourceforge/pmd/util/fxdesigner/util/autocomplete/ResultSelectionStrategy.java:138-146 | with the corrected length count, the same candidate and query score 28: 10 for "x", 10 for the word start "A", and 2 times 4 for "b" running on |
| CamelFindings.UnrestrictedPrefix | src/main/java/net/sourceforge/pmd/util/fxdesigner/util/autocomplete/ResultSelectionStrategy.java:45 | the first pass, matching any character, reaches on "xbaaAb" against "xab" the matches "x", "a" and an open "b", scoring 14 |
| CamelFindings.UnrestrictedScoresNine | src/main/java/net/sourceforge/pmd/util/fxdesigner/util/autocomplete/ResultSelectionStrategy.java:45 | the first pass scores "xbaaAbc" against "xabz" at 9: 10 for "x", 2 each for "a" and "b", and 5 off for the unmatched "z" |
| CamelFindings.UnrestrictedScoresFourteen | src/main/java/net/sourceforge/pmd/util/fxdesigner/util/autocomplete/ResultSelectionStrategy.java:45 | the first pass scores "xbaaAb" against "xab" at 14 |
| CamelFindings.SelectionAsWrittenThrows | src/main/java/net/sourceforge/pmd/util/fxdesigner/util/autocomplete/ResultSelectionStrategy.java:39-87 | as written, evaluateBestSingle and filterResults with limit 1 throw StringIndexOutOfBoundsException for substring(4, 8) on candidate "xbaaAbc" and query "xabz". The first pass scores 9, so the second pass runs |
| CamelFindings.OnlyWordStartsAsWrittenThrows | src/main/java/net/sourceforge/pmd/util/fxdesigner/util/autocomplete/matchers/CamelCaseMatcher.java:229-250 | as written, StringMatchUtil.filterResults through onlyWordStarts throws the same exception on the single candidate "xbaaAbc" and query "xabz" |
| CamelFindings.SelectionAsWrittenInflates | src/main/java/net/sourceforge/pmd/util/fxdesigner/util/autocomplete/ResultSelectionStrategy.java:75-87 | evaluateBestSingle scores "xbaaAb" against "xab" at 36 as written and 28 corrected |
| MatchSelectors.TiesFoldSpec | src/main/java/net/sourceforge/pmd/util/fxdesigner/util/autocomplete/matchers/MatchSelector.java:59-67 | running the selectBestTies loop over a non-empty stream raises the best score to the stream's maximum. The ties are kept when the stream's maximum is lower, extended with the stream's results at that score when it is equal, and replaced by the stream's best results when it is higher |
| MatchSelectors.SelectBestTiesKeepsMaximal | src/main/java/net/sourceforge/pmd/util/fxdesigner/util/autocomplete/matchers/MatchSelector.java:51-71 | selectBestTies yields exactly the results with the highest score, in stream order, and nothing for an empty stream |
| MatchSelectors.SelectNthDegreeBestTies | src/main/java/net/sourceforge/pmd/util/fxdesigner/util/autocomplete/matchers/MatchLimiter.java:70-73 | selectNthDegreeBestTies throws IllegalArgumentException exactly when the level is not positive |
| MatchSelectors.NthStepKeepsInv | src/main/java/net/sourceforge/pmd/util/fxdesigner/util/autocomplete/matchers/MatchLimiter.java:83-97 | each result keeps the thresholds descending and below the best score, keeps every tie at or above the last threshold, never lowers the last threshold, and makes the best score the maximum seen |
| MatchSelectors.NthFoldInv | src/main/java/net/sourceforge/pmd/util/fxdesigner/util/autocomplete/matchers/MatchLimiter.java:83-98 | the whole loop keeps that invariant, and its best score is the maximum of the stream |
| MatchSelectors.NthFoldTies | src/main/java/net/sourceforge/pmd/util/fxdesigner/util/autocomplete/matchers/MatchLimiter.java:83-98 | after the loop, the kept results are exactly the earlier ties and the stream's results that reach the final last threshold, in order |
| MatchSelectors.NthDegreeKeepsBestTies | src/main/java/net/sourceforge/pmd/util/fxdesigner/util/autocomplete/matchers/MatchLimiter.java:70-103 | for a positive level, the result is the stream's results at or above some threshold no higher than the best score, in stream order, so every best-scoring result is kept |
| MatchSelectors.LimitToBest | src/main/java/net/sourceforge/pmd/util/fxdesigner/util/autocomplete/matchers/MatchSelector.java:41-44 | limitToBest throws exactly when the limit is negative, and otherwise keeps min(limit, size) results |
| MatchSelectors.SortedPrefixDominates | src/main/java/net/sourceforge/pmd/util/fxdesigner/util/autocomplete/matchers/MatchSelector.java:42-43 | in a list sorted by descending score, the first n results descend, and none after them scores higher than any of them |
| MatchSelectors.LimitToBestKeepsBest | src/main/java/net/sourceforge/pmd/util/fxdesigner/util/autocomplete/matchers/MatchSelector.java:41-44 | limitToBest yields results in descending score order, all drawn from the input, and every result it drops scores no higher than every result it keeps |
| MatchSelectors.KeepBest | src/main/java/net/sourceforge/pmd/util/fxdesigner/util/autocomplete/matchers/CamelCaseMatcher.java:246-248 | the refined result replaces the previous one only when it scores strictly higher, so the kept score is the larger one |
| MatchSelectors.OnlyWordStartsRefine | src/main/java/net/sourceforge/pmd/util/fxdesigner/util/autocomplete/matchers/CamelCaseMatcher.java:229-250 | onlyWordStarts throws exactly when its word-starts-only rescan throws, with that exception. Otherwise it keeps the candidate and query, and gives the previous result or the rescan, whichever scores higher. With the corrected scan it never throws |
| MatchSelectors.SparseCamelRefine | src/main/java/net/sourceforge/pmd/util/fxdesigner/util/autocomplete/matchers/CamelCaseMatcher.java:261-267 | sparseCamelMatcher keeps the candidate and query, never lowers the score, and scores at least the full scan from the start. That scan is the code as written (CamelScan.UnrestrictedScanAsWritten) |
| MatchSelectors.BestStartPicks | src/main/java/net/sourceforge/pmd/util/fxdesigner/util/autocomplete/matchers/CamelCaseMatcher.java:294-300 | the allQueryStarts loop returns the result it started from or the scan from some occurrence of the first query character, and never a lower score |
| MatchSelectors.BestStartDominates | src/main/java/net/sourceforge/pmd/util/fxdesigner/util/autocomplete/matchers/CamelCaseMatcher.java:294-300 | the loop's result scores at least as well as the scan from every later occurrence of the first query character |
| MatchSelectors.AllQueryStartsBest | src/main/java/net/sourceforge/pmd/util/fxdesigner/util/autocomplete/matchers/CamelCaseMatcher.java:274-305 | for an imperfect result with a non-empty query, allQueryStarts gives the impossible match when the candidate lacks the query's first character. Otherwise it never lowers the score and beats or ties the scan from every occurrence of that character |
| MatchSelectors.RefineEach | src/main/java/net/sourceforge/pmd/util/fxdesigner/util/autocomplete/matchers/CamelCaseMatcher.java:229-267 | a refining selector that does not throw keeps the stream's length: one result per result it was given |
| MatchSelectors.AndThenAssociative | src/main/java/net/sourceforge/pmd/util/fxdesigner/util/autocomplete/matchers/MatchSelector.java:34-36 | chaining selectors with andThen is associative |
| MatchSelectors.RefineEachRaises | src/main/java/net/sourceforge/pmd/util/fxdesigner/util/autocomplete/matchers/CamelCaseMatcher.java:229-267 | sparseCamelMatcher never throws, and onlyWordStarts never throws with the corrected scan. When they do not throw, each keeps every result in place, with the same candidate and query and a score no lower |
| MatchSelectors.RefinersNeverLower | src/main/java/net/sourceforge/pmd/util/fxdesigner/util/autocomplete/matchers/MatchSelector.java:34-36 | an andThen pipeline of onlyWordStarts and sparseCamelMatcher never throws when the scan is corrected or the pipeline has no onlyWordStarts. When it does not throw, it keeps every result in place and never lowers a score |
| ResultSelection.FirstPass | src/main/java/net/sourceforge/pmd/util/fxdesigner/util/autocomplete/ResultSelectionStrategy.java:44-45 | the first pass gives one result per candidate, in candidate order, each for that candidate and the query |
| ResultSelection.FirstPassAt | src/main/java/net/sourceforge/pmd/util/fxdesigner/util/autocomplete/ResultSelectionStrategy.java:45 | the first-pass result of candidate i is the full scan of that candidate without the word-start restriction |
| ResultSelection.SecondPass | src/main/java/net/sourceforge/pmd/util/fxdesigner/util/autocomplete/ResultSelectionStrategy.java:50-69 | the second pass throws exactly when its word-starts-only rescan throws, with that exception. Otherwise it keeps the candidate and the query and gives the previous result or the rescan, whichever scores higher. With the corrected scan it never throws |
| ResultSelection.SecondPassAll | src/main/java/net/sourceforge/pmd/util/fxdesigner/util/autocomplete/ResultSelectionStrategy.java:50-69 | the second pass over the kept results, when it does not throw, keeps their number and order, each with its candidate and a score no lower. With the corrected scan it never throws |
| ResultSelection.SecondPassAllFails | src/main/java/net/sourceforge/pmd/util/fxdesigner/util/autocomplete/ResultSelectionStrategy.java:44-70 | the second pass throws exactly when the rescan of some kept result throws. It then throws the exception of the first such result in stream order |
| ResultSelection.FilterResultsShowsBest | src/main/java/net/sourceforge/pmd/util/fxdesigner/util/autocomplete/ResultSelectionStrategy.java:39-73 | take a query of at least one character and a non-negative limit. With the corrected scan, filterResults does not throw. Whenever it does not throw, it shows at most limit results and no more than there are candidates, in display order, each a positively scored result for one of the candidates |
| ResultSelection.FilterResultsComplete | src/main/java/net/sourceforge/pmd/util/fxdesigner/util/autocomplete/ResultSelectionStrategy.java:44-70 | take the case where no more candidates score above zero than the limit allows. If filterResults does not throw, every candidate whose first pass scores above zero is shown |
| ResultSelection.EvaluateBestSingle | src/main/java/net/sourceforge/pmd/util/fxdesigner/util/autocomplete/ResultSelectionStrategy.java:75-87 | evaluateBestSingle is empty exactly when the query is missing or too short, the candidate is missing or empty, or the first pass scores 0 or less. It throws only through the word-starts-only rescan, with that exception. Otherwise it gives the better of the first pass and the rescan, keeping the first on a tie, with a positive score. With the corrected scan it never throws |
| ResultSelection.EvaluateBestSingleIsFilter | src/main/java/net/sourceforge/pmd/util/fxdesigner/util/autocomplete/ResultSelectionStrategy.java:75-87 | evaluateBestSingle on one candidate gives what filterResults with limit 1 gives on that candidate alone: the same result, or the same exception |
| ResultSelection.BaseResults | src/main/java/net/sourceforge/pmd/util/fxdesigner/util/autocomplete/matchers/StringMatchUtil.java:39-43 | the selectors start from one result per candidate, in order, scored 0 and shown plain |
| ResultSelection.FilterWithRefinersKeepsAll | src/main/java/net/sourceforge/pmd/util/fxdesigner/util/autocomplete/matchers/StringMatchUtil.java:34-45 | a pipeline of onlyWordStarts and sparseCamelMatcher never throws when the scan is corrected or the pipeline has no onlyWordStarts. When it does not throw, every candidate comes out in its place, for the query, scoring no less than 0 |
| LimitedSizeStacks.RemoveFirst | src/main/java/net/sourceforge/pmd/util/fxdesigner/util/LimitedSizeStack.java:33 | remove drops one occurrence of the item, if there is one, and nothing else |
| LimitedSizeStacks.Push | src/main/java/net/sourceforge/pmd/util/fxdesigner/util/LimitedSizeStack.java:28-40 | pushing null changes nothing; otherwise the item ends up on top, unless the size bound drops it, and the stack grows by at most one and only within the bound |
| LimitedSizeStacks.WithoutMembers | src/main/java/net/sourceforge/pmd/util/fxdesigner/util/LimitedSizeStack.java:33 | removing an item leaves exactly the other elements |
| LimitedSizeStacks.RemoveFirstUnique | src/main/java/net/sourceforge/pmd/util/fxdesigner/util/LimitedSizeStack.java:33 | on a stack without duplicates, removing the first occurrence removes the item entirely |
| LimitedSizeStacks.PushOnValid | src/main/java/net/sourceforge/pmd/util/fxdesigner/util/LimitedSizeStack.java:28-40 | on a valid stack, push puts the item on top of the other elements and keeps the first maxSize of them |
| LimitedSizeStacks.PushKeepsValid | src/main/java/net/sourceforge/pmd/util/fxdesigner/util/LimitedSizeStack.java:28-40 | push keeps the stack duplicate-free and within its bound, with the item on top exactly once when the bound allows one element |
| LimitedSizeStacks.PushWithRoomKeepsAll | src/main/java/net/sourceforge/pmd/util/fxdesigner/util/LimitedSizeStack.java:28-40 | pushing a new item onto a stack with room keeps every element, below the item |
| DataHolders.Empty | src/main/java/net/sourceforge/pmd/util/fxdesigner/util/DataHolder.java:24-26 | a new holder has no data |
| DataHolders.GetData | src/main/java/net/sourceforge/pmd/util/fxdesigner/util/DataHolder.java:29-32 | getData of a key the holder lacks is null |
| DataHolders.WithData | src/main/java/net/sourceforge/pmd/util/fxdesigner/util/DataHolder.java:39-43 | withData gives a holder that has the key with the given value, and is the same as the old holder on every other key |
| DataHolders.EqualIsObservational | src/main/java/net/sourceforge/pmd/util/fxdesigner/util/DataHolder.java:54-64 | two holders are equal exactly when hasData and getData agree on every key |
| DataHolders.WithDataOverrides | src/main/java/net/sourceforge/pmd/util/fxdesigner/util/DataHolder.java:39-43 | writing a key twice keeps the later value, and writes to different keys commute |
| FakeTailLists.Size | src/main/java/net/sourceforge/pmd/util/fxdesigner/util/reactfx/FakeTailObservableList.java:33-36 | the view is one longer than the base list |
| FakeTailLists.Get | src/main/java/net/sourceforge/pmd/util/fxdesigner/util/reactfx/FakeTailObservableList.java:38-45 | get throws IndexOutOfBoundsException exactly outside 0..size of the base. Below that size it reads the base list, and at that size it gives the tail element |
| FakeTailLists.ViewIsBasePlusTail | src/main/java/net/sourceforge/pmd/util/fxdesigner/util/reactfx/FakeTailObservableList.java:19-45 | the view reads as the base list followed by the tail element |
| HighlightUpdates.Merge | src/main/java/net/sourceforge/pmd/util/fxdesigner/util/codearea/HighlightUpdate.java:26-38 | an update that resets its layer replaces what came before. Otherwise the merge keeps the first update's layer and reset flag, and has the styles of both, with the later update's styles winning |
| HighlightUpdates.MergeAssociative | src/main/java/net/sourceforge/pmd/util/fxdesigner/util/codearea/HighlightUpdate.java:26-38 | merging highlight updates is associative |
| HighlightUpdates.Single | src/main/java/net/sourceforge/pmd/util/fxdesigner/util/codearea/HighlightUpdate.java:49-53 | a composite update built for one layer holds one update, filed under that layer |
| HighlightUpdates.MergeComposite | src/main/java/net/sourceforge/pmd/util/fxdesigner/util/codearea/HighlightUpdate.java:68-86 | merging composites covers the layers of both. It merges the updates of a layer that both have and keeps a layer's update when only one side has it |
| HighlightUpdates.MergeCompositeLaws | src/main/java/net/sourceforge/pmd/util/fxdesigner/util/codearea/HighlightUpdate.java:68-86 | merging composites keeps every update filed under its own layer, and is associative |
| IteratorUtil.TakeWhile | src/main/java/net/sourceforge/pmd/util/fxdesigner/util/DesignerIteratorUtil.java:35-59 | takeWhile yields the longest prefix whose elements all pass the predicate, stopping at the first that fails |
| IteratorUtil.TakeWhileStream | src/main/java/net/sourceforge/pmd/util/fxdesigner/util/DesignerIteratorUtil.java:40-58 | the tryAdvance loop, run to exhaustion, yields exactly that longest passing prefix |
| IteratorUtil.Last | src/main/java/net/sourceforge/pmd/util/fxdesigner/util/DesignerIteratorUtil.java:61-67 | last is null for an empty iterator and otherwise the final element |
| IteratorUtil.Any | src/main/java/net/sourceforge/pmd/util/fxdesigner/util/DesignerIteratorUtil.java:69-76 | any is true exactly when some element passes the predicate |
| IteratorUtil.ToList | src/main/java/net/sourceforge/pmd/util/fxdesigner/util/DesignerIteratorUtil.java:90-96 | toList gives the elements in iteration order |
| IteratorUtil.Count | src/main/java/net/sourceforge/pmd/util/fxdesigner/util/DesignerIteratorUtil.java:105-112 | count is the number of elements |
| IteratorUtil.Reverse | src/main/java/net/sourceforge/pmd/util/fxdesigner/util/DesignerIteratorUtil.java:83-87 | reverse yields element i of the result from position size - 1 - i of the input |
| IteratorUtil.ReverseAppend | src/main/java/net/sourceforge/pmd/util/fxdesigner/util/DesignerIteratorUtil.java:83-87 | reversing a concatenation reverses the parts and swaps them |
| IteratorUtil.ReverseInvolutive | src/main/java/net/sourceforge/pmd/util/fxdesigner/util/DesignerIteratorUtil.java:83-87 | reversing twice gives the elements back |
| IteratorUtil.AsReversed | src/main/java/net/sourceforge/pmd/util/fxdesigner/util/DesignerIteratorUtil.java:115-139 | walking the list iterator backwards from the end yields the list reversed |
| IteratorUtil.IterateFrom | src/main/java/net/sourceforge/pmd/util/fxdesigner/util/DesignerIteratorUtil.java:152-179 | iteratorFrom starts with the seed when asked to include it, and otherwise with the seed's successor, if there is one |
| IteratorUtil.IterateFromChain | src/main/java/net/sourceforge/pmd/util/fxdesigner/util/DesignerIteratorUtil.java:152-179 | each element after the first is the successor of the one before. An iteration that ends early ends on an element without a successor, or is empty because the excluded seed has none |
| AstTraversal.GetRoot | src/main/java/net/sourceforge/pmd/util/fxdesigner/util/AstTraversalUtil.java:35-39 | getRoot is null exactly for null, and otherwise a node without a parent |
| AstTraversal.AncestorsArePrefixes | src/main/java/net/sourceforge/pmd/util/fxdesigner/util/AstTraversalUtil.java:117-119 | the strict ancestors of a node, innermost first, are the nodes at the proper prefixes of its path, longest first |
| AstTraversal.ParentIteratorElements | src/main/java/net/sourceforge/pmd/util/fxdesigner/util/AstTraversalUtil.java:117-119 | parentIterator yields the node itself when asked, then one node per proper prefix of its path, innermost first |
| AstTraversal.GetRootIsOutermost | src/main/java/net/sourceforge/pmd/util/fxdesigner/util/AstTraversalUtil.java:35-39 | getRoot is the root of the node's tree and the last node parentIterator reaches |
| AstTraversal.IsParent | src/main/java/net/sourceforge/pmd/util/fxdesigner/util/AstTraversalUtil.java:129-131 | isParent is true exactly when the first node is a strict ancestor of the second |
| AstTraversal.ExtendValid | src/main/java/net/sourceforge/pmd/util/fxdesigner/util/AstTraversalUtil.java:101-104 | following child n from a node succeeds exactly when that node has more than n children |
| AstTraversal.FindOldNodeInNewAst | src/main/java/net/sourceforge/pmd/util/fxdesigner/util/AstTraversalUtil.java:88-112 | the old root maps to the new root. Any other node maps to the node at the same path in the new tree when that path exists there and the XPath names agree, and to nothing otherwise |
| AstTraversal.MapToMyTree | src/main/java/net/sourceforge/pmd/util/fxdesigner/util/AstTraversalUtil.java:48-81 | with a missing tree or node, nothing. A node of my tree maps to itself and a cached answer is returned as it is, neither touching the cache. Otherwise it tries the same path, then the covering node, then the leaf at the caret or the node's end. Only a found node is cached, and in a well-formed tree spanning that position something is always found |
| TreeRenderer.StringsFor | src/main/java/net/sourceforge/pmd/util/fxdesigner/util/TextTreeRenderer.java:68 | the onlyAsciiChars property picks glyphs whose forks are non-empty, and with it set the forks are pure ASCII |
| TreeRenderer.Lines | src/main/java/net/sourceforge/pmd/util/fxdesigner/util/TextTreeRenderer.java:110-131 | a node prints as its indent and XPath name on the first line, and every line it prints starts with its prefix. At the maximum level its children give way to a single line counting them |
| TreeRenderer.ChildrenLines | src/main/java/net/sourceforge/pmd/util/fxdesigner/util/TextTreeRenderer.java:124-129 | the lines the children print all start with the parent's prefix |
| TreeRenderer.RenderSubtree | src/main/java/net/sourceforge/pmd/util/fxdesigner/util/TextTreeRenderer.java:96-98 | the rendering is non-empty and ends with a newline |
| TreeRenderer.UncutLinesArePreorder | src/main/java/net/sourceforge/pmd/util/fxdesigner/util/TextTreeRenderer.java:110-131 | below the maximum level, or with a negative one, a node prints one line per node of its subtree in preorder, each ending with that node's XPath name |
| TreeRenderer.UncutChildrenArePreorder | src/main/java/net/sourceforge/pmd/util/fxdesigner/util/TextTreeRenderer.java:124-129 | the children from i on print one line per node of their subtrees, in preorder, each ending with its node's name |
| TreeRenderer.UnboundedRenderShowsAll | src/main/java/net/sourceforge/pmd/util/fxdesigner/util/TextTreeRenderer.java:28-32 | with a negative maxLevel, meaning unbounded, the rendering shows every node of the tree in preorder |
| TreeRenderer.StandardGlyphsOneLine | src/main/java/net/sourceforge/pmd/util/fxdesigner/util/TextTreeRenderer.java:74-85 | both the ASCII and the Unicode glyphs are non-empty forks without newlines |
| TreeRenderer.IndentOneLine | src/main/java/net/sourceforge/pmd/util/fxdesigner/util/TextTreeRenderer.java:100-107 | an indent followed by newline-free text is a non-empty piece without newline, and the child prefix has no newline |
| TreeRenderer.BoundaryOneLine | src/main/java/net/sourceforge/pmd/util/fxdesigner/util/TextTreeRenderer.java:133-143 | the message counting hidden children has no newline |
| TreeRenderer.LinesOneLine | src/main/java/net/sourceforge/pmd/util/fxdesigner/util/TextTreeRenderer.java:110-131 | with newline-free glyphs and names, every line a node prints is a non-empty piece without a newline |
| TreeRenderer.ChildrenOneLine | src/main/java/net/sourceforge/pmd/util/fxdesigner/util/TextTreeRenderer.java:124-129 | the same holds of the children's lines |
| TreeRenderer.RenderReadsBack | src/main/java/net/sourceforge/pmd/util/fxdesigner/util/TextTreeRenderer.java:96-143 | splitting the output, without its final newline, at the newlines gives back exactly the printed lines |
| Serializers.MakeNullable | src/main/java/net/sourceforge/pmd/util/fxdesigner/util/beans/converters/Serializer.java:181-202 | nullable() always gives a null-handling serializer, and one already wrapped is returned as it is |
| Serializers.ToXml | src/main/java/net/sourceforge/pmd/util/fxdesigner/util/beans/converters/Serializer.java:33 | toXml gives an element from the element factory |
| Serializers.NullableToXml | src/main/java/net/sourceforge/pmd/util/fxdesigner/util/beans/converters/Serializer.java:185-193 | the null-handling toXml gives an element, a marked empty one for null |
| Serializers.ItemsToXml | src/main/java/net/sourceforge/pmd/util/fxdesigner/util/beans/converters/Serializer.java:149-152 | a collection writes one child element per item |
| Serializers.ItemsFromXml | src/main/java/net/sourceforge/pmd/util/fxdesigner/util/beans/converters/Serializer.java:156-169 | reading a collection reads at most one item per child node |
| Serializers.OnlyNullIsMarked | src/main/java/net/sourceforge/pmd/util/fxdesigner/util/beans/converters/Serializer.java:185-198 | the null attribute appears on an element exactly when a null-handling serializer writes null, so no written value is read back as null by mistake |
| Serializers.RoundTrip | src/main/java/net/sourceforge/pmd/util/fxdesigner/util/beans/converters/Serializer.java:36-40 | fromXml(toXml(v)) == v for every combinator built from string conversions whose functions invert each other, with map's functions inverting each other |
| Serializers.NullableRoundTrip | src/main/java/net/sourceforge/pmd/util/fxdesigner/util/beans/converters/Serializer.java:181-198 | the null-handling serializer reads back null and every value its inner serializer round-trips |
| Serializers.ItemsRoundTripLemma | src/main/java/net/sourceforge/pmd/util/fxdesigner/util/beans/converters/Serializer.java:142-173 | the items of a collection read back in order |
| Serializers.NullableIdempotent | src/main/java/net/sourceforge/pmd/util/fxdesigner/util/beans/converters/Serializer.java:181-202 | nullable() is idempotent, and stringConversion, map and toSeq already return null-handling serializers |
| Serializers.NullEncoding | src/main/java/net/sourceforge/pmd/util/fxdesigner/util/beans/converters/Serializer.java:189-197 | null is written as an empty element with null="true", which reads back as null |
| Serializers.StringConversionRoundTrip | src/main/java/net/sourceforge/pmd/util/fxdesigner/util/beans/converters/Serializer.java:208-226 | a string conversion reads back every value its fromString recovers from its printed text, and null |
| Serializers.SeqInOrder | src/main/java/net/sourceforge/pmd/util/fxdesigner/util/beans/converters/Serializer.java:142-173 | toSeq writes child i from item i, through the null-handling element serializer, and reads the list back |
| Serializers.ItemsInOrder | src/main/java/net/sourceforge/pmd/util/fxdesigner/util/beans/converters/Serializer.java:149-152 | child i of a written collection is item i written |
| Serializers.NestedSeqRoundTrip | src/main/java/net/sourceforge/pmd/util/fxdesigner/util/beans/converters/Serializer.java:142-173 | a list of lists round-trips when each inner list does |
| Serializers.AllItemsRoundTrip | src/main/java/net/sourceforge/pmd/util/fxdesigner/util/beans/converters/Serializer.java:142-173 | when every item is null or round-trips, the item list round-trips through the element serializer and through its null-handling wrapper |
| Serializers.ArrayWritesAsSeq | src/main/java/net/sourceforge/pmd/util/fxdesigner/util/beans/converters/Serializer.java:72-76 | toArray writes an array as the list toSeq writes |
| DesignerUtil.Or | src/main/java/net/sourceforge/pmd/util/fxdesigner/util/DesignerUtil.java:95-101 | or gives the base when it is present and the fallback otherwise |
| DesignerUtil.FirstPresent | src/main/java/net/sourceforge/pmd/util/fxdesigner/util/DesignerUtil.java:196-206 | the first present option is empty exactly when every option is empty |
| DesignerUtil.FirstPresentAt | src/main/java/net/sourceforge/pmd/util/fxdesigner/util/DesignerUtil.java:196-206 | when option i is the first present one, it is the result |
| DesignerUtil.SelectFirst | src/main/java/net/sourceforge/pmd/util/fxdesigner/util/DesignerUtil.java:198-206 | the selectFirst loop returns the first present option, or empty |
| DesignerUtil.FirstIndex | src/main/java/net/sourceforge/pmd/util/fxdesigner/util/DesignerUtil.java:77-81 | the first index of an element holds it, and no earlier index does |
| DesignerUtil.SetOf | src/main/java/net/sourceforge/pmd/util/fxdesigner/util/DesignerUtil.java:77-81 | setOf holds exactly the given elements, each once, in order of first occurrence |
| DesignerUtil.WordRunEnd | src/main/java/net/sourceforge/pmd/util/fxdesigner/util/DesignerUtil.java:67 | a possessive word run ends at the first non-word character |
| DesignerUtil.GroupEnd | src/main/java/net/sourceforge/pmd/util/fxdesigner/util/DesignerUtil.java:67 | the captured name ends at the last place, within the word run, that is followed by ".jjtAccept" |
| DesignerUtil.MatchAt | src/main/java/net/sourceforge/pmd/util/fxdesigner/util/DesignerUtil.java:67 | a match of the jjtAccept pattern at a position captures a non-empty run of word characters |
| DesignerUtil.FindFrom | src/main/java/net/sourceforge/pmd/util/fxdesigner/util/DesignerUtil.java:262-263 | Matcher.find from a position fails exactly when the pattern matches at no later position, and a capture is a non-empty word |
| DesignerUtil.CapturedNames | src/main/java/net/sourceforge/pmd/util/fxdesigner/util/DesignerUtil.java:260-264 | the captured names, one per matching line, contain no slash |
| DesignerUtil.NoCapturedNames | src/main/java/net/sourceforge/pmd/util/fxdesigner/util/DesignerUtil.java:260-264 | no name is captured exactly when no line matches the pattern |
| DesignerUtil.StackTraceToXPath | src/main/java/net/sourceforge/pmd/util/fxdesigner/util/DesignerUtil.java:259-268 | stackTraceToXPath is empty exactly when no line of the trace matches the jjtAccept pattern |
| DesignerUtil.StackTraceXPathReadsBack | src/main/java/net/sourceforge/pmd/util/fxdesigner/util/DesignerUtil.java:259-268 | a produced query starts with "//", and splitting the rest at "/" and reversing gives back the captured names in line order |
| DesignerUtil.PathReadsBack | src/main/java/net/sourceforge/pmd/util/fxdesigner/util/DesignerUtil.java:266-268 | "//" followed by slash-free names, reversed and joined by "/", splits back into those names |
| DesignerUtil.HexDigit | src/main/java/net/sourceforge/pmd/util/fxdesigner/util/DesignerUtil.java:417 | a hexadecimal digit of escapeJava's \u escapes is an upper-case hex character that reads back as its value |
| DesignerUtil.Hex4 | src/main/java/net/sourceforge/pmd/util/fxdesigner/util/DesignerUtil.java:417 | four hex digits of a 16-bit value are printable |
| DesignerUtil.UnicodeEscape | src/main/java/net/sourceforge/pmd/util/fxdesigner/util/DesignerUtil.java:417 | a \u escape is six printable characters starting with \u |
| DesignerUtil.HighSurrogate | src/main/java/net/sourceforge/pmd/util/fxdesigner/util/DesignerUtil.java:417 | a supplementary character's high surrogate lies in D800-DBFF |
| DesignerUtil.LowSurrogate | src/main/java/net/sourceforge/pmd/util/fxdesigner/util/DesignerUtil.java:417 | its low surrogate lies in DC00-DFFF |
| DesignerUtil.EscapeChar | src/main/java/net/sourceforge/pmd/util/fxdesigner/util/DesignerUtil.java:417 | escaping a character gives non-empty printable ASCII text |
| DesignerUtil.EscapeJava | src/main/java/net/sourceforge/pmd/util/fxdesigner/util/DesignerUtil.java:417 | escapeJava's output is printable ASCII: no control or non-ASCII character remains |
| DesignerUtil.AttrToXPathString | src/main/java/net/sourceforge/pmd/util/fxdesigner/util/DesignerUtil.java:413-422 | String and Enum values are quoted around their escaped text, Boolean values print as true() or false(), and anything else prints its string value, or "null" |
| DesignerUtil.Hex4Reads | src/main/java/net/sourceforge/pmd/util/fxdesigner/util/DesignerUtil.java:417 | four printed hex digits read back as the value |
| DesignerUtil.ShortEscapeReads | src/main/java/net/sourceforge/pmd/util/fxdesigner/util/DesignerUtil.java:417 | a two-character escape reads back as its character |
| DesignerUtil.UnicodeEscapeReads | src/main/java/net/sourceforge/pmd/util/fxdesigner/util/DesignerUtil.java:417 | a \u escape of a non-surrogate character reads back as that character |
| DesignerUtil.SurrogatesRead | src/main/java/net/sourceforge/pmd/util/fxdesigner/util/DesignerUtil.java:417 | the two \u escapes of a supplementary character's surrogates read back as that character |
| DesignerUtil.EscapeCharReads | src/main/java/net/sourceforge/pmd/util/fxdesigner/util/DesignerUtil.java:417 | every escaped character reads back as itself, whatever follows |
| DesignerUtil.EscapeJavaReads | src/main/java/net/sourceforge/pmd/util/fxdesigner/util/DesignerUtil.java:417 | unescaping escapeJava's output gives the string back |
| DesignerUtil.AttrStringReadsBack | src/main/java/net/sourceforge/pmd/util/fxdesigner/util/DesignerUtil.java:413-422 | the quoted text of a String or Enum attribute unescapes to its string value |
| Xml.GetElementsByTagName | src/main/java/net/sourceforge/pmd/util/fxdesigner/model/testing/TestXmlParser.java:169 | getElementsByTagName yields only elements with that name |
| Xml.ElementsNamedConcat | src/main/java/net/sourceforge/pmd/util/fxdesigner/model/testing/TestXmlParser.java:169 | searching two forests in a row finds the matches of the first, then of the second |
| Xml.UniformMatches | src/main/java/net/sourceforge/pmd/util/fxdesigner/model/testing/TestXmlParser.java:169 | in a row of childless elements all named alike, a search finds all of them or none |
| Xml.ParseTextNode | src/main/java/net/sourceforge/pmd/util/fxdesigner/model/testing/TestXmlParser.java:181-190 | parseTextNode's result is trimmed: it neither starts nor ends with a character at or below U+0020 |
| Xml.Attribute | src/main/java/net/sourceforge/pmd/util/fxdesigner/model/testing/TestXmlParser.java:68-70 | an attribute is present exactly when the element has it, with its value |
| JavaString.Trim | src/main/java/net/sourceforge/pmd/util/fxdesigner/model/testing/TestXmlParser.java:189 | String.trim gives a string with no character at or below U+0020 at either end, and no longer than its input |
| JavaString.TrimPadded | src/main/java/net/sourceforge/pmd/util/fxdesigner/model/testing/TestXmlParser.java:189 | trimming a trimmed text padded on both sides with such characters gives the text back |
| JavaString.TrimIdempotent | src/main/java/net/sourceforge/pmd/util/fxdesigner/model/testing/TestXmlParser.java:189 | trimming twice is trimming once |
| JavaString.ParseInt | src/main/java/net/sourceforge/pmd/util/fxdesigner/model/testing/TestXmlParser.java:118 | Integer.valueOf succeeds exactly on an optional sign followed by at least one digit whose value fits in a Java int |
| JavaString.ParseIntToString | src/main/java/net/sourceforge/pmd/util/fxdesigner/model/testing/TestXmlParser.java:118 | every Java int prints as text that Integer.valueOf reads back |
| JavaString.SplitJoin | src/main/java/net/sourceforge/pmd/util/fxdesigner/model/testing/TestXmlParser.java:117 | splitting, at a separator, the join of items that contain no separator gives back the items |
| JavaString.ToLowerString | src/main/java/net/sourceforge/pmd/util/fxdesigner/util/autocomplete/matchers/CamelCaseMatcher.java:282 | toLowerCase lowers each character on its own and keeps the length |

## Left out

- The JavaFX user interface, the ReactFX event streams and every listener are left out, because their point is timing and observer wiring. This covers `LiveTestCase`'s change stream, commit handlers and run status, and the undo-manager wiring around `TestCaseChange`.
- Parsing, schema validation and file input in `parseXmlTests` are left out. The parser starts from an element tree that is already built.
- The document root and the transformer of `dumpXmlTests` are left out. The dumper produces the test-code elements.
- The two violation-record types are not connected. `LiveViolationRecord` in `LiveTestCases` is the range-and-message record that `fromDescriptor` builds. `TestCaseUtil.ExpectedRecord` is the line-and-`TextRegion` record that `doTest` compares. So `TestCaseUtil.DoTest` never sees a `LiveTestCase`'s records. The source disagrees with itself here: `LiveTestCase.java:273` calls a `LiveViolationRecord(TextRange, String, boolean)` constructor, which `LiveViolationRecord.java:27-40` does not declare; that class holds an `int` line and a `TextRegion`.
- LiveTestCases.DeepCopy: copies the expected violations as values. Java's `deepCopy` (`LiveTestCase.java:187`) copies the list with `setAll`, so the copy and the original share the same mutable record objects. An edit to a record through one case shows in the other, which the model does not express.
- `StashedTestCase` is left out: it is an older copy of `fromDescriptor`, and nothing in the modelled core calls it.
- `PmdCoordinatesSystem.rtfxRangeOf` (lines 213-218) is left out, because it only converts through the RichTextFX API. The model also takes `getAbsolutePosition(par, col)` of RichTextFX to be the paragraph start plus the column.
- PMD's `TextRegion` (PMD core) is not part of this model. Its containment and ordering are taken to be `start <= offset < start + length` and the order on (start, length).
- `DataHolder.computeIfAbsent` is left out. It calls a `Supplier`, and its effect depends on how the holder was made. On a fresh `DataHolder` the map is `Collections.emptyMap()`, whose `computeIfAbsent` throws `UnsupportedOperationException`. On a holder made by `withData`, it adds the entry to that holder's own `HashMap` in place, which the value model of `DataHolders` cannot express.
- `Serializer.toMap` (lines 89-128) is left out. `Serializers` models serialisable values as one dynamic value type, whose scalars are opaque and are written through a string conversion.
- `MatchResult`'s data payload is left out. A result carries its score, its candidate string and its segments.
- `MatchLimiter` and `MatchSelector` are two near-identical classes. They are modelled by one selector type.
- `DesignerIteratorUtil.toStream`, `toIterable` and `enumerationAsStream` are left out. On sequences they are identity conversions.
- `DesignerUtil`'s remaining helpers are left out: `sanitizeExceptionMessage`, the FXML and resource loaders, and the clipboard and UI helpers.
- Character classes are ASCII only: the case, letter and digit predicates behind `isWordStart`, `toLowerCase`, `equalsIgnoreCase` and `Integer.valueOf`.
- CamelScan.MatchSegments: scores and match lengths are unbounded integers. Java's `int` would wrap only for candidates tens of millions of characters long.
- IteratorUtil.Count: returns a `nat` rather than a 32-bit `int`, for the same reason.
- AstTraversal.MapToMyTree: the node's user-data cache is passed in and returned as a value, not stored on the node. Node identity is the pair (root, path) rather than a reference.
- AstTraversal.ParentIterator: unrolled at most |path| + 1 times, which is as far as parents go.
- MatchSelectors.SelectBestTiesKeepsMaximal: the selectors are modelled on sequential streams. `MatchSelector` allows a parallel raw stream, and under one the `forEach` with its check-then-set on an `AtomicInteger` neither keeps stream order nor is atomic. No caller passes a parallel stream.
- MatchSelectors.RefinersNeverLower: promises that the pipeline does not throw only for the corrected scan, or without onlyWordStarts. As written, onlyWordStarts can throw (see Findings).
- ResultSelection.FilterResultsShowsBest: promises that filterResults does not throw only for the corrected scan. As written, its second pass can throw (see Findings); evaluateBestSingle and StringMatchUtil.filterResults likewise.
- TestXmlParser.ParseSingle: states that a test case is read exactly when every field is read, and what each field then holds. It does not state which error is reported when several fields fail.

## Findings

| source | as written | input that shows it | evidently intended | confidence | as-written member | corrected member |
|---|---|---|---|---|---|---|
| src/main/java/net/sourceforge/pmd/util/fxdesigner/util/autocomplete/matchers/CamelCaseMatcher.java:85-94 | with `onlyWordStarts`, a matching character that is skipped as no word start is still counted (`matchLength++` runs before the skip), so the next match's length includes it. The later `substring(matchStart, matchStart + matchLength)` then runs past the end of the candidate | candidate "xbaaAbc", query "xabz", `onlyWordStarts` true: the scan ends by asking for `substring(4, 8)` of a 7-character string, so `StringIndexOutOfBoundsException` | a skipped character closes the run without growing it. The scan then never slices outside the candidate | not executed | CamelFindings.AsWrittenOverrunsCandidate | CamelScan.CorrectedScanSucceeds |
| src/main/java/net/sourceforge/pmd/util/fxdesigner/util/autocomplete/ResultSelectionStrategy.java:138-146 | the same early `matchLength++` in the selection strategy's copy of the scan inflates the run-on bonus of the next match | candidate "xbaaAb", query "xab", `onlyWordStarts` true: scores 36 | 28: 10 for "x", 10 for the word start "A", and 2 times 4 for "b" running on | not executed | CamelFindings.AsWrittenInflatesScore | CamelFindings.CorrectedScoresMatchedOnly |
| src/main/java/net/sourceforge/pmd/util/fxdesigner/util/autocomplete/ResultSelectionStrategy.java:44-87 | the second pass of `filterResults` and `evaluateBestSingle` runs the word-starts-only scan on every kept result. An exception it throws ends the whole stream, so one such candidate makes the whole call throw | candidate "xbaaAbc", query "xabz": the first pass scores 9, then the rescan throws `StringIndexOutOfBoundsException` from both methods | the rescan never throws, and filterResults shows its best results | not executed | CamelFindings.SelectionAsWrittenThrows | ResultSelection.FilterResultsShowsBest |

=== FILE: ast_traversal.dfy ===
/**
 * AstTraversalUtil: walking up a syntax tree and finding, in a freshly
 * parsed tree, the node that corresponds to one of an older tree.
 *
 * A node is referred to by the root of its tree and the path of child
 * indices leading to it; its parent is the node one step up the path. Two
 * references are the same node when they have the same root and the same
 * path, which is how the model reads the reference comparisons of the Java
 * code (structurally equal trees are not told apart).
 */
module AstTraversal {
  import opened Wrappers
  import opened AstNodes
  import opened IteratorUtil
  import opened DesignerUtil
  import opened PmdCoordinatesSystem

  datatype NodeRef = NodeRef(root: Node, path: seq<nat>)

  /** The reference names a node of its tree. */
  predicate Valid(n: NodeRef) {
    ValidPath(n.root, n.path)
  }

  function NodeOf(n: NodeRef): Node
    requires Valid(n)
  {
    At(n.root, n.path)
  }

  /** getParent() != null: every node but the root has a parent. */
  predicate HasParent(n: NodeRef) {
    |n.path| > 0
  }

  /** getParent(): one step up; the root is its own fixpoint, and is never asked. */
  function ParentOf(n: NodeRef): NodeRef {
    if |n.path| > 0 then NodeRef(n.root, n.path[..|n.path| - 1]) else n
  }

  /** getIndexInParent(): the last step of the path. */
  function IndexInParent(n: NodeRef): nat
    requires HasParent(n)
  {
    n.path[|n.path| - 1]
  }

  /** getRoot: null for null, otherwise up the parents until there is none. */
  function GetRoot(n: Option<NodeRef>): (r: Option<NodeRef>)
    ensures r.None? <==> n.None?
    ensures r.Some? ==> !HasParent(r.value)
    decreases if n.Some? then |n.value.path| else 0
  {
    if n.None? then None
    else if !HasParent(n.value) then n
    else GetRoot(Some(ParentOf(n.value)))
  }

  /**
   * parentIterator: the node (when included) and then its ancestors,
   * innermost first. A node has no more than |path| ancestors, so the
   * bound given to iteratorFrom never cuts the walk short.
   */
  function ParentIterator(n: NodeRef, includeSelf: bool): seq<NodeRef> {
    IterateFrom(n, HasParent, ParentOf, includeSelf, |n.path| + 1)
  }

  /** The ancestors of a node, from its parent up to the root: the prefixes of its path, longest first. */
  lemma {:induction false} AncestorsArePrefixes(n: NodeRef, m: nat)
    requires m >= |n.path|
    ensures var r := IterateFrom(n, HasParent, ParentOf, false, m);
      |r| == |n.path| && forall i :: 0 <= i < |r| ==> r[i] == NodeRef(n.root, n.path[..|n.path| - 1 - i])
    decreases m
  {
    var r := IterateFrom(n, HasParent, ParentOf, false, m);
    if |n.path| > 0 {
      var p := ParentOf(n);
      AncestorsArePrefixes(p, m - 1);
      var tail := IterateFrom(p, HasParent, ParentOf, false, m - 1);
      assert r == [p] + tail;
      forall i | 0 <= i < |r| ensures r[i] == NodeRef(n.root, n.path[..|n.path| - 1 - i]) {
        if i > 0 {
          assert r[i] == tail[i - 1];
          assert p.path[..|p.path| - 1 - (i - 1)] == n.path[..|n.path| - 1 - i];
        }
      }
    }
  }

  /** parentIterator yields the node itself when asked, then one reference per proper prefix of its path. */
  lemma {:induction false} ParentIteratorElements(n: NodeRef, includeSelf: bool)
    ensures includeSelf ==> var r := ParentIterator(n, true);
      |r| == |n.path| + 1 && forall i :: 0 <= i < |r| ==> r[i] == NodeRef(n.root, n.path[..|n.path| - i])
    ensures !includeSelf ==> var r := ParentIterator(n, false);
      |r| == |n.path| && forall i :: 0 <= i < |r| ==> r[i] == NodeRef(n.root, n.path[..|n.path| - 1 - i])
  {
    var r := ParentIterator(n, includeSelf);
    if includeSelf {
      AncestorsArePrefixes(n, |n.path|);
      var tail := IterateFrom(n, HasParent, ParentOf, false, |n.path|);
      assert r == [n] + tail;
      forall i | 0 <= i < |r| ensures r[i] == NodeRef(n.root, n.path[..|n.path| - i]) {
        if i == 0 {
          assert n.path[..|n.path|] == n.path;
        } else {
          assert r[i] == tail[i - 1];
        }
      }
    } else {
      AncestorsArePrefixes(n, |n.path| + 1);
    }
  }

  /** getRoot is the last node parentIterator reaches: the root of the node's tree. */
  lemma {:induction false} GetRootIsOutermost(n: NodeRef)
    ensures GetRoot(Some(n)) == Some(NodeRef(n.root, []))
    ensures var r := ParentIterator(n, true);
      |r| > 0 && GetRoot(Some(n)) == Some(r[|r| - 1])
    decreases |n.path|
  {
    if HasParent(n) {
      GetRootIsOutermost(ParentOf(n));
    }
    ParentIteratorElements(n, true);
  }

  /** The strict ancestors of child: same tree, and a path that is a proper prefix of child's. */
  predicate IsAncestor(parent: NodeRef, child: NodeRef) {
    parent.root == child.root && |parent.path| < |child.path| && parent.path == child.path[..|parent.path|]
  }

  /** isParent: whether parent is among child's ancestors. */
  method IsParent(parent: NodeRef, child: NodeRef) returns (r: bool)
    ensures r <==> IsAncestor(parent, child)
  {
    var ancestors := ParentIterator(child, false);
    ParentIteratorElements(child, false);
    r := Any(ancestors, p => parent == p);
    if IsAncestor(parent, child) {
      var i := |child.path| - 1 - |parent.path|;
      assert ancestors[i] == parent;
    }
  }

  /** A path extends by a child index exactly when the node it reaches has that child. */
  lemma {:induction false} ExtendValid(root: Node, q: seq<nat>, i: nat)
    requires ValidPath(root, q)
    ensures ValidPath(root, q + [i]) <==> i < |At(root, q).children|
    decreases |q|
  {
    if |q| > 0 {
      assert (q + [i])[1..] == q[1..] + [i];
      ExtendValid(root.children[q[0]], q[1..], i);
    }
  }

  /** The node of newRoot reached by following the old node's path, if its XPath name matches. */
  predicate SamePlace(previous: NodeRef, newRoot: Node)
    requires Valid(previous)
  {
    ValidPath(newRoot, previous.path) && At(newRoot, previous.path).xpathName == NodeOf(previous).xpathName
  }

  /**
   * findOldNodeInNewAst: the root maps to the new root; any other node is
   * looked for by replaying its indices in parent from the root down, and
   * kept only if the node reached has the same XPath name.
   */
  method FindOldNodeInNewAst(previous: NodeRef, newRoot: Node) returns (r: Option<NodeRef>)
    requires Valid(previous)
    ensures !HasParent(previous) ==> r == Some(NodeRef(newRoot, []))
    ensures HasParent(previous) ==> (r.Some? <==> SamePlace(previous, newRoot))
    ensures r.Some? ==> r.value.root == newRoot && Valid(r.value)
    ensures HasParent(previous) && r.Some? ==> r.value.path == previous.path
  {
    if !HasParent(previous) {
      return Some(NodeRef(newRoot, []));
    }
    var fromRoot := Reverse(ParentIterator(previous, true));
    ParentIteratorElements(previous, true);
    var steps := fromRoot[1..];
    assert |steps| == |previous.path|;
    var q: seq<nat> := [];
    var k := 0;
    while k < |steps|
      invariant 0 <= k <= |steps|
      invariant q == previous.path[..k] && ValidPath(newRoot, q)
    {
      var step := steps[k];
      assert step == NodeRef(previous.root, previous.path[..k + 1]);
      var n := IndexInParent(step);
      ExtendValid(newRoot, q, n);
      assert previous.path[..k + 1] == q + [n];
      if n < |At(newRoot, q).children| {
        q := q + [n];
      } else {
        if ValidPath(newRoot, previous.path) {
          ValidPrefix(newRoot, previous.path, k + 1);
        }
        return None;
      }
      k := k + 1;
    }
    assert q == previous.path;
    if At(newRoot, q).xpathName == NodeOf(previous).xpathName {
      return Some(NodeRef(newRoot, q));
    }
    return None;
  }

  /**
   * mapToMyTree. The node's user data, the cache of what it last mapped to,
   * is passed in and the updated cache returned: it is written only when a
   * search in another tree found something.
   */
  method MapToMyTree(myRoot: Option<Node>, node: Option<NodeRef>, userData: Option<NodeRef>, caret: Option<TextPos2D>)
    returns (r: Option<NodeRef>, cache: Option<NodeRef>)
    requires node.Some? ==> Valid(node.value)
    ensures myRoot.None? || node.None? ==> r.None? && cache == userData
    ensures myRoot.Some? && node.Some? && node.value.root == myRoot.value ==> r == node && cache == userData
    ensures myRoot.Some? && node.Some? && node.value.root != myRoot.value && userData.Some? ==>
      r == userData && cache == userData
    ensures myRoot.Some? && node.Some? && node.value.root != myRoot.value && userData.None? ==>
      cache == r &&
      (r.Some? ==> r.value.root == myRoot.value && Valid(r.value)) &&
      (!HasParent(node.value) ==> r == Some(NodeRef(myRoot.value, []))) &&
      (HasParent(node.value) && SamePlace(node.value, myRoot.value) ==> r == Some(NodeRef(myRoot.value, node.value.path))) &&
      (r.None? ==> FindNodeAt(myRoot.value, if caret.Some? then caret.value else EndPosition(NodeOf(node.value))).None?)
    // the leaf fallback always answers when the tree is well formed and spans the position
    ensures myRoot.Some? && node.Some? && WellOrderedTree(myRoot.value) ==>
      (NodeContains(myRoot.value, if caret.Some? then caret.value else EndPosition(NodeOf(node.value))) ==> r.Some?)
  {
    if myRoot.None? || node.None? {
      return None, userData;
    }
    var root := myRoot.value;
    var n := node.value;
    GetRootIsOutermost(n);
    if GetRoot(node) == Some(NodeRef(root, [])) {
      return node, userData;
    }
    if userData.Some? {
      return userData, userData;
    }
    var byPath := FindOldNodeInNewAst(n, root);
    var byRange := FindNodeCovering(root, RangeOf(NodeOf(n)), true);
    var target := if caret.Some? then caret.value else EndPosition(NodeOf(n));
    var atLeaf := FindNodeAt(root, target);
    if WellOrderedTree(root) && NodeContains(root, target) {
      FindNodeAtInnermost(root, target);
    }
    var inMine := (p: seq<nat>) => NodeRef(root, p);
    var byRangeRef := if byRange.Some? then Some(inMine(byRange.value)) else None;
    var atLeafRef := if atLeaf.Some? then Some(inMine(atLeaf.value)) else None;
    r := Or(Or(byPath, byRangeRef), atLeafRef);
    cache := if r.Some? then r else userData;
  }
}

=== FILE: astnodes.dfy ===
/**
 * An abstract PMD syntax tree: every node has an XPath name, begin/end
 * line and column, and an ordered list of children. A node of a tree is
 * addressed by the path of child indices leading to it from the root,
 * which plays the part of the parent pointers of PMD's Node interface.
 */
module AstNodes {

  datatype Node = Node(
    xpathName: string,
    beginLine: int,
    beginColumn: int,
    endLine: int,
    endColumn: int,
    children: seq<Node>)

  /** The path leads from the root to a node of the tree. */
  predicate ValidPath(root: Node, path: seq<nat>)
    decreases |path|
  {
    |path| == 0 || (path[0] < |root.children| && ValidPath(root.children[path[0]], path[1..]))
  }

  /** The node at the end of the path. */
  function At(root: Node, path: seq<nat>): Node
    requires ValidPath(root, path)
    decreases |path|
  {
    if |path| == 0 then root else At(root.children[path[0]], path[1..])
  }

  /** Every prefix of a valid path is valid: the ancestors of a node exist. */
  lemma {:induction false} ValidPrefix(root: Node, path: seq<nat>, k: nat)
    requires ValidPath(root, path) && k <= |path|
    ensures ValidPath(root, path[..k])
    decreases |path|
  {
    if k > 0 {
      ValidPrefix(root.children[path[0]], path[1..], k - 1);
      assert path[..k][1..] == path[1..][..k - 1];
    }
  }

  /** Extending a path by a child index steps to that child. */
  lemma {:induction false} AtExtend(root: Node, path: seq<nat>, i: nat)
    requires ValidPath(root, path) && i < |At(root, path).children|
    ensures ValidPath(root, path + [i])
    ensures At(root, path + [i]) == At(root, path).children[i]
    decreases |path|
  {
    if |path| > 0 {
      assert (path + [i])[1..] == path[1..] + [i];
      AtExtend(root.children[path[0]], path[1..], i);
    }
  }
}

=== FILE: camel_findings.dfy ===
/**
 * Concrete traces of the scan loop of CamelCaseMatcher and
 * ResultSelectionStrategy as written, against the corrected loop: the
 * character skipped in word-starts-only mode is counted into the next match,
 * and what that does to filterResults, evaluateBestSingle and onlyWordStarts.
 */
module CamelFindings {
  import opened Wrappers
  import opened JavaString
  import opened CamelScan
  import opened MatchSelectors
  import opened ResultSelection

  /** The scan from a state with work left is the scan from the state after one step. */
  lemma {:induction false} ScanFromStep(m: Matcher, rev: Revision, cand: string, query: string, onlyWordStarts: bool, st: ScanState, next: ScanState)
    requires st.candIdx < |cand| && st.queryIdx < |query|
    requires Step(m, rev, cand, query, onlyWordStarts, st) == Success(next)
    ensures ScanFrom(m, rev, cand, query, onlyWordStarts, st) == ScanFrom(m, rev, cand, query, onlyWordStarts, next)
  {
  }

  /** The first six steps on "xbaaAb…" against "xab…" in word-starts-only mode, as written. */
  lemma {:induction false} AsWrittenPrefix(m: Matcher, cand: string, query: string)
    requires m == SelectionStrategy || m == CamelCase(0)
    requires |cand| >= 6 && cand[..6] == "xbaaAb" && |query| >= 3 && query[..3] == "xab"
    ensures ScanFrom(m, AsWritten, cand, query, true, Initial(m)) ==
      ScanFrom(m, AsWritten, cand, query, true, ScanState(6, 3, 36, 1, 4, 4, true, [Segment("x", true)]))
  {
    assert cand[0] == 'x' && cand[1] == 'b' && cand[2] == 'a' && cand[3] == 'a' && cand[4] == 'A' && cand[5] == 'b' by {
      assert cand[..6][0] == 'x' && cand[..6][1] == 'b' && cand[..6][2] == 'a' && cand[..6][3] == 'a' && cand[..6][4] == 'A' && cand[..6][5] == 'b';
    }
    assert query[0] == 'x' && query[1] == 'a' && query[2] == 'b' by {
      assert query[..3][0] == 'x' && query[..3][1] == 'a' && query[..3][2] == 'b';
    }
    var f := [Segment("x", true)];
    var s0 := ScanState(0, 0, 0, 0, -1, 0, true, []);
    var s1 := ScanState(1, 1, 10, 0, 0, 1, true, []);
    var s2 := ScanState(2, 1, 10, 1, -1, 0, false, f);
    var s3 := ScanState(3, 1, 10, 1, -1, 1, false, f);
    var s4 := ScanState(4, 1, 10, 1, -1, 2, false, f);
    var s5 := ScanState(5, 2, 20, 1, 4, 3, true, f);
    var s6 := ScanState(6, 3, 36, 1, 4, 4, true, f);
    assert Initial(m) == s0;
    ScanFromStep(m, AsWritten, cand, query, true, s0, s1);
    assert cand[0..0] == "" && cand[0..1] == "x";
    assert Closing("", "x") == f;
    ScanFromStep(m, AsWritten, cand, query, true, s1, s2);
    ScanFromStep(m, AsWritten, cand, query, true, s2, s3);
    ScanFromStep(m, AsWritten, cand, query, true, s3, s4);
    assert WordStart(m, cand, 4);
    ScanFromStep(m, AsWritten, cand, query, true, s4, s5);
    assert Multiplier(m, true, 4) == 4;
    ScanFromStep(m, AsWritten, cand, query, true, s5, s6);
  }

  /**
   * As written, the two characters skipped before "A" are counted into its
   * match: on the mismatch at "c" the match is closed at offset 4 + 4, past
   * the end of the 7-character candidate, and substring throws.
   */
  lemma {:induction false} AsWrittenOverrunsCandidate(m: Matcher, cand: string, query: string)
    requires m == SelectionStrategy || m == CamelCase(0)
    requires cand == "xbaaAbc" && query == "xabz"
    ensures ComputeMatchingSegments(m, AsWritten, cand, query, true) == Failure(StringIndexOutOfBounds(4, 8, 7))
  {
    assert !EqualsIgnoreCase(cand, query) by {
      assert |ToLowerString(cand)| != |ToLowerString(query)|;
    }
    assert cand[..6] == "xbaaAb" && query[..3] == "xab";
    AsWrittenPrefix(m, cand, query);
    AsWrittenCloseOverruns(m);
    assert ScanFrom(m, AsWritten, cand, query, true, Initial(m)) == Failure(StringIndexOutOfBounds(4, 8, 7));
  }

  /** The seventh step: "c" does not match "z", and the match is closed at offset 8. */
  lemma {:induction false} AsWrittenCloseOverruns(m: Matcher)
    ensures ScanFrom(m, AsWritten, "xbaaAbc", "xabz", true, ScanState(6, 3, 36, 1, 4, 4, true, [Segment("x", true)])) ==
      Failure(StringIndexOutOfBounds(4, 8, 7))
  {
    var cand, query := "xbaaAbc", "xabz";
    var s6 := ScanState(6, 3, 36, 1, 4, 4, true, [Segment("x", true)]);
    assert cand[6] == 'c' && query[3] == 'z';
    assert CloseMatch(cand, s6, 8) == Failure(StringIndexOutOfBounds(4, 8, 7));
  }

  /**
   * Where no mismatch follows, the skipped characters inflate the run-on
   * bonus instead: 36 as written.
   */
  lemma {:induction false} AsWrittenInflatesScore(cand: string, query: string)
    requires cand == "xbaaAb" && query == "xab"
    ensures ComputeMatchingSegments(SelectionStrategy, AsWritten, cand, query, true).Success?
    ensures ComputeMatchingSegments(SelectionStrategy, AsWritten, cand, query, true).value.score == 36
  {
    assert !EqualsIgnoreCase(cand, query) by {
      assert |ToLowerString(cand)| != |ToLowerString(query)|;
    }
    assert cand[..6] == cand && query[..3] == query;
    AsWrittenPrefix(SelectionStrategy, cand, query);
  }

  /** The corrected scan on the same input: the skipped characters count for nothing. */
  lemma {:induction false} CorrectedPrefix(cand: string, query: string)
    requires |cand| >= 6 && cand[..6] == "xbaaAb" && |query| >= 3 && query[..3] == "xab"
    ensures ScanFrom(SelectionStrategy, Corrected, cand, query, true, Initial(SelectionStrategy)) ==
      ScanFrom(SelectionStrategy, Corrected, cand, query, true, ScanState(6, 3, 28, 1, 4, 2, true, [Segment("x", true)]))
  {
    var m := SelectionStrategy;
    assert cand[0] == 'x' && cand[1] == 'b' && cand[2] == 'a' && cand[3] == 'a' && cand[4] == 'A' && cand[5] == 'b' by {
      assert cand[..6][0] == 'x' && cand[..6][1] == 'b' && cand[..6][2] == 'a' && cand[..6][3] == 'a' && cand[..6][4] == 'A' && cand[..6][5] == 'b';
    }
    assert query[0] == 'x' && query[1] == 'a' && query[2] == 'b' by {
      assert query[..3][0] == 'x' && query[..3][1] == 'a' && query[..3][2] == 'b';
    }
    var f := [Segment("x", true)];
    var s0 := ScanState(0, 0, 0, 0, -1, 0, true, []);
    var s1 := ScanState(1, 1, 10, 0, 0, 1, true, []);
    var s2 := ScanState(2, 1, 10, 1, -1, 0, false, f);
    var s3 := ScanState(3, 1, 10, 1, -1, 0, false, f);
    var s4 := ScanState(4, 1, 10, 1, -1, 0, false, f);
    var s5 := ScanState(5, 2, 20, 1, 4, 1, true, f);
    var s6 := ScanState(6, 3, 28, 1, 4, 2, true, f);
    assert Initial(m) == s0;
    ScanFromStep(m, Corrected, cand, query, true, s0, s1);
    assert cand[0..0] == "" && cand[0..1] == "x";
    assert Closing("", "x") == f;
    ScanFromStep(m, Corrected, cand, query, true, s1, s2);
    ScanFromStep(m, Corrected, cand, query, true, s2, s3);
    ScanFromStep(m, Corrected, cand, query, true, s3, s4);
    assert WordStart(m, cand, 4);
    ScanFromStep(m, Corrected, cand, query, true, s4, s5);
    ScanFromStep(m, Corrected, cand, query, true, s5, s6);
  }

  /** Corrected, "xbaaAb" against "xab" scores 10 for "x" and 10 + 2 * 4 for "Ab": 28. */
  lemma {:induction false} CorrectedScoresMatchedOnly(cand: string, query: string)
    requires cand == "xbaaAb" && query == "xab"
    ensures MatchSegments(SelectionStrategy, cand, query, true).score == 28
  {
    assert !EqualsIgnoreCase(cand, query) by {
      assert |ToLowerString(cand)| != |ToLowerString(query)|;
    }
    assert cand[..6] == cand && query[..3] == query;
    CorrectedPrefix(cand, query);
    var s6 := ScanState(6, 3, 28, 1, 4, 2, true, [Segment("x", true)]);
    assert ScanFrom(SelectionStrategy, Corrected, cand, query, true, s6) == Success(s6);
    var fin := Finish(SelectionStrategy, cand, query, s6);
    assert fin.Success? && fin.value.score == 28 by {
      assert CloseMatch(cand, s6, 6).Success?;
    }
    assert ComputeMatchingSegments(SelectionStrategy, Corrected, cand, query, true) == fin;
  }

  /** The first six steps of the first pass, which matches any character, on "xbaaAb…" against "xab…". */
  lemma {:induction false} UnrestrictedPrefix(cand: string, query: string)
    requires |cand| >= 6 && cand[..6] == "xbaaAb" && |query| >= 3 && query[..3] == "xab"
    ensures ScanFrom(SelectionStrategy, Corrected, cand, query, false, Initial(SelectionStrategy)) ==
      ScanFrom(SelectionStrategy, Corrected, cand, query, false,
        ScanState(6, 3, 14, 3, 5, 1, false, [Segment("x", true), Segment("b", false), Segment("a", true)]))
  {
    var m := SelectionStrategy;
    assert cand[0] == 'x' && cand[1] == 'b' && cand[2] == 'a' && cand[3] == 'a' && cand[4] == 'A' && cand[5] == 'b' by {
      assert cand[..6][0] == 'x' && cand[..6][1] == 'b' && cand[..6][2] == 'a' && cand[..6][3] == 'a' && cand[..6][4] == 'A' && cand[..6][5] == 'b';
    }
    assert query[0] == 'x' && query[1] == 'a' && query[2] == 'b' by {
      assert query[..3][0] == 'x' && query[..3][1] == 'a' && query[..3][2] == 'b';
    }
    var f := [Segment("x", true)];
    var f2 := f + [Segment("b", false), Segment("a", true)];
    assert f2 == [Segment("x", true), Segment("b", false), Segment("a", true)];
    var s0 := ScanState(0, 0, 0, 0, -1, 0, true, []);
    var s1 := ScanState(1, 1, 10, 0, 0, 1, true, []);
    var s2 := ScanState(2, 1, 10, 1, -1, 0, false, f);
    var s3 := ScanState(3, 2, 12, 1, 2, 1, false, f);
    var s4 := ScanState(4, 2, 12, 3, -1, 0, false, f2);
    var s5 := ScanState(5, 2, 12, 3, -1, 0, false, f2);
    var s6 := ScanState(6, 3, 14, 3, 5, 1, false, f2);
    assert Initial(m) == s0;
    ScanFromStep(m, Corrected, cand, query, false, s0, s1);
    assert cand[0..0] == "" && cand[0..1] == "x";
    assert Closing("", "x") == f;
    ScanFromStep(m, Corrected, cand, query, false, s1, s2);
    assert !WordStart(m, cand, 2);
    ScanFromStep(m, Corrected, cand, query, false, s2, s3);
    assert cand[1..2] == "b" && cand[2..3] == "a";
    assert Closing("b", "a") == [Segment("b", false), Segment("a", true)];
    ScanFromStep(m, Corrected, cand, query, false, s3, s4);
    ScanFromStep(m, Corrected, cand, query, false, s4, s5);
    assert !WordStart(m, cand, 5);
    ScanFromStep(m, Corrected, cand, query, false, s5, s6);
  }

  /** The first pass scores "xbaaAbc" against "xabz" 2 + 10 + 2 for "x", "a", "b", less 5 for the unmatched "z": 9. */
  lemma {:induction false} UnrestrictedScoresNine(cand: string, query: string)
    requires cand == "xbaaAbc" && query == "xabz"
    ensures MatchSegments(SelectionStrategy, cand, query, false).score == 9
  {
    assert !EqualsIgnoreCase(cand, query) by {
      assert |ToLowerString(cand)| != |ToLowerString(query)|;
    }
    assert cand[..6] == "xbaaAb" && query[..3] == "xab";
    UnrestrictedPrefix(cand, query);
    var f2 := [Segment("x", true), Segment("b", false), Segment("a", true)];
    var s6 := ScanState(6, 3, 14, 3, 5, 1, false, f2);
    var s7 := ScanState(7, 3, 14, 6, -1, 0, false, f2 + [Segment("aA", false), Segment("b", true)]);
    assert cand[6] == 'c' && query[3] == 'z';
    assert cand[3..5] == "aA" && cand[5..6] == "b";
    assert Closing("aA", "b") == [Segment("aA", false), Segment("b", true)];
    ScanFromStep(SelectionStrategy, Corrected, cand, query, false, s6, s7);
    assert ScanFrom(SelectionStrategy, Corrected, cand, query, false, s7) == Success(s7);
    var fin := Finish(SelectionStrategy, cand, query, s7);
    assert fin.Success? && fin.value.score == 9 by {
      assert Substring(cand, 6, 7).Success?;
    }
    assert ComputeMatchingSegments(SelectionStrategy, Corrected, cand, query, false) == fin;
  }

  /** The first pass scores "xbaaAb" against "xab" 14. */
  lemma {:induction false} UnrestrictedScoresFourteen(cand: string, query: string)
    requires cand == "xbaaAb" && query == "xab"
    ensures MatchSegments(SelectionStrategy, cand, query, false).score == 14
  {
    assert !EqualsIgnoreCase(cand, query) by {
      assert |ToLowerString(cand)| != |ToLowerString(query)|;
    }
    assert cand[..6] == cand && query[..3] == query;
    UnrestrictedPrefix(cand, query);
    var s6 := ScanState(6, 3, 14, 3, 5, 1, false, [Segment("x", true), Segment("b", false), Segment("a", true)]);
    assert ScanFrom(SelectionStrategy, Corrected, cand, query, false, s6) == Success(s6);
    var fin := Finish(SelectionStrategy, cand, query, s6);
    assert fin.Success? && fin.value.score == 14 by {
      assert CloseMatch(cand, s6, 6).Success?;
    }
    assert ComputeMatchingSegments(SelectionStrategy, Corrected, cand, query, false) == fin;
  }

  /**
   * As written, evaluateBestSingle and filterResults throw on "xbaaAbc"
   * against "xabz": the first pass scores it positively, so the second pass
   * runs, and its rescan overruns the candidate.
   */
  lemma {:induction false} SelectionAsWrittenThrows(cand: string, query: string)
    requires cand == "xbaaAbc" && query == "xabz"
    ensures EvaluateBestSingle(AsWritten, Some(cand), Some(query)) == Failure(StringIndexOutOfBounds(4, 8, 7))
    ensures FilterResults(AsWritten, [cand], query, 1) == Failure(StringIndexOutOfBounds(4, 8, 7))
  {
    UnrestrictedScoresNine(cand, query);
    AsWrittenOverrunsCandidate(SelectionStrategy, cand, query);
    assert Rescan(AsWritten, cand, query).Failure?;
    EvaluateBestSingleIsFilter(AsWritten, cand, query);
  }

  /**
   * As written, StringMatchUtil.filterResults through onlyWordStarts throws
   * on the same candidate, where the corrected pipeline keeps it.
   */
  lemma {:induction false} OnlyWordStartsAsWrittenThrows(cands: seq<string>, query: string)
    requires cands == ["xbaaAbc"] && query == "xabz"
    ensures FilterWith(AsWritten, WordStarts, cands, query) == Failure(StringIndexOutOfBounds(4, 8, 7))
  {
    var base := BaseResults(cands, query);
    assert base == [MatchResult(0, "xbaaAbc", "xabz", [Segment("xbaaAbc", false)])];
    AsWrittenOverrunsCandidate(CamelCase(0), "xbaaAbc", query);
    assert OnlyWordStartsRefine(AsWritten, base[0]) == Failure(StringIndexOutOfBounds(4, 8, 7));
  }

  /**
   * Where the rescan as written does not throw, it ranks wrongly:
   * evaluateBestSingle scores "xbaaAb" against "xab" 36 as written, 28 corrected.
   */
  lemma {:induction false} SelectionAsWrittenInflates(cand: string, query: string)
    requires cand == "xbaaAb" && query == "xab"
    ensures var r := EvaluateBestSingle(AsWritten, Some(cand), Some(query));
      r.Success? && r.value.Some? && r.value.value.score == 36
    ensures var r := EvaluateBestSingle(Corrected, Some(cand), Some(query));
      r.Success? && r.value.Some? && r.value.value.score == 28
  {
    UnrestrictedScoresFourteen(cand, query);
    AsWrittenInflatesScore(cand, query);
    CorrectedScoresMatchedOnly(cand, query);
  }
}

=== FILE: camel_scan.dfy ===
/**
 * The greedy left-to-right scan that scores a completion candidate against
 * a query, shared by CamelCaseMatcher.computeMatchingSegments and
 * ResultSelectionStrategy.computeMatchingSegments. The two differ in their
 * word-start test, their run-on multiplier, their start index and the
 * penalty for unmatched query characters; a `Matcher` value selects which.
 * The TextFlow they build is a list of (text, highlighted) segments.
 *
 * Both loops count a character they skip in word-starts-only mode into the
 * length of the next match. `Revision` selects the loop as written or the
 * corrected one, which leaves skipped characters out.
 */
module CamelScan {
  import opened Wrappers
  import opened JavaString

  /** A Text child of the result's TextFlow; `highlighted` for the autocomplete-match style. */
  datatype Segment = Segment(text: string, highlighted: bool)

  /** A scored match of `suggestion` against `query`, with its rendering. */
  datatype MatchResult = MatchResult(score: int, suggestion: string, query: string, flow: seq<Segment>)

  /** ResultSelectionStrategy's scan, or CamelCaseMatcher's scan starting at `fromIndex`. */
  datatype Matcher = SelectionStrategy | CamelCase(fromIndex: nat)

  datatype Revision = AsWritten | Corrected

  /** The StringIndexOutOfBoundsException of String.substring or String.charAt, and an IllegalArgumentException. */
  datatype MatchError =
    | StringIndexOutOfBounds(begin: int, end: int, length: nat)
    | CharIndexOutOfBounds(index: int, length: nat)
    | IllegalArgument

  /** PERFECT_SCORE and WORST_SCORE: Integer.MAX_VALUE and Integer.MIN_VALUE. */
  const PerfectScore: int := IntMax
  const WorstScore: int := IntMin

  /** String.substring(begin, end). */
  function Substring(s: string, begin: int, end: int): (r: Result<string, MatchError>)
    ensures r.Success? <==> 0 <= begin <= end <= |s|
    ensures r.Success? ==> r.value == s[begin..end]
  {
    if 0 <= begin <= end <= |s| then Success(s[begin..end]) else Failure(StringIndexOutOfBounds(begin, end, |s|))
  }

  /** The text of all segments: what the TextFlow displays. */
  function Texts(flow: seq<Segment>): string {
    if |flow| == 0 then "" else flow[0].text + Texts(flow[1..])
  }

  /** The text of the highlighted segments: the characters matched to the query. */
  function Highlights(flow: seq<Segment>): string {
    if |flow| == 0 then "" else (if flow[0].highlighted then flow[0].text else "") + Highlights(flow[1..])
  }

  /** Equal up to ASCII case, character by character. */
  predicate SameLetters(a: string, b: string)
    decreases |a|
  {
    |a| == |b| && (|a| == 0 || (ToLower(a[0]) == ToLower(b[0]) && SameLetters(a[1..], b[1..])))
  }

  /** isWordStart of either class; CamelCaseMatcher also counts the start index and a letter after a non-letter. */
  predicate WordStart(m: Matcher, s: string, idx: nat)
    requires idx < |s|
  {
    match m
    case SelectionStrategy =>
      idx == 0 || (IsUpper(s[idx]) && IsLower(s[idx - 1]))
    case CamelCase(fromIndex) =>
      idx == fromIndex || idx == 0 ||
      (IsUpper(s[idx]) && IsLower(s[idx - 1])) ||
      (IsAlphabetic(s[idx]) && !IsAlphabetic(s[idx - 1]))
  }

  /** The factor a run-on character's match length is scored with. */
  function Multiplier(m: Matcher, startOfWord: bool, curMatchStart: int): (k: int)
    ensures k == 2 || k == 4 || k == 8
  {
    match m
    case SelectionStrategy => if startOfWord then 4 else 2
    case CamelCase(_) => if startOfWord && curMatchStart == 0 then 8 else if startOfWord then 4 else 2
  }

  /** The loop variables of computeMatchingSegments. */
  datatype ScanState = ScanState(
    candIdx: nat,
    queryIdx: nat,
    score: int,
    lastMatchEnd: nat,
    curMatchStart: int,
    matchLength: nat,
    startOfWord: bool,
    flow: seq<Segment>)

  function Initial(m: Matcher): ScanState {
    ScanState(if m.CamelCase? then m.fromIndex else 0, 0, 0, 0, -1, 0, true, [])
  }

  function NormalIfNonEmpty(t: string): seq<Segment> {
    if |t| > 0 then [Segment(t, false)] else []
  }

  /** Emit the plain text since the last match and the current match up to `end`. */
  function CloseMatch(cand: string, st: ScanState, end: int): Result<ScanState, MatchError> {
    var before :- Substring(cand, st.lastMatchEnd, st.curMatchStart);
    var matched :- Substring(cand, st.curMatchStart, end);
    Success(st.(flow := st.flow + Closing(before, matched), lastMatchEnd := end))
  }

  /** One iteration of the scan loop. */
  function Step(m: Matcher, rev: Revision, cand: string, query: string, onlyWordStarts: bool, st: ScanState): (r: Result<ScanState, MatchError>)
    requires st.candIdx < |cand| && st.queryIdx < |query|
    ensures r.Success? ==> r.value.candIdx == st.candIdx + 1
  {
    var i := st.candIdx;
    if ToLower(cand[i]) == ToLower(query[st.queryIdx]) then
      if st.curMatchStart == -1 then
        if onlyWordStarts && !st.startOfWord && !WordStart(m, cand, i) then
          // skipped: the loop as written has already counted the character into matchLength
          Success(st.(candIdx := i + 1, matchLength := if rev == AsWritten then st.matchLength + 1 else st.matchLength))
        else
          var ws := WordStart(m, cand, i);
          Success(st.(candIdx := i + 1, queryIdx := st.queryIdx + 1, matchLength := st.matchLength + 1,
                      curMatchStart := i, startOfWord := ws, score := st.score + (if ws then 10 else 2)))
      else
        var len := st.matchLength + 1;
        Success(st.(candIdx := i + 1, queryIdx := st.queryIdx + 1, matchLength := len,
                    score := st.score + len * Multiplier(m, st.startOfWord, st.curMatchStart)))
    else
      var closed :- if st.curMatchStart != -1 then CloseMatch(cand, st, st.curMatchStart + st.matchLength) else Success(st);
      Success(closed.(candIdx := i + 1, curMatchStart := -1, matchLength := 0, startOfWord := false))
  }

  /** The scan loop: runs until the candidate or the query is used up. */
  function ScanFrom(m: Matcher, rev: Revision, cand: string, query: string, onlyWordStarts: bool, st: ScanState): Result<ScanState, MatchError>
    decreases |cand| - st.candIdx
  {
    if st.candIdx >= |cand| || st.queryIdx >= |query| then Success(st)
    else
      var next :- Step(m, rev, cand, query, onlyWordStarts, st);
      ScanFrom(m, rev, cand, query, onlyWordStarts, next)
  }

  /** After the loop: close a match the query ended in, add the rest of the candidate, and score. */
  function Finish(m: Matcher, cand: string, query: string, st: ScanState): (r: Result<MatchResult, MatchError>)
    ensures r.Success? ==> r.value.suggestion == cand && r.value.query == query
  {
    var closed :- if st.curMatchStart != -1 && st.candIdx <= |cand| then CloseMatch(cand, st, st.candIdx) else Success(st);
    var rest :- Substring(cand, closed.lastMatchEnd, |cand|);
    var remaining := |query| - st.queryIdx;
    var score := if m.SelectionStrategy? && remaining > 0 then st.score - remaining * 5 else st.score;
    Success(MatchResult(score, cand, query, closed.flow + NormalIfNonEmpty(rest)))
  }

  /** computeMatchingSegments of either class, in either revision. */
  function ComputeMatchingSegments(m: Matcher, rev: Revision, cand: string, query: string, onlyWordStarts: bool): (r: Result<MatchResult, MatchError>)
    ensures r.Success? ==> r.value.suggestion == cand && r.value.query == query
  {
    if EqualsIgnoreCase(cand, query) then Success(MatchResult(PerfectScore, cand, query, [Segment(cand, true)]))
    else
      var st :- ScanFrom(m, rev, cand, query, onlyWordStarts, Initial(m));
      Finish(m, cand, query, st)
  }

  // ---------------------------------------------------------------- the corrected scan

  /** What the corrected loop keeps true. */
  predicate ScanInv(cand: string, query: string, st: ScanState) {
    st.lastMatchEnd <= |cand| && st.queryIdx <= |query| && st.score >= 0 &&
    (st.score == 0 <==> st.queryIdx == 0) &&
    Texts(st.flow) == cand[..st.lastMatchEnd] &&
    (st.curMatchStart == -1 ==>
      st.matchLength == 0 && st.lastMatchEnd <= st.candIdx &&
      SameLetters(Highlights(st.flow), query[..st.queryIdx])) &&
    (st.curMatchStart != -1 ==>
      st.lastMatchEnd <= st.curMatchStart && st.curMatchStart + st.matchLength == st.candIdx <= |cand| &&
      st.matchLength <= st.queryIdx &&
      SameLetters(Highlights(st.flow), query[..st.queryIdx - st.matchLength]) &&
      SameLetters(cand[st.curMatchStart..st.candIdx], query[st.queryIdx - st.matchLength..st.queryIdx]))
  }

  lemma {:induction false} TextsAppend(flow: seq<Segment>, more: seq<Segment>)
    ensures Texts(flow + more) == Texts(flow) + Texts(more)
    ensures Highlights(flow + more) == Highlights(flow) + Highlights(more)
    decreases |flow|
  {
    if |flow| == 0 {
      assert flow + more == more;
    } else {
      assert (flow + more)[1..] == flow[1..] + more;
      TextsAppend(flow[1..], more);
    }
  }

  lemma {:induction false} SingleSegment(s: Segment)
    ensures Texts([s]) == s.text
    ensures Highlights([s]) == if s.highlighted then s.text else ""
  {
    assert [s][1..] == [];
  }

  /** The plain text `before` then the highlighted `matched`, skipping an empty `before`. */
  function Closing(before: string, matched: string): seq<Segment> {
    NormalIfNonEmpty(before) + [Segment(matched, true)]
  }

  lemma {:induction false} ClosingTexts(before: string, matched: string)
    ensures Texts(Closing(before, matched)) == before + matched
    ensures Highlights(Closing(before, matched)) == matched
  {
    TextsAppend(NormalIfNonEmpty(before), [Segment(matched, true)]);
    SingleSegment(Segment(matched, true));
    if |before| > 0 {
      SingleSegment(Segment(before, false));
    }
  }

  /** Adjacent slices join. */
  lemma SlicesJoin<T>(s: seq<T>, a: nat, b: nat, c: nat)
    requires a <= b <= c <= |s|
    ensures s[a..b] + s[b..c] == s[a..c]
  {
    assert forall k :: 0 <= k < c - a ==> (s[a..b] + s[b..c])[k] == s[a + k];
  }

  /**
   * Closing a match: the plain text from the last match end and the match
   * itself join the flow, which then displays the candidate up to the match
   * end.
   */
  lemma {:induction false} CloseTexts(cand: string, flow: seq<Segment>, lastEnd: nat, start: nat, end: nat)
    requires lastEnd <= start <= end <= |cand|
    requires Texts(flow) == cand[..lastEnd]
    ensures Texts(flow + Closing(cand[lastEnd..start], cand[start..end])) == cand[..end]
  {
    var before := cand[lastEnd..start];
    var matched := cand[start..end];
    TextsAppend(flow, Closing(before, matched));
    ClosingTexts(before, matched);
    SlicesJoin(cand, lastEnd, start, end);
    SlicesJoin(cand, 0, lastEnd, end);
    assert cand[..lastEnd] == cand[0..lastEnd] && cand[..end] == cand[0..end];
  }

  /** ... and highlights the query up to the match's last character. */
  lemma {:induction false} CloseLetters(cand: string, query: string, flow: seq<Segment>, lastEnd: nat, start: nat, end: nat, q0: nat, q1: nat)
    requires lastEnd <= start <= end <= |cand| && q0 <= q1 <= |query|
    requires SameLetters(Highlights(flow), query[..q0])
    requires SameLetters(cand[start..end], query[q0..q1])
    ensures SameLetters(Highlights(flow + Closing(cand[lastEnd..start], cand[start..end])), query[..q1])
  {
    var before := cand[lastEnd..start];
    var matched := cand[start..end];
    TextsAppend(flow, Closing(before, matched));
    ClosingTexts(before, matched);
    SameLettersConcat(Highlights(flow), matched, query[..q0], query[q0..q1]);
    SlicesJoin(query, 0, q0, q1);
    assert query[..q0] == query[0..q0] && query[..q1] == query[0..q1];
  }

  lemma {:induction false} SameLettersConcat(a: string, b: string, c: string, d: string)
    requires SameLetters(a, c) && SameLetters(b, d)
    ensures SameLetters(a + b, c + d)
    decreases |a|
  {
    if |a| == 0 {
      assert a + b == b && c + d == d;
    } else {
      SameLettersConcat(a[1..], b, c[1..], d);
      assert (a + b)[1..] == a[1..] + b;
      assert (c + d)[1..] == c[1..] + d;
    }
  }

  lemma {:induction false} SameLetter(x: char, y: char)
    requires ToLower(x) == ToLower(y)
    ensures SameLetters([x], [y])
  {
    assert [x][1..] == [] && [y][1..] == [];
  }

  /** String.equalsIgnoreCase compares letter by letter. */
  lemma {:induction false} EqualsIgnoreCaseLetters(a: string, b: string)
    requires EqualsIgnoreCase(a, b)
    ensures SameLetters(a, b)
    decreases |a|
  {
    assert |a| == |ToLowerString(a)| == |ToLowerString(b)| == |b|;
    if |a| > 0 {
      assert ToLowerString(a)[0] == ToLowerString(b)[0];
      assert ToLowerString(a[1..]) == ToLowerString(a)[1..];
      assert ToLowerString(b[1..]) == ToLowerString(b)[1..];
      EqualsIgnoreCaseLetters(a[1..], b[1..]);
    }
  }

  /** Closing a match keeps the invariant: the run moves into the flow. */
  lemma {:induction false} CloseKeepsInv(cand: string, query: string, st: ScanState)
    requires ScanInv(cand, query, st) && st.curMatchStart != -1
    ensures CloseMatch(cand, st, st.candIdx).Success?
    ensures var c := CloseMatch(cand, st, st.candIdx).value;
      c == st.(flow := c.flow, lastMatchEnd := st.candIdx) &&
      Texts(c.flow) == cand[..st.candIdx] && SameLetters(Highlights(c.flow), query[..st.queryIdx])
  {
    CloseTexts(cand, st.flow, st.lastMatchEnd, st.curMatchStart, st.candIdx);
    CloseLetters(cand, query, st.flow, st.lastMatchEnd, st.curMatchStart, st.candIdx, st.queryIdx - st.matchLength, st.queryIdx);
    assert st.flow + NormalIfNonEmpty(cand[st.lastMatchEnd..st.curMatchStart]) + [Segment(cand[st.curMatchStart..st.candIdx], true)] ==
      st.flow + Closing(cand[st.lastMatchEnd..st.curMatchStart], cand[st.curMatchStart..st.candIdx]);
  }

  /** A match starting at the current character. */
  lemma {:induction false} StartKeepsInv(cand: string, query: string, st: ScanState, ws: bool)
    requires ScanInv(cand, query, st) && st.curMatchStart == -1
    requires st.candIdx < |cand| && st.queryIdx < |query| && ToLower(cand[st.candIdx]) == ToLower(query[st.queryIdx])
    ensures ScanInv(cand, query, st.(candIdx := st.candIdx + 1, queryIdx := st.queryIdx + 1, matchLength := st.matchLength + 1,
                                      curMatchStart := st.candIdx, startOfWord := ws, score := st.score + (if ws then 10 else 2)))
  {
    var i := st.candIdx;
    assert cand[i..i + 1] == [cand[i]];
    assert query[st.queryIdx..st.queryIdx + 1] == [query[st.queryIdx]];
    SameLetter(cand[i], query[st.queryIdx]);
  }

  /** A match running on by one character. */
  lemma {:induction false} RunOnKeepsInv(cand: string, query: string, st: ScanState, k: int)
    requires ScanInv(cand, query, st) && st.curMatchStart != -1 && k > 0
    requires st.candIdx < |cand| && st.queryIdx < |query| && ToLower(cand[st.candIdx]) == ToLower(query[st.queryIdx])
    ensures ScanInv(cand, query, st.(candIdx := st.candIdx + 1, queryIdx := st.queryIdx + 1, matchLength := st.matchLength + 1,
                                      score := st.score + (st.matchLength + 1) * k))
  {
    var i := st.candIdx;
    var q0 := st.queryIdx - st.matchLength;
    assert cand[st.curMatchStart..i + 1] == cand[st.curMatchStart..i] + [cand[i]];
    assert query[q0..st.queryIdx + 1] == query[q0..st.queryIdx] + [query[st.queryIdx]];
    SameLetter(cand[i], query[st.queryIdx]);
    SameLettersConcat(cand[st.curMatchStart..i], [cand[i]], query[q0..st.queryIdx], [query[st.queryIdx]]);
  }

  /** A mismatch ends the current match, if there is one. */
  lemma {:induction false} MismatchKeepsInv(cand: string, query: string, st: ScanState)
    requires ScanInv(cand, query, st) && st.candIdx < |cand|
    ensures st.curMatchStart != -1 ==> CloseMatch(cand, st, st.curMatchStart + st.matchLength).Success?
    ensures var closed := if st.curMatchStart != -1 then CloseMatch(cand, st, st.curMatchStart + st.matchLength).value else st;
      ScanInv(cand, query, closed.(candIdx := st.candIdx + 1, curMatchStart := -1, matchLength := 0, startOfWord := false))
  {
    if st.curMatchStart != -1 {
      CloseKeepsInv(cand, query, st);
    }
  }

  /** A matching character that starts a new match (or is skipped as no word start) keeps the invariant. */
  lemma {:induction false} MatchStartStepKeepsInv(m: Matcher, cand: string, query: string, onlyWordStarts: bool, st: ScanState)
    requires ScanInv(cand, query, st) && st.candIdx < |cand| && st.queryIdx < |query| && st.curMatchStart == -1
    requires ToLower(cand[st.candIdx]) == ToLower(query[st.queryIdx])
    ensures Step(m, Corrected, cand, query, onlyWordStarts, st).Success?
    ensures ScanInv(cand, query, Step(m, Corrected, cand, query, onlyWordStarts, st).value)
  {
    var i := st.candIdx;
    var r := Step(m, Corrected, cand, query, onlyWordStarts, st);
    if onlyWordStarts && !st.startOfWord && !WordStart(m, cand, i) {
      assert r == Success(st.(candIdx := i + 1));
    } else {
      var ws := WordStart(m, cand, i);
      StartKeepsInv(cand, query, st, ws);
      assert r == Success(st.(candIdx := i + 1, queryIdx := st.queryIdx + 1, matchLength := st.matchLength + 1,
                              curMatchStart := i, startOfWord := ws, score := st.score + (if ws then 10 else 2)));
    }
  }

  /** A matching character that extends the current match keeps the invariant. */
  lemma {:induction false} MatchRunStepKeepsInv(m: Matcher, cand: string, query: string, onlyWordStarts: bool, st: ScanState)
    requires ScanInv(cand, query, st) && st.candIdx < |cand| && st.queryIdx < |query| && st.curMatchStart != -1
    requires ToLower(cand[st.candIdx]) == ToLower(query[st.queryIdx])
    ensures Step(m, Corrected, cand, query, onlyWordStarts, st).Success?
    ensures ScanInv(cand, query, Step(m, Corrected, cand, query, onlyWordStarts, st).value)
  {
    var i := st.candIdx;
    var k := Multiplier(m, st.startOfWord, st.curMatchStart);
    RunOnKeepsInv(cand, query, st, k);
    assert Step(m, Corrected, cand, query, onlyWordStarts, st) ==
      Success(st.(candIdx := i + 1, queryIdx := st.queryIdx + 1, matchLength := st.matchLength + 1,
                  score := st.score + (st.matchLength + 1) * k));
  }

  /** A step on a character that does not match keeps the invariant. */
  lemma {:induction false} MismatchingStepKeepsInv(m: Matcher, cand: string, query: string, onlyWordStarts: bool, st: ScanState)
    requires ScanInv(cand, query, st) && st.candIdx < |cand| && st.queryIdx < |query|
    requires ToLower(cand[st.candIdx]) != ToLower(query[st.queryIdx])
    ensures Step(m, Corrected, cand, query, onlyWordStarts, st).Success?
    ensures ScanInv(cand, query, Step(m, Corrected, cand, query, onlyWordStarts, st).value)
  {
    MismatchKeepsInv(cand, query, st);
  }

  /** Every step of the corrected scan succeeds and keeps the invariant. */
  lemma {:induction false} StepKeepsInv(m: Matcher, cand: string, query: string, onlyWordStarts: bool, st: ScanState)
    requires ScanInv(cand, query, st) && st.candIdx < |cand| && st.queryIdx < |query|
    ensures Step(m, Corrected, cand, query, onlyWordStarts, st).Success?
    ensures ScanInv(cand, query, Step(m, Corrected, cand, query, onlyWordStarts, st).value)
  {
    if ToLower(cand[st.candIdx]) != ToLower(query[st.queryIdx]) {
      MismatchingStepKeepsInv(m, cand, query, onlyWordStarts, st);
    } else if st.curMatchStart == -1 {
      MatchStartStepKeepsInv(m, cand, query, onlyWordStarts, st);
    } else {
      MatchRunStepKeepsInv(m, cand, query, onlyWordStarts, st);
    }
  }

  lemma {:induction false} ScanKeepsInv(m: Matcher, cand: string, query: string, onlyWordStarts: bool, st: ScanState)
    requires ScanInv(cand, query, st)
    ensures ScanFrom(m, Corrected, cand, query, onlyWordStarts, st).Success?
    ensures var e := ScanFrom(m, Corrected, cand, query, onlyWordStarts, st).value;
      ScanInv(cand, query, e) && (e.candIdx >= |cand| || e.queryIdx >= |query|)
    decreases |cand| - st.candIdx
  {
    if st.candIdx < |cand| && st.queryIdx < |query| {
      StepKeepsInv(m, cand, query, onlyWordStarts, st);
      ScanKeepsInv(m, cand, query, onlyWordStarts, Step(m, Corrected, cand, query, onlyWordStarts, st).value);
    }
  }

  /** The scan result's rendering, in either the perfect or the scanned case. */
  predicate WellRendered(r: MatchResult) {
    Texts(r.flow) == r.suggestion &&
    |Highlights(r.flow)| <= |r.query| &&
    SameLetters(Highlights(r.flow), r.query[..|Highlights(r.flow)|])
  }

  /** The rest of the candidate completes the display and highlights nothing. */
  lemma {:induction false} RestTexts(cand: string, flow: seq<Segment>, lastEnd: nat)
    requires lastEnd <= |cand| && Texts(flow) == cand[..lastEnd]
    ensures Texts(flow + NormalIfNonEmpty(cand[lastEnd..])) == cand
    ensures Highlights(flow + NormalIfNonEmpty(cand[lastEnd..])) == Highlights(flow)
  {
    var rest := cand[lastEnd..];
    TextsAppend(flow, NormalIfNonEmpty(rest));
    if |rest| > 0 {
      SingleSegment(Segment(rest, false));
    }
    assert cand[..lastEnd] + rest == cand;
  }

  lemma {:induction false} FinishCorrect(m: Matcher, cand: string, query: string, st: ScanState)
    requires ScanInv(cand, query, st)
    ensures Finish(m, cand, query, st).Success?
    ensures var r := Finish(m, cand, query, st).value;
      WellRendered(r) && r.suggestion == cand && r.query == query &&
      |Highlights(r.flow)| == st.queryIdx &&
      (m.CamelCase? ==> r.score == st.score) &&
      (m.SelectionStrategy? ==> r.score == st.score - 5 * (|query| - st.queryIdx))
  {
    var closed: ScanState;
    if st.curMatchStart != -1 {
      CloseKeepsInv(cand, query, st);
      closed := CloseMatch(cand, st, st.candIdx).value;
    } else {
      closed := st;
    }
    assert SameLetters(Highlights(closed.flow), query[..st.queryIdx]);
    RestTexts(cand, closed.flow, closed.lastMatchEnd);
    assert cand[closed.lastMatchEnd..|cand|] == cand[closed.lastMatchEnd..];
    var r := Finish(m, cand, query, st).value;
    assert r.flow == closed.flow + NormalIfNonEmpty(cand[closed.lastMatchEnd..]);
    assert |Highlights(r.flow)| == st.queryIdx;
    assert query[..|Highlights(r.flow)|] == query[..st.queryIdx];
  }

  /** The corrected scan never fails, and what it returns displays the candidate and matches a query prefix. */
  lemma {:induction false} CorrectedScanSucceeds(m: Matcher, cand: string, query: string, onlyWordStarts: bool)
    ensures ComputeMatchingSegments(m, Corrected, cand, query, onlyWordStarts).Success?
    ensures var r := ComputeMatchingSegments(m, Corrected, cand, query, onlyWordStarts).value;
      WellRendered(r) && r.suggestion == cand && r.query == query &&
      (r.score != PerfectScore ==>
        (m.CamelCase? ==> (r.score >= 0 && (r.score > 0 <==> |Highlights(r.flow)| > 0))) &&
        (m.SelectionStrategy? ==> r.score >= -5 * (|query| - |Highlights(r.flow)|)))
  {
    if EqualsIgnoreCase(cand, query) {
      var r := ComputeMatchingSegments(m, Corrected, cand, query, onlyWordStarts).value;
      assert [Segment(cand, true)][..0] == [];
      assert Highlights(r.flow) == cand;
      EqualsIgnoreCaseLetters(cand, query);
      assert query[..|cand|] == query;
    } else {
      var st0 := Initial(m);
      assert Texts(st0.flow) == cand[..0];
      ScanKeepsInv(m, cand, query, onlyWordStarts, st0);
      var st := ScanFrom(m, Corrected, cand, query, onlyWordStarts, st0).value;
      FinishCorrect(m, cand, query, st);
    }
  }

  /**
   * The scan as corrected: the same loop, with a character skipped in
   * word-starts-only mode left out of the next match's length.
   */
  function MatchSegments(m: Matcher, cand: string, query: string, onlyWordStarts: bool): (r: MatchResult)
    ensures r.suggestion == cand && r.query == query
    ensures Texts(r.flow) == cand
    ensures |Highlights(r.flow)| <= |query| && SameLetters(Highlights(r.flow), query[..|Highlights(r.flow)|])
    ensures EqualsIgnoreCase(cand, query) ==> r.score == PerfectScore
    ensures m.CamelCase? && r.score != PerfectScore ==> r.score >= 0 && (r.score > 0 <==> |Highlights(r.flow)| > 0)
    ensures m.SelectionStrategy? && r.score != PerfectScore ==> r.score >= -5 * (|query| - |Highlights(r.flow)|)
  {
    CorrectedScanSucceeds(m, cand, query, onlyWordStarts);
    ComputeMatchingSegments(m, Corrected, cand, query, onlyWordStarts).value
  }

  /** Without the word-start restriction no character is skipped, so both revisions take the same steps. */
  lemma {:induction false} ScanFromIgnoresRevision(m: Matcher, cand: string, query: string, st: ScanState)
    ensures ScanFrom(m, AsWritten, cand, query, false, st) == ScanFrom(m, Corrected, cand, query, false, st)
    decreases |cand| - st.candIdx
  {
    if st.candIdx < |cand| && st.queryIdx < |query| {
      var next := Step(m, Corrected, cand, query, false, st);
      assert Step(m, AsWritten, cand, query, false, st) == next;
      if next.Success? {
        ScanFromIgnoresRevision(m, cand, query, next.value);
      }
    }
  }

  /**
   * Matching any character, the scan as written never throws and is the
   * corrected scan: the first passes and the full rescans of both classes
   * are exactly MatchSegments.
   */
  lemma {:induction false} UnrestrictedScanAsWritten(m: Matcher, cand: string, query: string)
    ensures ComputeMatchingSegments(m, AsWritten, cand, query, false) == Success(MatchSegments(m, cand, query, false))
  {
    ScanFromIgnoresRevision(m, cand, query, Initial(m));
    CorrectedScanSucceeds(m, cand, query, false);
  }
}

=== FILE: coordinate_examples.dfy ===
/** The worked examples of CoordinateMappingTest, and one of findNodeCovering, as facts about the model. */
module CoordinateExamples {
  import opened Wrappers
  import opened AstNodes
  import opened PmdCoordinatesSystem

  lemma {:induction false} ParagraphsOfTwoLines(t: string)
    requires t == "123456\n12345"
    ensures Paragraphs(t) == ["123456", "12345"]
  {
    assert JavaString.IndexOf("123456\n12345", '\n', 0) == 6;
    assert t[..6] == "123456";
    assert t[6 + 1..] == "12345";
    assert JavaString.IndexOf("12345", '\n', 0) == -1;
    assert Paragraphs("12345") == ["12345"];
  }

  /** "123456\n12345": the line feed stays on line 1, as its column 7. */
  lemma {:induction false} TwoLinesFeed(t: string)
    requires t == "123456\n12345"
    ensures GetPmdLineAndColumnFromOffset(t, 6) == Success(TextPos2D(1, 7))
  {
    ParagraphsOfTwoLines(t);
    assert TabsBefore("123456", 6) == 0;
    OffsetToPmdPosition(t, 0, 6);
  }

  /** The offsets after the line feed start line 2. */
  lemma {:induction false} TwoLinesPositions(t: string)
    requires t == "123456\n12345"
    ensures GetPmdLineAndColumnFromOffset(t, 7) == Success(TextPos2D(2, 1))
    ensures GetPmdLineAndColumnFromOffset(t, 8) == Success(TextPos2D(2, 2))
  {
    ParagraphsOfTwoLines(t);
    var pars := ["123456", "12345"];
    assert ParStart(pars, 1) == 7;
    assert TabsBefore(pars[1], 0) == 0 && TabsBefore(pars[1], 1) == 0;
    OffsetToPmdPosition(t, 1, 0);
    OffsetToPmdPosition(t, 1, 1);
  }

  /** The first two columns of line 2 of "123456\n12345" are offsets 7 and 8. */
  lemma {:induction false} TwoLinesOffsets(t: string)
    requires t == "123456\n12345"
    ensures GetOffsetFromPmdPosition(t, 2, 1) == Success(7)
    ensures GetOffsetFromPmdPosition(t, 2, 2) == Success(8)
  {
    ParagraphsOfTwoLines(t);
    var pars := ["123456", "12345"];
    assert ParStart(pars, 1) == 7;
    assert TabsBefore(pars[1], 0) == 0 && TabsBefore(pars[1], 1) == 0;
    PositionToOffset(t, 1, 0);
    PositionToOffset(t, 1, 1);
  }

  /** "fof foo": without tabs or line feeds, PMD columns are offsets plus one. */
  lemma {:induction false} NormalText(t: string)
    requires t == "fof foo"
    ensures GetOffsetFromPmdPosition(t, 1, 1) == Success(0)
    ensures GetOffsetFromPmdPosition(t, 1, 2) == Success(1)
    ensures GetPmdLineAndColumnFromOffset(t, 0) == Success(TextPos2D(1, 1))
    ensures GetPmdLineAndColumnFromOffset(t, 1) == Success(TextPos2D(1, 2))
  {
    assert JavaString.IndexOf(t, '\n', 0) == -1;
    assert Paragraphs(t) == [t];
    assert TabsBefore(t, 1) == 0;
    assert RtfxColumnLoop(t, 0, 1) == RtfxColumnLoop(t, 1, 1);
  }

  /** "\t\t\t": each tab widens the following PMD columns by 8. */
  lemma {:induction false} ThreeTabs(t: string)
    requires t == "\t\t\t"
    ensures GetOffsetFromPmdPosition(t, 1, 1) == Success(0)
    ensures GetOffsetFromPmdPosition(t, 1, 2) == Success(0)
    ensures GetPmdLineAndColumnFromOffset(t, 0) == Success(TextPos2D(1, 1))
    ensures GetPmdLineAndColumnFromOffset(t, 1) == Success(TextPos2D(1, 9))
    ensures GetPmdLineAndColumnFromOffset(t, 2) == Success(TextPos2D(1, 17))
  {
    assert JavaString.IndexOf(t, '\n', 0) == -1;
    assert Paragraphs(t) == [t];
    assert TabsBefore(t, 1) == 1;
    assert TabsBefore(t, 2) == 2;
    assert RtfxColumnLoop(t, 0, 1) == RtfxColumnLoop(t, 1, 0);
  }

  /** "\tfof foo": every PMD column the leading tab covers maps back to offset 0. */
  lemma {:induction false} LeadingTab(t: string)
    requires t == "\tfof foo"
    ensures forall col :: 1 <= col <= 8 ==> GetOffsetFromPmdPosition(t, 1, col) == Success(0)
    ensures GetOffsetFromPmdPosition(t, 1, 9) == Success(1)
    ensures GetOffsetFromPmdPosition(t, 1, 10) == Success(2)
    ensures GetPmdLineAndColumnFromOffset(t, 0) == Success(TextPos2D(1, 1))
    ensures GetPmdLineAndColumnFromOffset(t, 1) == Success(TextPos2D(1, 9))
    ensures GetPmdLineAndColumnFromOffset(t, 2) == Success(TextPos2D(1, 10))
  {
    assert JavaString.IndexOf(t, '\n', 0) == -1;
    assert Paragraphs(t) == [t];
    assert TabsBefore(t, 1) == 1;
    assert TabsBefore(t, 2) == 1;
    forall col | 1 <= col <= 8
      ensures GetOffsetFromPmdPosition(t, 1, col) == Success(0)
    {
      if col > 1 {
        assert RtfxColumnLoop(t, 0, col - 1) == RtfxColumnLoop(t, 1, 0);
      }
    }
    assert RtfxColumnLoop(t, 0, 8) == RtfxColumnLoop(t, 1, 1);
    assert RtfxColumnLoop(t, 0, 9) == RtfxColumnLoop(t, 1, 2) == RtfxColumnLoop(t, 2, 2);
  }

  /** An empty area has one empty paragraph: only its start is addressable. */
  lemma {:induction false} EmptyText(t: string)
    requires t == ""
    ensures GetOffsetFromPmdPosition(t, 1, 1) == Success(0)
    ensures GetOffsetFromPmdPosition(t, 1, 2).Failure?
    ensures GetPmdLineAndColumnFromOffset(t, 0) == Success(TextPos2D(1, 1))
    ensures GetPmdLineAndColumnFromOffset(t, 2).Failure?
  {
    assert Paragraphs(t) == [""];
  }

  /**
   * On a node with a single child of the same range, findNodeCovering in
   * exact mode answers the child, the innermost node with that range; the
   * outermost one its documentation promises is the parent.
   */
  lemma {:induction false} ExactCoveringIsInnermost(root: Node, range: TextRange)
    requires root == Node("Outer", 1, 1, 1, 5, [Node("Inner", 1, 1, 1, 5, [])])
    requires range == TextRange(TextPos2D(1, 1), TextPos2D(1, 5))
    ensures FindNodeCovering(root, range, true) == Some([0])
    ensures RangeOf(root) == range
    ensures FindNodeCoveringOutermost(root, range) == Some([])
  {
    var inner := root.children[0];
    assert BinarySearchInChildren(inner.children, range.startPos, 0, -1).None?;
    assert FindNodeRec(inner, range.startPos) == [];
    assert BinarySearchInChildren(root.children, range.startPos, 0, 0) == Some(0);
    assert FindNodeRec(root, range.startPos) == [0];
    assert FindNodeAt(root, range.startPos) == Some([0]);
    assert [0][..1] == [0] && [0][..0] == [];
    assert AncestorRange(root, [0], 1) == range;
    assert CoveringAncestor(root, [0], 1, range, true) == Some([0]);
    assert AncestorRange(root, [0], 0) == range;
  }
}

=== FILE: data_holder.dfy ===
/**
 * DataHolder: an immutable map from data keys to values. Keys compare by
 * identity in the source; here a key is any value with equality. A value
 * stored may itself be null, so the map holds optional values.
 */
module DataHolders {
  import opened Wrappers

  datatype DataHolder<K, V> = DataHolder(data: map<K, Option<V>>)

  /** The public constructor: an empty holder. */
  function Empty<K(!new), V>(): (h: DataHolder<K, V>)
    ensures forall k :: !HasData(h, k)
  {
    DataHolder(map[])
  }

  /** getData: the stored value, null when the key is absent. */
  function GetData<K(!new), V>(h: DataHolder<K, V>, k: K): (r: Option<V>)
    ensures !HasData(h, k) ==> r.None?
  {
    if k in h.data then h.data[k] else None
  }

  predicate HasData<K(!new), V>(h: DataHolder<K, V>, k: K) {
    k in h.data
  }

  /** withData: a copy of the holder with `k` mapped to `v`; the original is untouched. */
  function WithData<K(!new), V>(h: DataHolder<K, V>, k: K, v: Option<V>): (r: DataHolder<K, V>)
    ensures HasData(r, k) && GetData(r, k) == v
    ensures forall k' :: k' != k ==> (HasData(r, k') <==> HasData(h, k')) && GetData(r, k') == GetData(h, k')
  {
    DataHolder(h.data[k := v])
  }

  /** equals compares the maps. */
  predicate Equal<K(!new), V(==)>(a: DataHolder<K, V>, b: DataHolder<K, V>) {
    a.data == b.data
  }

  /** Two holders are equal exactly when no key tells them apart through hasData and getData. */
  lemma {:induction false} EqualIsObservational<K(!new), V>(a: DataHolder<K, V>, b: DataHolder<K, V>)
    ensures Equal(a, b) <==> forall k :: HasData(a, k) == HasData(b, k) && GetData(a, k) == GetData(b, k)
  {
    if forall k :: HasData(a, k) == HasData(b, k) && GetData(a, k) == GetData(b, k) {
      assert forall k :: k in a.data <==> HasData(b, k);
      forall k | k in a.data ensures a.data[k] == b.data[k] {
        assert GetData(a, k) == GetData(b, k);
      }
    }
  }

  /** A later withData on the same key wins; on different keys the order does not matter. */
  lemma {:induction false} WithDataOverrides<K(!new), V>(h: DataHolder<K, V>, k: K, k': K, v: Option<V>, w: Option<V>)
    ensures WithData(WithData(h, k, v), k, w) == WithData(h, k, w)
    ensures k != k' ==> WithData(WithData(h, k, v), k', w) == WithData(WithData(h, k', w), k, v)
  {
    EqualIsObservational(WithData(WithData(h, k, v), k, w), WithData(h, k, w));
    if k != k' {
      EqualIsObservational(WithData(WithData(h, k, v), k', w), WithData(WithData(h, k', w), k, v));
    }
  }
}

=== FILE: designer_util.dfy ===
/**
 * DesignerUtil: the pure helpers among the designer's utilities. The
 * optional-combining helpers take already computed optionals where the
 * source takes suppliers; the suppliers have no side effects, so only the
 * order in which they are consulted matters, and the first present one wins.
 */
module DesignerUtil {
  import opened Wrappers
  import opened JavaString
  import opened IteratorUtil

  // ---------------------------------------------------------------- or, selectFirst

  /** or: the base when present, otherwise the fallback. */
  function Or<T>(base: Option<T>, fallback: Option<T>): (r: Option<T>)
    ensures base.Some? ==> r == base
    ensures base.None? ==> r == fallback
  {
    if base.Some? then base else fallback
  }

  /** The options folded with `or` from the right: the first present one. */
  function FirstPresent<T>(opts: seq<Option<T>>): (r: Option<T>)
    ensures r.None? <==> forall i :: 0 <= i < |opts| ==> opts[i].None?
  {
    if |opts| == 0 then None else Or(opts[0], FirstPresent(opts[1..]))
  }

  /** The fold picks the option at the first present position. */
  lemma {:induction false} FirstPresentAt<T>(opts: seq<Option<T>>, i: nat)
    requires i < |opts| && opts[i].Some? && forall j :: 0 <= j < i ==> opts[j].None?
    ensures FirstPresent(opts) == opts[i]
    decreases i
  {
    if i > 0 {
      FirstPresentAt(opts[1..], i - 1);
    }
  }

  /** selectFirst: the suppliers are consulted in order, and the first present result is returned. */
  method SelectFirst<T>(opts: seq<Option<T>>) returns (r: Option<T>)
    ensures r == FirstPresent(opts)
  {
    var i := 0;
    while i < |opts|
      invariant 0 <= i <= |opts|
      invariant forall j :: 0 <= j < i ==> opts[j].None?
      invariant FirstPresent(opts) == FirstPresent(opts[i..])
    {
      if opts[i].Some? {
        return opts[i];
      }
      assert opts[i..][1..] == opts[i + 1..];
      i := i + 1;
    }
    return None;
  }

  // ---------------------------------------------------------------- setOf

  /** The position of the first occurrence of `x`. */
  function FirstIndex<T(==)>(s: seq<T>, x: T): (k: nat)
    requires x in s
    ensures k < |s| && s[k] == x && forall j :: 0 <= j < k ==> s[j] != x
  {
    if s[0] == x then 0 else 1 + FirstIndex(s[1..], x)
  }

  /**
   * setOf: a LinkedHashSet filled with the arguments in order. It holds
   * each argument once, and iterates in the order of first occurrence.
   */
  method SetOf<T(==)>(ts: seq<T>) returns (set_: seq<T>)
    ensures forall x :: x in set_ <==> x in ts
    ensures forall i, j :: 0 <= i < j < |set_| ==> set_[i] != set_[j]
    ensures forall i, j :: 0 <= i < j < |set_| ==> FirstIndex(ts, set_[i]) < FirstIndex(ts, set_[j])
  {
    set_ := [];
    var k := 0;
    while k < |ts|
      invariant 0 <= k <= |ts|
      invariant forall x :: x in set_ <==> x in ts[..k]
      invariant forall i, j :: 0 <= i < j < |set_| ==> set_[i] != set_[j]
      invariant forall i :: 0 <= i < |set_| ==> set_[i] in ts
      invariant forall i :: 0 <= i < |set_| ==> FirstIndex(ts, set_[i]) < k
      invariant forall i, j :: 0 <= i < j < |set_| ==> FirstIndex(ts, set_[i]) < FirstIndex(ts, set_[j])
    {
      var x := ts[k];
      if x !in set_ {
        assert x !in ts[..k];
        assert FirstIndex(ts, x) == k;
        set_ := set_ + [x];
      } else {
        assert x in ts[..k];
      }
      assert ts[..k + 1] == ts[..k] + [x];
      k := k + 1;
    }
    assert ts[..k] == ts;
  }

  // ---------------------------------------------------------------- stackTraceToXPath

  /**
   * JJT_ACCEPT_PATTERN is net.sourceforge.pmd.lang.\w++.ast.AST(\w+).jjtAccept:
   * its dots match any character but a line terminator, the language name
   * is taken possessively, and the captured node name greedily.
   */
  const JjtPrefix: string := "net.sourceforge.pmd.lang."
  const AstInfix: string := ".ast.AST"
  const AcceptSuffix: string := ".jjtAccept"

  /** What `.` matches in java.util.regex without DOTALL: anything but a line terminator. */
  predicate DotMatches(c: char) {
    c != '\n' && c != '\r' && c != '\U{85}' && c != '\U{2028}' && c != '\U{2029}'
  }

  /** \w: an ASCII letter, digit or underscore. */
  predicate IsWordChar(c: char) {
    'a' <= c <= 'z' || 'A' <= c <= 'Z' || '0' <= c <= '9' || c == '_'
  }

  /** A run of literal characters and dots matches the line at `at`. */
  predicate MatchesTemplate(line: string, at: nat, tpl: string) {
    at + |tpl| <= |line| &&
    forall k :: 0 <= k < |tpl| ==> if tpl[k] == '.' then DotMatches(line[at + k]) else line[at + k] == tpl[k]
  }

  /** The end of the run of word characters starting at i. */
  function WordRunEnd(line: string, i: nat): (e: nat)
    requires i <= |line|
    ensures i <= e <= |line|
    ensures forall k :: i <= k < e ==> IsWordChar(line[k])
    ensures e == |line| || !IsWordChar(line[e])
    decreases |line| - i
  {
    if i < |line| && IsWordChar(line[i]) then WordRunEnd(line, i + 1) else i
  }

  /** The greedy (\w+) backing off: the longest group ending where ".jjtAccept" follows. */
  function GroupEnd(line: string, g: nat, h: nat): (r: Option<nat>)
    requires g <= h <= |line|
    ensures r.Some? ==> g < r.value <= h && MatchesTemplate(line, r.value, AcceptSuffix)
    ensures r.Some? ==> forall k :: r.value < k <= h ==> !MatchesTemplate(line, k, AcceptSuffix)
    ensures r.None? ==> forall k :: g < k <= h ==> !MatchesTemplate(line, k, AcceptSuffix)
    decreases h
  {
    if h == g then None
    else if MatchesTemplate(line, h, AcceptSuffix) then Some(h)
    else GroupEnd(line, g, h - 1)
  }

  /** The pattern tried at position p: the captured node name, if it matches there. */
  function MatchAt(line: string, p: nat): (r: Option<string>)
    requires p <= |line|
    ensures r.Some? ==> |r.value| > 0 && forall k :: 0 <= k < |r.value| ==> IsWordChar(r.value[k])
  {
    if !MatchesTemplate(line, p, JjtPrefix) then None
    else
      var q := p + |JjtPrefix|;
      var e := WordRunEnd(line, q);
      if e == q || !MatchesTemplate(line, e, AstInfix) then None
      else
        var g := e + |AstInfix|;
        match GroupEnd(line, g, WordRunEnd(line, g))
        case None => None
        case Some(h) => Some(line[g..h])
  }

  /** Matcher.find from position p: the leftmost match, and its group. */
  function FindFrom(line: string, p: nat): (r: Option<string>)
    requires p <= |line|
    ensures r.Some? ==> |r.value| > 0 && forall k :: 0 <= k < |r.value| ==> IsWordChar(r.value[k])
    ensures r.None? <==> forall k :: p <= k <= |line| ==> MatchAt(line, k).None?
    decreases |line| - p
  {
    if MatchAt(line, p).Some? then MatchAt(line, p)
    else if p == |line| then None
    else FindFrom(line, p + 1)
  }

  /** The node names captured from the lines that match, in line order. */
  function CapturedNames(lines: seq<string>): (names: seq<string>)
    ensures forall i :: 0 <= i < |names| ==> PlainListItem(Slash, names[i])
  {
    if |lines| == 0 then []
    else
      var own := FindFrom(lines[0], 0);
      var rest := CapturedNames(lines[1..]);
      if own.Some? then
        assert forall k :: 0 <= k < |own.value| ==> own.value[k] != '/';
        [own.value] + rest
      else rest
  }

  /** No name is captured exactly when no line holds a jjtAccept frame. */
  lemma {:induction false} NoCapturedNames(lines: seq<string>)
    ensures |CapturedNames(lines)| == 0 <==> forall i :: 0 <= i < |lines| ==> FindFrom(lines[i], 0).None?
    decreases |lines|
  {
    if |lines| > 0 {
      NoCapturedNames(lines[1..]);
      assert forall i :: 1 <= i < |lines| ==> lines[i] == lines[1..][i - 1];
    }
  }

  /**
   * stackTraceToXPath: the AST node names whose jjtAccept frames appear in
   * the stack trace, outermost first, as a path "//A/B/C"; empty when no
   * frame matches.
   */
  function StackTraceToXPath(stackTrace: string): (r: Option<string>)
    ensures r.None? <==> forall i :: 0 <= i < |Split(stackTrace, Newline)| ==> FindFrom(Split(stackTrace, Newline)[i], 0).None?
  {
    NoCapturedNames(Split(stackTrace, Newline));
    var names := CapturedNames(Split(stackTrace, Newline));
    if |names| == 0 then None else Some("//" + Join("/", Reverse(names)))
  }

  /** The path reads back: after "//", splitting on "/" gives the captured names, innermost frame last. */
  lemma {:induction false} StackTraceXPathReadsBack(stackTrace: string)
    requires StackTraceToXPath(stackTrace).Some?
    ensures var x := StackTraceToXPath(stackTrace).value;
      |x| >= 2 && x[..2] == "//" &&
      Reverse(Split(x[2..], Slash)) == CapturedNames(Split(stackTrace, Newline))
  {
    PathReadsBack(CapturedNames(Split(stackTrace, Newline)));
  }

  lemma {:induction false} PathReadsBack(names: seq<string>)
    requires |names| > 0 && forall i :: 0 <= i < |names| ==> PlainListItem(Slash, names[i])
    ensures var x := "//" + Join("/", Reverse(names));
      |x| >= 2 && x[..2] == "//" && Reverse(Split(x[2..], Slash)) == names
  {
    var steps := Reverse(names);
    forall k | 0 <= k < |steps| ensures PlainListItem(Slash, steps[k]) {
      assert steps[k] == names[|names| - 1 - k];
    }
    SplitJoin(Slash, steps);
    var x := "//" + Join("/", steps);
    assert x[2..] == Join(JoinerOf(Slash), steps);
    ReverseInvolutive(names);
  }

  // ---------------------------------------------------------------- attrToXpathString

  /** The kind of an attribute's value, which decides how it is written. */
  datatype AttrValue = StringValue | EnumValue | BooleanValue(b: bool) | OtherValue | NullValue

  /** Every character of the text is ASCII from space up to and including DEL, the range left unescaped. */
  predicate Printable(s: string) {
    forall k :: 0 <= k < |s| ==> 32 <= s[k] as int <= 0x7f
  }

  function HexDigit(d: nat): (c: char)
    requires d < 16
    ensures ('0' <= c <= '9' || 'A' <= c <= 'F') && IsHexDigit(c) && HexValue(c) == d
  {
    if d < 10 then ('0' as int + d) as char else ('A' as int + d - 10) as char
  }

  function Hex2(w: nat): (r: string)
    requires w < 0x100
    ensures |r| == 2 && Printable(r)
  {
    [HexDigit(w / 16), HexDigit(w % 16)]
  }

  /** Four upper-case hex digits, as the unicode escaper writes them. */
  function Hex4(v: nat): (r: string)
    requires v < 0x10000
    ensures |r| == 4 && Printable(r)
  {
    Hex2(v / 256) + Hex2(v % 256)
  }

  /** The escape \\uXXXX of one UTF-16 code unit. */
  function UnicodeEscape(v: nat): (r: string)
    requires v < 0x10000
    ensures |r| == 6 && Printable(r) && r[..2] == "\\u"
  {
    "\\u" + Hex4(v)
  }

  /** The UTF-16 surrogate pair of a code point above the basic plane. */
  function HighSurrogate(cp: int): (v: nat)
    requires 0x10000 <= cp < 0x110000
    ensures 0xD800 <= v < 0xDC00
  {
    0xD800 + (cp - 0x10000) / 1024
  }

  function LowSurrogate(cp: int): (v: nat)
    requires 0x10000 <= cp < 0x110000
    ensures 0xDC00 <= v < 0xE000
  {
    0xDC00 + (cp - 0x10000) % 1024
  }

  /** The short escapes: quote, backslash and the five control characters with a letter of their own. */
  function ShortEscape(c: char): Option<char> {
    if c == '"' then Some('"')
    else if c == '\\' then Some('\\')
    else if c as int == 8 then Some('b')
    else if c == '\n' then Some('n')
    else if c == '\t' then Some('t')
    else if c as int == 12 then Some('f')
    else if c == '\r' then Some('r')
    else None
  }

  /** A character as StringEscapeUtils.escapeJava writes it. */
  function EscapeChar(c: char): (r: string)
    ensures |r| > 0 && Printable(r)
  {
    var cp := c as int;
    if ShortEscape(c).Some? then ['\\', ShortEscape(c).value]
    else if cp < 32 || cp > 0x7f then
      if cp > 0xFFFF then UnicodeEscape(HighSurrogate(cp)) + UnicodeEscape(LowSurrogate(cp))
      else UnicodeEscape(cp)
    else [c]
  }

  /**
   * StringEscapeUtils.escapeJava: quotes and backslashes escaped, the five
   * control characters with short escapes written so, and every other
   * character outside space..DEL as \\uXXXX.
   */
  function EscapeJava(s: string): (r: string)
    ensures Printable(r)
  {
    if |s| == 0 then "" else EscapeChar(s[0]) + EscapeJava(s[1..])
  }

  /**
   * attrToXpathString: string and enum values quoted with Java escapes,
   * booleans as the XPath functions true() and false(), anything else as
   * its string value; a null string prints as "null".
   */
  function AttrToXPathString(stringValue: Option<string>, value: AttrValue): (r: string)
    ensures (value.StringValue? || value.EnumValue?) ==>
      |r| >= 2 && r[0] == '"' && r[|r| - 1] == '"' &&
      (stringValue.Some? ==> r[1..|r| - 1] == EscapeJava(stringValue.value))
    ensures value.BooleanValue? ==> r == if value.b then "true()" else "false()"
    ensures !(value.StringValue? || value.EnumValue? || value.BooleanValue?) ==>
      r == if stringValue.Some? then stringValue.value else "null"
  {
    match value
    case StringValue => "\"" + (if stringValue.Some? then EscapeJava(stringValue.value) else "null") + "\""
    case EnumValue => "\"" + (if stringValue.Some? then EscapeJava(stringValue.value) else "null") + "\""
    case BooleanValue(b) => (if b then "true" else "false") + "()"
    case _ => if stringValue.Some? then stringValue.value else "null"
  }

  // Reading an escaped string back, as a Java string literal is read.

  predicate IsHexDigit(c: char) {
    '0' <= c <= '9' || 'A' <= c <= 'F' || 'a' <= c <= 'f'
  }

  function HexValue(c: char): (d: nat)
    requires IsHexDigit(c)
    ensures d < 16
  {
    if '0' <= c <= '9' then c as int - '0' as int
    else if 'A' <= c <= 'F' then c as int - 'A' as int + 10
    else c as int - 'a' as int + 10
  }

  predicate IsHex4(t: string) {
    |t| == 4 && IsHexDigit(t[0]) && IsHexDigit(t[1]) && IsHexDigit(t[2]) && IsHexDigit(t[3])
  }

  function ParseHex2(t: string): (w: nat)
    requires |t| == 2 && IsHexDigit(t[0]) && IsHexDigit(t[1])
    ensures w < 0x100
  {
    HexValue(t[0]) * 16 + HexValue(t[1])
  }

  function ParseHex4(t: string): (v: nat)
    requires IsHex4(t)
    ensures v < 0x10000
  {
    ParseHex2(t[..2]) * 256 + ParseHex2(t[2..])
  }

  /** The escape sequences of a Java string literal decoded, a surrogate pair into one character. */
  function Unescape(s: string): (r: string)
    decreases |s|
  {
    if |s| == 0 then ""
    else if s[0] == '\\' && |s| >= 2 then
      var c := s[1];
      if c == '"' || c == '\\' then [c] + Unescape(s[2..])
      else if c == 'b' then [8 as char] + Unescape(s[2..])
      else if c == 'n' then "\n" + Unescape(s[2..])
      else if c == 't' then "\t" + Unescape(s[2..])
      else if c == 'f' then [12 as char] + Unescape(s[2..])
      else if c == 'r' then "\r" + Unescape(s[2..])
      else if c == 'u' && |s| >= 6 && IsHex4(s[2..6]) then
        var v := ParseHex4(s[2..6]);
        if 0xD800 <= v < 0xDC00 && |s| >= 12 && s[6] == '\\' && s[7] == 'u' && IsHex4(s[8..12])
           && 0xDC00 <= ParseHex4(s[8..12]) < 0xE000 then
          [(0x10000 + (v - 0xD800) * 1024 + (ParseHex4(s[8..12]) - 0xDC00)) as char] + Unescape(s[12..])
        else if v < 0xD800 || v >= 0xE000 then [v as char] + Unescape(s[6..])
        else [s[0]] + Unescape(s[1..])
      else [s[0]] + Unescape(s[1..])
    else [s[0]] + Unescape(s[1..])
  }

  lemma {:induction false} Hex2Reads(w: nat)
    requires w < 0x100
    ensures ParseHex2(Hex2(w)) == w
  {
    assert w == w / 16 * 16 + w % 16;
  }

  /** Four hex digits read back as the value they were written from. */
  lemma {:induction false} Hex4Reads(v: nat)
    requires v < 0x10000
    ensures IsHex4(Hex4(v)) && ParseHex4(Hex4(v)) == v
  {
    var h := Hex4(v);
    assert h[..2] == Hex2(v / 256) && h[2..] == Hex2(v % 256);
    Hex2Reads(v / 256);
    Hex2Reads(v % 256);
    assert v == v / 256 * 256 + v % 256;
  }

  lemma {:induction false} ShortEscapeReads(c: char, rest: string)
    requires ShortEscape(c).Some?
    ensures Unescape(['\\', ShortEscape(c).value] + rest) == [c] + Unescape(rest)
  {
    assert (['\\', ShortEscape(c).value] + rest)[2..] == rest;
  }

  lemma {:induction false} UnicodeEscapeReads(c: char, rest: string)
    requires c as int < 0xD800 || 0xE000 <= c as int < 0x10000
    ensures Unescape(UnicodeEscape(c as int) + rest) == [c] + Unescape(rest)
  {
    var t := UnicodeEscape(c as int) + rest;
    Hex4Reads(c as int);
    assert t[2..6] == Hex4(c as int) && t[6..] == rest;
  }

  /** Unescape reads a well-formed surrogate pair escape as one character. */
  lemma {:induction false} UnescapePairStep(t: string)
    requires |t| >= 12 && t[0] == '\\' && t[1] == 'u' && t[6] == '\\' && t[7] == 'u'
    requires IsHex4(t[2..6]) && 0xD800 <= ParseHex4(t[2..6]) < 0xDC00
    requires IsHex4(t[8..12]) && 0xDC00 <= ParseHex4(t[8..12]) < 0xE000
    ensures Unescape(t) == [(0x10000 + (ParseHex4(t[2..6]) - 0xD800) * 1024 + (ParseHex4(t[8..12]) - 0xDC00)) as char] + Unescape(t[12..])
  {
  }

  /** An escaped high surrogate followed by an escaped low one reads back as the code point they encode. */
  lemma {:induction false} SurrogatePairReads(hi: nat, lo: nat, rest: string)
    requires 0xD800 <= hi < 0xDC00 && 0xDC00 <= lo < 0xE000
    ensures Unescape(UnicodeEscape(hi) + UnicodeEscape(lo) + rest) == [(0x10000 + (hi - 0xD800) * 1024 + (lo - 0xDC00)) as char] + Unescape(rest)
  {
    Hex4Reads(hi);
    Hex4Reads(lo);
    var e1, e2 := UnicodeEscape(hi), UnicodeEscape(lo);
    var t := e1 + e2 + rest;
    assert t[..6] == e1 && t[6..12] == e2 && t[12..] == rest;
    assert e1[2..] == Hex4(hi) && e2[2..] == Hex4(lo);
    assert t[2..6] == e1[2..] && t[8..12] == e2[2..];
    UnescapePairStep(t);
  }

  lemma {:induction false} SurrogatesRead(c: char, rest: string)
    requires c as int > 0xFFFF
    ensures Unescape(UnicodeEscape(HighSurrogate(c as int)) + UnicodeEscape(LowSurrogate(c as int)) + rest) == [c] + Unescape(rest)
  {
    var cp := c as int;
    var hi := HighSurrogate(cp);
    var lo := LowSurrogate(cp);
    SurrogatePairReads(hi, lo, rest);
    assert 0x10000 + (hi - 0xD800) * 1024 + (lo - 0xDC00) == cp;
  }

  /** Each escaped character reads back as itself, whatever follows it. */
  lemma {:induction false} EscapeCharReads(c: char, rest: string)
    ensures Unescape(EscapeChar(c) + rest) == [c] + Unescape(rest)
  {
    var cp := c as int;
    if ShortEscape(c).Some? {
      ShortEscapeReads(c, rest);
    } else if cp < 32 || cp > 0x7f {
      if cp > 0xFFFF {
        SurrogatesRead(c, rest);
      } else {
        UnicodeEscapeReads(c, rest);
      }
    } else {
      assert (EscapeChar(c) + rest)[1..] == rest;
    }
  }

  /** Escaping loses nothing: the escaped text reads back as the original. */
  lemma {:induction false} EscapeJavaReads(s: string)
    ensures Unescape(EscapeJava(s)) == s
    decreases |s|
  {
    if |s| > 0 {
      EscapeCharReads(s[0], EscapeJava(s[1..]));
      EscapeJavaReads(s[1..]);
    }
  }

  /** A quoted string or enum value reads back as the attribute's string value. */
  lemma {:induction false} AttrStringReadsBack(s: string, value: AttrValue)
    requires value.StringValue? || value.EnumValue?
    ensures var r := AttrToXPathString(Some(s), value);
      Unescape(r[1..|r| - 1]) == s
  {
    EscapeJavaReads(s);
  }
}

=== FILE: dump_round_trip.dfy ===
/**
 * What the rule-test parser reads back from a test-code element the dumper
 * wrote: every field of the live test case survives the trip, up to the
 * trim the parser applies to text and the groups the dumper leaves out.
 */
module DumpRoundTrip {
  import opened Wrappers
  import opened JavaString
  import opened Xml
  import opened TestDescriptors
  import opened LiveTestCases
  import opened PmdCoordinatesSystem
  import opened TestXmlParser
  import opened TestXmlDumper

  // ---------------------------------------------------------------- properties

  /** The properties map read back from the rule-property elements: every entry, its value trimmed. */
  lemma {:induction false} PropertiesRoundTrip(m: map<string, string>, order: seq<string>)
    requires Enumerates(order, m.Keys)
    ensures ReadProperties(PropertyElements(m, order)) == Success(map k | k in m :: Trim(m[k]))
  {
    var elts := PropertyElements(m, order);
    var trimmed := map k | k in m :: Trim(m[k]);
    forall k | 0 <= k < |elts|
      ensures "name" in elts[k].attributes && elts[k].attributes["name"] == order[k]
      ensures order[k] in trimmed && trimmed[order[k]] == ParseTextNode(elts[k])
    {
      assert Attribute(elts[k], "name") == Some(order[k]);
    }
    ReadDistinctProperties(elts, order, trimmed);
  }

  // ---------------------------------------------------------------- the test-code element

  /** The descriptor a dumped case should read back as. */
  function DumpedDescriptor(t: LiveTestCase): (d: TestDescriptor)
    ensures d.numberOfProblemsExpected == |t.expectedViolations|
    ensures d.reinitializeRule && d.regressionTest && d.useAuxClasspath
  {
    var vs := t.expectedViolations;
    var props := NonNullProperties(t.properties);
    TestDescriptor(
      Trim(t.source),
      Trim(t.description),
      |vs|,
      if t.languageVersion.Some? then Some(Trim(t.languageVersion.value)) else None,
      true, true, true,
      DumpedMessageTexts(vs),
      if |vs| > 0 && AllRangesPresent(vs) then StartLines(vs) else [],
      map k | k in props :: Trim(props[k]),
      Unnumbered)
  }

  /** The messages a dump of `vs` carries: every message trimmed, or none unless all are present. */
  function DumpedMessageTexts(vs: seq<LiveViolationRecord>): seq<string> {
    if |vs| > 0 && AllMessagesPresent(vs) then seq(|vs|, i requires 0 <= i < |vs| => Trim(vs[i].message.value)) else []
  }

  /** The start lines of a case's ranges all fit in a Java `int`, when all ranges are present. */
  predicate LinesPrintable(vs: seq<LiveViolationRecord>) {
    AllRangesPresent(vs) ==> forall i :: 0 <= i < |vs| ==> IsInt32(vs[i].range.value.startPos.line)
  }

  lemma {:induction false} DumpedDescription(t: LiveTestCase, order: seq<string>)
    requires Enumerates(order, NonNullProperties(t.properties).Keys)
    ensures RequiredNodeValue(AppendSingle(t, order), "description") == Success(Trim(t.description))
  {
    var p := PartsOf(t, order);
    PartsShaped(t, order);
    FoundDescription(p);
  }

  lemma {:induction false} DumpedProblems(t: LiveTestCase, order: seq<string>)
    requires Enumerates(order, NonNullProperties(t.properties).Keys)
    requires |t.expectedViolations| <= IntMax
    ensures ReadExpectedProblems(AppendSingle(t, order)) == Success(|t.expectedViolations|)
  {
    var p := PartsOf(t, order);
    var n := |t.expectedViolations|;
    PartsShaped(t, order);
    FoundProblems(p);
    assert IntToString(n) == NatToString(n);
    PrintedIntTrimmed(n);
    TrimOfTrimmed(IntToString(n));
    ParseIntToString(n);
  }

  /** An element whose only expected-messages group is the one written for `vs` reads back the trimmed messages. */
  lemma {:induction false} MessagesGroupReads(e: XmlNode, vs: seq<LiveViolationRecord>)
    requires e.Element? && GetElementsByTagName(e, "expected-messages") == MessagesGroup(vs)
    ensures ReadMessages(e) == DumpedMessageTexts(vs)
  {
    if |vs| > 0 && AllMessagesPresent(vs) {
      var items := MessageElements(vs);
      UniformMatches(items, "message", "message");
      assert GetElementsByTagName(MessagesGroup(vs)[0], "message") == items;
      var ms := TrimmedTexts(items);
      assert ReadMessages(e) == ms;
      assert forall i :: 0 <= i < |vs| ==> ms[i] == Trim(vs[i].message.value);
    }
  }

  lemma {:induction false} DumpedMessages(t: LiveTestCase, order: seq<string>)
    requires Enumerates(order, NonNullProperties(t.properties).Keys)
    ensures ReadMessages(AppendSingle(t, order)) == DumpedDescriptor(t).expectedMessages
  {
    PartsShaped(t, order);
    FoundMessages(PartsOf(t, order));
    MessagesGroupReads(AppendSingle(t, order), t.expectedViolations);
  }

  lemma {:induction false} DumpedLines(t: LiveTestCase, order: seq<string>)
    requires Enumerates(order, NonNullProperties(t.properties).Keys)
    requires LinesPrintable(t.expectedViolations)
    ensures ReadLineNumbers(AppendSingle(t, order)) == Success(DumpedDescriptor(t).expectedLineNumbers)
  {
    var p := PartsOf(t, order);
    var vs := t.expectedViolations;
    PartsShaped(t, order);
    FoundLines(p);
    if |vs| > 0 && AllRangesPresent(vs) {
      LineNumbersRoundTrip(StartLines(vs));
    }
  }

  lemma {:induction false} DumpedCode(t: LiveTestCase, order: seq<string>, root: XmlNode)
    requires Enumerates(order, NonNullProperties(t.properties).Keys)
    requires root.Element?
    ensures ReadCode(AppendSingle(t, order), root) == Success(Trim(t.source))
  {
    var p := PartsOf(t, order);
    PartsShaped(t, order);
    FoundCode(p);
  }

  lemma {:induction false} DumpedVersion(t: LiveTestCase, order: seq<string>)
    requires Enumerates(order, NonNullProperties(t.properties).Keys)
    ensures GetNodeValue(AppendSingle(t, order), "source-type") == DumpedDescriptor(t).languageVersion
  {
    var p := PartsOf(t, order);
    PartsShaped(t, order);
    FoundVersion(p);
  }

  lemma {:induction false} DumpedProperties(t: LiveTestCase, order: seq<string>)
    requires Enumerates(order, NonNullProperties(t.properties).Keys)
    ensures ReadProperties(GetElementsByTagName(AppendSingle(t, order), "rule-property")) ==
      Success(DumpedDescriptor(t).properties)
  {
    var p := PartsOf(t, order);
    PartsShaped(t, order);
    FoundProperties(p);
    PropertiesRoundTrip(NonNullProperties(t.properties), order);
  }

  /**
   * Dumping a case and parsing the element back gives the case's fields:
   * the trimmed source, description, messages, language version and
   * property values, the number of violations, and the start lines. The
   * parser's preconditions are that the numbers fit in a Java `int` and that
   * the language version is one the registry knows.
   */
  lemma {:induction false} DumpParseRoundTrip(t: LiveTestCase, order: seq<string>, root: XmlNode, knownVersions: set<string>)
    requires Enumerates(order, NonNullProperties(t.properties).Keys)
    requires root.Element?
    requires |t.expectedViolations| <= IntMax
    requires LinesPrintable(t.expectedViolations)
    requires t.languageVersion.Some? ==> Trim(t.languageVersion.value) in knownVersions
    ensures ParseSingle(AppendSingle(t, order), root, knownVersions) == Success(DumpedDescriptor(t))
  {
    var e := AppendSingle(t, order);
    var d := DumpedDescriptor(t);
    DumpedDescription(t, order);
    DumpedProblems(t, order);
    DumpedMessages(t, order);
    DumpedLines(t, order);
    DumpedCode(t, order, root);
    DumpedVersion(t, order);
    DumpedProperties(t, order);
    ParseSingleOf(e, root, knownVersions, d);
  }

  /** parseSingle assembled from its reads, when each of them succeeds with the descriptor's field. */
  lemma {:induction false} ParseSingleOf(e: XmlNode, root: XmlNode, knownVersions: set<string>, d: TestDescriptor)
    requires e.Element? && root.Element? && e.attributes == map[]
    requires ReadProperties(GetElementsByTagName(e, "rule-property")) == Success(d.properties)
    requires ReadMessages(e) == d.expectedMessages
    requires ReadLineNumbers(e) == Success(d.expectedLineNumbers)
    requires ReadCode(e, root) == Success(d.code)
    requires RequiredNodeValue(e, "description") == Success(d.description)
    requires ReadExpectedProblems(e) == Success(d.numberOfProblemsExpected)
    requires GetNodeValue(e, "source-type") == d.languageVersion
    requires d.languageVersion.Some? ==> d.languageVersion.value in knownVersions
    requires d.reinitializeRule && d.regressionTest && d.useAuxClasspath && d.numberInDocument == Unnumbered
    ensures ParseSingle(e, root, knownVersions) == Success(d)
  {
    assert ReinitializeRule(e) && FlagUnlessFalse(e, "regressionTest") && FlagUnlessFalse(e, "useAuxClasspath");
    assert ReadLanguageVersion(e, knownVersions) == Success(d.languageVersion);
  }
}

=== FILE: fake_tail_list.dfy ===
/**
 * FakeTailObservableList: a read-only view of a base list with one extra
 * element after its end. The change notifications are left out.
 */
module FakeTailLists {
  import opened Wrappers

  datatype FakeTailList<T> = FakeTailList(base: seq<T>, tail: T)

  /** The IndexOutOfBoundsException of get. */
  datatype ListError = IndexOutOfBounds(index: int)

  function Size<T>(l: FakeTailList<T>): (n: nat)
    ensures n == |l.base| + 1
  {
    |l.base| + 1
  }

  /** get: the base's elements, then the tail; anything before or past them throws. */
  function Get<T>(l: FakeTailList<T>, index: int): (r: Result<T, ListError>)
    ensures r.Failure? <==> index < 0 || index > |l.base|
    ensures r.Failure? ==> r.error == IndexOutOfBounds(index)
    ensures 0 <= index < |l.base| ==> r == Success(l.base[index])
    ensures index == |l.base| ==> r == Success(l.tail)
  {
    if index < 0 || index > |l.base| then Failure(IndexOutOfBounds(index))
    else if index < |l.base| then Success(l.base[index])
    else Success(l.tail)
  }

  /** The list the view stands for. */
  function Contents<T>(l: FakeTailList<T>): seq<T> {
    l.base + [l.tail]
  }

  /** size and get agree with the base list extended by the tail element. */
  lemma {:induction false} ViewIsBasePlusTail<T>(l: FakeTailList<T>)
    ensures Size(l) == |Contents(l)|
    ensures forall i :: 0 <= i < Size(l) ==> Get(l, i) == Success(Contents(l)[i])
    ensures forall i :: i < 0 || i >= Size(l) ==> Get(l, i).Failure?
  {
  }
}

=== FILE: highlight_update.dfy ===
/**
 * HighlightUpdate: a pending change to one highlighting layer of the code
 * area, mapping style-class sets to the regions styled with them, and its
 * composite over several layers. Successive updates are merged before they
 * reach the layers. Layer ids, style keys and region collections are
 * opaque values here.
 */
module HighlightUpdates {

  datatype HighlightUpdate<L, S, C> = HighlightUpdate(layerId: L, resetLayer: bool, styles: map<S, C>)

  /**
   * merge: an update that resets its layer replaces whatever came before;
   * otherwise the later update's styles override the earlier ones, and the
   * earlier update's layer and reset flag are kept.
   */
  function Merge<L, S, C>(first: HighlightUpdate<L, S, C>, next: HighlightUpdate<L, S, C>): (r: HighlightUpdate<L, S, C>)
    ensures next.resetLayer ==> r == next
    ensures !next.resetLayer ==>
      r.layerId == first.layerId && r.resetLayer == first.resetLayer &&
      r.styles.Keys == first.styles.Keys + next.styles.Keys &&
      (forall k :: k in next.styles ==> r.styles[k] == next.styles[k]) &&
      (forall k :: k in first.styles && k !in next.styles ==> r.styles[k] == first.styles[k])
  {
    if next.resetLayer then next
    else HighlightUpdate(first.layerId, first.resetLayer, first.styles + next.styles)
  }

  /** Merging is associative, so a burst of updates can be folded in any grouping. */
  lemma {:induction false} MergeAssociative<L, S, C>(a: HighlightUpdate<L, S, C>, b: HighlightUpdate<L, S, C>, c: HighlightUpdate<L, S, C>)
    ensures Merge(Merge(a, b), c) == Merge(a, Merge(b, c))
  {
    if !c.resetLayer && !b.resetLayer {
      assert (a.styles + b.styles) + c.styles == a.styles + (b.styles + c.styles);
    }
  }

  /** CompositeHighlightUpdate: one update per layer. */
  type Composite<L, S, C> = map<L, HighlightUpdate<L, S, C>>

  /** The public constructor: a single layer's update. */
  function Single<L, S, C>(layerId: L, resetLayer: bool, styles: map<S, C>): (r: Composite<L, S, C>)
    ensures r.Keys == {layerId} && r[layerId].layerId == layerId
  {
    map[layerId := HighlightUpdate(layerId, resetLayer, styles)]
  }

  /**
   * CompositeHighlightUpdate.merge: every layer of either side, the two
   * updates merged where both sides have one.
   */
  function MergeComposite<L, S, C>(first: Composite<L, S, C>, next: Composite<L, S, C>): (r: Composite<L, S, C>)
    ensures r.Keys == first.Keys + next.Keys
    ensures forall k :: k in first && k in next ==> r[k] == Merge(first[k], next[k])
    ensures forall k :: k in first && k !in next ==> r[k] == first[k]
    ensures forall k :: k !in first && k in next ==> r[k] == next[k]
  {
    map k | k in first.Keys + next.Keys ::
      if k in first && k in next then Merge(first[k], next[k])
      else if k in next then next[k]
      else first[k]
  }

  /** Every update is filed under its own layer. */
  predicate Consistent<L, S, C>(c: Composite<L, S, C>) {
    forall k :: k in c ==> c[k].layerId == k
  }

  /** Merging composites keeps each update under its own layer, and is associative. */
  lemma {:induction false} MergeCompositeLaws<L, S, C>(a: Composite<L, S, C>, b: Composite<L, S, C>, c: Composite<L, S, C>)
    ensures Consistent(a) && Consistent(b) ==> Consistent(MergeComposite(a, b))
    ensures MergeComposite(MergeComposite(a, b), c) == MergeComposite(a, MergeComposite(b, c))
  {
    var left := MergeComposite(MergeComposite(a, b), c);
    var right := MergeComposite(a, MergeComposite(b, c));
    forall k | k in left ensures left[k] == right[k] {
      if k in a && k in b && k in c {
        MergeAssociative(a[k], b[k], c[k]);
      }
    }
    assert left.Keys == right.Keys;
  }
}

=== FILE: iterator_util.dfy ===
/**
 * DesignerIteratorUtil: helpers over iterators and streams. A finite
 * iterator is the sequence of elements it yields; a null element is an
 * absent Option. iteratorFrom may yield forever, so it is modelled by its
 * first `n` elements.
 */
module IteratorUtil {
  import opened Wrappers

  /** The longest prefix of `s` whose elements all satisfy `p`. */
  function TakeWhile<T>(s: seq<T>, p: T -> bool): (r: seq<T>)
    ensures |r| <= |s| && r == s[..|r|]
    ensures forall i :: 0 <= i < |r| ==> p(r[i])
    ensures |r| < |s| ==> !p(s[|r|])
  {
    if |s| == 0 || !p(s[0]) then [] else [s[0]] + TakeWhile(s[1..], p)
  }

  /**
   * takeWhile as the source's spliterator runs it: each tryAdvance pulls
   * one element, passes it on while the predicate holds, and on the first
   * that fails stops the stream for good.
   */
  method TakeWhileStream<T>(s: seq<T>, p: T -> bool) returns (out: seq<T>)
    ensures out == TakeWhile(s, p)
  {
    out := [];
    var pos := 0;
    var stillGoing := true;
    while true
      invariant 0 <= pos <= |TakeWhile(s, p)| && stillGoing
      invariant out == TakeWhile(s, p)[..pos]
      decreases |s| - pos
    {
      // tryAdvance
      var hadNext := pos < |s|;
      if hadNext {
        var elem := s[pos];
        if p(elem) {
          out := out + [elem];
        } else {
          stillGoing := false;
        }
        pos := pos + 1;
      }
      if !(hadNext && stillGoing) {
        assert out == TakeWhile(s, p);
        break;
      }
    }
  }

  /** last: the final element, null when there is none. */
  method Last<T>(ts: seq<T>) returns (r: Option<T>)
    ensures |ts| == 0 ==> r.None?
    ensures |ts| > 0 ==> r == Some(ts[|ts| - 1])
  {
    r := None;
    var i := 0;
    while i < |ts|
      invariant 0 <= i <= |ts|
      invariant i == 0 ==> r.None?
      invariant i > 0 ==> r == Some(ts[i - 1])
    {
      r := Some(ts[i]);
      i := i + 1;
    }
  }

  /** any: whether some element satisfies the predicate; it stops at the first. */
  method Any<T>(ts: seq<T>, p: T -> bool) returns (r: bool)
    ensures r <==> exists i :: 0 <= i < |ts| && p(ts[i])
  {
    var i := 0;
    while i < |ts|
      invariant 0 <= i <= |ts|
      invariant forall j :: 0 <= j < i ==> !p(ts[j])
    {
      if p(ts[i]) {
        return true;
      }
      i := i + 1;
    }
    return false;
  }

  /** toList: the elements in the order they come. */
  method ToList<T>(ts: seq<T>) returns (list: seq<T>)
    ensures |list| == |ts| && forall i :: 0 <= i < |ts| ==> list[i] == ts[i]
  {
    list := [];
    var i := 0;
    while i < |ts|
      invariant 0 <= i <= |ts| && list == ts[..i]
    {
      list := list + [ts[i]];
      i := i + 1;
    }
  }

  /** count: the number of elements. */
  method Count<T>(ts: seq<T>) returns (count: nat)
    ensures count == |ts|
  {
    count := 0;
    var rest := ts;
    while |rest| > 0
      invariant count + |rest| == |ts|
    {
      rest := rest[1..];
      count := count + 1;
    }
  }

  /** reverse: the elements back to front. */
  function Reverse<T>(s: seq<T>): (r: seq<T>)
    ensures |r| == |s| && forall i :: 0 <= i < |s| ==> r[i] == s[|s| - 1 - i]
  {
    if |s| == 0 then [] else Reverse(s[1..]) + [s[0]]
  }

  /** Reversing a concatenation reverses and swaps the parts. */
  lemma {:induction false} ReverseAppend<T>(a: seq<T>, b: seq<T>)
    ensures Reverse(a + b) == Reverse(b) + Reverse(a)
    decreases |a|
  {
    if |a| > 0 {
      assert (a + b)[1..] == a[1..] + b;
      ReverseAppend(a[1..], b);
    } else {
      assert a + b == b;
    }
  }

  /** Reversing twice gives the elements back. */
  lemma {:induction false} ReverseInvolutive<T>(s: seq<T>)
    ensures Reverse(Reverse(s)) == s
    decreases |s|
  {
    if |s| > 0 {
      ReverseAppend(Reverse(s[1..]), [s[0]]);
      ReverseInvolutive(s[1..]);
      assert Reverse([s[0]]) == [s[0]];
      assert s == [s[0]] + s[1..];
    }
  }

  /** asReversed: a list iterator walked back from the end with hasPrevious/previous. */
  method AsReversed<T>(lst: seq<T>) returns (out: seq<T>)
    ensures out == Reverse(lst)
  {
    out := [];
    var cursor := |lst|;
    while cursor > 0
      invariant 0 <= cursor <= |lst|
      invariant |out| == |lst| - cursor
      invariant forall i :: 0 <= i < |out| ==> out[i] == lst[|lst| - 1 - i]
    {
      cursor := cursor - 1;
      out := out + [lst[cursor]];
    }
  }

  /**
   * The first `n` elements of iteratorFrom: the current item first when it
   * is still to be included, then each successor while there is one.
   */
  function IterateFrom<T>(current: T, hasSuccessor: T -> bool, successor: T -> T, includeCurrent: bool, n: nat): (r: seq<T>)
    ensures |r| <= n
    ensures includeCurrent && n > 0 ==> |r| > 0 && r[0] == current
    ensures !includeCurrent && |r| > 0 ==> hasSuccessor(current) && r[0] == successor(current)
    decreases n
  {
    if n == 0 then []
    else if includeCurrent then [current] + IterateFrom(current, hasSuccessor, successor, false, n - 1)
    else if hasSuccessor(current) then
      [successor(current)] + IterateFrom(successor(current), hasSuccessor, successor, false, n - 1)
    else []
  }

  /**
   * Each element after the first is the successor of the one before, which
   * has one; the iterator ends early only at an element with no successor.
   */
  lemma {:induction false} IterateFromChain<T>(current: T, hasSuccessor: T -> bool, successor: T -> T, includeCurrent: bool, n: nat)
    ensures var r := IterateFrom(current, hasSuccessor, successor, includeCurrent, n);
      (forall j :: 0 <= j < |r| - 1 ==> hasSuccessor(r[j]) && r[j + 1] == successor(r[j])) &&
      (|r| < n ==> (|r| == 0 && !includeCurrent && !hasSuccessor(current)) || (|r| > 0 && !hasSuccessor(r[|r| - 1])))
    decreases n
  {
    if n > 0 {
      var r := IterateFrom(current, hasSuccessor, successor, includeCurrent, n);
      if includeCurrent {
        IterateFromChain(current, hasSuccessor, successor, false, n - 1);
        var tail := IterateFrom(current, hasSuccessor, successor, false, n - 1);
        assert r == [current] + tail;
        forall j | 0 <= j < |r| - 1 ensures hasSuccessor(r[j]) && r[j + 1] == successor(r[j]) {
          if j > 0 {
            assert r[j] == tail[j - 1] && r[j + 1] == tail[j];
          }
        }
      } else if hasSuccessor(current) {
        var next := successor(current);
        IterateFromChain(next, hasSuccessor, successor, false, n - 1);
        var tail := IterateFrom(next, hasSuccessor, successor, false, n - 1);
        assert r == [next] + tail;
        forall j | 0 <= j < |r| - 1 ensures hasSuccessor(r[j]) && r[j + 1] == successor(r[j]) {
          if j > 0 {
            assert r[j] == tail[j - 1] && r[j + 1] == tail[j];
          }
        }
      }
    }
  }
}

=== FILE: jstring.dfy ===
/**
 * The slice of java.lang.String / java.lang.Integer / java.lang.Character
 * behaviour the designer relies on: trim, regex split with the handful of
 * separators the code uses, int parsing and printing, and case predicates.
 * Character classes are modelled on ASCII only.
 */
module JavaString {
  import opened Wrappers

  /** Math.max and Math.min. */
  function Max(a: int, b: int): int { if a >= b then a else b }
  function Min(a: int, b: int): int { if a <= b then a else b }

  // ---------------------------------------------------------------- trim

  /** String.trim strips chars whose code is at most U+0020 from both ends. */
  predicate IsTrimmable(c: char) {
    c <= ' '
  }

  predicate AllTrimmable(s: string) {
    forall i :: 0 <= i < |s| ==> IsTrimmable(s[i])
  }

  /** A string that trim leaves unchanged. */
  predicate Trimmed(s: string) {
    |s| == 0 || (!IsTrimmable(s[0]) && !IsTrimmable(s[|s| - 1]))
  }

  function TrimStart(s: string): (r: string)
    ensures |r| <= |s|
  {
    if |s| > 0 && IsTrimmable(s[0]) then TrimStart(s[1..]) else s
  }

  function TrimEnd(s: string): (r: string)
    ensures |r| <= |s|
  {
    if |s| > 0 && IsTrimmable(s[|s| - 1]) then TrimEnd(s[..|s| - 1]) else s
  }

  /** TrimStart drops a trimmable prefix and stops at the first other char. */
  lemma {:induction false} TrimStartShape(s: string)
    ensures var r := TrimStart(s);
      r == s[|s| - |r|..] && AllTrimmable(s[..|s| - |r|]) && (|r| > 0 ==> !IsTrimmable(r[0]))
  {
    if |s| > 0 && IsTrimmable(s[0]) {
      TrimStartShape(s[1..]);
    }
  }

  /** TrimEnd drops a trimmable suffix and stops at the last other char. */
  lemma {:induction false} TrimEndShape(s: string)
    ensures var r := TrimEnd(s);
      r == s[..|r|] && AllTrimmable(s[|r|..]) && (|r| > 0 ==> !IsTrimmable(r[|r| - 1]))
  {
    if |s| > 0 && IsTrimmable(s[|s| - 1]) {
      TrimEndShape(s[..|s| - 1]);
    }
  }

  /** Java's String.trim. */
  function Trim(s: string): (r: string)
    ensures Trimmed(r)
    ensures |r| <= |s|
  {
    TrimStartShape(s);
    TrimEndShape(TrimStart(s));
    TrimEnd(TrimStart(s))
  }

  lemma {:induction false} TrimStartPadded(a: string, t: string)
    requires AllTrimmable(a)
    requires |t| == 0 || !IsTrimmable(t[0])
    ensures TrimStart(a + t) == t
  {
    if |a| > 0 {
      assert (a + t)[0] == a[0];
      assert (a + t)[1..] == a[1..] + t;
      TrimStartPadded(a[1..], t);
    } else {
      assert a + t == t;
    }
  }

  lemma {:induction false} TrimEndPadded(t: string, b: string)
    requires AllTrimmable(b)
    requires |t| == 0 || !IsTrimmable(t[|t| - 1])
    ensures TrimEnd(t + b) == t
  {
    if |b| == 0 {
      assert t + b == t;
    } else {
      assert (t + b)[|t + b| - 1] == b[|b| - 1];
      assert (t + b)[..|t + b| - 1] == t + b[..|b| - 1];
      TrimEndPadded(t, b[..|b| - 1]);
    }
  }

  /**
   * Trim is characterised by its result: whatever trimmable padding surrounds
   * a trimmed string, trim returns exactly that string.
   */
  lemma {:induction false} TrimPadded(a: string, t: string, b: string)
    requires AllTrimmable(a) && AllTrimmable(b) && Trimmed(t)
    ensures Trim(a + t + b) == t
  {
    if |t| == 0 {
      assert a + t + b == a + b;
      AllTrimmableConcat(a, b);
      AllTrimmableTrim(a + b);
    } else {
      assert a + t + b == a + (t + b);
      TrimStartPadded(a, t + b);
      TrimEndPadded(t, b);
    }
  }

  lemma AllTrimmableConcat(a: string, b: string)
    requires AllTrimmable(a) && AllTrimmable(b)
    ensures AllTrimmable(a + b)
  {
  }

  lemma {:induction false} AllTrimmableTrim(s: string)
    requires AllTrimmable(s)
    ensures Trim(s) == ""
  {
    if |s| > 0 {
      AllTrimmableTrim(s[1..]);
    }
  }

  /** Trim leaves a trimmed string as it is. */
  lemma {:induction false} TrimOfTrimmed(t: string)
    requires Trimmed(t)
    ensures Trim(t) == t
  {
    TrimPadded("", t, "");
    assert "" + t + "" == t;
  }

  /** Trimming twice is trimming once. */
  lemma {:induction false} TrimIdempotent(s: string)
    ensures Trim(Trim(s)) == Trim(s)
  {
    TrimOfTrimmed(Trim(s));
  }

  // ---------------------------------------------------------------- split

  /**
   * The regular expressions the designer passes to String.split, and "/",
   * which separates the steps of an XPath path.
   */
  datatype Separator =
    | Newline          // "\n"
    | OptionalCrNewline // "\\r?\\n"
    | CommaInSpaces    // " *, *"
    | Dash             // "-"
    | Comma            // ","
    | Slash            // "/"

  /** Number of consecutive spaces starting at index i. */
  function SpacesFrom(s: string, i: nat): (n: nat)
    requires i <= |s|
    ensures i + n <= |s|
    ensures i + n == |s| || s[i + n] != ' '
    decreases |s| - i
  {
    if i < |s| && s[i] == ' ' then 1 + SpacesFrom(s, i + 1) else 0
  }

  /**
   * Length of the separator match that starts at index i, 0 when none does.
   * Every separator here has only non-empty matches, so the leftmost-first
   * search of java.util.regex reduces to scanning left to right.
   */
  function MatchAt(sep: Separator, s: string, i: nat): (n: nat)
    requires i <= |s|
    ensures i + n <= |s|
  {
    if i == |s| then 0
    else match sep
      case Newline => if s[i] == '\n' then 1 else 0
      case Dash => if s[i] == '-' then 1 else 0
      case Comma => if s[i] == ',' then 1 else 0
      case Slash => if s[i] == '/' then 1 else 0
      case OptionalCrNewline =>
        if s[i] == '\n' then 1
        else if s[i] == '\r' && i + 1 < |s| && s[i + 1] == '\n' then 2
        else 0
      case CommaInSpaces =>
        var k := SpacesFrom(s, i);
        if i + k < |s| && s[i + k] == ',' then k + 1 + SpacesFrom(s, i + k + 1) else 0
  }

  /** The pieces between separator matches, scanning from i inside a piece that began at start. */
  function Pieces(s: string, sep: Separator, start: nat, i: nat): (r: seq<string>)
    requires start <= i <= |s|
    ensures |r| >= 1
    decreases |s| - i
  {
    if i == |s| then [s[start..]]
    else
      var n := MatchAt(sep, s, i);
      if n > 0 then [s[start..i]] + Pieces(s, sep, i + n, i + n)
      else Pieces(s, sep, start, i + 1)
  }

  function DropTrailingEmpty(ps: seq<string>): (r: seq<string>)
    ensures |r| <= |ps| && r == ps[..|r|]
    ensures |r| == 0 || r[|r| - 1] != ""
    ensures forall k :: |r| <= k < |ps| ==> ps[k] == ""
  {
    if |ps| > 0 && ps[|ps| - 1] == "" then DropTrailingEmpty(ps[..|ps| - 1]) else ps
  }

  /**
   * String.split(regex): without a match the input itself; otherwise the
   * pieces between matches with trailing empty pieces removed.
   */
  function Split(s: string, sep: Separator): (r: seq<string>)
  {
    var ps := Pieces(s, sep, 0, 0);
    if |ps| == 1 then ps else DropTrailingEmpty(ps)
  }

  /** A char absent from the scanned part of the string is absent from every piece. */
  lemma {:induction false} PiecesAvoid(s: string, sep: Separator, start: nat, i: nat, c: char)
    requires start <= i <= |s|
    requires forall m :: start <= m < |s| ==> s[m] != c
    ensures forall k :: 0 <= k < |Pieces(s, sep, start, i)| ==> c !in Pieces(s, sep, start, i)[k]
    decreases |s| - i
  {
    if i < |s| {
      var n := MatchAt(sep, s, i);
      if n > 0 {
        PiecesAvoid(s, sep, i + n, i + n, c);
        PiecesCutStep(s, sep, start, i);
        assert c !in s[start..i];
      } else {
        PiecesAvoid(s, sep, start, i + 1, c);
        PiecesSkipStep(s, sep, start, i);
      }
    } else {
      assert c !in s[start..];
    }
  }

  /** A char absent from the input is absent from every piece Split returns. */
  lemma {:induction false} SplitAvoids(s: string, sep: Separator, c: char)
    requires c !in s
    ensures forall k :: 0 <= k < |Split(s, sep)| ==> c !in Split(s, sep)[k]
  {
    PiecesAvoid(s, sep, 0, 0, c);
  }

  lemma PiecesCutStep(s: string, sep: Separator, start: nat, i: nat)
    requires start <= i < |s| && MatchAt(sep, s, i) > 0
    ensures Pieces(s, sep, start, i)
         == [s[start..i]] + Pieces(s, sep, i + MatchAt(sep, s, i), i + MatchAt(sep, s, i))
  {
  }

  lemma PiecesSkipStep(s: string, sep: Separator, start: nat, i: nat)
    requires start <= i < |s| && MatchAt(sep, s, i) == 0
    ensures Pieces(s, sep, start, i) == Pieces(s, sep, start, i + 1)
  {
  }

  // ---------------------------------------------------------------- search

  /** String.indexOf(c, from): the first index at or after `from` holding c, or -1. */
  function IndexOf(s: string, c: char, from: nat): (r: int)
    ensures r == -1 || (from <= r < |s| && s[r] == c)
    ensures r == -1 ==> forall k :: from <= k < |s| ==> s[k] != c
    ensures r >= 0 ==> forall k :: from <= k < r ==> s[k] != c
    decreases |s| - from
  {
    if from >= |s| then -1
    else if s[from] == c then from
    else IndexOf(s, c, from + 1)
  }

  // ---------------------------------------------------------------- join

  /** String.join(sep, parts). */
  function Join(sep: string, parts: seq<string>): (r: string)
    ensures |parts| == 1 ==> r == parts[0]
  {
    if |parts| == 0 then ""
    else if |parts| == 1 then parts[0]
    else parts[0] + sep + Join(sep, parts[1..])
  }

  /** The separators whose matches are one fixed char between list items. */
  predicate IsListSeparator(sep: Separator) {
    sep == Comma || sep == Dash || sep == CommaInSpaces || sep == Slash || sep == Newline
  }

  /** The text Join puts between list items for a list separator. */
  function JoinerOf(sep: Separator): string
    requires IsListSeparator(sep)
  {
    if sep == Dash then "-" else if sep == Slash then "/" else if sep == Newline then "\n" else ","
  }

  /** A char that cannot begin a match of the list separator. */
  predicate PlainChar(sep: Separator, c: char)
    requires IsListSeparator(sep)
  {
    match sep
    case Dash => c != '-'
    case Comma => c != ','
    case Slash => c != '/'
    case Newline => c != '\n'
    case _ => c != ',' && c != ' '
  }

  /** A non-empty list item in which no separator match can start. */
  predicate PlainListItem(sep: Separator, p: string)
    requires IsListSeparator(sep)
  {
    |p| > 0 && forall i :: 0 <= i < |p| ==> PlainChar(sep, p[i])
  }

  /** Splitting a joined list of plain items gives the items back. */
  lemma {:induction false} SplitJoin(sep: Separator, parts: seq<string>)
    requires IsListSeparator(sep)
    requires |parts| >= 1
    requires forall k :: 0 <= k < |parts| ==> PlainListItem(sep, parts[k])
    ensures Split(Join(JoinerOf(sep), parts), sep) == parts
  {
    PiecesJoin(sep, parts);
    if |parts| > 1 {
      assert DropTrailingEmpty(parts) == parts;
    }
  }

  lemma {:induction false} PiecesJoin(sep: Separator, parts: seq<string>)
    requires IsListSeparator(sep)
    requires |parts| >= 1
    requires forall k :: 0 <= k < |parts| ==> PlainListItem(sep, parts[k])
    ensures Pieces(Join(JoinerOf(sep), parts), sep, 0, 0) == parts
  {
    var s := Join(JoinerOf(sep), parts);
    assert s[0..] == s;
    PiecesJoinAt(sep, parts, s, 0);
  }

  /** The pieces scanned from o, where the rest of s is a join of plain items, are those items. */
  lemma {:induction false} PiecesJoinAt(sep: Separator, parts: seq<string>, s: string, o: nat)
    requires IsListSeparator(sep)
    requires |parts| >= 1
    requires forall k :: 0 <= k < |parts| ==> PlainListItem(sep, parts[k])
    requires o <= |s| && s[o..] == Join(JoinerOf(sep), parts)
    ensures Pieces(s, sep, o, o) == parts
    decreases |parts|, 1
  {
    if |parts| == 1 {
      JoinLayout(sep, parts, s, o);
      PiecesPlainRun(sep, s, parts[0], o, 0);
      PiecesLastItem(sep, s, parts, o);
    } else {
      PiecesJoinMore(sep, parts, s, o);
    }
  }

  /** The step of PiecesJoinAt past the first item and its joiner. */
  lemma {:induction false} PiecesJoinMore(sep: Separator, parts: seq<string>, s: string, o: nat)
    requires IsListSeparator(sep)
    requires |parts| >= 2
    requires forall k :: 0 <= k < |parts| ==> PlainListItem(sep, parts[k])
    requires o <= |s| && s[o..] == Join(JoinerOf(sep), parts)
    ensures Pieces(s, sep, o, o) == parts
    decreases |parts|, 0
  {
    JoinLayout(sep, parts, s, o);
    PiecesPlainRun(sep, s, parts[0], o, 0);
    var p := parts[0];
    var next := o + |p| + 1;
    JoinerMatches(sep, s, o + |p|);
    PiecesItemThenRest(sep, s, p, o, next);
    PiecesJoinAt(sep, parts[1..], s, next);
    PiecesCons(sep, s, parts, o, next);
  }

  lemma {:induction false} PiecesLastItem(sep: Separator, s: string, parts: seq<string>, o: nat)
    requires |parts| == 1 && o + |parts[0]| == |s| && s[o..o + |parts[0]|] == parts[0]
    requires Pieces(s, sep, o, o) == Pieces(s, sep, o, o + |parts[0]|)
    ensures Pieces(s, sep, o, o) == parts
  {
    assert s[o..] == parts[0];
    assert parts == [parts[0]];
  }

  lemma {:induction false} PiecesCons(sep: Separator, s: string, parts: seq<string>, o: nat, e: nat)
    requires |parts| >= 2 && o <= e <= |s|
    requires Pieces(s, sep, o, o) == [parts[0]] + Pieces(s, sep, e, e)
    requires Pieces(s, sep, e, e) == parts[1..]
    ensures Pieces(s, sep, o, o) == parts
  {
    assert parts == [parts[0]] + parts[1..];
  }

  /** A plain item at o followed by a one-char match is one piece, then the pieces after the match. */
  lemma {:induction false} PiecesItemThenRest(sep: Separator, s: string, p: string, o: nat, next: nat)
    requires o + |p| < |s| && s[o..o + |p|] == p && next == o + |p| + 1
    requires MatchAt(sep, s, o + |p|) == 1
    requires Pieces(s, sep, o, o) == Pieces(s, sep, o, o + |p|)
    ensures Pieces(s, sep, o, o) == [p] + Pieces(s, sep, next, next)
  {
    PiecesCutOne(s, sep, o, o + |p|, next);
  }

  /** A cut at a one-char match. */
  lemma PiecesCutOne(s: string, sep: Separator, start: nat, i: nat, next: nat)
    requires start <= i < |s| && MatchAt(sep, s, i) == 1 && next == i + 1
    ensures Pieces(s, sep, start, i) == [s[start..i]] + Pieces(s, sep, next, next)
  {
  }

  /** Where the first item, the joiner and the rest of a join sit in s. */
  lemma {:induction false} JoinLayout(sep: Separator, parts: seq<string>, s: string, o: nat)
    requires IsListSeparator(sep)
    requires |parts| >= 1
    requires forall k :: 0 <= k < |parts| ==> PlainListItem(sep, parts[k])
    requires o <= |s| && s[o..] == Join(JoinerOf(sep), parts)
    ensures o + |parts[0]| <= |s| && s[o..o + |parts[0]|] == parts[0]
    ensures |parts| == 1 ==> o + |parts[0]| == |s|
    ensures |parts| > 1 ==>
      var e := o + |parts[0]|;
      e + 1 < |s| && s[e] == JoinerOf(sep)[0] && PlainChar(sep, s[e + 1]) &&
      s[e + 1..] == Join(JoinerOf(sep), parts[1..])
  {
    var p := parts[0];
    var j := JoinerOf(sep);
    if |parts| > 1 {
      var rest := Join(j, parts[1..]);
      JoinStartsWithFirst(j, parts[1..]);
      assert s[o..] == p + j + rest;
      var e := o + |p|;
      assert s[o..][..|p|] == p;
      assert s[o..][|p|] == j[0];
      assert s[o..][|p| + 1] == rest[0] == parts[1][0];
      assert s[o..][|p| + 1..] == rest;
    }
  }

  /** The joiner after a plain item is a match of length one. */
  lemma {:induction false} JoinerMatches(sep: Separator, s: string, e: nat)
    requires IsListSeparator(sep)
    requires e + 1 < |s| && s[e] == JoinerOf(sep)[0] && PlainChar(sep, s[e + 1])
    ensures MatchAt(sep, s, e) == 1
  {
    if sep == CommaInSpaces {
      assert SpacesFrom(s, e) == 0;
      assert SpacesFrom(s, e + 1) == 0;
    }
  }

  /** No match of a list separator starts at a plain char. */
  lemma {:induction false} PlainCharNoMatch(sep: Separator, s: string, k: nat)
    requires IsListSeparator(sep)
    requires k < |s| && PlainChar(sep, s[k])
    ensures MatchAt(sep, s, k) == 0
  {
    if sep == CommaInSpaces {
      assert SpacesFrom(s, k) == 0;
    }
  }

  /** Scanning over a plain item that starts at o does not cut it. */
  lemma {:induction false} PiecesPlainRun(sep: Separator, s: string, p: string, o: nat, i: nat)
    requires IsListSeparator(sep)
    requires o + |p| <= |s| && s[o..o + |p|] == p && PlainListItem(sep, p)
    requires i <= |p|
    ensures Pieces(s, sep, o, o + i) == Pieces(s, sep, o, o + |p|)
    decreases |p| - i
  {
    if i < |p| {
      PlainItemStep(sep, s, p, o, i);
      PiecesPlainRun(sep, s, p, o, i + 1);
    }
  }

  /** One char of a plain item is passed over without a cut. */
  lemma {:induction false} PlainItemStep(sep: Separator, s: string, p: string, o: nat, i: nat)
    requires IsListSeparator(sep)
    requires o + |p| <= |s| && s[o..o + |p|] == p && PlainListItem(sep, p)
    requires i < |p|
    ensures Pieces(s, sep, o, o + i) == Pieces(s, sep, o, o + i + 1)
  {
    assert PlainChar(sep, p[i]);
    assert s[o + i] == p[i];
    PlainCharNoMatch(sep, s, o + i);
    PiecesSkipStep(s, sep, o, o + i);
  }

  lemma JoinStartsWithFirst(sep: string, parts: seq<string>)
    requires |parts| >= 1 && |parts[0]| > 0
    ensures |Join(sep, parts)| > 0 && Join(sep, parts)[0] == parts[0][0]
  {
  }

  // ---------------------------------------------------------------- integers

  const IntMin: int := -0x8000_0000
  const IntMax: int := 0x7fff_ffff

  /** Representable as a Java `int`. */
  predicate IsInt32(n: int) {
    IntMin <= n <= IntMax
  }

  predicate IsDigit(c: char) {
    '0' <= c <= '9'
  }

  function DigitChar(d: nat): (c: char)
    requires d < 10
    ensures IsDigit(c) && c as int - '0' as int == d
  {
    ('0' as int + d) as char
  }

  /** Decimal digits of n, most significant first, with no leading zero. */
  function NatToString(n: nat): (r: string)
    ensures |r| >= 1
    ensures forall i :: 0 <= i < |r| ==> IsDigit(r[i])
    decreases n
  {
    if n < 10 then [DigitChar(n)] else NatToString(n / 10) + [DigitChar(n % 10)]
  }

  /** Integer.toString. */
  function IntToString(n: int): (r: string)
    ensures |r| >= 1
  {
    if n < 0 then "-" + NatToString(-n) else NatToString(n)
  }

  /** The value of a string of decimal digits. */
  function DigitsValue(s: string): nat
    requires forall i :: 0 <= i < |s| ==> IsDigit(s[i])
  {
    if |s| == 0 then 0
    else
      assert IsDigit(s[|s| - 1]);
      10 * DigitsValue(s[..|s| - 1]) + (s[|s| - 1] as int - '0' as int)
  }

  predicate AllDigits(s: string) {
    forall i :: 0 <= i < |s| ==> IsDigit(s[i])
  }

  /** Why Integer.parseInt rejected its input. */
  datatype NumberFormatError = NumberFormatError(input: string)

  /**
   * Integer.parseInt / Integer.valueOf: an optional sign then at least one
   * digit, and the value must fit in a Java `int`.
   */
  function ParseInt(s: string): (r: Result<int, NumberFormatError>)
    ensures r.Success? <==>
      (|s| > 0 &&
       var body := if s[0] == '-' || s[0] == '+' then s[1..] else s;
       |body| > 0 && AllDigits(body) &&
       IsInt32(if s[0] == '-' then -(DigitsValue(body) as int) else DigitsValue(body)))
    ensures r.Success? ==> IsInt32(r.value)
  {
    if |s| == 0 then Failure(NumberFormatError(s))
    else
      var negative := s[0] == '-';
      var body := if s[0] == '-' || s[0] == '+' then s[1..] else s;
      if |body| == 0 || !AllDigits(body) then Failure(NumberFormatError(s))
      else
        var v: int := if negative then -(DigitsValue(body) as int) else DigitsValue(body);
        if IsInt32(v) then Success(v) else Failure(NumberFormatError(s))
  }

  lemma {:induction false} DigitsValueOfNat(n: nat)
    ensures DigitsValue(NatToString(n)) == n
    decreases n
  {
    if n >= 10 {
      DigitsValueOfNat(n / 10);
      var r := NatToString(n);
      assert r[..|r| - 1] == NatToString(n / 10);
    }
  }

  /** Integer.toString prints no blank at either end. */
  lemma {:induction false} PrintedIntTrimmed(n: int)
    ensures Trimmed(IntToString(n))
  {
    var s := IntToString(n);
    var d := NatToString(if n < 0 then -n else n);
    assert IsDigit(d[|d| - 1]);
    if n < 0 {
      assert s[|s| - 1] == d[|d| - 1];
    } else {
      assert IsDigit(d[0]);
    }
  }

  /** Parsing what Integer.toString printed gives the number back. */
  lemma {:induction false} ParseIntToString(n: int)
    requires IsInt32(n)
    ensures ParseInt(IntToString(n)) == Success(n)
  {
    var s := IntToString(n);
    if n < 0 {
      DigitsValueOfNat(-n);
      assert s[0] == '-';
      assert s[1..] == NatToString(-n);
    } else {
      DigitsValueOfNat(n);
      assert IsDigit(s[0]) && AllDigits(s);
    }
  }

  // ---------------------------------------------------------------- characters

  predicate IsUpper(c: char) {
    'A' <= c <= 'Z'
  }

  predicate IsLower(c: char) {
    'a' <= c <= 'z'
  }

  predicate IsAlphabetic(c: char) {
    IsUpper(c) || IsLower(c)
  }

  /** Character.toLowerCase. */
  function ToLower(c: char): (r: char)
    ensures !IsUpper(r)
    ensures IsUpper(c) ==> r as int == c as int + 32
    ensures !IsUpper(c) ==> r == c
  {
    if IsUpper(c) then (c as int + 32) as char else c
  }

  /** String.toLowerCase, char by char. */
  function ToLowerString(s: string): (r: string)
    ensures |r| == |s|
    ensures forall i :: 0 <= i < |s| ==> r[i] == ToLower(s[i])
  {
    if |s| == 0 then "" else [ToLower(s[0])] + ToLowerString(s[1..])
  }

  /** String.equalsIgnoreCase. */
  predicate EqualsIgnoreCase(a: string, b: string) {
    ToLowerString(a) == ToLowerString(b)
  }
}

=== FILE: limited_size_stack.dfy ===
/**
 * LimitedSizeStack: the recent-files stack. It holds no null and no
 * duplicate, and at most `maxSize` elements. The top of the stack is the
 * head of the sequence: ArrayDeque.push adds at the head and removeLast
 * drops the oldest element at the tail.
 */
module LimitedSizeStacks {
  import opened Wrappers
  import opened JavaString

  /** ArrayDeque.remove(x): the first occurrence of `x` taken out. */
  function RemoveFirst<T(==)>(s: seq<T>, x: T): (r: seq<T>)
    ensures x in s ==> |r| == |s| - 1
    ensures x !in s ==> r == s
    ensures multiset(r) == multiset(s) - multiset{x}
  {
    if |s| == 0 then []
    else if s[0] == x then (assert s == [s[0]] + s[1..]; s[1..])
    else (assert s == [s[0]] + s[1..]; [s[0]] + RemoveFirst(s[1..], x))
  }

  /** push: a null item is ignored; any earlier copy of the item moves to the top; the oldest overflows. */
  function Push<T(==)>(stack: seq<T>, maxSize: int, item: Option<T>): (r: seq<T>)
    ensures item.None? ==> r == stack
    ensures item.Some? ==> |r| > 0 ==> r[0] == item.value
    ensures item.Some? ==> |r| <= |stack| + 1 && (|r| == |stack| + 1 ==> |r| <= maxSize)
  {
    if item.None? then stack
    else
      var pushed := [item.value] + RemoveFirst(stack, item.value);
      if |pushed| > maxSize then pushed[..|pushed| - 1] else pushed
  }

  predicate NoDuplicates<T(==)>(s: seq<T>) {
    forall i, j :: 0 <= i < j < |s| ==> s[i] != s[j]
  }

  /** What the stack always is: duplicate-free and within its size. */
  predicate Valid<T(==)>(stack: seq<T>, maxSize: int) {
    NoDuplicates(stack) && |stack| <= Max(maxSize, 0)
  }

  /** The elements other than `x`, in their order. */
  function Without<T(==)>(s: seq<T>, x: T): (r: seq<T>)
    ensures x !in r
  {
    if |s| == 0 then [] else (if s[0] == x then [] else [s[0]]) + Without(s[1..], x)
  }

  lemma {:induction false} WithoutMembers<T>(s: seq<T>, x: T, y: T)
    ensures y in Without(s, x) <==> y in s && y != x
    decreases |s|
  {
    if |s| > 0 {
      WithoutMembers(s[1..], x, y);
      assert s == [s[0]] + s[1..];
    }
  }

  lemma {:induction false} WithoutNoDuplicates<T>(s: seq<T>, x: T)
    requires NoDuplicates(s)
    ensures NoDuplicates(Without(s, x))
    decreases |s|
  {
    if |s| > 0 {
      WithoutNoDuplicates(s[1..], x);
      if s[0] != x {
        WithoutMembers(s[1..], x, s[0]);
        assert s[0] !in s[1..];
        var w := Without(s, x);
        forall i, j | 0 <= i < j < |w| ensures w[i] != w[j] {
          if i == 0 {
            assert w[j] == Without(s[1..], x)[j - 1];
          } else {
            assert w[i] == Without(s[1..], x)[i - 1] && w[j] == Without(s[1..], x)[j - 1];
          }
        }
      }
    }
  }

  lemma {:induction false} WithoutAbsent<T>(s: seq<T>, x: T)
    requires x !in s
    ensures Without(s, x) == s
    decreases |s|
  {
    if |s| > 0 {
      WithoutAbsent(s[1..], x);
    }
  }

  lemma {:induction false} RemoveFirstUnique<T>(s: seq<T>, x: T)
    requires NoDuplicates(s)
    ensures RemoveFirst(s, x) == Without(s, x)
    decreases |s|
  {
    if |s| > 0 {
      if s[0] == x {
        assert s[0] !in s[1..];
        WithoutAbsent(s[1..], x);
      } else {
        RemoveFirstUnique(s[1..], x);
      }
    }
  }

  /** The first `n` elements, or all of them when there are fewer. */
  function Take<T>(s: seq<T>, n: nat): (r: seq<T>)
    ensures |r| == if |s| <= n then |s| else n
  {
    if |s| <= n then s else s[..n]
  }

  /**
   * push, as a reference definition: the item on top of the others in
   * their order, cut to the size limit.
   */
  lemma {:induction false} PushOnValid<T>(stack: seq<T>, maxSize: int, x: T)
    requires Valid(stack, maxSize)
    ensures Push(stack, maxSize, Some(x)) == Take([x] + Without(stack, x), Max(maxSize, 0))
  {
    RemoveFirstUnique(stack, x);
  }

  /**
   * After a push the stack is still valid, the item is on top exactly once
   * when there is room for anything, and the other elements keep their order.
   */
  lemma {:induction false} PushKeepsValid<T>(stack: seq<T>, maxSize: int, x: T)
    requires Valid(stack, maxSize)
    ensures Valid(Push(stack, maxSize, Some(x)), maxSize)
    ensures maxSize >= 1 ==> Push(stack, maxSize, Some(x))[0] == x
    ensures multiset(Push(stack, maxSize, Some(x)))[x] == (if maxSize >= 1 then 1 else 0)
  {
    PushOnValid(stack, maxSize, x);
    WithoutNoDuplicates(stack, x);
    TakeOnTop(x, Without(stack, x), Max(maxSize, 0));
  }

  lemma {:induction false} TakeOnTop<T>(x: T, w: seq<T>, n: nat)
    requires NoDuplicates(w) && x !in w
    ensures NoDuplicates(Take([x] + w, n)) && |Take([x] + w, n)| <= n
    ensures n >= 1 ==> Take([x] + w, n)[0] == x
    ensures multiset(Take([x] + w, n))[x] == (if n >= 1 then 1 else 0)
  {
    var r := Take([x] + w, n);
    if n >= 1 {
      var rest := Take(w, n - 1);
      assert r == [x] + rest;
      assert x !in rest;
      forall i, j | 0 <= i < j < |r| ensures r[i] != r[j] {
        if i == 0 {
          assert r[j] == rest[j - 1];
        } else {
          assert r[i] == w[i - 1] && r[j] == w[j - 1];
        }
      }
      assert multiset(r) == multiset{x} + multiset(rest);
    } else {
      assert r == [];
    }
  }

  /** Pushing a fresh item onto a stack with room keeps every element. */
  lemma {:induction false} PushWithRoomKeepsAll<T>(stack: seq<T>, maxSize: int, x: T)
    requires Valid(stack, maxSize) && x !in stack && |stack| < maxSize
    ensures Push(stack, maxSize, Some(x)) == [x] + stack
  {
    PushOnValid(stack, maxSize, x);
    WithoutAbsent(stack, x);
  }
}

=== FILE: live_test_case.dfy ===
/**
 * LiveTestCase: the editable form of a rule test. The observable
 * properties of the Java class become fields of an immutable value, and
 * each setter returns the updated value. A `None` property value stands for
 * a null entry of the observable map.
 */
module LiveTestCases {
  import opened Wrappers
  import opened JavaString
  import opened TestDescriptors
  import opened PmdCoordinatesSystem

  /** An expected violation: a range (null in Java when unknown), a message, and whether the range is exact. */
  datatype LiveViolationRecord = LiveViolationRecord(range: Option<TextRange>, message: Option<string>, exactRange: bool)

  datatype TestStatus = Pass | Fail | Error | Unknown

  datatype TestResult = TestResult(status: TestStatus, message: Option<string>)

  datatype LiveTestCase = LiveTestCase(
    source: string,
    description: string,
    languageVersion: Option<string>,
    properties: map<string, Option<string>>,
    expectedViolations: seq<LiveViolationRecord>,
    status: TestResult,
    frozen: bool)

  const DefaultDescription: string := "New test case"

  const UnknownResult: TestResult := TestResult(Unknown, None)

  /** A fresh test case with the field initialisers of LiveTestCase. */
  function NewTestCase(): (t: LiveTestCase)
    ensures t.frozen && t.expectedViolations == [] && t.properties == map[]
  {
    LiveTestCase("", DefaultDescription, None, map[], [], UnknownResult, true)
  }

  // ---------------------------------------------------------------- setters

  /** setProperties clears the map, then copies every entry of the argument. */
  function SetProperties(t: LiveTestCase, m: map<string, Option<string>>): (r: LiveTestCase)
    ensures r.properties == m
    ensures r.source == t.source && r.description == t.description &&
            r.languageVersion == t.languageVersion && r.expectedViolations == t.expectedViolations &&
            r.status == t.status && r.frozen == t.frozen
  {
    t.(properties := m)
  }

  function Freeze(t: LiveTestCase): (r: LiveTestCase)
    ensures r.frozen && r == t.(frozen := r.frozen)
  {
    t.(frozen := true)
  }

  function Unfreeze(t: LiveTestCase): (r: LiveTestCase)
    ensures !r.frozen && r == t.(frozen := r.frozen)
  {
    t.(frozen := false)
  }

  /** Freezing after unfreezing gives the case back as it was, up to the flag. */
  lemma FreezeUnfreeze(t: LiveTestCase)
    ensures Freeze(Unfreeze(t)) == Freeze(t)
    ensures Unfreeze(Freeze(t)) == Unfreeze(t)
    ensures t.frozen ==> Freeze(Unfreeze(t)) == t
  {
  }

  /**
   * deepCopy: a new case carrying this one's description, violations,
   * properties, language version, source and frozen flag; the status is
   * the new case's initial one.
   */
  function DeepCopy(t: LiveTestCase): (r: LiveTestCase)
    ensures r.description == t.description && r.expectedViolations == t.expectedViolations &&
            r.properties == t.properties && r.languageVersion == t.languageVersion &&
            r.source == t.source && r.frozen == t.frozen
    ensures r.status == NewTestCase().status
  {
    var live := NewTestCase();
    var live := live.(description := t.description);
    var live := live.(expectedViolations := t.expectedViolations);
    var live := SetProperties(live, t.properties);
    var live := live.(languageVersion := t.languageVersion);
    var live := live.(source := t.source);
    live.(frozen := t.frozen)
  }

  /** Copying a copy changes nothing. */
  lemma DeepCopyIdempotent(t: LiveTestCase)
    ensures DeepCopy(DeepCopy(t)) == DeepCopy(t)
    ensures t.status == UnknownResult ==> DeepCopy(t) == t
  {
  }

  // ---------------------------------------------------------------- persistence

  /** The NullPointerException java.util.Properties raises for a null value. */
  datatype NullValue = NullValue

  predicate NoNullValues(m: map<string, Option<string>>) {
    forall k :: k in m ==> m[k].Some?
  }

  /** getPersistenceOnlyProps: the property map copied into a Properties table, which refuses nulls. */
  function GetPersistenceOnlyProps(t: LiveTestCase): (r: Result<map<string, string>, NullValue>)
    ensures r.Success? <==> NoNullValues(t.properties)
    ensures r.Success? ==> r.value.Keys == t.properties.Keys
  {
    if NoNullValues(t.properties) then
      Success(map k | k in t.properties :: t.properties[k].value)
    else Failure(NullValue)
  }

  /** setPersistenceOnlyProps: puts every entry, keeping the keys it does not mention. */
  function SetPersistenceOnlyProps(t: LiveTestCase, props: map<string, string>): (r: LiveTestCase)
    ensures r.properties.Keys == t.properties.Keys + props.Keys
    ensures forall k :: k in props ==> r.properties[k] == Some(props[k])
    ensures forall k :: k in t.properties && k !in props ==> r.properties[k] == t.properties[k]
    ensures r == t.(properties := r.properties)
  {
    t.(properties := t.properties + map k | k in props :: Some(props[k]))
  }

  /** The persisted properties restore the same map on a fresh case. */
  lemma PersistenceRoundTrip(t: LiveTestCase)
    requires NoNullValues(t.properties)
    ensures SetPersistenceOnlyProps(NewTestCase(), GetPersistenceOnlyProps(t).value).properties == t.properties
  {
  }

  // ---------------------------------------------------------------- from a descriptor

  /**
   * Violation i of a descriptor: message i if there is one, and the full
   * line `line` of the source when line number i is present and not
   * negative. Line 0 or a line past the end is the IndexOutOfBoundsException
   * of lines.get(line - 1).
   */
  function ViolationAt(lines: seq<string>, d: TestDescriptor, i: nat): (r: Result<LiveViolationRecord, CoordError>)
    ensures var line := if i < |d.expectedLineNumbers| then d.expectedLineNumbers[i] else -1;
      r.Success? <==> (line < 0 || 1 <= line <= |lines|)
    ensures r.Success? ==>
      r.value.message == (if i < |d.expectedMessages| then Some(d.expectedMessages[i]) else None) &&
      !r.value.exactRange
  {
    var m := if |d.expectedMessages| > i then Some(d.expectedMessages[i]) else None;
    var line := if |d.expectedLineNumbers| > i then d.expectedLineNumbers[i] else -1;
    if line < 0 then Success(LiveViolationRecord(None, m, false))
    else if line - 1 < 0 || line - 1 >= |lines| then Failure(IndexOutOfBounds(line - 1))
    else Success(LiveViolationRecord(Some(FullLine(line, |lines[line - 1]|)), m, false))
  }

  /** The first n violations of the loop of fromDescriptor. */
  function ViolationsUpTo(lines: seq<string>, d: TestDescriptor, n: nat): (r: Result<seq<LiveViolationRecord>, CoordError>)
    ensures r.Success? <==> forall i :: 0 <= i < n ==> ViolationAt(lines, d, i).Success?
    ensures r.Success? ==> |r.value| == n && forall i :: 0 <= i < n ==> r.value[i] == ViolationAt(lines, d, i).value
  {
    if n == 0 then Success([])
    else
      var prev := ViolationsUpTo(lines, d, n - 1);
      if prev.Failure? then prev
      else
        var v := ViolationAt(lines, d, n - 1);
        if v.Failure? then Failure(v.error) else Success(prev.value + [v.value])
  }

  /** The source lines the descriptor's line numbers index: the code split on \r?\n. */
  function SourceLines(code: string): seq<string> {
    Split(code, OptionalCrNewline)
  }

  /**
   * fromDescriptor: the source, description and properties are copied and
   * one violation is built per expected problem. The language version is
   * not copied.
   */
  function FromDescriptor(d: TestDescriptor): (r: Result<LiveTestCase, CoordError>)
    ensures var lines := SourceLines(d.code);
      r.Success? <==>
        forall i :: 0 <= i < d.numberOfProblemsExpected && i < |d.expectedLineNumbers| ==>
          d.expectedLineNumbers[i] < 0 || 1 <= d.expectedLineNumbers[i] <= |lines|
    ensures r.Success? ==>
      r.value.source == d.code && r.value.description == d.description &&
      r.value.languageVersion.None? && r.value.frozen &&
      |r.value.expectedViolations| == Max(0, d.numberOfProblemsExpected) &&
      r.value.properties == map k | k in d.properties :: Some(d.properties[k])
  {
    var lines := SourceLines(d.code);
    var count: nat := if d.numberOfProblemsExpected < 0 then 0 else d.numberOfProblemsExpected;
    var violations := ViolationsUpTo(lines, d, count);
    assert forall i :: 0 <= i < count ==>
      (ViolationAt(lines, d, i).Success? <==>
        (i < |d.expectedLineNumbers| ==> d.expectedLineNumbers[i] < 0 || 1 <= d.expectedLineNumbers[i] <= |lines|));
    if violations.Failure? then Failure(violations.error)
    else
      assert forall i :: 0 <= i < count ==> ViolationAt(lines, d, i).Success?;
      var live := NewTestCase();
      var live := live.(source := d.code, description := d.description);
      var live := live.(expectedViolations := violations.value);
      Success(SetPersistenceOnlyProps(live, d.properties))
  }

  /** Violation i of a loaded case, stated against the descriptor. */
  lemma {:induction false} FromDescriptorViolation(d: TestDescriptor, i: nat)
    requires FromDescriptor(d).Success?
    requires i < d.numberOfProblemsExpected
    ensures var v := FromDescriptor(d).value.expectedViolations[i];
      var lines := SourceLines(d.code);
      v.message == (if i < |d.expectedMessages| then Some(d.expectedMessages[i]) else None) &&
      (i < |d.expectedLineNumbers| && d.expectedLineNumbers[i] >= 0 ==>
         1 <= d.expectedLineNumbers[i] <= |lines| &&
         v.range == Some(FullLine(d.expectedLineNumbers[i], |lines[d.expectedLineNumbers[i] - 1]|))) &&
      (i >= |d.expectedLineNumbers| || d.expectedLineNumbers[i] < 0 ==> v.range.None?) &&
      !v.exactRange
  {
    var lines := SourceLines(d.code);
    var count: nat := d.numberOfProblemsExpected;
    assert ViolationsUpTo(lines, d, count).Success?;
  }

  /** The stream mapping of parseXmlTests: the first rejected descriptor aborts. */
  function FromDescriptors(ds: seq<TestDescriptor>): (r: Result<seq<LiveTestCase>, CoordError>)
    ensures r.Success? <==> forall k :: 0 <= k < |ds| ==> FromDescriptor(ds[k]).Success?
    ensures r.Success? ==> |r.value| == |ds| && forall k :: 0 <= k < |ds| ==> r.value[k] == FromDescriptor(ds[k]).value
    ensures r.Failure? ==> FirstFailure(ds, r.error)
  {
    if |ds| == 0 then Success([])
    else
      var head := FromDescriptor(ds[0]);
      if head.Failure? then Failure(head.error)
      else
        var tail := FromDescriptors(ds[1..]);
        if tail.Failure? then
          FirstFailureShifts(ds, tail.error);
          tail
        else Success([head.value] + tail.value)
  }

  /** Some descriptor fails to convert with `e`, and every one before it converts. */
  predicate FirstFailure(ds: seq<TestDescriptor>, e: CoordError) {
    exists k :: 0 <= k < |ds| && FromDescriptor(ds[k]).Failure? && e == FromDescriptor(ds[k]).error && AllConvert(ds[..k])
  }

  predicate AllConvert(ds: seq<TestDescriptor>) {
    forall j :: 0 <= j < |ds| ==> FromDescriptor(ds[j]).Success?
  }

  /** A first failure of the descriptors after a converting head is a first failure of the whole list. */
  lemma {:induction false} FirstFailureShifts(ds: seq<TestDescriptor>, e: CoordError)
    requires |ds| > 0 && FromDescriptor(ds[0]).Success? && FirstFailure(ds[1..], e)
    ensures FirstFailure(ds, e)
  {
    var k :| 0 <= k < |ds[1..]| && FromDescriptor(ds[1..][k]).Failure? && e == FromDescriptor(ds[1..][k]).error && AllConvert(ds[1..][..k]);
    assert ds[k + 1] == ds[1..][k];
    forall j | 0 <= j < k + 1 ensures FromDescriptor(ds[j]).Success? {
      if j > 0 {
        assert ds[j] == ds[1..][..k][j - 1];
      }
    }
    assert forall j :: 0 <= j < k + 1 ==> ds[..k + 1][j] == ds[j];
  }
}

=== FILE: match_selectors.dfy ===
/**
 * The selectors of MatchSelector and MatchLimiter, which filter a stream of
 * match results, and the refining selectors CamelCaseMatcher provides, which
 * rescore each result. A stream is a sequence here; a selector that throws
 * yields a `MatchError`. MatchLimiter declares the same limitToBest,
 * selectBestTies and andThen as MatchSelector, and in addition
 * selectNthDegreeBestTies.
 */
module MatchSelectors {
  import opened Wrappers
  import opened JavaString
  import opened StableSort
  import opened CamelScan

  // ---------------------------------------------------------------- filters and maxima

  /** The results scoring exactly `k`, in stream order. */
  function WithScore(s: seq<MatchResult>, k: int): seq<MatchResult> {
    if |s| == 0 then [] else (if s[0].score == k then [s[0]] else []) + WithScore(s[1..], k)
  }

  /** The results scoring at least `t`, in stream order. */
  function AtLeast(s: seq<MatchResult>, t: int): seq<MatchResult> {
    if |s| == 0 then [] else (if s[0].score >= t then [s[0]] else []) + AtLeast(s[1..], t)
  }

  /** The highest score in a non-empty stream. */
  function MaxScore(s: seq<MatchResult>): int
    requires |s| > 0
  {
    if |s| == 1 then s[0].score else Max(s[0].score, MaxScore(s[1..]))
  }

  /** Every score is a Java `int`. */
  predicate Int32Scores(s: seq<MatchResult>) {
    forall i :: 0 <= i < |s| ==> IsInt32(s[i].score)
  }

  lemma {:induction false} MaxScoreIsMax(s: seq<MatchResult>)
    requires |s| > 0
    ensures forall i :: 0 <= i < |s| ==> s[i].score <= MaxScore(s)
    ensures exists i :: 0 <= i < |s| && s[i].score == MaxScore(s)
    decreases |s|
  {
    if |s| == 1 {
      assert s[0].score == MaxScore(s);
    } else {
      MaxScoreIsMax(s[1..]);
      var j :| 0 <= j < |s[1..]| && s[1..][j].score == MaxScore(s[1..]);
      assert s[j + 1].score == MaxScore(s[1..]);
      if s[0].score >= MaxScore(s[1..]) {
        assert s[0].score == MaxScore(s);
      } else {
        assert s[j + 1].score == MaxScore(s);
      }
      forall i | 1 <= i < |s| ensures s[i].score <= MaxScore(s) {
        assert s[i] == s[1..][i - 1];
      }
    }
  }

  /** WithScore keeps exactly the results scoring `k`. */
  lemma {:induction false} WithScoreMembers(s: seq<MatchResult>, k: int, x: MatchResult)
    ensures x in WithScore(s, k) <==> x in s && x.score == k
    decreases |s|
  {
    if |s| > 0 {
      WithScoreMembers(s[1..], k, x);
      assert s == [s[0]] + s[1..];
    }
  }

  /** AtLeast keeps exactly the results scoring at least `t`. */
  lemma {:induction false} AtLeastMembers(s: seq<MatchResult>, t: int, x: MatchResult)
    ensures x in AtLeast(s, t) <==> x in s && x.score >= t
    decreases |s|
  {
    if |s| > 0 {
      AtLeastMembers(s[1..], t, x);
      assert s == [s[0]] + s[1..];
    }
  }

  lemma {:induction false} WithScoreAppend(a: seq<MatchResult>, b: seq<MatchResult>, k: int)
    ensures WithScore(a + b, k) == WithScore(a, k) + WithScore(b, k)
    decreases |a|
  {
    if |a| == 0 {
      assert a + b == b;
    } else {
      var head := if a[0].score == k then [a[0]] else [];
      assert (a + b)[0] == a[0];
      assert (a + b)[1..] == a[1..] + b;
      WithScoreAppend(a[1..], b, k);
      assert WithScore(a + b, k) == head + WithScore(a[1..] + b, k);
      assert WithScore(a, k) == head + WithScore(a[1..], k);
    }
  }

  lemma {:induction false} AtLeastAppend(a: seq<MatchResult>, b: seq<MatchResult>, t: int)
    ensures AtLeast(a + b, t) == AtLeast(a, t) + AtLeast(b, t)
    decreases |a|
  {
    if |a| == 0 {
      assert a + b == b;
    } else {
      var head := if a[0].score >= t then [a[0]] else [];
      assert (a + b)[0] == a[0];
      assert (a + b)[1..] == a[1..] + b;
      AtLeastAppend(a[1..], b, t);
      assert AtLeast(a + b, t) == head + AtLeast(a[1..] + b, t);
      assert AtLeast(a, t) == head + AtLeast(a[1..], t);
    }
  }

  /** Filtering at a threshold, then at a higher one, is filtering at the higher one. */
  lemma {:induction false} AtLeastTwice(s: seq<MatchResult>, t: int, u: int)
    requires t <= u
    ensures AtLeast(AtLeast(s, t), u) == AtLeast(s, u)
    decreases |s|
  {
    if |s| > 0 {
      AtLeastTwice(s[1..], t, u);
      AtLeastAppend(if s[0].score >= t then [s[0]] else [], AtLeast(s[1..], t), u);
    }
  }

  /** No result scores above the maximum. */
  lemma {:induction false} NoneAbove(s: seq<MatchResult>, k: int)
    requires |s| == 0 || MaxScore(s) < k
    ensures WithScore(s, k) == []
    decreases |s|
  {
    if |s| > 1 {
      NoneAbove(s[1..], k);
    }
  }

  // ---------------------------------------------------------------- selectBestTies

  /** The fold state of selectBestTies: the best score so far and the results tied at it. */
  datatype TiesState = TiesState(best: int, ties: seq<MatchResult>)

  function TiesStep(st: TiesState, it: MatchResult): TiesState {
    if it.score > st.best then TiesState(it.score, [it])
    else if it.score == st.best then st.(ties := st.ties + [it])
    else st
  }

  function TiesFold(st: TiesState, raw: seq<MatchResult>): TiesState
    decreases |raw|
  {
    if |raw| == 0 then st else TiesFold(TiesStep(st, raw[0]), raw[1..])
  }

  /** selectBestTies: the fold from Integer.MIN_VALUE and no ties. */
  function SelectBestTies(raw: seq<MatchResult>): seq<MatchResult> {
    TiesFold(TiesState(IntMin, []), raw).ties
  }

  /** The fold keeps the ties at the larger of its starting best and the stream's maximum. */
  lemma {:induction false} TiesFoldSpec(st: TiesState, raw: seq<MatchResult>)
    requires |raw| > 0
    ensures TiesFold(st, raw).best == Max(st.best, MaxScore(raw))
    ensures TiesFold(st, raw).ties ==
      if MaxScore(raw) < st.best then st.ties
      else if MaxScore(raw) == st.best then st.ties + WithScore(raw, st.best)
      else WithScore(raw, MaxScore(raw))
    decreases |raw|
  {
    var x, rest := raw[0], raw[1..];
    var st1 := TiesStep(st, x);
    var m := MaxScore(raw);
    if |rest| == 0 {
      assert WithScore(raw, x.score) == [x];
    } else {
      TiesFoldSpec(st1, rest);
      var m1 := MaxScore(rest);
      assert WithScore(raw, m) == (if x.score == m then [x] else []) + WithScore(rest, m);
      if x.score > st.best {
        if m1 < x.score {
          NoneAbove(rest, x.score);
        }
      } else if x.score == st.best {
        if m1 < st.best {
          NoneAbove(rest, st.best);
        } else if m1 == st.best {
          assert st.ties + [x] + WithScore(rest, st.best) == st.ties + ([x] + WithScore(rest, st.best));
        }
      }
    }
  }

  /**
   * selectBestTies keeps exactly the results with the maximal score, in
   * stream order, when the scores are Java ints; nothing from nothing.
   */
  lemma {:induction false} SelectBestTiesKeepsMaximal(raw: seq<MatchResult>)
    requires Int32Scores(raw)
    ensures |raw| == 0 ==> SelectBestTies(raw) == []
    ensures |raw| > 0 ==> SelectBestTies(raw) == WithScore(raw, MaxScore(raw))
    ensures forall x :: x in SelectBestTies(raw) <==> x in raw && x.score == MaxScore(raw)
  {
    if |raw| > 0 {
      MaxScoreIsMax(raw);
      var i :| 0 <= i < |raw| && raw[i].score == MaxScore(raw);
      TiesFoldSpec(TiesState(IntMin, []), raw);
      forall x ensures x in SelectBestTies(raw) <==> x in raw && x.score == MaxScore(raw) {
        WithScoreMembers(raw, MaxScore(raw), x);
      }
    }
  }

  // ---------------------------------------------------------------- selectNthDegreeBestTies

  /** The fold state of selectNthDegreeBestTies; `thresholds` holds the previous best scores, latest first. */
  datatype NthState = NthState(best: int, thresholds: seq<int>, ties: seq<MatchResult>)

  function LastThreshold(st: NthState): int
    requires |st.thresholds| > 0
  {
    st.thresholds[|st.thresholds| - 1]
  }

  /**
   * A new best pushes the old best in front of the thresholds and drops the
   * oldest, then drops the ties below the new last threshold; any other
   * result is kept when it reaches the last threshold.
   */
  function NthStep(st: NthState, it: MatchResult): (r: NthState)
    requires |st.thresholds| > 0
    ensures |r.thresholds| == |st.thresholds|
  {
    if it.score > st.best then
      var th := [st.best] + st.thresholds[..|st.thresholds| - 1];
      NthState(it.score, th, AtLeast(st.ties, th[|th| - 1]) + [it])
    else if it.score >= LastThreshold(st) then st.(ties := st.ties + [it])
    else st
  }

  function NthFold(st: NthState, raw: seq<MatchResult>): (r: NthState)
    requires |st.thresholds| > 0
    ensures |r.thresholds| == |st.thresholds|
    decreases |raw|
  {
    if |raw| == 0 then st else NthFold(NthStep(st, raw[0]), raw[1..])
  }

  /** selectNthDegreeBestTies(level): IllegalArgumentException unless level > 0. */
  function SelectNthDegreeBestTies(level: int, raw: seq<MatchResult>): (r: Result<seq<MatchResult>, MatchError>)
    ensures r.Failure? <==> level <= 0
  {
    if level <= 0 then Failure(IllegalArgument)
    else Success(NthFold(NthState(IntMin, seq(level, _ => IntMin), []), raw).ties)
  }

  /** Each threshold is at most the one before it. */
  predicate Descending(th: seq<int>)
    decreases |th|
  {
    |th| <= 1 || (th[1] <= th[0] && Descending(th[1..]))
  }

  /** A descending list without its last element, or with a larger first element in front, still descends. */
  lemma {:induction false} DescendingShift(th: seq<int>, best: int)
    requires |th| > 0 && Descending(th) && th[0] <= best
    ensures Descending([best] + th[..|th| - 1])
    ensures th[|th| - 1] <= ([best] + th[..|th| - 1])[|th| - 1]
    decreases |th|
  {
    var r := [best] + th[..|th| - 1];
    if |th| > 1 {
      var t := th[1..];
      DescendingShift(t, th[0]);
      assert r[1..] == [th[0]] + t[..|t| - 1];
      assert r[|th| - 1] == ([th[0]] + t[..|t| - 1])[|t| - 1];
      assert th[|th| - 1] == t[|t| - 1];
    }
  }

  /** The last threshold is at most the first. */
  lemma {:induction false} DescendingLast(th: seq<int>)
    requires |th| > 0 && Descending(th)
    ensures th[|th| - 1] <= th[0]
    decreases |th|
  {
    if |th| > 1 {
      DescendingLast(th[1..]);
    }
  }

  /** selectNthDegreeBestTies starts from `level` copies of Integer.MIN_VALUE. */
  lemma {:induction false} ConstantDescends(n: nat, v: int)
    ensures Descending(seq(n, _ => v))
    decreases n
  {
    if n > 1 {
      ConstantDescends(n - 1, v);
      assert seq(n, _ => v)[1..] == seq(n - 1, _ => v);
    }
  }

  /** The thresholds descend, none is above the best score, and every tie reaches the last one. */
  predicate NthInv(st: NthState) {
    |st.thresholds| > 0 && st.thresholds[0] <= st.best && Descending(st.thresholds) &&
    AtLeast(st.ties, LastThreshold(st)) == st.ties
  }

  lemma {:induction false} NthStepKeepsInv(st: NthState, it: MatchResult)
    requires NthInv(st)
    ensures NthInv(NthStep(st, it))
    ensures LastThreshold(st) <= LastThreshold(NthStep(st, it))
    ensures NthStep(st, it).best == Max(st.best, it.score)
  {
    if it.score > st.best {
      var n := |st.thresholds|;
      var th := [st.best] + st.thresholds[..n - 1];
      DescendingShift(st.thresholds, st.best);
      DescendingLast(th);
      var l := th[n - 1];
      AtLeastTwice(st.ties, l, l);
      AtLeastAppend(AtLeast(st.ties, l), [it], l);
    } else if it.score >= LastThreshold(st) {
      AtLeastAppend(st.ties, [it], LastThreshold(st));
    }
  }

  /** Filtered at a threshold no lower than the step's, the ties after a step are those before it and the result. */
  lemma {:induction false} StepTiesAt(st: NthState, x: MatchResult, t: int)
    requires NthInv(st) && LastThreshold(NthStep(st, x)) <= t
    ensures AtLeast(NthStep(st, x).ties, t) == AtLeast(st.ties, t) + AtLeast([x], t)
  {
    NthStepKeepsInv(st, x);
    if x.score > st.best {
      var l := LastThreshold(NthStep(st, x));
      AtLeastTwice(st.ties, l, t);
      AtLeastAppend(AtLeast(st.ties, l), [x], t);
    } else if x.score >= LastThreshold(st) {
      AtLeastAppend(st.ties, [x], t);
    }
  }

  /** Over any stream the fold keeps its invariant, never lowers the last threshold, and ends at the best score. */
  lemma {:induction false} NthFoldInv(st: NthState, raw: seq<MatchResult>)
    requires NthInv(st)
    ensures NthInv(NthFold(st, raw))
    ensures LastThreshold(st) <= LastThreshold(NthFold(st, raw))
    ensures NthFold(st, raw).best == if |raw| == 0 then st.best else Max(st.best, MaxScore(raw))
    decreases |raw|
  {
    if |raw| > 0 {
      NthStepKeepsInv(st, raw[0]);
      NthFoldInv(NthStep(st, raw[0]), raw[1..]);
    }
  }

  /** One step and then a fold keep the invariant, and the last threshold only rises. */
  lemma {:induction false} NthStepThenFold(st: NthState, x: MatchResult, rest: seq<MatchResult>)
    requires NthInv(st)
    ensures NthInv(NthStep(st, x))
    ensures LastThreshold(NthStep(st, x)) <= LastThreshold(NthFold(NthStep(st, x), rest))
  {
    NthStepKeepsInv(st, x);
    NthFoldInv(NthStep(st, x), rest);
  }

  /**
   * Over any stream, the fold ends with the ties it started with and the
   * stream's results, each filtered at its final last threshold.
   */
  lemma {:induction false} NthFoldTies(st: NthState, raw: seq<MatchResult>)
    requires NthInv(st)
    ensures NthFold(st, raw).ties == AtLeast(st.ties, LastThreshold(NthFold(st, raw))) + AtLeast(raw, LastThreshold(NthFold(st, raw)))
    decreases |raw|
  {
    if |raw| > 0 {
      var x, rest := raw[0], raw[1..];
      var st1 := NthStep(st, x);
      NthStepThenFold(st, x, rest);
      NthFoldTies(st1, rest);
      var fin := NthFold(st1, rest);
      assert NthFold(st, raw) == fin;
      var t := LastThreshold(fin);
      var a, b, c := AtLeast(st.ties, t), AtLeast([x], t), AtLeast(rest, t);
      StepTiesAt(st, x, t);
      assert fin.ties == (a + b) + c;
      assert raw == [x] + rest;
      AtLeastAppend([x], rest, t);
      assert AtLeast(raw, t) == b + c;
    }
  }

  /**
   * selectNthDegreeBestTies keeps, in stream order, exactly the results
   * that reach one threshold, and that threshold is never above the best
   * score: every result tied at the maximum is kept.
   */
  lemma {:induction false} NthDegreeKeepsBestTies(level: int, raw: seq<MatchResult>)
    requires level > 0 && Int32Scores(raw)
    ensures exists t :: (SelectNthDegreeBestTies(level, raw) == Success(AtLeast(raw, t)) &&
      (|raw| > 0 ==> t <= MaxScore(raw)))
    ensures |raw| > 0 ==> forall x :: x in raw && x.score == MaxScore(raw) ==> x in SelectNthDegreeBestTies(level, raw).value
  {
    var st0 := NthState(IntMin, seq(level, _ => IntMin), []);
    ConstantDescends(level, IntMin);
    NthFoldInv(st0, raw);
    NthFoldTies(st0, raw);
    var fin := NthFold(st0, raw);
    var t := LastThreshold(fin);
    DescendingLast(fin.thresholds);
    assert AtLeast([], t) == [];
    assert [] + AtLeast(raw, t) == AtLeast(raw, t);
    if |raw| > 0 {
      MaxScoreIsMax(raw);
      var i :| 0 <= i < |raw| && raw[i].score == MaxScore(raw);
      assert IsInt32(raw[i].score);
      forall x | x in raw && x.score == MaxScore(raw) ensures x in AtLeast(raw, t) {
        AtLeastMembers(raw, t, x);
      }
    }
  }

  // ---------------------------------------------------------------- limitToBest

  /** Comparator.naturalOrder().reversed() on match results: the higher score first. */
  function ScoreDescending(r: MatchResult): SortKey {
    SortKey(-r.score, 0)
  }

  /** limitToBest(limit): a stable sort by descending score, then the first `limit`; Stream.limit rejects a negative limit. */
  function LimitToBest(limit: int, raw: seq<MatchResult>): (r: Result<seq<MatchResult>, MatchError>)
    ensures r.Failure? <==> limit < 0
    ensures r.Success? ==> |r.value| == Min(limit, |raw|)
  {
    if limit < 0 then Failure(IllegalArgument)
    else Success(SortBy(raw, ScoreDescending)[..Min(limit, |raw|)])
  }

  /** In a list sorted by descending score, a prefix descends and dominates the rest. */
  lemma {:induction false} SortedPrefixDominates(sorted: seq<MatchResult>, n: nat)
    requires SortedBy(sorted, ScoreDescending) && n <= |sorted|
    ensures forall i, j :: 0 <= i < j < n ==> sorted[j].score <= sorted[i].score
    ensures forall x, y :: x in sorted[..n] && y in sorted[n..] ==> y.score <= x.score
  {
    forall i, j | 0 <= i < j < n ensures sorted[j].score <= sorted[i].score {
      assert KeyLeq(ScoreDescending(sorted[i]), ScoreDescending(sorted[j]));
    }
    forall x, y | x in sorted[..n] && y in sorted[n..] ensures y.score <= x.score {
      var i :| 0 <= i < n && sorted[..n][i] == x;
      var j :| 0 <= j < |sorted| - n && sorted[n..][j] == y;
      assert KeyLeq(ScoreDescending(sorted[i]), ScoreDescending(sorted[n + j]));
    }
  }

  /**
   * limitToBest returns results of the stream in descending score order,
   * and no result it drops scores higher than one it keeps.
   */
  lemma {:induction false} LimitToBestKeepsBest(limit: int, raw: seq<MatchResult>)
    requires limit >= 0
    ensures var r := LimitToBest(limit, raw).value;
      (forall i, j :: 0 <= i < j < |r| ==> r[j].score <= r[i].score) &&
      multiset(r) <= multiset(raw) &&
      (forall x, y :: x in r && y in multiset(raw) - multiset(r) ==> y.score <= x.score)
  {
    var sorted := SortBy(raw, ScoreDescending);
    var n := Min(limit, |raw|);
    SortSorted(raw, ScoreDescending);
    SortPermutes(raw, ScoreDescending);
    SortedPrefixDominates(sorted, n);
    assert sorted == sorted[..n] + sorted[n..];
    assert multiset(raw) - multiset(sorted[..n]) == multiset(sorted[n..]);
  }

  // ---------------------------------------------------------------- the refining selectors

  /** The refined result replaces the previous one only when it scores strictly higher. */
  function KeepBest(prev: MatchResult, refined: MatchResult): (r: MatchResult)
    ensures r == prev || r == refined
    ensures r.score == Max(prev.score, refined.score)
    ensures refined.score == prev.score ==> r == prev
  {
    if refined.score > prev.score then refined else prev
  }

  /**
   * CamelCaseMatcher.onlyWordStarts, on one result: rescan from 0 matching
   * only word starts, in the given revision of the scan, and keep the rescan
   * when it scores strictly higher. An exception of the rescan propagates;
   * as written the rescan can throw (CamelFindings), corrected it cannot.
   */
  function OnlyWordStartsRefine(rev: Revision, prev: MatchResult): (r: Result<MatchResult, MatchError>)
    ensures var scan := ComputeMatchingSegments(CamelCase(0), rev, prev.suggestion, prev.query, true);
      (r.Failure? <==> scan.Failure?) && (r.Failure? ==> r.error == scan.error) &&
      (r.Success? ==>
        r.value.suggestion == prev.suggestion && r.value.query == prev.query &&
        r.value.score >= prev.score && r.value.score >= scan.value.score &&
        (r.value == prev || r.value == scan.value))
    ensures rev == Corrected ==> r == Success(KeepBest(prev, MatchSegments(CamelCase(0), prev.suggestion, prev.query, true)))
  {
    CorrectedScanSucceeds(CamelCase(0), prev.suggestion, prev.query, true);
    var refined :- ComputeMatchingSegments(CamelCase(0), rev, prev.suggestion, prev.query, true);
    Success(KeepBest(prev, refined))
  }

  /**
   * CamelCaseMatcher.sparseCamelMatcher, on one result: rescan from 0
   * matching any character. Without the word-start restriction the scan as
   * written is MatchSegments (CamelScan.UnrestrictedScanAsWritten).
   */
  function SparseCamelRefine(prev: MatchResult): (r: MatchResult)
    ensures r.suggestion == prev.suggestion && r.query == prev.query
    ensures r.score >= prev.score
    ensures r.score >= MatchSegments(CamelCase(0), prev.suggestion, prev.query, false).score
  {
    KeepBest(prev, MatchSegments(CamelCase(0), prev.suggestion, prev.query, false))
  }

  /** impossibleMatch: the worst score, the candidate shown plain. */
  function ImpossibleMatch(cand: string, query: string): MatchResult {
    MatchResult(WorstScore, cand, query, [Segment(cand, false)])
  }

  /** A scan of the candidate from index `k`, matching any character. */
  function AttemptFrom(cand: string, query: string, k: nat): MatchResult {
    MatchSegments(CamelCase(k), cand, query, false)
  }

  /** The allQueryStarts loop: try every later occurrence of `first`, keeping the best. */
  function BestStart(best: MatchResult, cand: string, query: string, first: char, i: int): MatchResult
    requires -1 <= i < |cand|
    decreases if i < 0 then 0 else |cand| + 1 - i
  {
    if i < 0 then best
    else BestStart(KeepBest(best, AttemptFrom(cand, query, i)), cand, query, first, IndexOf(ToLowerString(cand), first, i + 1))
  }

  /**
   * CamelCaseMatcher.allQueryStarts, on one result: a perfect match stays;
   * an empty query makes charAt(0) throw; a candidate without the query's
   * first character gets the impossible match; otherwise one scan from
   * each occurrence of it, keeping the best.
   */
  function AllQueryStartsRefine(prev: MatchResult): Result<MatchResult, MatchError> {
    if prev.score == PerfectScore then Success(prev)
    else if |prev.query| == 0 then Failure(CharIndexOutOfBounds(0, 0))
    else
      var first := ToLower(prev.query[0]);
      var i := IndexOf(ToLowerString(prev.suggestion), first, 0);
      if i < 0 then Success(ImpossibleMatch(prev.suggestion, prev.query))
      else Success(BestStart(prev, prev.suggestion, prev.query, first, i))
  }

  /** The loop's result is the result it started from or the scan from some occurrence, and never scores lower. */
  lemma {:induction false} BestStartPicks(best: MatchResult, cand: string, query: string, first: char, i: int)
    requires -1 <= i < |cand|
    requires i >= 0 ==> ToLower(cand[i]) == first
    ensures var r := BestStart(best, cand, query, first, i);
      r.score >= best.score &&
      (r == best || exists k :: 0 <= k < |cand| && ToLower(cand[k]) == first && r == AttemptFrom(cand, query, k))
    decreases if i < 0 then 0 else |cand| + 1 - i
  {
    if i >= 0 {
      var a := AttemptFrom(cand, query, i);
      var best1 := KeepBest(best, a);
      var next := IndexOf(ToLowerString(cand), first, i + 1);
      BestStartPicks(best1, cand, query, first, next);
      var r := BestStart(best1, cand, query, first, next);
      assert BestStart(best, cand, query, first, i) == r;
      if r != best && r == best1 {
        assert r == AttemptFrom(cand, query, i);
      }
    }
  }

  /** The loop never scores lower than the scan from any occurrence at or after `i`. */
  lemma {:induction false} BestStartDominates(best: MatchResult, cand: string, query: string, first: char, i: int)
    requires -1 <= i < |cand|
    requires i >= 0 ==> ToLower(cand[i]) == first
    ensures var r := BestStart(best, cand, query, first, i);
      r.score >= best.score &&
      (i >= 0 ==> forall k :: i <= k < |cand| && ToLower(cand[k]) == first ==> r.score >= AttemptFrom(cand, query, k).score)
    decreases if i < 0 then 0 else |cand| + 1 - i
  {
    if i >= 0 {
      var lower := ToLowerString(cand);
      var a := AttemptFrom(cand, query, i);
      var best1 := KeepBest(best, a);
      var next := IndexOf(lower, first, i + 1);
      BestStartDominates(best1, cand, query, first, next);
      var r := BestStart(best1, cand, query, first, next);
      assert BestStart(best, cand, query, first, i) == r;
      forall k | i < k < |cand| && ToLower(cand[k]) == first
        ensures next >= 0 && k >= next
      {
        assert lower[k] == first;
      }
      assert r.score >= a.score;
    }
  }

  /**
   * allQueryStarts: without the query's first character in the candidate
   * the result is the impossible match; with it, the result never scores
   * lower than before, nor lower than the scan from any occurrence.
   */
  lemma {:induction false} AllQueryStartsBest(prev: MatchResult)
    requires prev.score != PerfectScore && |prev.query| > 0
    ensures var first := ToLower(prev.query[0]);
      var cand := prev.suggestion;
      var r := AllQueryStartsRefine(prev);
      r.Success? && r.value.suggestion == cand && r.value.query == prev.query &&
      ((forall k :: 0 <= k < |cand| ==> ToLower(cand[k]) != first) ==> r.value == ImpossibleMatch(cand, prev.query)) &&
      ((exists k :: 0 <= k < |cand| && ToLower(cand[k]) == first) ==>
        r.value.score >= prev.score &&
        forall k :: 0 <= k < |cand| && ToLower(cand[k]) == first ==> r.value.score >= AttemptFrom(cand, prev.query, k).score)
  {
    var first := ToLower(prev.query[0]);
    var cand := prev.suggestion;
    var lower := ToLowerString(cand);
    var i := IndexOf(lower, first, 0);
    if i >= 0 {
      BestStartPicks(prev, cand, prev.query, first, i);
      BestStartDominates(prev, cand, prev.query, first, i);
      forall k | 0 <= k < |cand| && ToLower(cand[k]) == first ensures i <= k {
        assert lower[k] == first;
      }
    } else {
      forall k | 0 <= k < |cand| ensures ToLower(cand[k]) != first {
        assert lower[k] != first;
      }
    }
  }

  // ---------------------------------------------------------------- pipelines

  /** A selector pipeline: the factories of MatchSelector, MatchLimiter and CamelCaseMatcher, and andThen. */
  datatype Selector =
    | Limit(limit: int)
    | BestTies
    | NthDegreeTies(level: int)
    | WordStarts
    | SparseCamel
    | AllQueryStarts
    | AndThen(first: Selector, next: Selector)

  /** The refining selectors map each result on its own; the first that throws ends the stream. */
  function RefineEach(rev: Revision, s: Selector, raw: seq<MatchResult>): (r: Result<seq<MatchResult>, MatchError>)
    requires s.WordStarts? || s.SparseCamel? || s.AllQueryStarts?
    ensures r.Success? ==> |r.value| == |raw|
    decreases |raw|
  {
    if |raw| == 0 then Success([])
    else
      var head :- match s
        case WordStarts => OnlyWordStartsRefine(rev, raw[0])
        case SparseCamel => Success(SparseCamelRefine(raw[0]))
        case AllQueryStarts => AllQueryStartsRefine(raw[0]);
      var tail :- RefineEach(rev, s, raw[1..]);
      Success([head] + tail)
  }

  /**
   * selectBest of a pipeline, with onlyWordStarts rescanning in revision
   * `rev`; `a.andThen(b)` runs `b` on what `a` selects.
   */
  function SelectBest(rev: Revision, s: Selector, raw: seq<MatchResult>): Result<seq<MatchResult>, MatchError>
    decreases s
  {
    match s
    case Limit(limit) => LimitToBest(limit, raw)
    case BestTies => Success(SelectBestTies(raw))
    case NthDegreeTies(level) => SelectNthDegreeBestTies(level, raw)
    case AndThen(a, b) =>
      var mid :- SelectBest(rev, a, raw);
      SelectBest(rev, b, mid)
    case _ => RefineEach(rev, s, raw)
  }

  /** Chaining selectors is associative. */
  lemma AndThenAssociative(rev: Revision, a: Selector, b: Selector, c: Selector, raw: seq<MatchResult>)
    ensures SelectBest(rev, AndThen(AndThen(a, b), c), raw) == SelectBest(rev, AndThen(a, AndThen(b, c)), raw)
  {
  }

  /** Pipelines of onlyWordStarts and sparseCamelMatcher only. */
  predicate ScoreRaising(s: Selector) {
    match s
    case WordStarts => true
    case SparseCamel => true
    case AndThen(a, b) => ScoreRaising(a) && ScoreRaising(b)
    case _ => false
  }

  /** Whether a pipeline contains onlyWordStarts, the one refiner whose rescan can throw as written. */
  predicate UsesWordStarts(s: Selector) {
    match s
    case WordStarts => true
    case AndThen(a, b) => UsesWordStarts(a) || UsesWordStarts(b)
    case _ => false
  }

  /** Result by result, the stream after `s` never scores lower than `raw`, and shows the same candidates. */
  predicate Raised(raw: seq<MatchResult>, r: seq<MatchResult>) {
    |r| == |raw| &&
    forall i :: 0 <= i < |raw| ==>
      r[i].suggestion == raw[i].suggestion && r[i].query == raw[i].query && r[i].score >= raw[i].score
  }

  /**
   * onlyWordStarts and sparseCamelMatcher keep every result in place, with
   * the same candidate and query and a score no lower, whenever they do not
   * throw; sparseCamelMatcher never throws, nor does onlyWordStarts over the
   * corrected scan.
   */
  lemma {:induction false} RefineEachRaises(rev: Revision, s: Selector, raw: seq<MatchResult>)
    requires s.WordStarts? || s.SparseCamel?
    ensures RefineEach(rev, s, raw).Success? ==> Raised(raw, RefineEach(rev, s, raw).value)
    ensures rev == Corrected || s.SparseCamel? ==> RefineEach(rev, s, raw).Success?
    decreases |raw|
  {
    if |raw| > 0 {
      RefineEachRaises(rev, s, raw[1..]);
      var r := RefineEach(rev, s, raw);
      if r.Success? {
        forall i | 0 <= i < |raw|
          ensures r.value[i].suggestion == raw[i].suggestion && r.value[i].query == raw[i].query && r.value[i].score >= raw[i].score
        {
          if i > 0 {
            assert r.value[i] == RefineEach(rev, s, raw[1..]).value[i - 1];
          }
        }
      }
    }
  }

  /**
   * A pipeline of onlyWordStarts and sparseCamelMatcher keeps every result
   * in place and never lowers a score whenever it does not throw. It cannot
   * throw over the corrected scan, nor without onlyWordStarts.
   */
  lemma {:induction false} RefinersNeverLower(rev: Revision, s: Selector, raw: seq<MatchResult>)
    requires ScoreRaising(s)
    ensures SelectBest(rev, s, raw).Success? ==> Raised(raw, SelectBest(rev, s, raw).value)
    ensures rev == Corrected || !UsesWordStarts(s) ==> SelectBest(rev, s, raw).Success?
    decreases s
  {
    match s
    case WordStarts => RefineEachRaises(rev, s, raw);
    case SparseCamel => RefineEachRaises(rev, s, raw);
    case AndThen(a, b) =>
      RefinersNeverLower(rev, a, raw);
      var mid := SelectBest(rev, a, raw);
      if mid.Success? {
        RefinersNeverLower(rev, b, mid.value);
      }
  }
}

=== FILE: pmd_coordinates.dfy ===
/**
 * Conversions between the coordinates of the RichTextFX code area
 * (0-based paragraph, 0-based column, absolute offset; a tab is one column)
 * and those of PMD nodes (1-based line and column; a tab counts as 8
 * columns), the TextPos2D / TextRange value types, and node lookup by
 * position over an abstract syntax tree.
 */
module PmdCoordinatesSystem {
  import opened Wrappers
  import opened JavaString
  import opened AstNodes

  /** The exceptions the conversions can raise. */
  datatype CoordError =
    | IndexOutOfBounds(index: int)        // a paragraph or offset outside the area
    | StringIndexOutOfBounds(index: int)  // charAt past the end of a paragraph
    | ArrayIndexOutOfBounds(index: int)   // too few pieces after a split
    | NumberFormat(input: string)

  // ------------------------------------------------------------ positions

  datatype TextPos2D = TextPos2D(line: int, column: int)

  /** Integer.compare. */
  function IntCompare(a: int, b: int): int {
    if a < b then -1 else if a == b then 0 else 1
  }

  /** TextPos2D.COMPARATOR (and compareTo): by line, then by column. */
  function Compare(a: TextPos2D, b: TextPos2D): (r: int)
    ensures r == -1 || r == 0 || r == 1
    ensures r == 0 <==> a == b
    ensures r < 0 <==> a.line < b.line || (a.line == b.line && a.column < b.column)
  {
    if a.line != b.line then IntCompare(a.line, b.line) else IntCompare(a.column, b.column)
  }

  /** The comparator is antisymmetric and transitive: a total order on positions. */
  lemma CompareTotalOrder(a: TextPos2D, b: TextPos2D, c: TextPos2D)
    ensures Compare(a, b) == -Compare(b, a)
    ensures Compare(a, b) <= 0 && Compare(b, c) <= 0 ==> Compare(a, c) <= 0
    ensures Compare(a, b) <= 0 && Compare(b, c) <= 0 && Compare(a, c) == 0 ==> a == b == c
  {
  }

  /** A range between two positions, both ends inclusive. */
  datatype TextRange = TextRange(startPos: TextPos2D, endPos: TextPos2D) {

    predicate ContainsPos(pos: TextPos2D) {
      Compare(startPos, pos) <= 0 && Compare(endPos, pos) >= 0
    }

    predicate ContainsRange(range: TextRange) {
      Compare(startPos, range.startPos) <= 0 && Compare(endPos, range.endPos) >= 0
    }
  }

  /**
   * Both contains methods are inclusive at both ends, and for a non-empty
   * range, containing it is containing both its end points.
   */
  lemma ContainsInclusive(r: TextRange, inner: TextRange)
    requires Compare(inner.startPos, inner.endPos) <= 0
    ensures r.ContainsPos(r.startPos) <==> Compare(r.startPos, r.endPos) <= 0
    ensures r.ContainsPos(r.endPos) <==> Compare(r.startPos, r.endPos) <= 0
    ensures r.ContainsRange(inner) <==> r.ContainsPos(inner.startPos) && r.ContainsPos(inner.endPos)
    ensures r.ContainsRange(r)
  {
  }

  /** TextRange.fullLine: the whole of one line, from column 0 to its length. */
  function FullLine(line: int, lineLength: int): (r: TextRange)
    ensures forall pos: TextPos2D {:trigger r.ContainsPos(pos)} ::
      r.ContainsPos(pos) <==> pos.line == line && 0 <= pos.column <= lineLength
  {
    TextRange(TextPos2D(line, 0), TextPos2D(line, lineLength))
  }

  // ------------------------------------------------------------ printing and parsing

  /** TextPos2D.toString: "(line, column)". */
  function PosToString(p: TextPos2D): string {
    "(" + IntToString(p.line) + ", " + IntToString(p.column) + ")"
  }

  /** TextRange.toString: "[start - end]". */
  function RangeToString(r: TextRange): string {
    "[" + PosToString(r.startPos) + " - " + PosToString(r.endPos) + "]"
  }

  /** replaceAll("[^,\\d]", ""): keeps only the commas and the digits. */
  function KeepCommasAndDigits(s: string): (r: string)
    ensures |r| <= |s|
    ensures forall i :: 0 <= i < |r| ==> r[i] == ',' || IsDigit(r[i])
  {
    if |s| == 0 then ""
    else (if s[0] == ',' || IsDigit(s[0]) then [s[0]] else []) + KeepCommasAndDigits(s[1..])
  }

  /** TextPos2D.fromString: the first two comma-separated numbers among the commas and digits. */
  function PosFromString(s: string): (r: Result<TextPos2D, CoordError>)
    ensures r.Success? ==> r.value.line >= 0 && r.value.column >= 0
  {
    var split := Split(KeepCommasAndDigits(s), Comma);
    if |split| < 1 then Failure(ArrayIndexOutOfBounds(0))
    else
      match ParseInt(split[0])
      case Failure(e) => Failure(NumberFormat(e.input))
      case Success(line) =>
        if |split| < 2 then Failure(ArrayIndexOutOfBounds(1))
        else
          match ParseInt(split[1])
          case Failure(e) => Failure(NumberFormat(e.input))
          case Success(column) =>
            SplitAvoids(KeepCommasAndDigits(s), Comma, '-');
            SignlessParse(split[0]);
            SignlessParse(split[1]);
            Success(TextPos2D(line, column))
  }

  /** A number parsed from commas and digits alone has no sign. */
  lemma SignlessParse(s: string)
    requires '-' !in s
    requires ParseInt(s).Success?
    ensures ParseInt(s).value >= 0
  {
  }

  /** TextRange.fromString: the two positions on either side of the dash. */
  function RangeFromString(s: string): (r: Result<TextRange, CoordError>)
    ensures r.Success? ==> r.value.startPos.line >= 0 && r.value.endPos.column >= 0
  {
    var split := Split(s, Dash);
    if |split| < 1 then Failure(ArrayIndexOutOfBounds(0))
    else
      var start :- PosFromString(split[0]);
      if |split| < 2 then Failure(ArrayIndexOutOfBounds(1))
      else
        var end :- PosFromString(split[1]);
        Success(TextRange(start, end))
  }

  lemma {:induction false} KeepConcat(a: string, b: string)
    ensures KeepCommasAndDigits(a + b) == KeepCommasAndDigits(a) + KeepCommasAndDigits(b)
  {
    if |a| > 0 {
      assert (a + b)[0] == a[0];
      assert (a + b)[1..] == a[1..] + b;
      KeepConcat(a[1..], b);
    } else {
      assert a + b == b;
    }
  }

  lemma {:induction false} KeepDigits(d: string)
    requires AllDigits(d)
    ensures KeepCommasAndDigits(d) == d
  {
    if |d| > 0 {
      KeepDigits(d[1..]);
    }
  }

  predicate NonNegative(p: TextPos2D) {
    p.line >= 0 && p.column >= 0
  }

  /** The punctuation of a printed position keeps nothing but its comma. */
  lemma {:induction false} KeepPunctuation()
    ensures KeepCommasAndDigits("(") == "" && KeepCommasAndDigits(")") == ""
    ensures KeepCommasAndDigits(", ") == ","
  {
    assert ", "[1..] == " ";
  }

  /** What is left of ", column)". */
  lemma {:induction false} KeepColumnTail(b: string)
    requires AllDigits(b)
    ensures KeepCommasAndDigits(", " + (b + ")")) == "," + b
  {
    KeepPunctuation();
    KeepConcat(b, ")");
    KeepDigits(b);
    KeepConcat(", ", b + ")");
  }

  /** What is left of a printed position once everything but commas and digits is dropped. */
  lemma {:induction false} KeepOfPrintedPos(p: TextPos2D)
    requires NonNegative(p)
    ensures KeepCommasAndDigits(PosToString(p)) == NatToString(p.line) + "," + NatToString(p.column)
  {
    var a := NatToString(p.line);
    var b := NatToString(p.column);
    var t2 := ", " + (b + ")");
    assert PosToString(p) == "(" + (a + t2);
    KeepColumnTail(b);
    KeepConcat(a, t2);
    KeepDigits(a);
    KeepPunctuation();
    KeepConcat("(", a + t2);
  }

  /** TextPos2D.fromString inverts toString on non-negative coordinates. */
  lemma {:induction false} PosStringRoundTrip(p: TextPos2D)
    requires NonNegative(p) && IsInt32(p.line) && IsInt32(p.column)
    ensures PosFromString(PosToString(p)) == Success(p)
  {
    PosFromPaddedString("", p, "");
    assert "" + PosToString(p) + "" == PosToString(p);
  }

  /** Any text free of commas and digits around a printed position is ignored when parsing it back. */
  lemma {:induction false} PosFromPaddedString(pre: string, p: TextPos2D, post: string)
    requires NonNegative(p) && IsInt32(p.line) && IsInt32(p.column)
    requires KeepCommasAndDigits(pre) == "" && KeepCommasAndDigits(post) == ""
    ensures PosFromString(pre + PosToString(p) + post) == Success(p)
  {
    var a := NatToString(p.line);
    var b := NatToString(p.column);
    KeepConcat(pre + PosToString(p), post);
    KeepConcat(pre, PosToString(p));
    KeepOfPrintedPos(p);
    var kept := a + "," + b;
    assert KeepCommasAndDigits(pre + PosToString(p) + post) == kept;
    assert kept == Join(",", [a, b]);
    SplitJoin(Comma, [a, b]);
    ParseIntToString(p.line);
    ParseIntToString(p.column);
  }

  /** TextRange.fromString inverts toString on non-negative coordinates. */
  lemma {:induction false} RangeStringRoundTrip(r: TextRange)
    requires NonNegative(r.startPos) && NonNegative(r.endPos)
    requires IsInt32(r.startPos.line) && IsInt32(r.startPos.column)
    requires IsInt32(r.endPos.line) && IsInt32(r.endPos.column)
    ensures RangeFromString(RangeToString(r)) == Success(r)
  {
    var left := "[" + PosToString(r.startPos) + " ";
    var right := " " + PosToString(r.endPos) + "]";
    assert RangeToString(r) == Join("-", [left, right]);
    PrintedPosHasNoDash(r.startPos);
    PrintedPosHasNoDash(r.endPos);
    assert forall i :: 0 <= i < |left| ==> left[i] != '-';
    assert forall i :: 0 <= i < |right| ==> right[i] != '-';
    SplitJoin(Dash, [left, right]);
    assert KeepCommasAndDigits("[") == "" && KeepCommasAndDigits(" ") == "" && KeepCommasAndDigits("]") == "";
    PosFromPaddedString("[", r.startPos, " ");
    PosFromPaddedString(" ", r.endPos, "]");
  }

  lemma {:induction false} PrintedPosHasNoDash(p: TextPos2D)
    requires NonNegative(p)
    ensures forall i :: 0 <= i < |PosToString(p)| ==> PosToString(p)[i] != '-'
  {
    var a := NatToString(p.line);
    var b := NatToString(p.column);
    assert PosToString(p) == "(" + a + ", " + b + ")";
  }

  // ------------------------------------------------------------ paragraphs and offsets

  /** The paragraphs of a code area holding `text`: the pieces between line feeds, empty ones included. */
  function Paragraphs(text: string): (pars: seq<string>)
    ensures |pars| >= 1
    ensures forall k :: 0 <= k < |pars| ==> '\n' !in pars[k]
    ensures Join("\n", pars) == text
    decreases |text|
  {
    var i := IndexOf(text, '\n', 0);
    if i < 0 then [text]
    else
      var rest := Paragraphs(text[i + 1..]);
      assert ([text[..i]] + rest)[1..] == rest;
      assert text == text[..i] + "\n" + text[i + 1..];
      [text[..i]] + rest
  }

  /** The absolute offset at which paragraph p starts: each earlier paragraph plus its line feed. */
  function ParStart(pars: seq<string>, p: nat): nat
    requires p <= |pars|
  {
    if p == 0 then 0 else ParStart(pars, p - 1) + |pars[p - 1]| + 1
  }

  /** Later paragraphs start later, by at least one line feed each. */
  lemma {:induction false} ParStartMonotone(pars: seq<string>, i: nat, k: nat)
    requires i <= k <= |pars|
    ensures ParStart(pars, i) + (k - i) <= ParStart(pars, k)
    decreases k - i
  {
    if i < k {
      ParStartMonotone(pars, i, k - 1);
    }
  }

  /** Length of the text whose paragraphs these are: where the last paragraph starts, plus its length. */
  function TextLength(pars: seq<string>): nat
    requires |pars| >= 1
  {
    ParStart(pars, |pars| - 1) + |pars[|pars| - 1]|
  }

  lemma {:induction false} ParStartTail(pars: seq<string>, p: nat)
    requires 1 <= p <= |pars|
    ensures ParStart(pars, p) == |pars[0]| + 1 + ParStart(pars[1..], p - 1)
  {
    if p > 1 {
      ParStartTail(pars, p - 1);
    }
  }

  /** The paragraphs joined by line feeds are exactly TextLength chars long. */
  lemma {:induction false} TextLengthIsJoinLength(pars: seq<string>)
    requires |pars| >= 1
    ensures TextLength(pars) == |Join("\n", pars)|
    decreases |pars|
  {
    if |pars| > 1 {
      TextLengthIsJoinLength(pars[1..]);
      ParStartTail(pars, |pars| - 1);
    }
  }

  /** A position of the code area: paragraph index and column within it. */
  datatype RtfxPos = RtfxPos(major: nat, minor: nat)

  /**
   * CodeArea.offsetToPosition(offset, Bias.Forward): the offset of a line
   * feed stays at the end of its paragraph; offsets outside [0, length] raise.
   */
  function OffsetToPosition(pars: seq<string>, offset: int): (r: Result<RtfxPos, CoordError>)
    requires |pars| >= 1
    ensures r.Success? <==> 0 <= offset <= TextLength(pars)
    ensures r.Success? ==>
      r.value.major < |pars| && r.value.minor <= |pars[r.value.major]| &&
      ParStart(pars, r.value.major) + r.value.minor == offset
  {
    if offset < 0 then Failure(IndexOutOfBounds(offset)) else PositionFrom(pars, 0, offset, offset)
  }

  /** The walk over the paragraphs from paragraph k, `rel` chars still to go from its start. */
  function PositionFrom(pars: seq<string>, k: nat, rel: nat, offset: int): (r: Result<RtfxPos, CoordError>)
    requires k < |pars|
    ensures r.Success? <==> ParStart(pars, k) + rel <= TextLength(pars)
    ensures r.Success? ==>
      k <= r.value.major < |pars| && r.value.minor <= |pars[r.value.major]| &&
      ParStart(pars, r.value.major) + r.value.minor == ParStart(pars, k) + rel
    decreases |pars| - k
  {
    if rel <= |pars[k]| then
      ParStartMonotone(pars, k + 1, |pars| - 1 + (if k == |pars| - 1 then 1 else 0));
      Success(RtfxPos(k, rel))
    else if k == |pars| - 1 then Failure(IndexOutOfBounds(offset))
    else PositionFrom(pars, k + 1, rel - |pars[k]| - 1, offset)
  }

  /** Every column of every paragraph is reached by exactly its own offset. */
  lemma {:induction false} OffsetToPositionOfParStart(pars: seq<string>, p: nat, c: nat)
    requires p < |pars| && c <= |pars[p]|
    ensures OffsetToPosition(pars, ParStart(pars, p) + c) == Success(RtfxPos(p, c))
  {
    var o := ParStart(pars, p) + c;
    PositionFromAt(pars, 0, p, c, o, o);
    assert OffsetToPosition(pars, o) == PositionFrom(pars, 0, o, o);
  }

  lemma {:induction false} PositionFromAt(pars: seq<string>, k: nat, p: nat, c: nat, rel: nat, offset: int)
    requires k <= p < |pars| && c <= |pars[p]|
    requires ParStart(pars, k) + rel == ParStart(pars, p) + c
    ensures PositionFrom(pars, k, rel, offset) == Success(RtfxPos(p, c))
    decreases p - k
  {
    if k < p {
      ParStartMonotone(pars, k + 1, p);
      PositionFromAt(pars, k + 1, p, c, rel - |pars[k]| - 1, offset);
    }
  }

  /** Number of tabs among the first k chars of par. */
  function TabsBefore(par: string, k: nat): nat
    requires k <= |par|
  {
    if k == 0 then 0 else TabsBefore(par, k - 1) + (if par[k - 1] == '\t' then 1 else 0)
  }

  lemma {:induction false} TabsBeforeMonotone(par: string, i: nat, k: nat)
    requires i <= k <= |par|
    ensures TabsBefore(par, i) <= TabsBefore(par, k)
    decreases k - i
  {
    if i < k {
      TabsBeforeMonotone(par, i, k - 1);
    }
  }

  /** The column clamped into [0, n]: how far the column loops can scan. */
  function Clamp(c: int, n: nat): (r: nat)
    ensures r <= n
  {
    if c < 0 then 0 else if c > n then n else c
  }

  /** The loop of getPmdColumnIndexFromRtfxColumn from index i on, with `mapped` so far. */
  function PmdColumnLoop(par: string, rtfxCol: int, i: nat, mapped: int): (r: int)
    requires i <= |par|
    ensures r >= mapped
    decreases |par| - i
  {
    if i < rtfxCol && i < |par| then
      PmdColumnLoop(par, rtfxCol, i + 1, if par[i] == '\t' then mapped + 7 else mapped)
    else mapped
  }

  /** The loop adds 7 for every tab it passes between i and the clamped column. */
  lemma {:induction false} PmdColumnLoopCountsTabs(par: string, rtfxCol: int, i: nat, mapped: int)
    requires i <= |par|
    ensures PmdColumnLoop(par, rtfxCol, i, mapped) ==
      mapped + 7 * (TabsBefore(par, Max(i, Clamp(rtfxCol, |par|))) - TabsBefore(par, i))
    decreases |par| - i
  {
    if i < rtfxCol && i < |par| {
      PmdColumnLoopCountsTabs(par, rtfxCol, i + 1, if par[i] == '\t' then mapped + 7 else mapped);
    }
  }

  /**
   * getPmdColumnIndexFromRtfxColumn: a PMD column is the code-area column
   * plus 7 for every tab before it, plus one because PMD counts from 1.
   */
  function PmdColumnFromRtfxColumn(par: string, rtfxCol: int): (col: int)
    ensures col == rtfxCol + 7 * TabsBefore(par, Clamp(rtfxCol, |par|)) + 1
  {
    PmdColumnLoopCountsTabs(par, rtfxCol, 0, rtfxCol);
    PmdColumnLoop(par, rtfxCol, 0, rtfxCol) + 1
  }

  /** A string holding no tab. */
  predicate NoTabs(par: string) {
    forall i :: 0 <= i < |par| ==> par[i] != '\t'
  }

  /** The loop of getRtfxColumnIndexFromPmdColumn from index i on, with bound `end` so far. */
  function RtfxColumnLoop(par: string, i: nat, end: int): (r: Result<int, CoordError>)
    requires i <= |par|
    ensures !(i < end && end > 0) ==> r == Success(end)
    ensures r.Success? && end >= 0 ==> 0 <= r.value <= end && r.value <= |par|
    ensures NoTabs(par) ==> (r.Success? <==> end <= |par|) || end <= i
    ensures NoTabs(par) && r.Success? ==> r.value == end
    decreases end - i
  {
    if i < end && end > 0 then
      if i >= |par| then Failure(StringIndexOutOfBounds(i))
      else RtfxColumnLoop(par, i + 1, if par[i] == '\t' then Max(end - 7, 0) else end)
    else Success(end)
  }

  /**
   * getRtfxColumnIndexFromPmdColumn: walks the paragraph taking 7 off the
   * column for each tab met, never going below 0; reading past the end of
   * the paragraph raises.
   */
  function RtfxColumnFromPmdColumn(par: string, column: int): (r: Result<int, CoordError>)
    ensures column <= 1 ==> r == Success(column - 1)
    ensures r.Success? && column >= 1 ==> 0 <= r.value <= column - 1 && r.value <= |par|
    ensures NoTabs(par) ==> (r.Success? <==> column - 1 <= |par|)
    ensures NoTabs(par) && r.Success? ==> r.value == column - 1
  {
    RtfxColumnLoop(par, 0, column - 1)
  }

  /** The loop invariant of the reverse mapping when it undoes the forward one. */
  lemma {:induction false} RtfxLoopUndoesTabs(par: string, c: nat, i: nat)
    requires i <= c <= |par|
    ensures TabsBefore(par, i) <= TabsBefore(par, c)
    ensures RtfxColumnLoop(par, i, c + 7 * (TabsBefore(par, c) - TabsBefore(par, i))) == Success(c)
    decreases c - i
  {
    TabsBeforeMonotone(par, i, c);
    if i < c {
      TabsBeforeMonotone(par, i + 1, c);
      RtfxLoopUndoesTabs(par, c, i + 1);
    }
  }

  /** The reverse column mapping inverts the forward one on every column of the paragraph. */
  lemma {:induction false} ColumnRoundTrip(par: string, c: nat)
    requires c <= |par|
    ensures RtfxColumnFromPmdColumn(par, PmdColumnFromRtfxColumn(par, c)) == Success(c)
  {
    RtfxLoopUndoesTabs(par, c, 0);
  }

  /** getRtfxParIndexFromPmdLine: PMD lines count from 1, paragraphs from 0. */
  function RtfxParIndexFromPmdLine(line: int): int {
    line - 1
  }

  /** getPmdLineFromRtfxParIndex. */
  function PmdLineFromRtfxParIndex(par: int): int {
    par + 1
  }

  /** The two line conversions are mutual inverses. */
  lemma LineParInverse(line: int, par: int)
    ensures PmdLineFromRtfxParIndex(RtfxParIndexFromPmdLine(line)) == line
    ensures RtfxParIndexFromPmdLine(PmdLineFromRtfxParIndex(par)) == par
  {
  }

  /** clip(val, min, max). */
  function Clip(v: int, lo: int, hi: int): (r: int)
    ensures lo <= hi ==> lo <= r <= hi
    ensures lo <= v <= hi ==> r == v
    ensures hi < lo ==> r == lo
    ensures v < lo ==> r == lo
    ensures lo <= hi < v ==> r == hi
  {
    Max(lo, Min(v, hi))
  }

  /**
   * getOffsetFromPmdPosition: the absolute offset of a PMD (line, column),
   * clipped into [0, length - 1]. The code area is assumed to add the
   * column to the paragraph start without checking it.
   */
  function GetOffsetFromPmdPosition(text: string, line: int, column: int): (r: Result<int, CoordError>)
    ensures r.Success? ==> 0 <= r.value <= Max(|text| - 1, 0)
    ensures r.Success? ==> 1 <= line <= |Paragraphs(text)|
    ensures 1 <= line <= |Paragraphs(text)| && column <= 1 ==> r.Success?
  {
    var pars := Paragraphs(text);
    var parIdx := RtfxParIndexFromPmdLine(line);
    if parIdx < 0 || parIdx >= |pars| then Failure(IndexOutOfBounds(parIdx))
    else
      var col :- RtfxColumnFromPmdColumn(pars[parIdx], column);
      Success(Clip(ParStart(pars, parIdx) + col, 0, |text| - 1))
  }

  /** getPmdLineAndColumnFromOffset: the PMD position of an absolute offset. */
  function GetPmdLineAndColumnFromOffset(text: string, offset: int): (r: Result<TextPos2D, CoordError>)
    ensures r.Success? <==> 0 <= offset <= |text|
    ensures r.Success? ==> 1 <= r.value.line <= |Paragraphs(text)| && r.value.column >= 1
  {
    TextLengthIsJoinLength(Paragraphs(text));
    PmdPositionIn(Paragraphs(text), offset)
  }

  /** The same conversion over the paragraphs of the text. */
  function PmdPositionIn(pars: seq<string>, offset: int): (r: Result<TextPos2D, CoordError>)
    requires |pars| >= 1
    ensures r.Success? <==> 0 <= offset <= TextLength(pars)
    ensures r.Success? ==> 1 <= r.value.line <= |pars| && r.value.column >= 1
  {
    var pos := OffsetToPosition(pars, offset);
    if pos.Failure? then Failure(pos.error)
    else Success(TextPos2D(PmdLineFromRtfxParIndex(pos.value.major),
                           PmdColumnFromRtfxColumn(pars[pos.value.major], pos.value.minor)))
  }

  /** Every offset inside the text survives the trip to a PMD position and back. */
  lemma {:induction false} OffsetRoundTrip(text: string, offset: int)
    requires 0 <= offset < |text|
    ensures GetPmdLineAndColumnFromOffset(text, offset).Success?
    ensures var p := GetPmdLineAndColumnFromOffset(text, offset).value;
      GetOffsetFromPmdPosition(text, p.line, p.column) == Success(offset)
  {
    var pars := Paragraphs(text);
    TextLengthIsJoinLength(pars);
    var pos := OffsetToPosition(pars, offset).value;
    ColumnRoundTrip(pars[pos.major], pos.minor);
  }

  /** The end-of-text offset maps to a position that comes back clipped to the last char. */
  lemma {:induction false} EndOffsetClipped(text: string)
    ensures GetPmdLineAndColumnFromOffset(text, |text|).Success?
    ensures var p := GetPmdLineAndColumnFromOffset(text, |text|).value;
      GetOffsetFromPmdPosition(text, p.line, p.column) == Success(Max(|text| - 1, 0))
  {
    var pars := Paragraphs(text);
    TextLengthIsJoinLength(pars);
    var pos := OffsetToPosition(pars, |text|).value;
    ColumnRoundTrip(pars[pos.major], pos.minor);
  }

  /**
   * Every position a code-area column can produce maps to an offset that
   * maps back to it, except the very end of the text.
   */
  lemma {:induction false} PositionRoundTrip(text: string, p: nat, c: nat)
    requires p < |Paragraphs(text)| && c <= |Paragraphs(text)[p]|
    requires ParStart(Paragraphs(text), p) + c < |text|
    ensures var pars := Paragraphs(text);
      var pos := TextPos2D(p + 1, PmdColumnFromRtfxColumn(pars[p], c));
      GetOffsetFromPmdPosition(text, pos.line, pos.column) == Success(ParStart(pars, p) + c) &&
      GetPmdLineAndColumnFromOffset(text, ParStart(pars, p) + c) == Success(pos)
  {
    PositionToOffset(text, p, c);
    OffsetToPmdPosition(text, p, c);
  }

  lemma {:induction false} OffsetToPmdPosition(text: string, p: nat, c: nat)
    requires p < |Paragraphs(text)| && c <= |Paragraphs(text)[p]|
    ensures GetPmdLineAndColumnFromOffset(text, ParStart(Paragraphs(text), p) + c)
      == Success(TextPos2D(p + 1, PmdColumnFromRtfxColumn(Paragraphs(text)[p], c)))
  {
    PmdPositionAt(Paragraphs(text), p, c);
  }

  lemma {:induction false} PmdPositionAt(pars: seq<string>, p: nat, c: nat)
    requires p < |pars| && c <= |pars[p]|
    ensures PmdPositionIn(pars, ParStart(pars, p) + c) == Success(TextPos2D(p + 1, PmdColumnFromRtfxColumn(pars[p], c)))
  {
    OffsetToPositionOfParStart(pars, p, c);
    var pos := OffsetToPosition(pars, ParStart(pars, p) + c);
    assert pos.value == RtfxPos(p, c);
  }

  lemma {:induction false} PositionToOffset(text: string, p: nat, c: nat)
    requires p < |Paragraphs(text)| && c <= |Paragraphs(text)[p]|
    requires ParStart(Paragraphs(text), p) + c < |text|
    ensures var pars := Paragraphs(text);
      GetOffsetFromPmdPosition(text, p + 1, PmdColumnFromRtfxColumn(pars[p], c)) == Success(ParStart(pars, p) + c)
  {
    var pars := Paragraphs(text);
    ColumnRoundTrip(pars[p], c);
    assert RtfxParIndexFromPmdLine(p + 1) == p;
  }

  // ------------------------------------------------------------ node lookup

  function StartPosition(n: Node): TextPos2D {
    TextPos2D(n.beginLine, n.beginColumn)
  }

  function EndPosition(n: Node): TextPos2D {
    TextPos2D(n.endLine, n.endColumn)
  }

  function RangeOf(n: Node): TextRange {
    TextRange(StartPosition(n), EndPosition(n))
  }

  /** contains(node, pos): the node's [start, end] holds the position. */
  predicate NodeContains(n: Node, pos: TextPos2D) {
    RangeOf(n).ContainsPos(pos)
  }

  /** What the binary search accepts: a child starting at the target, or starting before and ending at or after it. */
  predicate Hit(n: Node, target: TextPos2D) {
    Compare(StartPosition(n), target) == 0 ||
    (Compare(StartPosition(n), target) < 0 && Compare(EndPosition(n), target) >= 0)
  }

  /** The node does not end before it starts. */
  predicate WellFormedRange(n: Node) {
    Compare(StartPosition(n), EndPosition(n)) <= 0
  }

  /** Siblings come in text order and do not overlap. */
  predicate OrderedSiblings(cs: seq<Node>) {
    forall i, j :: 0 <= i < j < |cs| ==> Compare(EndPosition(cs[i]), StartPosition(cs[j])) < 0
  }

  /** The layout PMD parsers produce: every node well formed, all siblings ordered. */
  predicate WellOrderedTree(n: Node)
    decreases n
  {
    WellFormedRange(n) && OrderedSiblings(n.children) &&
    forall i :: 0 <= i < |n.children| ==> WellOrderedTree(n.children[i])
  }

  /** binarySearchInChildren over the children indexed low..high. */
  function BinarySearchInChildren(cs: seq<Node>, target: TextPos2D, low: int, high: int): (r: Option<nat>)
    requires 0 <= low && high < |cs|
    ensures r.Some? ==> low <= r.value <= high && Hit(cs[r.value], target)
    decreases high - low + 1
  {
    if low > high then None
    else
      var mid := (low + high) / 2;
      var cmp := Compare(StartPosition(cs[mid]), target);
      if cmp < 0 then
        if Compare(EndPosition(cs[mid]), target) >= 0 then Some(mid)
        else BinarySearchInChildren(cs, target, mid + 1, high)
      else if cmp > 0 then BinarySearchInChildren(cs, target, low, mid - 1)
      else Some(mid)
  }

  /** On ordered siblings the binary search finds the child containing the target. */
  lemma {:induction false} BinarySearchComplete(cs: seq<Node>, target: TextPos2D, low: int, high: int, k: nat)
    requires 0 <= low && high < |cs|
    requires OrderedSiblings(cs) && forall j :: 0 <= j < |cs| ==> WellFormedRange(cs[j])
    requires low <= k <= high && NodeContains(cs[k], target)
    ensures BinarySearchInChildren(cs, target, low, high) == Some(k)
    decreases high - low + 1
  {
    var mid := (low + high) / 2;
    if mid < k {
      assert Compare(EndPosition(cs[mid]), StartPosition(cs[k])) < 0;
      BinarySearchComplete(cs, target, mid + 1, high, k);
    } else if mid > k {
      assert Compare(EndPosition(cs[k]), StartPosition(cs[mid])) < 0;
      BinarySearchComplete(cs, target, low, mid - 1, k);
    }
  }

  /** findNodeRec: the path from n down the children the binary search picks. */
  function FindNodeRec(n: Node, target: TextPos2D): (path: seq<nat>)
    ensures ValidPath(n, path)
    ensures |path| > 0 ==> Hit(At(n, path), target)
    ensures BinarySearchInChildren(At(n, path).children, target, 0, |At(n, path).children| - 1).None?
    decreases n
  {
    var cs := n.children;
    match BinarySearchInChildren(cs, target, 0, |cs| - 1)
    case None => []
    case Some(i) =>
      var rest := FindNodeRec(cs[i], target);
      assert ([i] + rest)[1..] == rest;
      [i] + rest
  }

  /** findNodeAt: the node findNodeRec reaches, kept only if it contains the target. */
  function FindNodeAt(root: Node, target: TextPos2D): (r: Option<seq<nat>>)
    ensures r.Some? ==> ValidPath(root, r.value) && NodeContains(At(root, r.value), target)
  {
    var path := FindNodeRec(root, target);
    if NodeContains(At(root, path), target) then Some(path) else None
  }

  /** On a well-ordered tree, the lookup reaches the innermost node containing the target. */
  lemma {:induction false} FindNodeRecInnermost(n: Node, target: TextPos2D)
    requires WellOrderedTree(n) && NodeContains(n, target)
    ensures var m := At(n, FindNodeRec(n, target));
      NodeContains(m, target) &&
      forall i :: 0 <= i < |m.children| ==> !NodeContains(m.children[i], target)
    decreases n
  {
    var cs := n.children;
    match BinarySearchInChildren(cs, target, 0, |cs| - 1)
    case None =>
      forall i | 0 <= i < |cs|
        ensures !NodeContains(cs[i], target)
      {
        if NodeContains(cs[i], target) {
          BinarySearchComplete(cs, target, 0, |cs| - 1, i);
        }
      }
    case Some(i) =>
      assert WellOrderedTree(cs[i]);
      FindNodeRecInnermost(cs[i], target);
      var rest := FindNodeRec(cs[i], target);
      assert FindNodeRec(n, target) == [i] + rest;
      assert ([i] + rest)[1..] == rest;
  }

  /** findNodeAt finds a node whenever the root contains the target, and no child of it does. */
  lemma {:induction false} FindNodeAtInnermost(root: Node, target: TextPos2D)
    requires WellOrderedTree(root) && NodeContains(root, target)
    ensures FindNodeAt(root, target).Some?
    ensures var m := At(root, FindNodeAt(root, target).value);
      forall i :: 0 <= i < |m.children| ==> !NodeContains(m.children[i], target)
  {
    FindNodeRecInnermost(root, target);
  }

  /** The ancestor at depth k of the node at the end of path p. */
  function AncestorRange(root: Node, p: seq<nat>, k: nat): TextRange
    requires ValidPath(root, p) && k <= |p|
  {
    ValidPrefix(root, p, k);
    RangeOf(At(root, p[..k]))
  }

  /** Reference definition: the deepest ancestor at depth at most k whose range contains the range. */
  function ClosestCovering(root: Node, p: seq<nat>, k: nat, range: TextRange): (r: Option<nat>)
    requires ValidPath(root, p) && k <= |p|
    ensures r.Some? ==> r.value <= k && AncestorRange(root, p, r.value).ContainsRange(range)
    ensures r.Some? ==> forall j :: r.value < j <= k ==> !AncestorRange(root, p, j).ContainsRange(range)
    ensures r.None? ==> forall j :: 0 <= j <= k ==> !AncestorRange(root, p, j).ContainsRange(range)
    decreases k
  {
    if AncestorRange(root, p, k).ContainsRange(range) then Some(k)
    else if k == 0 then None
    else ClosestCovering(root, p, k - 1, range)
  }

  /** The loop of findNodeCovering over the ancestors at depth k, k - 1, ..., 0. */
  function CoveringAncestor(root: Node, p: seq<nat>, k: nat, range: TextRange, exact: bool): (r: Option<seq<nat>>)
    requires ValidPath(root, p) && k <= |p|
    ensures !exact ==> r == (match ClosestCovering(root, p, k, range)
                             case Some(j) => Some(p[..j])
                             case None => None)
    ensures exact ==> r == (match ClosestCovering(root, p, k, range)
                            case Some(j) => if AncestorRange(root, p, j) == range then Some(p[..j]) else None
                            case None => None)
    decreases k
  {
    var rr := AncestorRange(root, p, k);
    if !exact && rr.ContainsRange(range) then Some(p[..k])
    else if exact && rr == range then Some(p[..k])
    else if exact && rr.ContainsRange(range) then None
    else if k == 0 then None
    else CoveringAncestor(root, p, k - 1, range, exact)
  }

  /**
   * findNodeCovering: from the innermost node at the range's start, the
   * closest ancestor (or itself) whose range contains the range; with
   * `exact`, only if that ancestor's range is the range itself.
   */
  function FindNodeCovering(root: Node, range: TextRange, exact: bool): (r: Option<seq<nat>>)
    ensures r.Some? ==> ValidPath(root, r.value)
    ensures r.Some? && !exact ==> RangeOf(At(root, r.value)).ContainsRange(range)
    ensures r.Some? && exact ==> RangeOf(At(root, r.value)) == range
  {
    match FindNodeAt(root, range.startPos)
    case None => None
    case Some(p) =>
      var c := CoveringAncestor(root, p, |p|, range, exact);
      if c.Some? then
        var j := ClosestCovering(root, p, |p|, range).value;
        ValidPrefix(root, p, j);
        assert c.value == p[..j];
        c
      else c
  }

  /**
   * What the documentation of findNodeCovering promises in exact mode: from
   * an ancestor at depth j whose range is the range, the outermost ancestor
   * above it whose range is still exactly the range.
   */
  function OutermostExact(root: Node, p: seq<nat>, j: nat, range: TextRange): (i: nat)
    requires ValidPath(root, p) && j <= |p| && AncestorRange(root, p, j) == range
    ensures i <= j && AncestorRange(root, p, i) == range
    ensures forall l :: i <= l <= j ==> AncestorRange(root, p, l) == range
    ensures i > 0 ==> AncestorRange(root, p, i - 1) != range
    decreases j
  {
    if j > 0 && AncestorRange(root, p, j - 1) == range then OutermostExact(root, p, j - 1, range) else j
  }

  /**
   * findNodeCovering in exact mode as documented: the node the code finds,
   * raised to the outermost node of the chain above it with the same range.
   */
  function FindNodeCoveringOutermost(root: Node, range: TextRange): (r: Option<seq<nat>>)
    ensures r.Some? <==> FindNodeCovering(root, range, true).Some?
    ensures r.Some? ==> ValidPath(root, r.value) && RangeOf(At(root, r.value)) == range
    ensures r.Some? ==>
      var q := FindNodeCovering(root, range, true).value;
      r.value <= q &&
      (forall l :: |r.value| <= l <= |q| ==> AncestorRange(root, q, l) == range) &&
      (|r.value| > 0 ==> AncestorRange(root, q, |r.value| - 1) != range)
  {
    match FindNodeCovering(root, range, true)
    case None => None
    case Some(q) =>
      assert q[..|q|] == q;
      var i := OutermostExact(root, q, |q|, range);
      ValidPrefix(root, q, i);
      Some(q[..i])
  }
}

=== FILE: result_selection.dfy ===
/**
 * The two entry points that turn candidates and a query into displayed
 * suggestions: ResultSelectionStrategy.filterResults /
 * evaluateBestSingle, and StringMatchUtil.filterResults, which runs a
 * selector pipeline. The data a candidate was extracted from travels
 * through unchanged and is left out; a candidate is its string.
 *
 * The first pass matches any character, where the scan as written and the
 * corrected scan agree (CamelScan.UnrestrictedScanAsWritten). The
 * word-starts-only second pass takes the revision as a parameter: as
 * written it can throw, and the exception ends the whole stream.
 */
module ResultSelection {
  import opened Wrappers
  import opened JavaString
  import opened StableSort
  import opened CamelScan
  import opened MatchSelectors

  /** MIN_QUERY_LENGTH. */
  const MinQueryLength: nat := 1

  /** DISPLAY_ORDER: higher score first, then the shorter suggestion. */
  function DisplayOrder(r: MatchResult): SortKey {
    SortKey(-r.score, |r.suggestion|)
  }

  /** The first pass over every candidate: a selection-strategy scan matching any character. */
  function FirstPass(cands: seq<string>, query: string): (r: seq<MatchResult>)
    ensures |r| == |cands|
    ensures forall i :: 0 <= i < |cands| ==> r[i].suggestion == cands[i] && r[i].query == query
    decreases |cands|
  {
    if |cands| == 0 then [] else [MatchSegments(SelectionStrategy, cands[0], query, false)] + FirstPass(cands[1..], query)
  }

  /** The word-starts-only rescan of the second pass. */
  function Rescan(rev: Revision, cand: string, query: string): Result<MatchResult, MatchError> {
    ComputeMatchingSegments(SelectionStrategy, rev, cand, query, true)
  }

  /**
   * The second pass on a kept result: a word-starts-only rescan, kept only
   * if strictly better. The rescan's exception propagates.
   */
  function SecondPass(rev: Revision, prev: MatchResult, query: string): (r: Result<MatchResult, MatchError>)
    ensures var scan := Rescan(rev, prev.suggestion, query);
      (r.Failure? <==> scan.Failure?) && (r.Failure? ==> r.error == scan.error) &&
      (r.Success? ==>
        r.value.suggestion == prev.suggestion && r.value.score >= prev.score && r.value.score >= scan.value.score &&
        (r.value == prev || r.value == scan.value) && (prev.query == query ==> r.value.query == query))
    ensures rev == Corrected ==> r == Success(KeepBest(prev, MatchSegments(SelectionStrategy, prev.suggestion, query, true)))
  {
    CorrectedScanSucceeds(SelectionStrategy, prev.suggestion, query, true);
    var refined :- Rescan(rev, prev.suggestion, query);
    Success(KeepBest(prev, refined))
  }

  /** The second pass over the kept results, in order; the first rescan that throws ends it. */
  function SecondPassAll(rev: Revision, kept: seq<MatchResult>, query: string): (r: Result<seq<MatchResult>, MatchError>)
    ensures r.Success? ==> |r.value| == |kept|
    ensures r.Success? ==> forall i :: 0 <= i < |kept| ==>
      r.value[i].suggestion == kept[i].suggestion && r.value[i].score >= kept[i].score &&
      (kept[i].query == query ==> r.value[i].query == query)
    ensures rev == Corrected ==> r.Success?
    decreases |kept|
  {
    if |kept| == 0 then Success([])
    else
      var head :- SecondPass(rev, kept[0], query);
      var tail :- SecondPassAll(rev, kept[1..], query);
      Success([head] + tail)
  }

  /** The second pass throws exactly when the rescan of some kept result throws, and then with the first such error. */
  lemma {:induction false} SecondPassAllFails(rev: Revision, kept: seq<MatchResult>, query: string)
    ensures SecondPassAll(rev, kept, query).Failure? <==>
      exists i :: 0 <= i < |kept| && Rescan(rev, kept[i].suggestion, query).Failure?
    ensures SecondPassAll(rev, kept, query).Failure? ==>
      exists i :: 0 <= i < |kept| && Rescan(rev, kept[i].suggestion, query).Failure? &&
        SecondPassAll(rev, kept, query).error == Rescan(rev, kept[i].suggestion, query).error &&
        forall j :: 0 <= j < i ==> Rescan(rev, kept[j].suggestion, query).Success?
    decreases |kept|
  {
    if |kept| > 0 {
      SecondPassAllFails(rev, kept[1..], query);
      if Rescan(rev, kept[0].suggestion, query).Success? {
        forall i | 1 <= i < |kept| ensures kept[i] == kept[1..][i - 1] { }
        if SecondPassAll(rev, kept, query).Failure? {
          var k :| 0 <= k < |kept[1..]| && Rescan(rev, kept[1..][k].suggestion, query).Failure? &&
            SecondPassAll(rev, kept[1..], query).error == Rescan(rev, kept[1..][k].suggestion, query).error &&
            forall j :: 0 <= j < k ==> Rescan(rev, kept[1..][j].suggestion, query).Success?;
          assert Rescan(rev, kept[k + 1].suggestion, query).Failure?;
          forall j | 0 <= j < k + 1 ensures Rescan(rev, kept[j].suggestion, query).Success? {
            if j > 0 {
              assert kept[j] == kept[1..][j - 1];
            }
          }
        }
      }
    }
  }

  /**
   * ResultSelectionStrategy.filterResults: nothing for a query shorter than
   * MIN_QUERY_LENGTH; otherwise the first pass sorted by descending score,
   * the positive scores only, at most `limit` of them, each refined by a
   * second pass, in display order. Stream.limit rejects a negative limit,
   * and an exception of a second-pass rescan ends the stream.
   */
  function FilterResults(rev: Revision, cands: seq<string>, query: string, limit: int): Result<seq<MatchResult>, MatchError> {
    if |query| < MinQueryLength then Success([])
    else if limit < 0 then Failure(IllegalArgument)
    else
      var positive := AtLeast(SortBy(FirstPass(cands, query), ScoreDescending), 1);
      var kept := positive[..Min(limit, |positive|)];
      var refined :- SecondPassAll(rev, kept, query);
      Success(SortBy(refined, DisplayOrder))
  }

  /** The first pass scores each candidate on its own. */
  lemma {:induction false} FirstPassAt(cands: seq<string>, query: string, i: nat)
    requires i < |cands|
    ensures FirstPass(cands, query)[i] == MatchSegments(SelectionStrategy, cands[i], query, false)
    decreases i
  {
    if i > 0 {
      FirstPassAt(cands[1..], query, i - 1);
    }
  }

  /** A candidate is shown when its first-pass score is positive and it is among the first `limit` of those. */
  predicate Shown(r: seq<MatchResult>, cand: string) {
    exists i :: 0 <= i < |r| && r[i].suggestion == cand
  }

  lemma {:induction false} AtLeastLength(s: seq<MatchResult>, t: int)
    ensures |AtLeast(s, t)| <= |s|
    decreases |s|
  {
    if |s| > 0 {
      AtLeastLength(s[1..], t);
    }
  }

  /** Every result shows one of the candidates, for this query, with a positive score. */
  predicate DrawnPositive(s: seq<MatchResult>, cands: seq<string>, query: string) {
    forall i :: 0 <= i < |s| ==> s[i].score > 0 && s[i].query == query && s[i].suggestion in cands
  }

  lemma {:induction false} DrawnPositiveSub(a: seq<MatchResult>, b: seq<MatchResult>, cands: seq<string>, query: string)
    requires DrawnPositive(a, cands, query) && multiset(b) <= multiset(a)
    ensures DrawnPositive(b, cands, query)
  {
    forall i | 0 <= i < |b| ensures b[i].score > 0 && b[i].query == query && b[i].suggestion in cands {
      assert b[i] in multiset(a);
      var j :| 0 <= j < |a| && a[j] == b[i];
    }
  }

  /** The first pass shows each candidate for this query. */
  predicate Drawn(s: seq<MatchResult>, cands: seq<string>, query: string) {
    forall i :: 0 <= i < |s| ==> s[i].query == query && s[i].suggestion in cands
  }

  /** The positive results of a pass, sorted, show candidates for this query. */
  lemma {:induction false} PositiveDrawn(first: seq<MatchResult>, cands: seq<string>, query: string)
    requires Drawn(first, cands, query)
    ensures DrawnPositive(AtLeast(SortBy(first, ScoreDescending), 1), cands, query)
    ensures |AtLeast(SortBy(first, ScoreDescending), 1)| <= |first|
  {
    var sorted := SortBy(first, ScoreDescending);
    var positive := AtLeast(sorted, 1);
    SortPermutes(first, ScoreDescending);
    forall i | 0 <= i < |positive| ensures positive[i].score > 0 && positive[i].query == query && positive[i].suggestion in cands {
      var x := positive[i];
      AtLeastMembers(sorted, 1, x);
      assert x in multiset(first);
      var j :| 0 <= j < |first| && first[j] == x;
    }
    AtLeastLength(sorted, 1);
  }

  lemma {:induction false} RefinedDrawn(rev: Revision, kept: seq<MatchResult>, cands: seq<string>, query: string)
    requires DrawnPositive(kept, cands, query) && SecondPassAll(rev, kept, query).Success?
    ensures DrawnPositive(SecondPassAll(rev, kept, query).value, cands, query)
  {
    var r := SecondPassAll(rev, kept, query).value;
    forall i | 0 <= i < |r| ensures r[i].score > 0 && r[i].query == query && r[i].suggestion in cands {
      assert kept[i].score > 0 && kept[i].query == query && kept[i].suggestion in cands;
    }
  }

  /**
   * What filterResults shows: at most `limit` results, each with a positive
   * score, for the query, and with a candidate's string, in display order.
   * With the corrected second pass it never throws.
   */
  lemma {:induction false} FilterResultsShowsBest(rev: Revision, cands: seq<string>, query: string, limit: int)
    requires |query| >= MinQueryLength && limit >= 0
    ensures rev == Corrected ==> FilterResults(rev, cands, query, limit).Success?
    ensures FilterResults(rev, cands, query, limit).Success? ==>
      var r := FilterResults(rev, cands, query, limit).value;
      |r| <= limit && |r| <= |cands| && SortedBy(r, DisplayOrder) && DrawnPositive(r, cands, query)
  {
    var first := FirstPass(cands, query);
    var positive := AtLeast(SortBy(first, ScoreDescending), 1);
    var n := Min(limit, |positive|);
    if SecondPassAll(rev, positive[..n], query).Failure? {
      return;
    }
    var refined := SecondPassAll(rev, positive[..n], query).value;
    assert Drawn(first, cands, query);
    PositiveDrawn(first, cands, query);
    assert DrawnPositive(positive[..n], cands, query);
    RefinedDrawn(rev, positive[..n], cands, query);
    SortPermutes(refined, DisplayOrder);
    SortSorted(refined, DisplayOrder);
    DrawnPositiveSub(refined, SortBy(refined, DisplayOrder), cands, query);
  }

  /** A positive result of a pass survives the cut when no more than `limit` results are positive. */
  lemma {:induction false} PositiveKept(rev: Revision, first: seq<MatchResult>, query: string, limit: nat, x: MatchResult)
    requires |AtLeast(first, 1)| <= limit && x in first && x.score > 0
    ensures var positive := AtLeast(SortBy(first, ScoreDescending), 1);
      var refined := SecondPassAll(rev, positive[..Min(limit, |positive|)], query);
      refined.Success? ==> Shown(SortBy(refined.value, DisplayOrder), x.suggestion)
  {
    var sorted := SortBy(first, ScoreDescending);
    var positive := AtLeast(sorted, 1);
    SortPermutes(first, ScoreDescending);
    AtLeastCount(first, sorted, 1);
    var kept := positive[..Min(limit, |positive|)];
    assert kept == positive;
    assert x in multiset(sorted);
    AtLeastMembers(sorted, 1, x);
    var j :| 0 <= j < |kept| && kept[j] == x;
    if SecondPassAll(rev, kept, query).Failure? {
      return;
    }
    var refined := SecondPassAll(rev, kept, query).value;
    var r := SortBy(refined, DisplayOrder);
    SortPermutes(refined, DisplayOrder);
    assert refined[j] in multiset(r);
    var i :| 0 <= i < |r| && r[i] == refined[j];
  }

  /**
   * When at most `limit` candidates score positively in the first pass,
   * every one of them is shown, unless the second pass throws.
   */
  lemma {:induction false} FilterResultsComplete(rev: Revision, cands: seq<string>, query: string, limit: int, c: nat)
    requires |query| >= MinQueryLength && limit >= 0 && c < |cands|
    requires |AtLeast(FirstPass(cands, query), 1)| <= limit
    requires MatchSegments(SelectionStrategy, cands[c], query, false).score > 0
    ensures FilterResults(rev, cands, query, limit).Success? ==> Shown(FilterResults(rev, cands, query, limit).value, cands[c])
  {
    var first := FirstPass(cands, query);
    FirstPassAt(cands, query, c);
    PositiveKept(rev, first, query, limit, first[c]);
  }

  /** Filtering a permutation keeps as many results. */
  lemma {:induction false} AtLeastCount(a: seq<MatchResult>, b: seq<MatchResult>, t: int)
    requires multiset(a) == multiset(b)
    ensures |AtLeast(a, t)| == |AtLeast(b, t)|
    decreases |a|
  {
    if |a| == 0 {
      assert |b| == |multiset(b)| == 0;
    } else {
      var x := a[0];
      assert x in multiset(b);
      var k :| 0 <= k < |b| && b[k] == x;
      var b' := b[..k] + b[k + 1..];
      assert b == b[..k] + [x] + b[k + 1..];
      assert a == [x] + a[1..];
      assert multiset(b) == multiset(b[..k]) + multiset{x} + multiset(b[k + 1..]);
      assert multiset(b') == multiset(b[..k]) + multiset(b[k + 1..]);
      assert multiset(a) == multiset{x} + multiset(a[1..]);
      forall y ensures multiset(a[1..])[y] == multiset(b')[y] {
        assert multiset(a)[y] == multiset{x}[y] + multiset(a[1..])[y];
        assert multiset(b)[y] == multiset(b[..k])[y] + multiset{x}[y] + multiset(b[k + 1..])[y];
      }
      assert multiset(a[1..]) == multiset(b');
      AtLeastCount(a[1..], b', t);
      AtLeastAppend(b[..k], b[k + 1..], t);
      AtLeastAppend(b[..k] + [x], b[k + 1..], t);
      AtLeastAppend(b[..k], [x], t);
    }
  }

  // ---------------------------------------------------------------- evaluateBestSingle

  /**
   * ResultSelectionStrategy.evaluateBestSingle: nothing for a null or too
   * short query or a null or empty candidate, nothing when the first pass
   * does not score positively, and otherwise the better of the two passes;
   * an exception of the second pass propagates.
   */
  function EvaluateBestSingle(rev: Revision, cand: Option<string>, query: Option<string>): (r: Result<Option<MatchResult>, MatchError>)
    ensures r == Success(None) <==>
      query.None? || |query.value| < MinQueryLength || cand.None? || |cand.value| == 0 ||
      MatchSegments(SelectionStrategy, cand.value, query.value, false).score <= 0
    ensures r.Failure? ==>
      cand.Some? && query.Some? && Rescan(rev, cand.value, query.value).Failure? &&
      r.error == Rescan(rev, cand.value, query.value).error
    ensures r.Success? && r.value.Some? ==>
      var first := MatchSegments(SelectionStrategy, cand.value, query.value, false);
      var scan := Rescan(rev, cand.value, query.value);
      scan.Success? && r.value.value.suggestion == cand.value && r.value.value.query == query.value &&
      r.value.value.score > 0 && r.value.value.score == Max(first.score, scan.value.score) &&
      (r.value.value == first || r.value.value == scan.value)
    ensures rev == Corrected ==> r.Success?
  {
    if query.None? || |query.value| < MinQueryLength || cand.None? || |cand.value| == 0 then Success(None)
    else
      var prev := MatchSegments(SelectionStrategy, cand.value, query.value, false);
      if prev.score <= 0 then Success(None)
      else
        var refined :- SecondPass(rev, prev, query.value);
        Success(Some(refined))
  }

  /**
   * Evaluating one candidate is filtering the one-element list with room for
   * one result: the same result, or the same exception.
   */
  lemma {:induction false} EvaluateBestSingleIsFilter(rev: Revision, cand: string, query: string)
    requires |query| >= MinQueryLength && |cand| > 0
    ensures var shown := FilterResults(rev, [cand], query, 1);
      EvaluateBestSingle(rev, Some(cand), Some(query)) ==
        if shown.Failure? then Failure(shown.error)
        else Success(if |shown.value| == 0 then None else Some(shown.value[0]))
  {
    var first := MatchSegments(SelectionStrategy, cand, query, false);
    assert FirstPass([cand], query) == [first];
    assert SortBy([first], ScoreDescending) == [first];
    if first.score > 0 {
      assert AtLeast([first], 1) == [first];
      var second := SecondPass(rev, first, query);
      assert [first][1..] == [];
      assert SecondPassAll(rev, [], query) == Success([]);
      if second.Success? {
        assert [second.value] + [] == [second.value];
        assert SecondPassAll(rev, [first], query) == Success([second.value]);
        assert SortBy([second.value], DisplayOrder) == [second.value];
      } else {
        assert SecondPassAll(rev, [first], query) == Failure(second.error);
      }
    } else {
      assert AtLeast([first], 1) == [];
    }
  }

  // ---------------------------------------------------------------- StringMatchUtil.filterResults

  /** The results a selector starts from: every candidate unscored and unhighlighted, in order. */
  function BaseResults(cands: seq<string>, query: string): (r: seq<MatchResult>)
    ensures |r| == |cands|
    ensures forall i :: 0 <= i < |cands| ==>
      r[i].score == 0 && r[i].suggestion == cands[i] && r[i].query == query && Texts(r[i].flow) == cands[i]
    decreases |cands|
  {
    if |cands| == 0 then []
    else [MatchResult(0, cands[0], query, [Segment(cands[0], false)])] + BaseResults(cands[1..], query)
  }

  /** StringMatchUtil.filterResults: nothing for a too short query, otherwise the selector's choice. */
  function FilterWith(rev: Revision, selector: Selector, cands: seq<string>, query: string): Result<seq<MatchResult>, MatchError> {
    if |query| < MinQueryLength then Success([]) else SelectBest(rev, selector, BaseResults(cands, query))
  }

  /**
   * Through a pipeline of word-start and sparse camel-case matchers, every
   * candidate comes out, in its place, for the query, never scoring below
   * zero; the pipeline throws only through a word-starts-only scan as written.
   */
  lemma {:induction false} FilterWithRefinersKeepsAll(rev: Revision, selector: Selector, cands: seq<string>, query: string)
    requires ScoreRaising(selector) && |query| >= MinQueryLength
    ensures rev == Corrected || !UsesWordStarts(selector) ==> FilterWith(rev, selector, cands, query).Success?
    ensures FilterWith(rev, selector, cands, query).Success? ==>
      var r := FilterWith(rev, selector, cands, query).value;
      |r| == |cands| && forall i :: 0 <= i < |cands| ==> r[i].suggestion == cands[i] && r[i].query == query && r[i].score >= 0
  {
    RefinersNeverLower(rev, selector, BaseResults(cands, query));
  }
}

=== FILE: serializer.dfy ===
/**
 * Serializer: converting values to and from XML elements, built from
 * combinators: a string conversion written to a "value" attribute, a
 * nullable wrapper marking null with null="true", a mapped serializer for
 * another type, and sequences written as child elements.
 *
 * Java's static types are replaced by one dynamic value type, so the
 * model has a single serializer datatype describing how a combinator tree
 * was built. The element factory gives every new element the same name.
 */
module Serializers {
  import opened Xml

  /** A serialized value: null, a scalar known only through its conversions, or a sequence. */
  datatype Value = Null | Scalar(id: nat) | Items(items: seq<Value>)

  datatype Ser =
    | StringConv(fromString: string -> Value, toText: Value -> string)
    | Nullable(inner: Ser)
    | Mapped(base: Ser, toS: Value -> Value, fromS: Value -> Value)
    | SeqOf(element: Ser)

  const NullAttribute: string := "null"
  const ValueAttribute: string := "value"

  /** nullable(): a serializer already wrapped is returned as it is. */
  function MakeNullable(s: Ser): (r: Ser)
    ensures r.Nullable?
    ensures s.Nullable? ==> r == s
  {
    if s.Nullable? then s else Nullable(s)
  }

  /** stringConversion: the string conversion, made nullable. */
  function StringConversion(fromString: string -> Value, toText: Value -> string): Ser {
    MakeNullable(StringConv(fromString, toText))
  }

  /** map: the serializer for another type, over the nullable base, made nullable itself. */
  function Map(s: Ser, toS: Value -> Value, fromS: Value -> Value): Ser {
    MakeNullable(Mapped(MakeNullable(s), toS, fromS))
  }

  /** toSeq: sequences of the values s handles, each element written nullable. */
  function ToSeq(s: Ser): Ser {
    MakeNullable(SeqOf(MakeNullable(s)))
  }

  /** toArray: toSeq mapped between lists and arrays, which are the same sequence here. */
  function ToArray(s: Ser): Ser {
    MakeNullable(Map(ToSeq(s), v => v, v => v))
  }

  /** toXml: the element written for value v. */
  function ToXml(s: Ser, v: Value, name: string): (e: XmlNode)
    ensures e.Element? && e.name == name
    decreases s, 0, 0
  {
    match s
    case StringConv(_, toText) => Element(name, map[ValueAttribute := toText(v)], [])
    case Nullable(inner) => NullableToXml(inner, v, name)
    case Mapped(base, _, fromS) => NullableToXml(base, fromS(v), name)
    case SeqOf(element) => Element(name, map[], ItemsToXml(element, if v.Items? then v.items else [], name))
  }

  /** The nullable decorator's toXml: null as an empty element marked null="true". */
  function NullableToXml(s: Ser, v: Value, name: string): (e: XmlNode)
    ensures e.Element? && e.name == name
    decreases s, 1, 0
  {
    if v.Null? then Element(name, map[NullAttribute := "true"], []) else ToXml(s, v, name)
  }

  /** One child element per item, in order. */
  function ItemsToXml(s: Ser, items: seq<Value>, name: string): (r: seq<XmlNode>)
    ensures |r| == |items|
    ensures forall i :: 0 <= i < |r| ==> r[i].Element?
    decreases s, 2, |items|
  {
    if |items| == 0 then [] else [NullableToXml(s, items[0], name)] + ItemsToXml(s, items[1..], name)
  }

  /** getAttribute: the empty string for a missing attribute. */
  function GetAttribute(e: XmlNode, attr: string): string {
    if e.Element? && attr in e.attributes then e.attributes[attr] else ""
  }

  /** fromXml: the value read back from an element. */
  function FromXml(s: Ser, e: XmlNode): Value
    decreases s, 0, 0
  {
    match s
    case StringConv(fromString, _) => fromString(GetAttribute(e, ValueAttribute))
    case Nullable(inner) => NullableFromXml(inner, e)
    case Mapped(base, toS, _) => toS(NullableFromXml(base, e))
    case SeqOf(element) => Items(ItemsFromXml(element, if e.Element? then e.children else []))
  }

  /** hasAttribute("null") reads as null, whatever the attribute's value. */
  function NullableFromXml(s: Ser, e: XmlNode): Value
    decreases s, 1, 0
  {
    if e.Element? && NullAttribute in e.attributes then Null else FromXml(s, e)
  }

  /** The element children read in order; text, CDATA and comments between them are skipped. */
  function ItemsFromXml(s: Ser, children: seq<XmlNode>): (r: seq<Value>)
    ensures |r| <= |children|
    decreases s, 2, |children|
  {
    if |children| == 0 then []
    else if children[0].Element? then [NullableFromXml(s, children[0])] + ItemsFromXml(s, children[1..])
    else ItemsFromXml(s, children[1..])
  }

  // ---------------------------------------------------------------- round trips

  /**
   * What the round trip needs of a value: a string conversion reads its own
   * text back, a mapped value maps to a non-null value and back to itself,
   * a sequence value is a sequence of values that round-trip.
   */
  predicate RoundTrips(s: Ser, v: Value)
    decreases s, 0, 0
  {
    match s
    case StringConv(fromString, toText) => fromString(toText(v)) == v
    case Nullable(inner) => v.Null? || RoundTrips(inner, v)
    case Mapped(base, toS, fromS) => fromS(v) != Null && toS(fromS(v)) == v && RoundTrips(base, fromS(v))
    case SeqOf(element) => v.Items? && ItemsRoundTrip(element, v.items)
  }

  predicate ItemsRoundTrip(s: Ser, items: seq<Value>)
    decreases s, 2, |items|
  {
    |items| == 0 || ((items[0].Null? || RoundTrips(s, items[0])) && ItemsRoundTrip(s, items[1..]))
  }

  /** The null mark is written exactly for a null value given to a nullable serializer. */
  lemma {:induction false} OnlyNullIsMarked(s: Ser, v: Value, name: string)
    requires RoundTrips(s, v)
    ensures NullAttribute in ToXml(s, v, name).attributes <==> s.Nullable? && v.Null?
    decreases s
  {
    match s
    case StringConv(_, _) =>
      assert ValueAttribute != NullAttribute;
    case Nullable(inner) =>
      if !v.Null? {
        OnlyNullIsMarked(inner, v, name);
      }
    case Mapped(base, _, fromS) =>
      OnlyNullIsMarked(base, fromS(v), name);
    case SeqOf(_) =>
  }

  /** fromXml undoes toXml for every value the serializer round-trips. */
  lemma {:induction false} RoundTrip(s: Ser, v: Value, name: string)
    requires RoundTrips(s, v)
    ensures FromXml(s, ToXml(s, v, name)) == v
    decreases s, 0, 0
  {
    match s
    case StringConv(_, _) =>
    case Nullable(inner) =>
      NullableRoundTrip(inner, v, name);
    case Mapped(base, toS, fromS) =>
      NullableRoundTrip(base, fromS(v), name);
    case SeqOf(element) =>
      ItemsRoundTripLemma(element, v.items, name);
  }

  lemma {:induction false} NullableRoundTrip(s: Ser, v: Value, name: string)
    requires v.Null? || RoundTrips(s, v)
    ensures NullableFromXml(s, NullableToXml(s, v, name)) == v
    decreases s, 1, 0
  {
    if !v.Null? {
      RoundTrip(s, v, name);
      OnlyNullIsMarked(s, v, name);
    }
  }

  lemma {:induction false} ItemsRoundTripLemma(s: Ser, items: seq<Value>, name: string)
    requires ItemsRoundTrip(s, items)
    ensures ItemsFromXml(s, ItemsToXml(s, items, name)) == items
    decreases s, 2, |items|
  {
    if |items| > 0 {
      NullableRoundTrip(s, items[0], name);
      ItemsRoundTripLemma(s, items[1..], name);
      var written := ItemsToXml(s, items, name);
      assert written[1..] == ItemsToXml(s, items[1..], name);
    }
  }

  // ---------------------------------------------------------------- the combinators

  /** nullable() is idempotent, and every standard combinator already returns a nullable serializer. */
  lemma NullableIdempotent(s: Ser, fromString: string -> Value, toText: Value -> string, toS: Value -> Value, fromS: Value -> Value)
    ensures MakeNullable(MakeNullable(s)) == MakeNullable(s)
    ensures MakeNullable(StringConversion(fromString, toText)) == StringConversion(fromString, toText)
    ensures MakeNullable(Map(s, toS, fromS)) == Map(s, toS, fromS)
    ensures MakeNullable(ToSeq(s)) == ToSeq(s)
  {
  }

  /** A null value under any standard serializer is one empty element marked null="true", and reads back as null. */
  lemma {:induction false} NullEncoding(s: Ser, name: string)
    ensures ToXml(MakeNullable(s), Null, name) == Element(name, map[NullAttribute := "true"], [])
    ensures FromXml(MakeNullable(s), Element(name, map[NullAttribute := "true"], [])) == Null
  {
  }

  /** A string conversion whose fromString inverts toString round-trips every value, null included. */
  lemma {:induction false} StringConversionRoundTrip(fromString: string -> Value, toText: Value -> string, v: Value, name: string)
    requires v.Null? || fromString(toText(v)) == v
    ensures FromXml(StringConversion(fromString, toText), ToXml(StringConversion(fromString, toText), v, name)) == v
  {
    RoundTrip(StringConversion(fromString, toText), v, name);
  }

  /** toSeq writes one child per item, in order, and reads the children back in the same order. */
  lemma {:induction false} SeqInOrder(s: Ser, items: seq<Value>, name: string)
    requires ItemsRoundTrip(MakeNullable(s), items)
    ensures var e := ToXml(ToSeq(s), Items(items), name);
      |e.children| == |items| &&
      (forall i :: 0 <= i < |items| ==> e.children[i] == NullableToXml(MakeNullable(s), items[i], name)) &&
      FromXml(ToSeq(s), e) == Items(items)
  {
    var e := ToXml(ToSeq(s), Items(items), name);
    assert ToSeq(s) == Nullable(SeqOf(MakeNullable(s)));
    assert e == NullableToXml(SeqOf(MakeNullable(s)), Items(items), name);
    assert e == ToXml(SeqOf(MakeNullable(s)), Items(items), name);
    assert e == Element(name, map[], ItemsToXml(MakeNullable(s), items, name));
    ItemsInOrder(MakeNullable(s), items, name);
    RoundTrip(ToSeq(s), Items(items), name);
  }

  lemma {:induction false} ItemsInOrder(s: Ser, items: seq<Value>, name: string)
    ensures forall i :: 0 <= i < |items| ==> ItemsToXml(s, items, name)[i] == NullableToXml(s, items[i], name)
    decreases |items|
  {
    if |items| > 0 {
      ItemsInOrder(s, items[1..], name);
    }
  }

  /** Nested sequences with nulls at either level round-trip through toSeq(toSeq(s)). */
  lemma {:induction false} NestedSeqRoundTrip(s: Ser, rows: seq<Value>, name: string)
    requires forall i :: 0 <= i < |rows| ==> rows[i].Null? || RoundTrips(ToSeq(s), rows[i])
    ensures FromXml(ToSeq(ToSeq(s)), ToXml(ToSeq(ToSeq(s)), Items(rows), name)) == Items(rows)
  {
    AllItemsRoundTrip(ToSeq(s), rows);
    RoundTrip(ToSeq(ToSeq(s)), Items(rows), name);
  }

  /** Items each null or round-tripping make a sequence that round-trips. */
  lemma {:induction false} AllItemsRoundTrip(s: Ser, items: seq<Value>)
    requires forall i :: 0 <= i < |items| ==> items[i].Null? || RoundTrips(s, items[i])
    ensures ItemsRoundTrip(s, items)
    ensures ItemsRoundTrip(MakeNullable(s), items)
    decreases |items|
  {
    if |items| > 0 {
      AllItemsRoundTrip(s, items[1..]);
    }
  }

  /** toArray writes exactly what toSeq writes. */
  lemma {:induction false} ArrayWritesAsSeq(s: Ser, v: Value, name: string)
    requires v.Items?
    ensures ToXml(ToArray(s), v, name) == ToXml(ToSeq(s), v, name)
  {
    var m := Mapped(ToSeq(s), (x: Value) => x, (x: Value) => x);
    assert ToArray(s) == Nullable(m);
    assert ToXml(ToArray(s), v, name) == ToXml(m, v, name);
    assert ToXml(m, v, name) == NullableToXml(ToSeq(s), v, name);
  }
}

=== FILE: stable_sort.dfy ===
/**
 * The stable sort behind Java's List.sort and Stream.sorted, on a key
 * compared lexicographically. Every comparator the designer sorts with
 * (line numbers, text regions, descending scores, score then length) is a
 * pair of integers ordered this way.
 */
module StableSort {

  /** A sort key ordered first by `major`, then by `minor`. */
  datatype SortKey = SortKey(major: int, minor: int)

  predicate KeyLeq(a: SortKey, b: SortKey) {
    a.major < b.major || (a.major == b.major && a.minor <= b.minor)
  }

  predicate SortedBy<T>(s: seq<T>, key: T -> SortKey) {
    forall i, j :: 0 <= i < j < |s| ==> KeyLeq(key(s[i]), key(s[j]))
  }

  /** Insert `x` before the first element whose key is not smaller, so that it precedes its equals. */
  function Insert<T>(x: T, s: seq<T>, key: T -> SortKey): (r: seq<T>)
    ensures |r| == |s| + 1
  {
    if |s| == 0 then [x]
    else if KeyLeq(key(x), key(s[0])) then [x] + s
    else [s[0]] + Insert(x, s[1..], key)
  }

  /** Insertion sort from the back: each element goes in front of the later elements with the same key. */
  function SortBy<T>(s: seq<T>, key: T -> SortKey): (r: seq<T>)
    ensures |r| == |s|
  {
    if |s| == 0 then [] else Insert(s[0], SortBy(s[1..], key), key)
  }

  lemma {:induction false} InsertPermutes<T>(x: T, s: seq<T>, key: T -> SortKey)
    ensures multiset(Insert(x, s, key)) == multiset(s) + multiset{x}
    decreases |s|
  {
    if |s| > 0 && !KeyLeq(key(x), key(s[0])) {
      InsertPermutes(x, s[1..], key);
      assert s == [s[0]] + s[1..];
    }
  }

  lemma {:induction false} InsertSorted<T>(x: T, s: seq<T>, key: T -> SortKey)
    requires SortedBy(s, key)
    ensures SortedBy(Insert(x, s, key), key)
    decreases |s|
  {
    if |s| > 0 && !KeyLeq(key(x), key(s[0])) {
      var rest := Insert(x, s[1..], key);
      InsertSorted(x, s[1..], key);
      InsertPermutes(x, s[1..], key);
      forall k | 0 <= k < |rest|
        ensures KeyLeq(key(s[0]), key(rest[k]))
      {
        assert rest[k] in multiset(rest);
        if rest[k] != x {
          assert rest[k] in multiset(s[1..]);
          var j :| 0 <= j < |s[1..]| && s[1..][j] == rest[k];
          assert s[j + 1] == rest[k];
        }
      }
    }
  }

  /** The sort is a permutation of its input. */
  lemma {:induction false} SortPermutes<T>(s: seq<T>, key: T -> SortKey)
    ensures multiset(SortBy(s, key)) == multiset(s)
    decreases |s|
  {
    if |s| > 0 {
      SortPermutes(s[1..], key);
      InsertPermutes(s[0], SortBy(s[1..], key), key);
      assert s == [s[0]] + s[1..];
    }
  }

  /** The sort's output is in key order. */
  lemma {:induction false} SortSorted<T>(s: seq<T>, key: T -> SortKey)
    ensures SortedBy(SortBy(s, key), key)
    decreases |s|
  {
    if |s| > 0 {
      SortSorted(s[1..], key);
      InsertSorted(s[0], SortBy(s[1..], key), key);
    }
  }

  /** The elements of `s` whose key is `k`, in their order in `s`. */
  function WithKey<T>(s: seq<T>, key: T -> SortKey, k: SortKey): seq<T> {
    if |s| == 0 then [] else (if key(s[0]) == k then [s[0]] else []) + WithKey(s[1..], key, k)
  }

  lemma {:induction false} InsertWithKey<T>(x: T, s: seq<T>, key: T -> SortKey, k: SortKey)
    ensures WithKey(Insert(x, s, key), key, k) == (if key(x) == k then [x] else []) + WithKey(s, key, k)
    decreases |s|
  {
    if |s| > 0 {
      if KeyLeq(key(x), key(s[0])) {
        assert ([x] + s)[1..] == s;
      } else {
        var r := Insert(x, s, key);
        assert r[1..] == Insert(x, s[1..], key);
        InsertWithKey(x, s[1..], key, k);
      }
    }
  }

  /** The sort is stable: elements with equal keys keep their relative order. */
  lemma {:induction false} SortStable<T>(s: seq<T>, key: T -> SortKey, k: SortKey)
    ensures WithKey(SortBy(s, key), key, k) == WithKey(s, key, k)
    decreases |s|
  {
    if |s| > 0 {
      SortStable(s[1..], key, k);
      InsertWithKey(s[0], SortBy(s[1..], key), key, k);
    }
  }
}

=== FILE: test_case_change.dfy ===
/**
 * TestCaseChange: one undoable edit of a live test case, recording for each
 * of source, language version, property map and description either nothing
 * (null) or the value before and after. Edits merge into one and invert into
 * their undo. The owning case, which applyChange writes into, is passed in
 * explicitly.
 */
module TestCaseChanges {
  import opened Wrappers
  import opened LiveTestCases

  /** ReactFX's Change: an old and a new value. */
  datatype Change<T> = Change(oldValue: T, newValue: T)

  datatype TestCaseChange = TestCaseChange(
    newSource: Option<Change<string>>,
    newLangVersion: Option<Change<Option<string>>>,
    newPropertyMapping: Option<Change<map<string, Option<string>>>>,
    newDescription: Option<Change<string>>)

  /** keepLatest: a missing change yields to the other; two changes fuse into first-old to second-new. */
  function KeepLatest<T>(c0: Option<Change<T>>, c: Option<Change<T>>): (r: Option<Change<T>>)
    ensures c0.None? ==> r == c
    ensures c.None? ==> r == c0
    ensures c0.Some? && c.Some? ==> r == Some(Change(c0.value.oldValue, c.value.newValue))
  {
    if c0.None? then c
    else if c.None? then c0
    else Some(Change(c0.value.oldValue, c.value.newValue))
  }

  /** invert: the change swapped, null staying null. */
  function Invert<T>(c: Option<Change<T>>): (r: Option<Change<T>>)
    ensures r.None? <==> c.None?
    ensures c.Some? ==> r.value.oldValue == c.value.newValue && r.value.newValue == c.value.oldValue
  {
    if c.None? then None else Some(Change(c.value.newValue, c.value.oldValue))
  }

  /** mergeWith: keepLatest on each of the four fields, this change first. */
  function MergeWith(c: TestCaseChange, latest: TestCaseChange): (r: TestCaseChange)
    ensures r.newSource == KeepLatest(c.newSource, latest.newSource)
    ensures r.newLangVersion == KeepLatest(c.newLangVersion, latest.newLangVersion)
    ensures r.newPropertyMapping == KeepLatest(c.newPropertyMapping, latest.newPropertyMapping)
    ensures r.newDescription == KeepLatest(c.newDescription, latest.newDescription)
  {
    TestCaseChange(
      KeepLatest(c.newSource, latest.newSource),
      KeepLatest(c.newLangVersion, latest.newLangVersion),
      KeepLatest(c.newPropertyMapping, latest.newPropertyMapping),
      KeepLatest(c.newDescription, latest.newDescription))
  }

  function InvertChange(c: TestCaseChange): (r: TestCaseChange)
    ensures r.newSource == Invert(c.newSource) && r.newLangVersion == Invert(c.newLangVersion)
    ensures r.newPropertyMapping == Invert(c.newPropertyMapping) && r.newDescription == Invert(c.newDescription)
  {
    TestCaseChange(Invert(c.newSource), Invert(c.newLangVersion), Invert(c.newPropertyMapping), Invert(c.newDescription))
  }

  /** The value a field has after a change to it: the change's new value, or the old field if unchanged. */
  function Applied<T>(c: Option<Change<T>>, current: T): T {
    if c.Some? then c.value.newValue else current
  }

  /** applyChange: each field whose change is present gets that change's new value. */
  function ApplyChange(c: TestCaseChange, live: LiveTestCase): (r: LiveTestCase)
    ensures r.description == Applied(c.newDescription, live.description)
    ensures r.source == Applied(c.newSource, live.source)
    ensures r.languageVersion == Applied(c.newLangVersion, live.languageVersion)
    ensures r.properties == Applied(c.newPropertyMapping, live.properties)
    ensures r.expectedViolations == live.expectedViolations && r.status == live.status && r.frozen == live.frozen
  {
    var live := if c.newDescription.Some? then live.(description := c.newDescription.value.newValue) else live;
    var live := if c.newSource.Some? then live.(source := c.newSource.value.newValue) else live;
    var live := if c.newLangVersion.Some? then live.(languageVersion := c.newLangVersion.value.newValue) else live;
    if c.newPropertyMapping.Some? then SetProperties(live, c.newPropertyMapping.value.newValue) else live
  }

  // ---------------------------------------------------------------- the algebra

  /** Null is the identity of keepLatest on both sides, and keepLatest is associative. */
  lemma KeepLatestMonoid<T>(a: Option<Change<T>>, b: Option<Change<T>>, c: Option<Change<T>>)
    ensures KeepLatest(None, a) == a && KeepLatest(a, None) == a
    ensures KeepLatest(KeepLatest(a, b), c) == KeepLatest(a, KeepLatest(b, c))
  {
  }

  /** Inverting twice gives the change back; inverting a merge merges the inverses in reverse order. */
  lemma InvertAntiHomomorphism<T>(a: Option<Change<T>>, b: Option<Change<T>>)
    ensures Invert(Invert(a)) == a
    ensures Invert(KeepLatest(a, b)) == KeepLatest(Invert(b), Invert(a))
  {
  }

  lemma InvertChangeInvolutive(c: TestCaseChange)
    ensures InvertChange(InvertChange(c)) == c
  {
    InvertAntiHomomorphism(c.newSource, None);
    InvertAntiHomomorphism(c.newLangVersion, None);
    InvertAntiHomomorphism(c.newPropertyMapping, None);
    InvertAntiHomomorphism(c.newDescription, None);
  }

  /** Merging edits is associative. */
  lemma MergeAssociative(a: TestCaseChange, b: TestCaseChange, c: TestCaseChange)
    ensures MergeWith(MergeWith(a, b), c) == MergeWith(a, MergeWith(b, c))
  {
    KeepLatestMonoid(a.newSource, b.newSource, c.newSource);
    KeepLatestMonoid(a.newLangVersion, b.newLangVersion, c.newLangVersion);
    KeepLatestMonoid(a.newPropertyMapping, b.newPropertyMapping, c.newPropertyMapping);
    KeepLatestMonoid(a.newDescription, b.newDescription, c.newDescription);
  }

  /** Applying a merged edit is applying the first edit, then the latest. */
  lemma ApplyMerged(a: TestCaseChange, b: TestCaseChange, live: LiveTestCase)
    ensures ApplyChange(MergeWith(a, b), live) == ApplyChange(b, ApplyChange(a, live))
  {
  }

  /** The edit was made to this state: every recorded old value is the case's current one. */
  predicate RecordedAgainst(c: TestCaseChange, live: LiveTestCase) {
    (c.newSource.Some? ==> c.newSource.value.oldValue == live.source) &&
    (c.newLangVersion.Some? ==> c.newLangVersion.value.oldValue == live.languageVersion) &&
    (c.newPropertyMapping.Some? ==> c.newPropertyMapping.value.oldValue == live.properties) &&
    (c.newDescription.Some? ==> c.newDescription.value.oldValue == live.description)
  }

  /** Undo: the inverse of an edit, applied after it, restores the case the edit was recorded against. */
  lemma UndoRestores(c: TestCaseChange, live: LiveTestCase)
    requires RecordedAgainst(c, live)
    ensures RecordedAgainst(InvertChange(c), ApplyChange(c, live))
    ensures ApplyChange(InvertChange(c), ApplyChange(c, live)) == live
  {
  }
}

=== FILE: test_case_util.dfy ===
/**
 * TestCaseUtil.doTest: judging the nodes a rule reported against the
 * violations a test case expects. Both lists are sorted (the nodes by begin
 * line, the expected violations by region) and compared pairwise.
 *
 * PMD's TextRegion is a start offset and a length; it contains the offsets
 * from its start up to, not including, its end, and orders by start, then
 * by length.
 */
module TestCaseUtil {
  import opened Wrappers
  import opened JavaString
  import opened StableSort
  import opened LiveTestCases

  datatype TextRegion = TextRegion(startOffset: int, length: nat)

  predicate RegionContains(r: TextRegion, offset: int) {
    r.startOffset <= offset < r.startOffset + r.length
  }

  /** An expected violation as doTest reads it: a line (-1 when unknown) and the region it must fall in. */
  datatype ExpectedRecord = ExpectedRecord(line: int, region: TextRegion)

  /** A node the rule reported: its begin line and its text region. */
  datatype ActualNode = ActualNode(beginLine: int, region: TextRegion)

  /** The natural order of expected violations: the order of their regions. */
  function RegionOrder(e: ExpectedRecord): SortKey {
    SortKey(e.region.startOffset, e.region.length)
  }

  /** LINE_COMP: nodes by begin line. */
  function LineOrder(n: ActualNode): SortKey {
    SortKey(n.beginLine, 0)
  }

  /** The node is where the expected violation says: in its region, and on its line when that is known. */
  predicate Agrees(e: ExpectedRecord, n: ActualNode) {
    RegionContains(e.region, n.region.startOffset) && (e.line > 0 ==> n.beginLine == e.line)
  }

  predicate AllAgree(es: seq<ExpectedRecord>, ns: seq<ActualNode>) {
    |es| == |ns| && forall i :: 0 <= i < |es| ==> Agrees(es[i], ns[i])
  }

  function SizeMismatchMessage(expected: nat, actual: nat): string {
    "Expected " + IntToString(expected) + " violations, actual " + IntToString(actual)
  }

  function WrongPositionMessage(offset: int): string {
    "Wrong position for node at offset " + IntToString(offset)
  }

  /**
   * doTest. The sorts work on copies, so the caller's lists are untouched;
   * in this value model that holds of every function.
   */
  method DoTest(expected: seq<ExpectedRecord>, actual: seq<ActualNode>) returns (r: TestResult)
    ensures |actual| != |expected| ==> r == TestResult(Fail, Some(SizeMismatchMessage(|expected|, |actual|)))
    ensures r.status == Pass <==>
      |actual| == |expected| && AllAgree(SortBy(expected, RegionOrder), SortBy(actual, LineOrder))
    ensures r.status == Pass ==> r.message == None
    ensures r.status == Pass || r.status == Fail
    ensures |actual| == |expected| && r.status == Fail ==>
      var es := SortBy(expected, RegionOrder);
      var ns := SortBy(actual, LineOrder);
      exists i :: 0 <= i < |ns| && !Agrees(es[i], ns[i]) && (forall j :: 0 <= j < i ==> Agrees(es[j], ns[j])) &&
        r.message == Some(WrongPositionMessage(ns[i].region.startOffset))
  {
    if |actual| != |expected| {
      return TestResult(Fail, Some(SizeMismatchMessage(|expected|, |actual|)));
    }
    var ns := SortBy(actual, LineOrder);
    var es := SortBy(expected, RegionOrder);
    var i := 0;
    while i < |ns|
      invariant 0 <= i <= |ns|
      invariant forall j :: 0 <= j < i ==> Agrees(es[j], ns[j])
    {
      if !Agrees(es[i], ns[i]) {
        return TestResult(Fail, Some(WrongPositionMessage(ns[i].region.startOffset)));
      }
      i := i + 1;
    }
    return TestResult(Pass, None);
  }

  /**
   * A passing test accounts for every reported node: each one lies in the
   * region of some expected violation, on its line when that is known.
   */
  lemma {:induction false} PassPlacesEveryNode(expected: seq<ExpectedRecord>, actual: seq<ActualNode>, n: ActualNode)
    requires AllAgree(SortBy(expected, RegionOrder), SortBy(actual, LineOrder))
    requires n in actual
    ensures exists e :: e in expected && Agrees(e, n)
  {
    var es := SortBy(expected, RegionOrder);
    var ns := SortBy(actual, LineOrder);
    SortPermutes(actual, LineOrder);
    SortPermutes(expected, RegionOrder);
    assert n in multiset(ns);
    var i :| 0 <= i < |ns| && ns[i] == n;
    assert es[i] in multiset(expected);
  }

  /** Both sides are compared in order: nodes by line, expected violations by region. */
  lemma {:induction false} ComparedInOrder(expected: seq<ExpectedRecord>, actual: seq<ActualNode>)
    ensures SortedBy(SortBy(expected, RegionOrder), RegionOrder)
    ensures SortedBy(SortBy(actual, LineOrder), LineOrder)
    ensures multiset(SortBy(expected, RegionOrder)) == multiset(expected)
    ensures multiset(SortBy(actual, LineOrder)) == multiset(actual)
  {
    SortSorted(expected, RegionOrder);
    SortSorted(actual, LineOrder);
    SortPermutes(expected, RegionOrder);
    SortPermutes(actual, LineOrder);
  }
}

=== FILE: test_descriptor.dfy ===
/**
 * PMD's TestDescriptor, the record the rule-test parser fills in. Only the
 * fields the designer reads or writes are kept; the rule under test is not
 * represented, and a language version is held by its terse name.
 */
module TestDescriptors {
  import opened Wrappers

  datatype TestDescriptor = TestDescriptor(
    code: string,
    description: string,
    numberOfProblemsExpected: int,
    languageVersion: Option<string>,
    reinitializeRule: bool,
    regressionTest: bool,
    useAuxClasspath: bool,
    expectedMessages: seq<string>,
    expectedLineNumbers: seq<int>,
    properties: map<string, string>,
    numberInDocument: int)

  /** The position a descriptor has before the parser numbers it. */
  const Unnumbered: int := -1
}

=== FILE: test_xml_dumper.dfy ===
/**
 * TestXmlDumper: live test cases written back as rule-test XML. The
 * document is the abstract element tree of module Xml; namespaces and the
 * transformer's serialisation (indentation, encoding) are not represented.
 */
module TestXmlDumper {
  import opened Wrappers
  import opened JavaString
  import opened Xml
  import opened TestDescriptors
  import opened LiveTestCases
  import opened PmdCoordinatesSystem
  import opened TestXmlParser

  const Namespace: string := "http://pmd.sourceforge.net/rule-tests"
  const SchemaLocation: string := "http://pmd.sourceforge.net/rule-tests http://pmd.sourceforge.net/rule-tests_1_0_0.xsd"

  /** An element whose content was set with setTextContent. */
  function TextElement(tag: string, attributes: map<string, string>, text: string): (e: XmlNode)
    ensures e.Element? && e.name == tag && e.attributes == attributes && Flat(e)
    ensures ParseTextNode(e) == Trim(text) && GetTextContent(e) == text
  {
    Element(tag, attributes, TextChildren(text))
  }

  // ---------------------------------------------------------------- properties

  /** The entries with a non-null value, as the property filter of appendSingle collects them. */
  function NonNullProperties(props: map<string, Option<string>>): (m: map<string, string>)
    ensures forall k :: k in m <==> k in props && props[k].Some?
    ensures forall k :: k in m ==> props[k] == Some(m[k])
  {
    map k | k in props && props[k].Some? :: props[k].value
  }

  /**
   * `order` lists every key of `keys` exactly once. It stands for the
   * iteration order of the HashMap the properties are collected into, which
   * Java leaves unspecified.
   */
  predicate Enumerates(order: seq<string>, keys: set<string>) {
    (forall i, j :: 0 <= i < j < |order| ==> order[i] != order[j]) &&
    (forall i :: 0 <= i < |order| ==> order[i] in keys) &&
    (forall k :: k in keys ==> k in order)
  }

  /** One rule-property element per entry, named by a "name" attribute. */
  function PropertyElements(m: map<string, string>, order: seq<string>): (r: seq<XmlNode>)
    requires forall i :: 0 <= i < |order| ==> order[i] in m
    ensures |r| == |order|
    ensures forall i :: 0 <= i < |r| ==> r[i].Element? && r[i].name == "rule-property" && Flat(r[i])
    ensures forall i :: 0 <= i < |r| ==>
      Attribute(r[i], "name") == Some(order[i]) && ParseTextNode(r[i]) == Trim(m[order[i]])
  {
    seq(|order|, i requires 0 <= i < |order| => TextElement("rule-property", map["name" := order[i]], m[order[i]]))
  }

  // ---------------------------------------------------------------- violations

  predicate AllMessagesPresent(vs: seq<LiveViolationRecord>) {
    forall i :: 0 <= i < |vs| ==> vs[i].message.Some?
  }

  predicate AllRangesPresent(vs: seq<LiveViolationRecord>) {
    forall i :: 0 <= i < |vs| ==> vs[i].range.Some?
  }

  function MessageElements(vs: seq<LiveViolationRecord>): (r: seq<XmlNode>)
    requires AllMessagesPresent(vs)
    ensures |r| == |vs|
    ensures forall i :: 0 <= i < |r| ==> r[i].Element? && r[i].name == "message" && Flat(r[i])
    ensures forall i :: 0 <= i < |r| ==> ParseTextNode(r[i]) == Trim(vs[i].message.value)
  {
    seq(|vs|, i requires 0 <= i < |vs| => TextElement("message", map[], vs[i].message.value))
  }

  /** The expected-messages element of appendSingle, present only when every violation has a message. */
  function MessagesGroup(vs: seq<LiveViolationRecord>): (r: seq<XmlNode>)
    ensures |r| <= 1
    ensures |r| == 1 <==> |vs| > 0 && AllMessagesPresent(vs)
    ensures |r| == 1 ==> r[0].Element? && r[0].name == "expected-messages" && r[0].children == MessageElements(vs)
  {
    if |vs| > 0 && AllMessagesPresent(vs) then [Element("expected-messages", map[], MessageElements(vs))]
    else []
  }

  /** The start line of every violation's range. */
  function StartLines(vs: seq<LiveViolationRecord>): (lines: seq<int>)
    requires AllRangesPresent(vs)
    ensures |lines| == |vs|
    ensures forall i :: 0 <= i < |vs| ==> lines[i] == vs[i].range.value.startPos.line
  {
    seq(|vs|, i requires 0 <= i < |vs| => vs[i].range.value.startPos.line)
  }

  /** The numbers printed with Integer.toString and joined with ",". */
  function PrintedLines(lines: seq<int>): string {
    Join(",", seq(|lines|, i requires 0 <= i < |lines| => IntToString(lines[i])))
  }

  /** The expected-linenumbers element of appendSingle, present only when every violation has a range. */
  function LinesGroup(vs: seq<LiveViolationRecord>): (r: seq<XmlNode>)
    ensures |r| <= 1
    ensures |r| == 1 <==> |vs| > 0 && AllRangesPresent(vs)
    ensures |r| == 1 ==> r[0].Element? && r[0].name == "expected-linenumbers" && Flat(r[0]) &&
                         GetTextContent(r[0]) == PrintedLines(StartLines(vs))
  {
    if |vs| > 0 && AllRangesPresent(vs) then [TextElement("expected-linenumbers", map[], PrintedLines(StartLines(vs)))]
    else []
  }

  // ---------------------------------------------------------------- one test case

  /** The code element of appendSingle: the trimmed source in a CDATA section, padded with a line feed before and an indented line feed after. */
  function CodeElement(source: string): (e: XmlNode)
    ensures e.Element? && e.name == "code" && Flat(e)
    ensures ParseTextNode(e) == Trim(source)
  {
    var padded := "\n" + Trim(source) + "\n        ";
    CodePaddingTrims(source);
    Element("code", map[], [CData(padded)])
  }

  /** The padding around the code is whitespace, so the parser's trim removes it again. */
  lemma {:induction false} CodePaddingTrims(source: string)
    ensures var padded := "\n" + Trim(source) + "\n        ";
      DirectText([CData(padded)]) == padded && Trim(padded) == Trim(source)
  {
    var padded := "\n" + Trim(source) + "\n        ";
    assert [CData(padded)][1..] == [];
    PaddingIsTrimmable();
    TrimPadded("\n", Trim(source), "\n        ");
  }

  lemma PaddingIsTrimmable()
    ensures AllTrimmable("\n") && AllTrimmable("\n        ")
  {
  }

  /** The source-type element of appendSingle, present only when a language version is set. */
  function VersionGroup(version: Option<string>): (r: seq<XmlNode>)
    ensures |r| <= 1 && (|r| == 1 <==> version.Some?)
    ensures |r| == 1 ==> r[0].Element? && r[0].name == "source-type" && Flat(r[0]) &&
                         ParseTextNode(r[0]) == Trim(version.value)
  {
    if version.Some? then [TextElement("source-type", map[], version.value)] else []
  }

  function DescriptionElement(t: LiveTestCase): XmlNode {
    TextElement("description", map[], t.description)
  }

  function ProblemsElement(t: LiveTestCase): XmlNode {
    TextElement("expected-problems", map[], NatToString(|t.expectedViolations|))
  }

  /**
   * The children of a dumped test-code element, grouped in the order
   * appendSingle writes them. The messages, lines and version groups hold
   * the element when it is written and are empty otherwise.
   */
  datatype DumpParts = DumpParts(
    description: XmlNode,
    properties: seq<XmlNode>,
    problems: XmlNode,
    messages: seq<XmlNode>,
    lines: seq<XmlNode>,
    code: XmlNode,
    version: seq<XmlNode>)

  function Children(p: DumpParts): seq<XmlNode> {
    [p.description] + p.properties + [p.problems] + p.messages + p.lines + [p.code] + p.version
  }

  /** What appendSingle writes for a case, group by group. */
  function PartsOf(t: LiveTestCase, order: seq<string>): DumpParts
    requires Enumerates(order, NonNullProperties(t.properties).Keys)
  {
    DumpParts(
      DescriptionElement(t),
      PropertyElements(NonNullProperties(t.properties), order),
      ProblemsElement(t),
      MessagesGroup(t.expectedViolations),
      LinesGroup(t.expectedViolations),
      CodeElement(t.source),
      VersionGroup(t.languageVersion))
  }

  /** appendSingle: the test-code element written for a case. */
  function AppendSingle(t: LiveTestCase, order: seq<string>): (e: XmlNode)
    requires Enumerates(order, NonNullProperties(t.properties).Keys)
    ensures e.Element? && e.name == "test-code" && e.attributes == map[]
  {
    Element("test-code", map[], Children(PartsOf(t, order)))
  }

  /**
   * One case handed to appendTests: its property key order (the HashMap
   * iteration order), whether its undo manager has anything to undo, and
   * the element it was read from, if any.
   */
  datatype DumpEntry = DumpEntry(t: LiveTestCase, order: seq<string>, undoAvailable: bool, original: Option<XmlNode>)

  predicate EntryReady(d: DumpEntry) {
    Enumerates(d.order, NonNullProperties(d.t.properties).Keys) &&
    (d.original.Some? ==> d.original.value.Element?)
  }

  /** The element a case contributes: the original verbatim when the case is unmodified, else a fresh dump. */
  function EntryElement(d: DumpEntry): XmlNode
    requires EntryReady(d)
  {
    if !d.undoAvailable && d.original.Some? then d.original.value else AppendSingle(d.t, d.order)
  }

  /** The elements among a sequence of nodes, in order. */
  function ElementsOf(nodes: seq<XmlNode>): (r: seq<XmlNode>)
    ensures forall i :: 0 <= i < |r| ==> r[i].Element?
  {
    if |nodes| == 0 then []
    else (if nodes[0].Element? then [nodes[0]] else []) + ElementsOf(nodes[1..])
  }

  /** appendTests: the nodes appended to the document root, a blank-line text node after each fresh dump. */
  function AppendTests(ds: seq<DumpEntry>): (r: seq<XmlNode>)
    requires forall i :: 0 <= i < |ds| ==> EntryReady(ds[i])
    ensures |ds| <= |r| <= 2 * |ds|
  {
    if |ds| == 0 then []
    else
      var d := ds[0];
      assert EntryReady(d);
      (if !d.undoAvailable && d.original.Some? then [d.original.value]
       else [AppendSingle(d.t, d.order), Text("\n\n")]) + AppendTests(ds[1..])
  }

  lemma {:induction false} ElementsOfConcat(a: seq<XmlNode>, b: seq<XmlNode>)
    ensures ElementsOf(a + b) == ElementsOf(a) + ElementsOf(b)
    decreases |a|
  {
    if |a| > 0 {
      assert (a + b)[0] == a[0];
      assert (a + b)[1..] == a[1..] + b;
      ElementsOfConcat(a[1..], b);
    } else {
      assert a + b == b;
    }
  }

  /**
   * The root receives exactly one element per case, in the order of the
   * cases: the original element of an unmodified case, a fresh test-code
   * element for any other.
   */
  lemma {:induction false} AppendTestsOnePerCase(ds: seq<DumpEntry>)
    requires forall i :: 0 <= i < |ds| ==> EntryReady(ds[i])
    ensures var es := ElementsOf(AppendTests(ds));
      |es| == |ds| && forall i :: 0 <= i < |ds| ==> es[i] == EntryElement(ds[i])
    decreases |ds|
  {
    if |ds| > 0 {
      var d := ds[0];
      var head: seq<XmlNode> := if !d.undoAvailable && d.original.Some? then [d.original.value]
                                else [AppendSingle(d.t, d.order), Text("\n\n")];
      AppendTestsOnePerCase(ds[1..]);
      ElementsOfConcat(head, AppendTests(ds[1..]));
      assert ElementsOf(head) == [EntryElement(d)] by {
        if d.undoAvailable || d.original.None? {
          assert head[1..] == [Text("\n\n")];
          assert ElementsOf(head[1..]) == [];
        }
      }
      var es := ElementsOf(AppendTests(ds));
      forall i | 0 <= i < |ds| ensures es[i] == EntryElement(ds[i]) {
        if i > 0 {
          assert es[i] == ElementsOf(AppendTests(ds[1..]))[i - 1];
        }
      }
    }
  }

  // ---------------------------------------------------------------- what the parser finds in a dump

  /** Flat elements all called `tag`. */
  predicate Uniform(es: seq<XmlNode>, tag: string) {
    forall i :: 0 <= i < |es| ==> es[i].Element? && es[i].name == tag && Flat(es[i])
  }

  /** No group, or one expected-messages element holding only flat message elements. */
  predicate MessagesShaped(ms: seq<XmlNode>) {
    |ms| == 0 ||
    (|ms| == 1 && ms[0].Element? && ms[0].name == "expected-messages" && Uniform(ms[0].children, "message"))
  }

  /** The layout every dump has: each group made of flat elements of its own tag. */
  predicate WellShaped(p: DumpParts) {
    Uniform([p.description], "description") &&
    Uniform(p.properties, "rule-property") &&
    Uniform([p.problems], "expected-problems") &&
    MessagesShaped(p.messages) &&
    |p.lines| <= 1 && Uniform(p.lines, "expected-linenumbers") &&
    Uniform([p.code], "code") &&
    |p.version| <= 1 && Uniform(p.version, "source-type")
  }

  /** appendSingle writes a well-shaped element. */
  lemma {:induction false} PartsShaped(t: LiveTestCase, order: seq<string>)
    requires Enumerates(order, NonNullProperties(t.properties).Keys)
    ensures WellShaped(PartsOf(t, order))
  {
    SingleUniform(DescriptionElement(t), "description");
    PropertiesUniform(NonNullProperties(t.properties), order);
    SingleUniform(ProblemsElement(t), "expected-problems");
    MessagesGroupShaped(t.expectedViolations);
    LinesUniform(t.expectedViolations);
    SingleUniform(CodeElement(t.source), "code");
    VersionUniform(t.languageVersion);
  }

  lemma SingleUniform(e: XmlNode, tag: string)
    requires e.Element? && e.name == tag && Flat(e)
    ensures Uniform([e], tag)
  {
  }

  lemma PropertiesUniform(m: map<string, string>, order: seq<string>)
    requires forall i :: 0 <= i < |order| ==> order[i] in m
    ensures Uniform(PropertyElements(m, order), "rule-property")
  {
  }

  lemma MessagesGroupShaped(vs: seq<LiveViolationRecord>)
    ensures MessagesShaped(MessagesGroup(vs))
  {
  }

  lemma LinesUniform(vs: seq<LiveViolationRecord>)
    ensures |LinesGroup(vs)| <= 1 && Uniform(LinesGroup(vs), "expected-linenumbers")
  {
  }

  lemma VersionUniform(version: Option<string>)
    ensures |VersionGroup(version)| <= 1 && Uniform(VersionGroup(version), "source-type")
  {
  }

  lemma {:induction false} SevenConcat(a: seq<XmlNode>, b: seq<XmlNode>, c: seq<XmlNode>, d: seq<XmlNode>,
                    e: seq<XmlNode>, f: seq<XmlNode>, g: seq<XmlNode>, name: string)
    ensures ElementsNamedIn(a + b + c + d + e + f + g, name) ==
      ElementsNamedIn(a, name) + ElementsNamedIn(b, name) + ElementsNamedIn(c, name) + ElementsNamedIn(d, name) +
      ElementsNamedIn(e, name) + ElementsNamedIn(f, name) + ElementsNamedIn(g, name)
  {
    ElementsNamedConcat(a, b, name);
    ElementsNamedConcat(a + b, c, name);
    ElementsNamedConcat(a + b + c, d, name);
    ElementsNamedConcat(a + b + c + d, e, name);
    ElementsNamedConcat(a + b + c + d + e, f, name);
    ElementsNamedConcat(a + b + c + d + e + f, g, name);
  }

  /** The expected-messages group is found under its own tag, and its messages under "message". */
  lemma {:induction false} MessagesFound(ms: seq<XmlNode>, name: string)
    requires MessagesShaped(ms)
    ensures ElementsNamedIn(ms, name) ==
      (if name == "expected-messages" then ms else []) +
      (if name == "message" && |ms| == 1 then ms[0].children else [])
  {
    if |ms| == 1 {
      assert ms == [ms[0]];
      SingleMatches(ms[0], name);
      UniformMatches(ms[0].children, "message", name);
    }
  }

  /** The tags of a dump that have the same length still differ. */
  lemma {:induction false} DescriptionIsNotSourceType()
    ensures "description" != "source-type"
  {
    assert "description"[0] != "source-type"[0];
  }

  lemma {:induction false} ProblemsAreNotMessages()
    ensures "expected-problems" != "expected-messages"
  {
    assert "expected-problems"[9] != "expected-messages"[9];
  }

  lemma {:induction false} FoundDescription(p: DumpParts)
    requires WellShaped(p)
    ensures ElementsNamedIn(Children(p), "description") == [p.description]
  {
    var n := "description";
    SevenConcat([p.description], p.properties, [p.problems], p.messages, p.lines, [p.code], p.version, n);
    assert ElementsNamedIn([p.description], n) == [p.description] by { UniformMatches([p.description], "description", n); }
    assert ElementsNamedIn(p.properties, n) == [] by { UniformMatches(p.properties, "rule-property", n); }
    assert ElementsNamedIn([p.problems], n) == [] by { UniformMatches([p.problems], "expected-problems", n); }
    assert ElementsNamedIn(p.messages, n) == [] by { MessagesFound(p.messages, n); }
    assert ElementsNamedIn(p.lines, n) == [] by { UniformMatches(p.lines, "expected-linenumbers", n); }
    assert ElementsNamedIn([p.code], n) == [] by { UniformMatches([p.code], "code", n); }
    assert ElementsNamedIn(p.version, n) == [] by { UniformMatches(p.version, "source-type", n); DescriptionIsNotSourceType(); }
    assert ElementsNamedIn(Children(p), n) == [p.description] + [] + [] + [] + [] + [] + [];
  }

  lemma {:induction false} FoundProperties(p: DumpParts)
    requires WellShaped(p)
    ensures ElementsNamedIn(Children(p), "rule-property") == p.properties
  {
    var n := "rule-property";
    SevenConcat([p.description], p.properties, [p.problems], p.messages, p.lines, [p.code], p.version, n);
    assert ElementsNamedIn([p.description], n) == [] by { UniformMatches([p.description], "description", n); }
    assert ElementsNamedIn(p.properties, n) == p.properties by { UniformMatches(p.properties, "rule-property", n); }
    assert ElementsNamedIn([p.problems], n) == [] by { UniformMatches([p.problems], "expected-problems", n); }
    assert ElementsNamedIn(p.messages, n) == [] by { MessagesFound(p.messages, n); }
    assert ElementsNamedIn(p.lines, n) == [] by { UniformMatches(p.lines, "expected-linenumbers", n); }
    assert ElementsNamedIn([p.code], n) == [] by { UniformMatches([p.code], "code", n); }
    assert ElementsNamedIn(p.version, n) == [] by { UniformMatches(p.version, "source-type", n); }
    assert ElementsNamedIn(Children(p), n) == [] + p.properties + [] + [] + [] + [] + [];
  }

  lemma {:induction false} FoundProblems(p: DumpParts)
    requires WellShaped(p)
    ensures ElementsNamedIn(Children(p), "expected-problems") == [p.problems]
  {
    var n := "expected-problems";
    SevenConcat([p.description], p.properties, [p.problems], p.messages, p.lines, [p.code], p.version, n);
    assert ElementsNamedIn([p.description], n) == [] by { UniformMatches([p.description], "description", n); }
    assert ElementsNamedIn(p.properties, n) == [] by { UniformMatches(p.properties, "rule-property", n); }
    assert ElementsNamedIn([p.problems], n) == [p.problems] by { UniformMatches([p.problems], "expected-problems", n); }
    assert ElementsNamedIn(p.messages, n) == [] by { MessagesFound(p.messages, n); ProblemsAreNotMessages(); }
    assert ElementsNamedIn(p.lines, n) == [] by { UniformMatches(p.lines, "expected-linenumbers", n); }
    assert ElementsNamedIn([p.code], n) == [] by { UniformMatches([p.code], "code", n); }
    assert ElementsNamedIn(p.version, n) == [] by { UniformMatches(p.version, "source-type", n); }
    assert ElementsNamedIn(Children(p), n) == [] + [] + [p.problems] + [] + [] + [] + [];
  }

  lemma {:induction false} FoundMessages(p: DumpParts)
    requires WellShaped(p)
    ensures ElementsNamedIn(Children(p), "expected-messages") == p.messages
  {
    var n := "expected-messages";
    SevenConcat([p.description], p.properties, [p.problems], p.messages, p.lines, [p.code], p.version, n);
    assert ElementsNamedIn([p.description], n) == [] by { UniformMatches([p.description], "description", n); }
    assert ElementsNamedIn(p.properties, n) == [] by { UniformMatches(p.properties, "rule-property", n); }
    assert ElementsNamedIn([p.problems], n) == [] by { UniformMatches([p.problems], "expected-problems", n); ProblemsAreNotMessages(); }
    assert ElementsNamedIn(p.messages, n) == p.messages by { MessagesFound(p.messages, n); assert p.messages + [] == p.messages; }
    assert ElementsNamedIn(p.lines, n) == [] by { UniformMatches(p.lines, "expected-linenumbers", n); }
    assert ElementsNamedIn([p.code], n) == [] by { UniformMatches([p.code], "code", n); }
    assert ElementsNamedIn(p.version, n) == [] by { UniformMatches(p.version, "source-type", n); }
    assert ElementsNamedIn(Children(p), n) == [] + [] + [] + p.messages + [] + [] + [];
  }

  lemma {:induction false} FoundLines(p: DumpParts)
    requires WellShaped(p)
    ensures ElementsNamedIn(Children(p), "expected-linenumbers") == p.lines
  {
    var n := "expected-linenumbers";
    SevenConcat([p.description], p.properties, [p.problems], p.messages, p.lines, [p.code], p.version, n);
    assert ElementsNamedIn([p.description], n) == [] by { UniformMatches([p.description], "description", n); }
    assert ElementsNamedIn(p.properties, n) == [] by { UniformMatches(p.properties, "rule-property", n); }
    assert ElementsNamedIn([p.problems], n) == [] by { UniformMatches([p.problems], "expected-problems", n); }
    assert ElementsNamedIn(p.messages, n) == [] by { MessagesFound(p.messages, n); }
    assert ElementsNamedIn(p.lines, n) == p.lines by { UniformMatches(p.lines, "expected-linenumbers", n); }
    assert ElementsNamedIn([p.code], n) == [] by { UniformMatches([p.code], "code", n); }
    assert ElementsNamedIn(p.version, n) == [] by { UniformMatches(p.version, "source-type", n); }
    assert ElementsNamedIn(Children(p), n) == [] + [] + [] + [] + p.lines + [] + [];
  }

  lemma {:induction false} FoundCode(p: DumpParts)
    requires WellShaped(p)
    ensures ElementsNamedIn(Children(p), "code") == [p.code]
  {
    var n := "code";
    SevenConcat([p.description], p.properties, [p.problems], p.messages, p.lines, [p.code], p.version, n);
    assert ElementsNamedIn([p.description], n) == [] by { UniformMatches([p.description], "description", n); }
    assert ElementsNamedIn(p.properties, n) == [] by { UniformMatches(p.properties, "rule-property", n); }
    assert ElementsNamedIn([p.problems], n) == [] by { UniformMatches([p.problems], "expected-problems", n); }
    assert ElementsNamedIn(p.messages, n) == [] by { MessagesFound(p.messages, n); }
    assert ElementsNamedIn(p.lines, n) == [] by { UniformMatches(p.lines, "expected-linenumbers", n); }
    assert ElementsNamedIn([p.code], n) == [p.code] by { UniformMatches([p.code], "code", n); }
    assert ElementsNamedIn(p.version, n) == [] by { UniformMatches(p.version, "source-type", n); }
    assert ElementsNamedIn(Children(p), n) == [] + [] + [] + [] + [] + [p.code] + [];
  }

  lemma {:induction false} FoundVersion(p: DumpParts)
    requires WellShaped(p)
    ensures ElementsNamedIn(Children(p), "source-type") == p.version
  {
    var n := "source-type";
    SevenConcat([p.description], p.properties, [p.problems], p.messages, p.lines, [p.code], p.version, n);
    assert ElementsNamedIn([p.description], n) == [] by { UniformMatches([p.description], "description", n); DescriptionIsNotSourceType(); }
    assert ElementsNamedIn(p.properties, n) == [] by { UniformMatches(p.properties, "rule-property", n); }
    assert ElementsNamedIn([p.problems], n) == [] by { UniformMatches([p.problems], "expected-problems", n); }
    assert ElementsNamedIn(p.messages, n) == [] by { MessagesFound(p.messages, n); }
    assert ElementsNamedIn(p.lines, n) == [] by { UniformMatches(p.lines, "expected-linenumbers", n); }
    assert ElementsNamedIn([p.code], n) == [] by { UniformMatches([p.code], "code", n); }
    assert ElementsNamedIn(p.version, n) == p.version by { UniformMatches(p.version, "source-type", n); }
    assert ElementsNamedIn(Children(p), n) == [] + [] + [] + [] + [] + [] + p.version;
  }

}

=== FILE: test_xml_parser.dfy ===
/**
 * TestXmlParser: reading the test-code elements of a rule-test document
 * into TestDescriptors. Every exception the Java code can raise while
 * reading one test-code element (a missing tag, a missing attribute, a bad
 * number, an unknown language version) is a ParseError here, and the
 * language registry is the set of terse names it knows.
 */
module TestXmlParser {
  import opened Wrappers
  import opened JavaString
  import opened Xml
  import opened TestDescriptors
  import opened LiveTestCases
  import PmdCoordinatesSystem

  datatype ParseError =
    | RequiredTagMissing(tag: string)
    | NoCodeOrCodeRef
    | NoMatchingCodeFragment(id: string)
    | MissingAttribute(element: string, attribute: string)
    | BadNumber(input: string)
    | UnknownLanguageVersion(version: string)

  predicate AllElements(nodes: seq<XmlNode>) {
    forall i :: 0 <= i < |nodes| ==> nodes[i].Element?
  }

  // ---------------------------------------------------------------- flags

  /** reinitializeRule holds unless the attribute reads "false" or "0", ignoring case. */
  function ReinitializeRule(testCode: XmlNode): (b: bool)
    requires testCode.Element?
    ensures !b <==>
      ("reinitializeRule" in testCode.attributes &&
       ToLowerString(testCode.attributes["reinitializeRule"]) in {"false", "0"})
  {
    var v := Attribute(testCode, "reinitializeRule");
    LowerLiterals();
    !(v.Some? && (EqualsIgnoreCase("false", v.value) || EqualsIgnoreCase("0", v.value)))
  }

  lemma {:induction false} LowerLiterals()
    ensures ToLowerString("false") == "false" && ToLowerString("0") == "0"
  {
    var f := ToLowerString("false");
    assert f[0] == 'f' && f[1] == 'a' && f[2] == 'l' && f[3] == 's' && f[4] == 'e';
  }

  /** A flag that holds unless the attribute reads "false", ignoring case. */
  function FlagUnlessFalse(testCode: XmlNode, key: string): (b: bool)
    requires testCode.Element?
    ensures !b <==> (key in testCode.attributes && ToLowerString(testCode.attributes[key]) == "false")
  {
    var v := Attribute(testCode, key);
    LowerLiterals();
    !(v.Some? && EqualsIgnoreCase("false", v.value))
  }

  // ---------------------------------------------------------------- properties

  /** The first n elements all carry the attribute `key`. */
  predicate AllCarry(elts: seq<XmlNode>, n: nat, key: string)
    requires AllElements(elts) && n <= |elts|
  {
    n == 0 || (AllCarry(elts, n - 1, key) && key in elts[n - 1].attributes)
  }

  lemma {:induction false} AllCarryEach(elts: seq<XmlNode>, n: nat, key: string)
    requires AllElements(elts) && n <= |elts|
    ensures AllCarry(elts, n, key) <==> forall k :: 0 <= k < n ==> key in elts[k].attributes
  {
    if n > 0 {
      AllCarryEach(elts, n - 1, key);
    }
  }

  /** elts[i] has a name that no later element among the first n carries. */
  ghost predicate LastNamed(elts: seq<XmlNode>, n: nat, i: nat)
    requires i < n <= |elts| && AllElements(elts)
  {
    "name" in elts[i].attributes &&
    forall j :: i < j < n ==> "name" !in elts[j].attributes || elts[j].attributes["name"] != elts[i].attributes["name"]
  }

  /**
   * The rule-property elements set one property each, in document order; a
   * missing "name" attribute is the NullPointerException of parseSingle.
   */
  function ReadProperties(elts: seq<XmlNode>): (r: Result<map<string, string>, ParseError>)
    requires AllElements(elts)
    ensures r.Success? <==> forall k :: 0 <= k < |elts| ==> "name" in elts[k].attributes
  {
    AllCarryEach(elts, |elts|, "name");
    PropertiesBefore(elts, |elts|)
  }

  /** The properties set by the first n elements. */
  function PropertiesBefore(elts: seq<XmlNode>, n: nat): (r: Result<map<string, string>, ParseError>)
    requires AllElements(elts) && n <= |elts|
    ensures r.Success? <==> AllCarry(elts, n, "name")
  {
    if n == 0 then Success(map[])
    else
      var prev := PropertiesBefore(elts, n - 1);
      var last := elts[n - 1];
      if prev.Failure? then prev
      else if "name" !in last.attributes then Failure(MissingAttribute("rule-property", "name"))
      else Success(prev.value[last.attributes["name"] := ParseTextNode(last)])
  }

  /** The "name" attributes of the first n elements. */
  function NamesBefore(elts: seq<XmlNode>, n: nat): set<string>
    requires AllElements(elts) && n <= |elts|
  {
    if n == 0 then {}
    else
      var last := elts[n - 1];
      NamesBefore(elts, n - 1) + if "name" in last.attributes then {last.attributes["name"]} else {}
  }

  /** A name is collected exactly when one of the first n elements carries it. */
  lemma {:induction false} NamesBeforeEach(elts: seq<XmlNode>, n: nat, x: string)
    requires AllElements(elts) && n <= |elts|
    ensures x in NamesBefore(elts, n) <==>
      exists k :: 0 <= k < n && "name" in elts[k].attributes && elts[k].attributes["name"] == x
  {
    if n > 0 {
      NamesBeforeEach(elts, n - 1, x);
    }
  }

  /** The properties read are exactly the names of the rule-property elements. */
  lemma {:induction false} ReadPropertiesKeys(elts: seq<XmlNode>)
    requires AllElements(elts)
    requires ReadProperties(elts).Success?
    ensures forall x :: x in ReadProperties(elts).value <==>
      exists k :: 0 <= k < |elts| && elts[k].attributes["name"] == x
  {
    PropertiesBeforeKeys(elts, |elts|);
    forall x
      ensures x in ReadProperties(elts).value <==> exists k :: 0 <= k < |elts| && elts[k].attributes["name"] == x
    {
      NamesBeforeEach(elts, |elts|, x);
    }
  }

  lemma {:induction false} PropertiesBeforeKeys(elts: seq<XmlNode>, n: nat)
    requires AllElements(elts) && n <= |elts|
    requires PropertiesBefore(elts, n).Success?
    ensures PropertiesBefore(elts, n).value.Keys == NamesBefore(elts, n)
  {
    if n > 0 {
      var prev := PropertiesBefore(elts, n - 1).value;
      var name := elts[n - 1].attributes["name"];
      PropertiesBeforeKeys(elts, n - 1);
      assert PropertiesBefore(elts, n).value == prev[name := ParseTextNode(elts[n - 1])];
      assert NamesBefore(elts, n) == NamesBefore(elts, n - 1) + {name};
    }
  }

  /** A property's value is the text of the last rule-property element with its name. */
  lemma {:induction false} ReadPropertiesLastWins(elts: seq<XmlNode>, i: nat)
    requires AllElements(elts)
    requires ReadProperties(elts).Success?
    requires i < |elts| && LastNamed(elts, |elts|, i)
    ensures elts[i].attributes["name"] in ReadProperties(elts).value
    ensures ReadProperties(elts).value[elts[i].attributes["name"]] == ParseTextNode(elts[i])
  {
    PropertiesBeforeLastWins(elts, |elts|, i);
  }

  lemma {:induction false} PropertiesBeforeLastWins(elts: seq<XmlNode>, n: nat, i: nat)
    requires AllElements(elts) && n <= |elts|
    requires PropertiesBefore(elts, n).Success?
    requires i < n && LastNamed(elts, n, i)
    ensures elts[i].attributes["name"] in PropertiesBefore(elts, n).value
    ensures PropertiesBefore(elts, n).value[elts[i].attributes["name"]] == ParseTextNode(elts[i])
  {
    if i < n - 1 {
      assert LastNamed(elts, n - 1, i);
      PropertiesBeforeLastWins(elts, n - 1, i);
    }
  }

  /** Rule-property elements with distinct names set exactly one property each. */
  lemma {:induction false} ReadDistinctProperties(elts: seq<XmlNode>, names: seq<string>, m: map<string, string>)
    requires AllElements(elts) && |elts| == |names|
    requires forall k :: 0 <= k < |elts| ==> "name" in elts[k].attributes && elts[k].attributes["name"] == names[k]
    requires forall i, j :: 0 <= i < j < |names| ==> names[i] != names[j]
    requires forall k :: 0 <= k < |names| ==> names[k] in m && m[names[k]] == ParseTextNode(elts[k])
    requires forall x :: x in m ==> x in names
    ensures ReadProperties(elts) == Success(m)
  {
    var r := ReadProperties(elts).value;
    forall x | x in m
      ensures x in r && r[x] == m[x]
    {
      var i :| 0 <= i < |names| && names[i] == x;
      assert LastNamed(elts, |elts|, i);
      ReadPropertiesLastWins(elts, i);
    }
    ReadPropertiesKeys(elts);
    assert r.Keys == m.Keys;
    assert r == m;
  }

  // ---------------------------------------------------------------- messages and line numbers

  /** The trimmed text of each message inside the first expected-messages element. */
  function ReadMessages(testCode: XmlNode): (ms: seq<string>)
    requires testCode.Element?
    ensures |GetElementsByTagName(testCode, "expected-messages")| == 0 ==> ms == []
    ensures forall i :: 0 <= i < |ms| ==> Trimmed(ms[i])
  {
    var lists := GetElementsByTagName(testCode, "expected-messages");
    if |lists| == 0 then []
    else
      TrimmedTexts(GetElementsByTagName(lists[0], "message"))
  }

  /** parseTextNode applied to each element, in order. */
  function TrimmedTexts(items: seq<XmlNode>): (ts: seq<string>)
    requires AllElements(items)
    ensures |ts| == |items|
    ensures forall i :: 0 <= i < |items| ==> ts[i] == ParseTextNode(items[i])
  {
    seq(|items|, i requires 0 <= i < |items| => ParseTextNode(items[i]))
  }

  /** Integer.valueOf on each piece, in order; the first bad piece is the error. */
  function ParseInts(pieces: seq<string>): (r: Result<seq<int>, ParseError>)
    ensures r.Success? <==> forall i :: 0 <= i < |pieces| ==> ParseInt(pieces[i]).Success?
    ensures r.Success? ==>
      |r.value| == |pieces| &&
      forall i :: 0 <= i < |pieces| ==> r.value[i] == ParseInt(pieces[i]).value
    ensures r.Failure? ==> exists i :: 0 <= i < |pieces| && r.error == BadNumber(pieces[i])
  {
    if |pieces| == 0 then Success([])
    else
      var head := ParseInt(pieces[0]);
      if head.Failure? then Failure(BadNumber(pieces[0]))
      else
        var tail := ParseInts(pieces[1..]);
        if tail.Failure? then tail
        else Success([head.value] + tail.value)
  }

  /** The whole text of the first expected-linenumbers element, split on " *, *". */
  function ReadLineNumbers(testCode: XmlNode): (r: Result<seq<int>, ParseError>)
    requires testCode.Element?
    ensures |GetElementsByTagName(testCode, "expected-linenumbers")| == 0 ==> r == Success([])
    ensures r.Success? ==> forall i :: 0 <= i < |r.value| ==> IsInt32(r.value[i])
  {
    var lists := GetElementsByTagName(testCode, "expected-linenumbers");
    if |lists| == 0 then Success([])
    else ParseInts(Split(GetTextContent(lists[0]), CommaInSpaces))
  }

  /** Printed line numbers joined by "," read back as the same numbers. */
  lemma {:induction false} LineNumbersRoundTrip(lines: seq<int>)
    requires |lines| >= 1
    requires forall i :: 0 <= i < |lines| ==> IsInt32(lines[i])
    ensures ParseInts(Split(Join(",", seq(|lines|, i requires 0 <= i < |lines| => IntToString(lines[i]))), CommaInSpaces))
            == Success(lines)
  {
    var printed := seq(|lines|, i requires 0 <= i < |lines| => IntToString(lines[i]));
    forall k | 0 <= k < |printed|
      ensures PlainListItem(CommaInSpaces, printed[k])
    {
      PrintedIntIsPlain(lines[k]);
    }
    SplitJoin(CommaInSpaces, printed);
    forall k | 0 <= k < |printed|
      ensures ParseInt(printed[k]) == Success(lines[k])
    {
      ParseIntToString(lines[k]);
    }
    var r := ParseInts(printed);
    assert r.Success?;
    assert r.value == lines;
  }

  lemma {:induction false} PrintedIntIsPlain(n: int)
    ensures PlainListItem(CommaInSpaces, IntToString(n))
  {
    var s := IntToString(n);
    if n < 0 {
      assert s == "-" + NatToString(-n);
      forall k | 0 <= k < |s| ensures PlainChar(CommaInSpaces, s[k]) {
        if k > 0 {
          assert s[k] == NatToString(-n)[k - 1];
        }
      }
    }
  }

  // ---------------------------------------------------------------- code

  /** getNodeValue: the trimmed direct text of the first descendant called `tag`, if there is one. */
  function GetNodeValue(parent: XmlNode, tag: string): (r: Option<string>)
    requires parent.Element?
    ensures r.None? <==> |GetElementsByTagName(parent, tag)| == 0
    ensures r.Some? ==> r.value == ParseTextNode(GetElementsByTagName(parent, tag)[0])
  {
    var nodes := GetElementsByTagName(parent, tag);
    if |nodes| == 0 then None else Some(ParseTextNode(nodes[0]))
  }

  /** getNodeValue with required = true: a missing tag is an error. */
  function RequiredNodeValue(parent: XmlNode, tag: string): (r: Result<string, ParseError>)
    requires parent.Element?
    ensures r.Failure? <==> |GetElementsByTagName(parent, tag)| == 0
    ensures r.Failure? ==> r.error == RequiredTagMissing(tag)
    ensures r.Success? ==> r.value == ParseTextNode(GetElementsByTagName(parent, tag)[0])
  {
    var v := GetNodeValue(parent, tag);
    if v.None? then Failure(RequiredTagMissing(tag)) else Success(v.value)
  }

  /** frags[i] is the last of the first n fragments whose id is `id`. */
  ghost predicate LastWithId(frags: seq<XmlNode>, n: nat, id: string, i: nat)
    requires AllElements(frags) && n <= |frags|
  {
    i < n && "id" in frags[i].attributes && frags[i].attributes["id"] == id &&
    forall j :: i < j < n ==> "id" !in frags[j].attributes || frags[j].attributes["id"] != id
  }

  /**
   * The fragment loop of parseSingle: every fragment's id is read, and each
   * fragment with the referenced id overrides the previous match.
   */
  function FindFragment(frags: seq<XmlNode>, id: string): (r: Result<Option<string>, ParseError>)
    requires AllElements(frags)
    ensures r.Success? <==> forall k :: 0 <= k < |frags| ==> "id" in frags[k].attributes
    ensures r.Success? ==>
      (r.value.None? <==> forall k :: 0 <= k < |frags| ==> frags[k].attributes["id"] != id)
    ensures r.Success? && r.value.Some? ==> Trimmed(r.value.value)
  {
    AllCarryEach(frags, |frags|, "id");
    var r := FragmentBefore(frags, id, |frags|);
    if r.Failure? then r
    else
      FragmentBeforeNone(frags, id, |frags|);
      r
  }

  /** The loop after its first n rounds. */
  function FragmentBefore(frags: seq<XmlNode>, id: string, n: nat): (r: Result<Option<string>, ParseError>)
    requires AllElements(frags) && n <= |frags|
    ensures r.Success? <==> AllCarry(frags, n, "id")
    ensures r.Success? && r.value.Some? ==> Trimmed(r.value.value)
  {
    if n == 0 then Success(None)
    else
      var prev := FragmentBefore(frags, id, n - 1);
      var last := frags[n - 1];
      if prev.Failure? then prev
      else if "id" !in last.attributes then Failure(MissingAttribute("code-fragment", "id"))
      else if last.attributes["id"] == id then Success(Some(ParseTextNode(last)))
      else prev
  }

  /** The loop finds nothing exactly when none of the first n fragments carries the id. */
  lemma {:induction false} FragmentBeforeNone(frags: seq<XmlNode>, id: string, n: nat)
    requires AllElements(frags) && n <= |frags|
    requires FragmentBefore(frags, id, n).Success?
    ensures forall k :: 0 <= k < n ==> "id" in frags[k].attributes
    ensures FragmentBefore(frags, id, n).value.None? <==>
      forall k :: 0 <= k < n ==> frags[k].attributes["id"] != id
  {
    AllCarryEach(frags, n, "id");
    if n > 0 {
      FragmentBeforeNone(frags, id, n - 1);
    }
  }

  /** A found fragment is the last one carrying the id. */
  lemma {:induction false} FindFragmentLastWins(frags: seq<XmlNode>, id: string)
    requires AllElements(frags)
    requires FindFragment(frags, id).Success? && FindFragment(frags, id).value.Some?
    ensures exists i: nat :: LastWithId(frags, |frags|, id, i) && FindFragment(frags, id).value.value == ParseTextNode(frags[i])
  {
    FragmentBeforeLastWins(frags, id, |frags|);
  }

  lemma {:induction false} FragmentBeforeLastWins(frags: seq<XmlNode>, id: string, n: nat)
    requires AllElements(frags) && n <= |frags|
    requires FragmentBefore(frags, id, n).Success? && FragmentBefore(frags, id, n).value.Some?
    ensures exists i: nat :: LastWithId(frags, n, id, i) && FragmentBefore(frags, id, n).value.value == ParseTextNode(frags[i])
  {
    var prev := FragmentBefore(frags, id, n - 1);
    if frags[n - 1].attributes["id"] == id {
      assert LastWithId(frags, n, id, n - 1);
    } else {
      FragmentBeforeLastWins(frags, id, n - 1);
      var i: nat :| LastWithId(frags, n - 1, id, i) && prev.value.value == ParseTextNode(frags[i]);
      assert LastWithId(frags, n, id, i);
    }
  }

  /** The code of a test: the code element, or else the fragment its code-ref names. */
  function ReadCode(testCode: XmlNode, root: XmlNode): (r: Result<string, ParseError>)
    requires testCode.Element? && root.Element?
    ensures |GetElementsByTagName(testCode, "code")| > 0 ==>
      r == Success(ParseTextNode(GetElementsByTagName(testCode, "code")[0]))
    ensures |GetElementsByTagName(testCode, "code")| == 0 && |GetElementsByTagName(testCode, "code-ref")| == 0 ==>
      r == Failure(NoCodeOrCodeRef)
    ensures r.Success? ==> Trimmed(r.value)
  {
    var code := GetNodeValue(testCode, "code");
    if code.Some? then Success(code.value)
    else
      var refs := GetElementsByTagName(testCode, "code-ref");
      if |refs| == 0 then Failure(NoCodeOrCodeRef)
      else
        var id := Attribute(refs[0], "id");
        if id.None? then Failure(MissingAttribute("code-ref", "id"))
        else
          var found := FindFragment(GetElementsByTagName(root, "code-fragment"), id.value);
          if found.Failure? then Failure(found.error)
          else if found.value.None? then Failure(NoMatchingCodeFragment(id.value))
          else Success(found.value.value)
  }

  /** With no code element, the code is the last fragment whose id matches the code-ref. */
  lemma {:induction false} CodeFromLastFragment(testCode: XmlNode, root: XmlNode)
    requires testCode.Element? && root.Element?
    requires |GetElementsByTagName(testCode, "code")| == 0
    requires |GetElementsByTagName(testCode, "code-ref")| > 0
    requires ReadCode(testCode, root).Success?
    ensures var frags := GetElementsByTagName(root, "code-fragment");
            var id := GetElementsByTagName(testCode, "code-ref")[0].attributes["id"];
            exists i: nat :: LastWithId(frags, |frags|, id, i) && ReadCode(testCode, root).value == ParseTextNode(frags[i])
  {
    FindFragmentLastWins(GetElementsByTagName(root, "code-fragment"), GetElementsByTagName(testCode, "code-ref")[0].attributes["id"]);
  }

  // ---------------------------------------------------------------- one test

  /** The required expected-problems tag of parseSingle, read with Integer.parseInt. */
  function ReadExpectedProblems(testCode: XmlNode): (r: Result<int, ParseError>)
    requires testCode.Element?
    ensures r.Success? <==>
      (|GetElementsByTagName(testCode, "expected-problems")| > 0 &&
       ParseInt(ParseTextNode(GetElementsByTagName(testCode, "expected-problems")[0])).Success?)
    ensures r.Success? ==> IsInt32(r.value)
  {
    var text := RequiredNodeValue(testCode, "expected-problems");
    if text.Failure? then Failure(text.error)
    else
      var n := ParseInt(text.value);
      if n.Failure? then Failure(BadNumber(text.value)) else Success(n.value)
  }

  /** The optional source-type of parseSingle, which the registry must know. */
  function ReadLanguageVersion(testCode: XmlNode, knownVersions: set<string>): (r: Result<Option<string>, ParseError>)
    requires testCode.Element?
    ensures r.Failure? <==> (var v := GetNodeValue(testCode, "source-type"); v.Some? && v.value !in knownVersions)
    ensures r.Success? ==> r.value == GetNodeValue(testCode, "source-type")
  {
    var v := GetNodeValue(testCode, "source-type");
    if v.Some? && v.value !in knownVersions then Failure(UnknownLanguageVersion(v.value))
    else Success(v)
  }

  /**
   * parseSingle: the fields of one test-code element, read in the order of
   * the Java method so that the first failing step is the error reported.
   */
  function ParseSingle(testCode: XmlNode, root: XmlNode, knownVersions: set<string>): (r: Result<TestDescriptor, ParseError>)
    requires testCode.Element? && root.Element?
    ensures r.Success? <==>
      ReadProperties(GetElementsByTagName(testCode, "rule-property")).Success? &&
      ReadLineNumbers(testCode).Success? &&
      ReadCode(testCode, root).Success? &&
      |GetElementsByTagName(testCode, "description")| > 0 &&
      ReadExpectedProblems(testCode).Success? &&
      ReadLanguageVersion(testCode, knownVersions).Success?
  {
    var reinitialize := ReinitializeRule(testCode);
    var regression := FlagUnlessFalse(testCode, "regressionTest");
    var auxClasspath := FlagUnlessFalse(testCode, "useAuxClasspath");
    var props := ReadProperties(GetElementsByTagName(testCode, "rule-property"));
    if props.Failure? then Failure(props.error)
    else
      var messages := ReadMessages(testCode);
      var lines := ReadLineNumbers(testCode);
      if lines.Failure? then Failure(lines.error)
      else
        var code := ReadCode(testCode, root);
        if code.Failure? then Failure(code.error)
        else
          var description := RequiredNodeValue(testCode, "description");
          if description.Failure? then Failure(description.error)
          else
            var problems := ReadExpectedProblems(testCode);
            if problems.Failure? then Failure(problems.error)
            else
              var version := ReadLanguageVersion(testCode, knownVersions);
              if version.Failure? then Failure(version.error)
              else
                Success(TestDescriptor(
                  code.value, description.value, problems.value, version.value,
                  reinitialize, regression, auxClasspath,
                  messages, lines.value, props.value, Unnumbered))
  }

  /** The descriptor an accepted test-code element yields, field by field. */
  lemma ParseSingleFields(testCode: XmlNode, root: XmlNode, knownVersions: set<string>)
    requires testCode.Element? && root.Element?
    requires ParseSingle(testCode, root, knownVersions).Success?
    ensures ParseSingle(testCode, root, knownVersions).value == TestDescriptor(
      ReadCode(testCode, root).value,
      ParseTextNode(GetElementsByTagName(testCode, "description")[0]),
      ReadExpectedProblems(testCode).value,
      GetNodeValue(testCode, "source-type"),
      ReinitializeRule(testCode),
      FlagUnlessFalse(testCode, "regressionTest"),
      FlagUnlessFalse(testCode, "useAuxClasspath"),
      ReadMessages(testCode),
      ReadLineNumbers(testCode).value,
      ReadProperties(GetElementsByTagName(testCode, "rule-property")).value,
      Unnumbered)
  {
  }

  /** A test-code element without a description or expected-problems tag is rejected. */
  lemma RequiredTags(testCode: XmlNode, root: XmlNode, knownVersions: set<string>)
    requires testCode.Element? && root.Element?
    requires |GetElementsByTagName(testCode, "description")| == 0 ||
             |GetElementsByTagName(testCode, "expected-problems")| == 0
    ensures ParseSingle(testCode, root, knownVersions).Failure?
  {
  }

  // ---------------------------------------------------------------- the document

  /** A test-code element that could not be read, by its position among all of them. */
  datatype TestFailure = TestFailure(index: nat, cause: ParseError)

  /** The message of the RuntimeException handed to the error handler. */
  function FailureMessage(f: TestFailure): string {
    "Exception while parsing test #" + NatToString(f.index)
  }

  /** The loop of parseTests from position i on, over the outcome of parseSingle at each position. */
  function CollectFrom(outcomes: seq<Result<TestDescriptor, ParseError>>, i: nat)
    : (r: (seq<TestDescriptor>, seq<TestFailure>))
    requires i <= |outcomes|
    ensures |r.0| + |r.1| == |outcomes| - i
    ensures forall k :: 0 <= k < |r.0| ==>
      var n := r.0[k].numberInDocument;
      i <= n < |outcomes| && outcomes[n].Success? && r.0[k] == outcomes[n].value.(numberInDocument := n)
    ensures forall k, l :: 0 <= k < l < |r.0| ==> r.0[k].numberInDocument < r.0[l].numberInDocument
    ensures forall k :: 0 <= k < |r.1| ==>
      var n := r.1[k].index;
      i <= n < |outcomes| && outcomes[n] == Failure(r.1[k].cause)
    ensures forall k, l :: 0 <= k < l < |r.1| ==> r.1[k].index < r.1[l].index
    decreases |outcomes| - i
  {
    if i == |outcomes| then ([], [])
    else
      var rest := CollectFrom(outcomes, i + 1);
      var one := outcomes[i];
      if one.Failure? then (rest.0, [TestFailure(i, one.error)] + rest.1)
      else ([one.value.(numberInDocument := i)] + rest.0, rest.1)
  }

  /** The outcome of parseSingle on each test-code element of the document, in document order. */
  function Outcomes(root: XmlNode, knownVersions: set<string>): (r: seq<Result<TestDescriptor, ParseError>>)
    requires root.Element?
    ensures |r| == |GetElementsByTagName(root, "test-code")|
  {
    var codes := GetElementsByTagName(root, "test-code");
    seq(|codes|, k requires 0 <= k < |codes| => ParseSingle(codes[k], root, knownVersions))
  }

  lemma OutcomeAt(root: XmlNode, knownVersions: set<string>, k: nat)
    requires root.Element? && k < |GetElementsByTagName(root, "test-code")|
    ensures Outcomes(root, knownVersions)[k] == ParseSingle(GetElementsByTagName(root, "test-code")[k], root, knownVersions)
  {
  }

  /** parseTests: every test-code element of the document, each read on its own. */
  function ParseTests(root: XmlNode, knownVersions: set<string>): (r: (seq<TestDescriptor>, seq<TestFailure>))
    requires root.Element?
  {
    CollectFrom(Outcomes(root, knownVersions), 0)
  }

  /**
   * An accepted outcome j becomes descriptor number j; the converse is part
   * of CollectFrom's contract.
   */
  lemma {:induction false} CollectedDescriptor(outcomes: seq<Result<TestDescriptor, ParseError>>, i: nat, j: nat)
    requires i <= j < |outcomes| && outcomes[j].Success?
    ensures exists k :: 0 <= k < |CollectFrom(outcomes, i).0| &&
                        CollectFrom(outcomes, i).0[k] == outcomes[j].value.(numberInDocument := j)
    decreases |outcomes| - i
  {
    var r := CollectFrom(outcomes, i);
    var rest := CollectFrom(outcomes, i + 1);
    if j == i {
      assert r.0[0] == outcomes[j].value.(numberInDocument := j);
    } else {
      CollectedDescriptor(outcomes, i + 1, j);
      var k :| 0 <= k < |rest.0| && rest.0[k] == outcomes[j].value.(numberInDocument := j);
      if outcomes[i].Failure? {
        assert r.0[k] == rest.0[k];
      } else {
        assert r.0[k + 1] == rest.0[k];
      }
    }
  }

  /** A rejected outcome j becomes failure j with its cause. */
  lemma {:induction false} CollectedFailure(outcomes: seq<Result<TestDescriptor, ParseError>>, i: nat, j: nat)
    requires i <= j < |outcomes| && outcomes[j].Failure?
    ensures exists k :: 0 <= k < |CollectFrom(outcomes, i).1| &&
                        CollectFrom(outcomes, i).1[k] == TestFailure(j, outcomes[j].error)
    decreases |outcomes| - i
  {
    var r := CollectFrom(outcomes, i);
    var rest := CollectFrom(outcomes, i + 1);
    if j == i {
      assert r.1[0] == TestFailure(j, outcomes[j].error);
    } else {
      CollectedFailure(outcomes, i + 1, j);
      var k :| 0 <= k < |rest.1| && rest.1[k] == TestFailure(j, outcomes[j].error);
      if outcomes[i].Success? {
        assert r.1[k] == rest.1[k];
      } else {
        assert r.1[k + 1] == rest.1[k];
      }
    }
  }

  /** Outcome j lands on exactly one side of the partition, under its own number. */
  lemma {:induction false} CollectPartition(outcomes: seq<Result<TestDescriptor, ParseError>>, j: nat)
    requires j < |outcomes|
    ensures var r := CollectFrom(outcomes, 0);
      (outcomes[j].Success? <==> exists k :: 0 <= k < |r.0| && r.0[k].numberInDocument == j) &&
      (outcomes[j].Failure? <==> exists k :: 0 <= k < |r.1| && r.1[k].index == j) &&
      (outcomes[j].Success? ==> exists k :: 0 <= k < |r.0| && r.0[k] == outcomes[j].value.(numberInDocument := j)) &&
      (outcomes[j].Failure? ==> exists k :: 0 <= k < |r.1| && r.1[k] == TestFailure(j, outcomes[j].error))
  {
    var r := CollectFrom(outcomes, 0);
    if outcomes[j].Success? {
      CollectedDescriptor(outcomes, 0, j);
      var k :| 0 <= k < |r.0| && r.0[k] == outcomes[j].value.(numberInDocument := j);
      assert r.0[k].numberInDocument == j;
      forall l | 0 <= l < |r.1| ensures r.1[l].index != j {
        assert outcomes[r.1[l].index].Failure?;
      }
    } else {
      CollectedFailure(outcomes, 0, j);
      var k :| 0 <= k < |r.1| && r.1[k] == TestFailure(j, outcomes[j].error);
      assert r.1[k].index == j;
      forall l | 0 <= l < |r.0| ensures r.0[l].numberInDocument != j {
        assert outcomes[r.0[l].numberInDocument].Success?;
      }
    }
  }

  /**
   * Test-code element j ends up as descriptor number j when parseSingle
   * accepts it, and as failure j when it throws.
   */
  lemma {:induction false} ParseTestsPartition(root: XmlNode, knownVersions: set<string>, j: nat)
    requires root.Element? && j < |GetElementsByTagName(root, "test-code")|
    ensures var r := ParseTests(root, knownVersions);
      var one := ParseSingle(GetElementsByTagName(root, "test-code")[j], root, knownVersions);
      (one.Success? <==> exists k :: 0 <= k < |r.0| && r.0[k].numberInDocument == j) &&
      (one.Failure? <==> exists k :: 0 <= k < |r.1| && r.1[k].index == j) &&
      (one.Success? ==> exists k :: 0 <= k < |r.0| && r.0[k] == one.value.(numberInDocument := j)) &&
      (one.Failure? ==> exists k :: 0 <= k < |r.1| && r.1[k] == TestFailure(j, one.error))
  {
    var outcomes := Outcomes(root, knownVersions);
    OutcomeAt(root, knownVersions, j);
    CollectPartition(outcomes, j);
  }

  /**
   * parseXmlTests: the parsed descriptors turned into live test cases, and
   * the failures parseTests hands to the error handler. A descriptor that
   * fromDescriptor rejects aborts the whole load, since the stream mapping
   * is outside the per-test try block; the parse failures have been
   * reported by then all the same.
   */
  function ParseXmlTests(root: XmlNode, knownVersions: set<string>)
    : (r: (Result<seq<LiveTestCase>, PmdCoordinatesSystem.CoordError>, seq<TestFailure>))
    requires root.Element?
    ensures r.1 == ParseTests(root, knownVersions).1
    ensures var parsed := ParseTests(root, knownVersions);
      r.0.Success? <==> forall k :: 0 <= k < |parsed.0| ==> FromDescriptor(parsed.0[k]).Success?
    ensures var parsed := ParseTests(root, knownVersions);
      r.0.Success? ==>
        |r.0.value| == |parsed.0| &&
        forall k :: 0 <= k < |parsed.0| ==> r.0.value[k] == FromDescriptor(parsed.0[k]).value
    ensures var parsed := ParseTests(root, knownVersions);
      r.0.Failure? ==> FirstFailure(parsed.0, r.0.error)
  {
    var parsed := ParseTests(root, knownVersions);
    (FromDescriptors(parsed.0), parsed.1)
  }
}

=== FILE: tree_renderer.dfy ===
/**
 * TextTreeRenderer: a syntax tree printed as indented text, one line per
 * node, with fork and edge glyphs drawing the tree structure. Below a
 * maximum level the children of a node are not printed; a single line
 * says how many there are instead. A negative maximum never cuts.
 */
module TreeRenderer {
  import opened AstNodes
  import opened JavaString

  /** The four glyphs that draw the structure, each three characters wide. */
  datatype Strings = Strings(tailFork: string, fork: string, verticalEdge: string, gap: string)

  const Ascii: Strings := Strings("+- ", "+- ", "|  ", "   ")
  const Unicode: Strings := Strings("└─ ", "├─ ", "│  ", "   ")

  /** The glyph set the onlyAsciiChars property selects. */
  function StringsFor(onlyAscii: bool): (str: Strings)
    ensures str.fork != "" && str.tailFork != ""
    ensures onlyAscii ==> forall k :: 0 <= k < |str.fork| ==> str.fork[k] as int < 0x80
  {
    if onlyAscii then Ascii else Unicode
  }

  /** The text before a line: the inherited prefix, then the fork for this node. */
  function Indent(str: Strings, prefix: string, isTail: bool): string {
    prefix + (if isTail then str.tailFork else str.fork)
  }

  /** The prefix handed to the children: a gap under a last child, an edge otherwise. */
  function ChildPrefix(str: Strings, prefix: string, isTail: bool): string {
    prefix + (if isTail then str.gap else str.verticalEdge)
  }

  /** The line that stands for children cut off at the maximum level. */
  function BoundaryMessage(count: nat): string {
    if count == 1 then "1 child is not shown" else NatToString(count) + " children are not shown"
  }

  /** Every line begins with the prefix. */
  predicate AllUnder(lines: seq<string>, prefix: string) {
    forall k :: 0 <= k < |lines| ==> prefix <= lines[k]
  }

  /**
   * printInnerNode: the lines printed for a node and, unless the level is
   * the maximum, its children, each line without its newline.
   */
  function Lines(node: Node, level: int, prefix: string, isTail: bool, str: Strings, maxLevel: int): (r: seq<string>)
    ensures |r| >= 1 && r[0] == Indent(str, prefix, isTail) + node.xpathName
    ensures AllUnder(r, prefix)
    // at the maximum level the children give way to one line counting them
    ensures level == maxLevel ==> |r| == if |node.children| > 0 then 2 else 1
    ensures level == maxLevel && |node.children| > 0 ==> r[1] == Indent(str, ChildPrefix(str, prefix, isTail), true) + BoundaryMessage(|node.children|)
    decreases node, |node.children| + 1
  {
    var first := Indent(str, prefix, isTail) + node.xpathName;
    if level == maxLevel then
      if |node.children| > 0 then
        [first, Indent(str, ChildPrefix(str, prefix, isTail), true) + BoundaryMessage(|node.children|)]
      else [first]
    else [first] + ChildrenLines(node, 0, level + 1, ChildPrefix(str, prefix, isTail), str, maxLevel)
  }

  /** The lines of the children from index i on, the last child drawn as the tail. */
  function ChildrenLines(node: Node, i: nat, level: int, prefix: string, str: Strings, maxLevel: int): (r: seq<string>)
    requires i <= |node.children|
    ensures AllUnder(r, prefix)
    decreases node, |node.children| - i
  {
    if i == |node.children| then []
    else
      Lines(node.children[i], level, prefix, i == |node.children| - 1, str, maxLevel) +
      ChildrenLines(node, i + 1, level, prefix, str, maxLevel)
  }

  /** renderSubtree: the node printed at level 0 with no prefix, every line ended by a newline. */
  function RenderSubtree(node: Node, str: Strings, maxLevel: int): (out: string)
    ensures |out| > 0 && out[|out| - 1] == '\n'
  {
    Join("\n", Lines(node, 0, "", true, str, maxLevel)) + "\n"
  }

  // ---------------------------------------------------------------- what is shown

  /** The XPath names of the tree in preorder, the node first. */
  function Preorder(node: Node): seq<string>
    decreases node, |node.children| + 1
  {
    [node.xpathName] + PreorderFrom(node, 0)
  }

  function PreorderFrom(node: Node, i: nat): seq<string>
    requires i <= |node.children|
    decreases node, |node.children| - i
  {
    if i == |node.children| then [] else Preorder(node.children[i]) + PreorderFrom(node, i + 1)
  }

  /** Line k names the k-th node: it ends with that node's XPath name. */
  predicate Labelled(lines: seq<string>, names: seq<string>) {
    |lines| == |names| &&
    forall k :: 0 <= k < |lines| ==> |names[k]| <= |lines[k]| && lines[k][|lines[k]| - |names[k]|..] == names[k]
  }

  lemma LabelledConcat(l1: seq<string>, n1: seq<string>, l2: seq<string>, n2: seq<string>)
    requires Labelled(l1, n1) && Labelled(l2, n2)
    ensures Labelled(l1 + l2, n1 + n2)
  {
    forall k | 0 <= k < |l1 + l2|
      ensures |(n1 + n2)[k]| <= |(l1 + l2)[k]| &&
        (l1 + l2)[k][|(l1 + l2)[k]| - |(n1 + n2)[k]|..] == (n1 + n2)[k]
    {
      if k >= |l1| {
        assert (l1 + l2)[k] == l2[k - |l1|] && (n1 + n2)[k] == n2[k - |l1|];
      }
    }
  }

  /** Past the maximum level nothing is cut: one line per node, in preorder. */
  lemma {:induction false} UncutLinesArePreorder(node: Node, level: int, prefix: string, isTail: bool, str: Strings, maxLevel: int)
    requires maxLevel < level
    ensures Labelled(Lines(node, level, prefix, isTail, str, maxLevel), Preorder(node))
    decreases node, |node.children| + 1
  {
    var first := Indent(str, prefix, isTail) + node.xpathName;
    assert first[|first| - |node.xpathName|..] == node.xpathName;
    assert Labelled([first], [node.xpathName]);
    UncutChildrenArePreorder(node, 0, level + 1, ChildPrefix(str, prefix, isTail), str, maxLevel);
    LabelledConcat([first], [node.xpathName],
      ChildrenLines(node, 0, level + 1, ChildPrefix(str, prefix, isTail), str, maxLevel), PreorderFrom(node, 0));
  }

  lemma {:induction false} UncutChildrenArePreorder(node: Node, i: nat, level: int, prefix: string, str: Strings, maxLevel: int)
    requires i <= |node.children| && maxLevel < level
    ensures Labelled(ChildrenLines(node, i, level, prefix, str, maxLevel), PreorderFrom(node, i))
    decreases node, |node.children| - i
  {
    if i < |node.children| {
      var isTail := i == |node.children| - 1;
      UncutLinesArePreorder(node.children[i], level, prefix, isTail, str, maxLevel);
      UncutChildrenArePreorder(node, i + 1, level, prefix, str, maxLevel);
      LabelledConcat(Lines(node.children[i], level, prefix, isTail, str, maxLevel), Preorder(node.children[i]),
        ChildrenLines(node, i + 1, level, prefix, str, maxLevel), PreorderFrom(node, i + 1));
    }
  }

  /** With the default, negative maximum level the whole tree is printed: line k names the k-th node in preorder. */
  lemma {:induction false} UnboundedRenderShowsAll(node: Node, str: Strings, maxLevel: int)
    requires maxLevel < 0
    ensures Labelled(Lines(node, 0, "", true, str, maxLevel), Preorder(node))
  {
    UncutLinesArePreorder(node, 0, "", true, str, maxLevel);
  }

  // ---------------------------------------------------------------- reading the output back

  predicate NoNewline(s: string) {
    forall k :: 0 <= k < |s| ==> s[k] != '\n'
  }

  /** Glyphs that keep each node on one line: the forks are non-empty and no glyph holds a newline. */
  predicate OneLineGlyphs(str: Strings) {
    |str.fork| > 0 && |str.tailFork| > 0 &&
    NoNewline(str.fork) && NoNewline(str.tailFork) && NoNewline(str.verticalEdge) && NoNewline(str.gap)
  }

  /** No XPath name in the tree holds a newline. */
  predicate OneLineNames(node: Node)
    decreases node
  {
    NoNewline(node.xpathName) && forall i :: 0 <= i < |node.children| ==> OneLineNames(node.children[i])
  }

  /** Every line is a non-empty piece with no newline in it. */
  predicate AllOneLine(lines: seq<string>) {
    forall k :: 0 <= k < |lines| ==> PlainListItem(Newline, lines[k])
  }

  lemma StandardGlyphsOneLine()
    ensures OneLineGlyphs(Ascii) && OneLineGlyphs(Unicode)
  {
  }

  lemma NoNewlineConcat(a: string, b: string)
    requires NoNewline(a) && NoNewline(b)
    ensures NoNewline(a + b)
  {
    assert forall k :: |a| <= k < |a + b| ==> (a + b)[k] == b[k - |a|];
  }

  lemma AllOneLineConcat(a: seq<string>, b: seq<string>)
    requires AllOneLine(a) && AllOneLine(b)
    ensures AllOneLine(a + b)
  {
    assert forall k :: |a| <= k < |a + b| ==> (a + b)[k] == b[k - |a|];
  }

  lemma {:induction false} IndentOneLine(str: Strings, prefix: string, isTail: bool, rest: string)
    requires OneLineGlyphs(str) && NoNewline(prefix) && NoNewline(rest)
    ensures PlainListItem(Newline, Indent(str, prefix, isTail) + rest)
    ensures NoNewline(ChildPrefix(str, prefix, isTail))
  {
    var glyph := if isTail then str.tailFork else str.fork;
    NoNewlineConcat(prefix, glyph);
    NoNewlineConcat(prefix + glyph, rest);
    NoNewlineConcat(prefix, if isTail then str.gap else str.verticalEdge);
  }

  lemma BoundaryOneLine(count: nat)
    ensures NoNewline(BoundaryMessage(count))
  {
    var digits := NatToString(count);
    assert forall k :: 0 <= k < |digits| ==> IsDigit(digits[k]);
    NoNewlineConcat(digits, " children are not shown");
  }

  lemma {:induction false} LinesOneLine(node: Node, level: int, prefix: string, isTail: bool, str: Strings, maxLevel: int)
    requires OneLineGlyphs(str) && OneLineNames(node) && NoNewline(prefix)
    ensures AllOneLine(Lines(node, level, prefix, isTail, str, maxLevel))
    decreases node, |node.children| + 1
  {
    var cp := ChildPrefix(str, prefix, isTail);
    IndentOneLine(str, prefix, isTail, node.xpathName);
    var first := Indent(str, prefix, isTail) + node.xpathName;
    if level == maxLevel {
      if |node.children| > 0 {
        BoundaryOneLine(|node.children|);
        IndentOneLine(str, cp, true, BoundaryMessage(|node.children|));
      }
    } else {
      ChildrenOneLine(node, 0, level + 1, cp, str, maxLevel);
      AllOneLineConcat([first], ChildrenLines(node, 0, level + 1, cp, str, maxLevel));
    }
  }

  lemma {:induction false} ChildrenOneLine(node: Node, i: nat, level: int, prefix: string, str: Strings, maxLevel: int)
    requires i <= |node.children|
    requires OneLineGlyphs(str) && OneLineNames(node) && NoNewline(prefix)
    ensures AllOneLine(ChildrenLines(node, i, level, prefix, str, maxLevel))
    decreases node, |node.children| - i
  {
    if i < |node.children| {
      var isTail := i == |node.children| - 1;
      LinesOneLine(node.children[i], level, prefix, isTail, str, maxLevel);
      ChildrenOneLine(node, i + 1, level, prefix, str, maxLevel);
      AllOneLineConcat(Lines(node.children[i], level, prefix, isTail, str, maxLevel),
        ChildrenLines(node, i + 1, level, prefix, str, maxLevel));
    }
  }

  /** Splitting the rendered text on newlines, before the final one, gives back exactly the lines printed. */
  lemma {:induction false} RenderReadsBack(node: Node, str: Strings, maxLevel: int)
    requires OneLineGlyphs(str) && OneLineNames(node)
    ensures var out := RenderSubtree(node, str, maxLevel);
      Split(out[..|out| - 1], Newline) == Lines(node, 0, "", true, str, maxLevel)
  {
    var lines := Lines(node, 0, "", true, str, maxLevel);
    var out := RenderSubtree(node, str, maxLevel);
    LinesOneLine(node, 0, "", true, str, maxLevel);
    assert out[..|out| - 1] == Join(JoinerOf(Newline), lines);
    SplitJoin(Newline, lines);
  }
}

=== FILE: wrappers.dfy ===
/** Failure-compatible wrappers standing in for Java's nullable references and thrown exceptions. */
module Wrappers {

  /** A possibly-absent value: `None` plays the part of Java's `null` / an empty `Optional`. */
  datatype Option<+T> = None | Some(value: T) {

    predicate IsFailure() {
      None?
    }

    function PropagateFailure<U>(): Option<U>
      requires None?
    {
      None
    }

    function Extract(): T
      requires Some?
    {
      value
    }

    /** The wrapped value, or `default` when absent. */
    function GetOr(default: T): T {
      match this
      case Some(v) => v
      case None => default
    }
  }

  /** A computation that either produced a value or raised the error it carries. */
  datatype Result<+R, +E> = Success(value: R) | Failure(error: E) {

    predicate IsFailure() {
      Failure?
    }

    function PropagateFailure<U>(): Result<U, E>
      requires Failure?
    {
      Failure(error)
    }

    function Extract(): R
      requires Success?
    {
      value
    }
  }
}

=== FILE: xml.dfy ===
/**
 * The slice of the W3C DOM the rule-test fixtures are read and written
 * through: an element tree with attributes, text, CDATA and comment nodes,
 * getElementsByTagName, getTextContent and the direct-text extraction the
 * parser uses. Namespaces, processing instructions and entity references
 * are not represented.
 */
module Xml {
  import opened Wrappers
  import opened JavaString

  datatype XmlNode =
    | Element(name: string, attributes: map<string, string>, children: seq<XmlNode>)
    | Text(text: string)
    | CData(text: string)
    | Comment(text: string)

  /**
   * The elements called `name` among `nodes` and all their descendants, in
   * document (pre-)order: each node comes before its descendants, and the
   * descendants of a node before its following siblings.
   */
  function ElementsNamedIn(nodes: seq<XmlNode>, name: string): (r: seq<XmlNode>)
    ensures forall i :: 0 <= i < |r| ==> r[i].Element? && r[i].name == name
    decreases nodes
  {
    if |nodes| == 0 then []
    else
      var head := nodes[0];
      var own := if head.Element? && head.name == name then [head] else [];
      var inner := if head.Element? then ElementsNamedIn(head.children, name) else [];
      own + inner + ElementsNamedIn(nodes[1..], name)
  }

  /** Element.getElementsByTagName: the matching descendants, never the element itself. */
  function GetElementsByTagName(e: XmlNode, name: string): (r: seq<XmlNode>)
    requires e.Element?
    ensures forall i :: 0 <= i < |r| ==> r[i].Element? && r[i].name == name
  {
    ElementsNamedIn(e.children, name)
  }

  /** A node with no element below it: its matches are only itself. */
  predicate Flat(n: XmlNode) {
    n.Element? ==> forall i :: 0 <= i < |n.children| ==> !n.children[i].Element?
  }

  lemma {:induction false} ElementsNamedConcat(a: seq<XmlNode>, b: seq<XmlNode>, name: string)
    ensures ElementsNamedIn(a + b, name) == ElementsNamedIn(a, name) + ElementsNamedIn(b, name)
    decreases |a|
  {
    if |a| > 0 {
      assert (a + b)[0] == a[0];
      assert (a + b)[1..] == a[1..] + b;
      ElementsNamedConcat(a[1..], b, name);
      var head := a[0];
      var own := if head.Element? && head.name == name then [head] else [];
      var inner := if head.Element? then ElementsNamedIn(head.children, name) else [];
      calc {
        ElementsNamedIn(a + b, name);
        own + inner + ElementsNamedIn(a[1..] + b, name);
        own + inner + (ElementsNamedIn(a[1..], name) + ElementsNamedIn(b, name));
        (own + inner + ElementsNamedIn(a[1..], name)) + ElementsNamedIn(b, name);
      }
    } else {
      assert a + b == b;
    }
  }

  /** A forest without elements matches nothing. */
  lemma {:induction false} NoElementsNoMatches(nodes: seq<XmlNode>, name: string)
    requires forall i :: 0 <= i < |nodes| ==> !nodes[i].Element?
    ensures ElementsNamedIn(nodes, name) == []
    decreases |nodes|
  {
    if |nodes| > 0 {
      NoElementsNoMatches(nodes[1..], name);
    }
  }

  /** A flat node matches exactly when it is an element of that name. */
  lemma {:induction false} FlatMatches(n: XmlNode, name: string)
    requires Flat(n)
    ensures ElementsNamedIn([n], name) == (if n.Element? && n.name == name then [n] else [])
  {
    if n.Element? {
      NoElementsNoMatches(n.children, name);
    }
    assert [n][1..] == [];
  }

  /** A one-node forest: the node if it matches, then the matches below it. */
  lemma {:induction false} SingleMatches(n: XmlNode, name: string)
    ensures ElementsNamedIn([n], name) ==
      (if n.Element? && n.name == name then [n] else []) + (if n.Element? then ElementsNamedIn(n.children, name) else [])
  {
    assert [n][1..] == [];
  }

  /** Flat elements all called `tag`: a search for `tag` finds all of them, any other search none. */
  lemma {:induction false} UniformMatches(es: seq<XmlNode>, tag: string, name: string)
    requires forall i :: 0 <= i < |es| ==> es[i].Element? && es[i].name == tag && Flat(es[i])
    ensures ElementsNamedIn(es, name) == if name == tag then es else []
    decreases |es|
  {
    if |es| > 0 {
      FlatMatches(es[0], name);
      UniformMatches(es[1..], tag, name);
      assert es == [es[0]] + es[1..];
      ElementsNamedConcat([es[0]], es[1..], name);
    }
  }

  /** Concatenated text of the TEXT and CDATA nodes directly in `nodes`. */
  function DirectText(nodes: seq<XmlNode>): (r: string)
    ensures |nodes| == 0 ==> r == ""
  {
    if |nodes| == 0 then ""
    else
      var head := nodes[0];
      (if head.Text? || head.CData? then head.text else "") + DirectText(nodes[1..])
  }

  /** The parser's parseTextNode: the direct text and CDATA children, concatenated, then trimmed. */
  function ParseTextNode(e: XmlNode): (r: string)
    requires e.Element?
    ensures Trimmed(r)
  {
    Trim(DirectText(e.children))
  }

  /** Node.getTextContent over a forest: all descendant text and CDATA, comments excluded. */
  function TextContentIn(nodes: seq<XmlNode>): (r: string)
    ensures |nodes| == 0 ==> r == ""
    decreases nodes
  {
    if |nodes| == 0 then ""
    else
      var head := nodes[0];
      var own :=
        match head
        case Element(_, _, cs) => TextContentIn(cs)
        case Text(t) => t
        case CData(t) => t
        case Comment(_) => "";
      own + TextContentIn(nodes[1..])
  }

  function GetTextContent(e: XmlNode): string
    requires e.Element?
  {
    TextContentIn(e.children)
  }

  /** The children setTextContent leaves: one text node, or none for the empty string. */
  function TextChildren(s: string): (r: seq<XmlNode>)
    ensures DirectText(r) == s && TextContentIn(r) == s
    ensures forall i :: 0 <= i < |r| ==> !r[i].Element?
  {
    if s == "" then [] else [Text(s)]
  }

  /** getAttributes().getNamedItem(name).getNodeValue(), with None for a missing attribute. */
  function Attribute(e: XmlNode, key: string): (r: Option<string>)
    requires e.Element?
    ensures r.Some? <==> key in e.attributes
    ensures r.Some? ==> r.value == e.attributes[key]
  {
    if key in e.attributes then Some(e.attributes[key]) else None
  }
}
